=== FILE: README.md ===
# Stealer-log monitoring platform: a Dafny model of its core logic

The platform collects credentials and payment cards harvested by
information-stealing malware. It lets an analyst search them, watch for
keywords and card BINs, and review the alerts the watchlists raise. It has
two parts:

- a Flask backend over PostgreSQL (`backend/app.py`);
- a React front end (`src/services/api.ts`, the pages under `src/pages` and
  the components under `src/components`).

This project models the parts of both that contain logic rather than
plumbing. The backend's tables are sequences of records in storage order,
and each endpoint is a pure function from the tables and the request to the
new tables and the reply. The front end's handlers and derived values are
pure functions over the page's state.

## Layout

One module per file. The backend is modelled in:

- `store.dfy`: the table rows.
- `bin_table.dfy`: the built-in Egyptian BIN table, `get_bin_info`, the bank-name BIN filter and the per-bank statistics.
- `bin_upload.dfy`: the BIN watchlist upload. This covers the request checks and the line parser with its created, skipped and errors accounting.
- `watchlist_match.dfy` and `card_match.dfy`: `check_watchlist_matches` and `check_card_watchlist_matches`. Alerts are treated as a set of (watchlist item, record) pairs.
- `alert_review.dfy`: the resolve and false-positive transitions of both alert tables, with the 404 case.
- `alert_details.dfy`: `safe_country_value`, the denormalised alert-detail row, and the optimized-alerts merge that prefers that row over the live data.
- `paging.dfy`: the card search endpoint's page arithmetic, Python `int()` on query arguments, the five-slot page window and JavaScript `slice` paging.

The front end is modelled in:

- `api_client.dfy`: query strings, headers, the token across login, logout and reload, and the review `user_id`.
- `list_page.dfy`: the Cards and Search pages. Their filter handlers are textually the same, so one state machine serves both.
- `card_format.dfy`: card-number masking and grouping, and the BIN and badge helpers of the card pages.
- `card_dashboard.dfy`, `alerts_dashboard.dfy`, `alerts_panel.dfy`, `dashboard.dfy`, `watchlist_stats.dfy` and `index_page.dfy`: one page or panel each.
- `risk.dfy`: the risk levels of the credentials table and the credential detail page.
- `enhanced_charts.dfy` (module `Charts`), `chart_panel.dfy` and `world_map.dfy`: the chart components.
- `watchlist_forms.dfy`: the BIN watchlist dialog and the credential form's field types.

Shared helpers:

- `wrappers.dfy`: `Option` and truthiness.
- `text.dfy`: ASCII case mapping, strip, split and join, and decimal digits.
- `seqs.dfy`: filter, take, counting reductions and a stable descending sort.
- `js_object.dfy`: JavaScript plain objects as ordered key/value lists, and `parseInt`.
- `tones.dfy`: badge colours.

## Modelled as written

Several parts of the source disagree with one another. The model keeps each
part as its code is written rather than reconciling them:

- The list pages send `limit` and `offset` (src/pages/Cards.tsx:16-19). The card search endpoint reads `page` and `per_page` (backend/app.py:1038-1039), and `per_page` is forced to 100 there. The card dashboard sends only `limit` and `offset` to the card alert endpoint, which reads `page` and `per_page`. So every page of that dashboard asks for the same rows (`CardDashboard.PageRequestLacksPage`).
- The backend's list endpoints answer with `{results, pagination}` envelopes, and the API client passes them on as they are. An envelope reply is modelled separately. Where a page guards with `Array.isArray`, `?.length || 0` or `|| []`, it shows no rows or 0 (`ListPage.Rows`, `ListPage.Loaded`, `CardDashboard.TotalAlerts`). Where it calls `filter`, `map`, `reduce`, `slice` or a spread on the reply, the page throws, and the model answers `None` (`Dashboard.FilteredStats`, `Dashboard.PanelAlerts`, `AlertsDashboard.AllAlerts`, `WatchlistStats.OverviewOf`, `CardDashboard.NewAlertCount`).
- The search page colours confidence on a 0–1 scale, while the credentials table and the detail page read it on a 0–100 scale (`Risk.ConfidenceScalesDisagree`).
- The credential watchlist form offers `machine_user` and `computer_name`, which the matcher does not know, so items of those types never raise an alert (`WatchlistForms.OfferedFieldsVersusMatcher`).
- The alerts page's Per Page selector stores its choice as text, and the page's arithmetic reads that text as a number (`AlertsDashboard.PerPageChoice`).

## Model

| member | source | states |
|---|---|---|
| BinTable.LookupIn | backend/app.py:508 | a dictionary lookup finds a value exactly when the key is listed, and the value found is the one listed with that key |
| BinTable.Lookup | backend/app.py:31-121 | `EGYPTIAN_BINS.get(bin)` finds an entry exactly for the BINs of the built-in table, and returns that BIN's own entry |
| BinTable.GetBinInfo | backend/app.py:502-508 | a missing number or one shorter than 6 characters has no BIN info; otherwise the info is the table's entry for the first six characters, and a known prefix always finds it |
| BinTable.GetBinInfoUsesPrefix | backend/app.py:502-508 | two card numbers that share their first six characters get the same BIN info, so nothing after the sixth character matters |
| BinTable.MatchingBinsIn | backend/app.py:1082-1087 | the bank-name filter returns no more BINs than the table has; each returned BIN's issuer contains the bank name (case-insensitively); and every such BIN is returned |
| BinTable.CountFor | backend/app.py:1305 | the `next(..., 0)` count of a BIN is 0 when the per-BIN statistics do not list it, and otherwise is a count listed for it |
| BinTable.BankIndex | backend/app.py:1301 | the position of a bank in the accumulated dictionary is a position holding that bank, or the end when the bank is absent |
| BinTable.AddBin | backend/app.py:1300-1308 | one loop step creates the bank entry when it is new, adds the BIN's count to its total, appends the BIN only when its count is positive, and leaves every other bank alone; bank names stay distinct |
| BinTable.FirstSeen | backend/app.py:1298-1302 | the dictionary's key order: the issuers without repeats, and exactly those issuers |
| BinTable.Accumulate | backend/app.py:1298-1308 | the `bank_stats` dictionary has one entry per issuer of the table, distinct, in first-seen order |
| BinTable.AccumulateTotals | backend/app.py:1298-1308 | each accumulated bank's count is the sum of its BINs' counts, and its BIN list holds, in table order, exactly its BINs with at least one card |
| BinTable.IssuerTotalAbsent | backend/app.py:1298-1308 | a bank that issues none of the table's BINs totals no cards and no BINs |
| BinTable.DistinctBanksOnce | backend/app.py:1311-1318 | a list of distinct banks holds no entry twice |
| BinTable.BankStatsIn | backend/app.py:1298-1320 | `bank_data` is sorted by non-increasing count; it lists each bank once; each bank listed has a positive count, which is the sum over its BINs, and its BINs with cards; and every bank whose total is positive is listed |
| BinTable.BankStatsMembers | backend/app.py:1311-1320 | filtering out the zero-count banks and sorting leaves only banks of the table with their correct totals and BIN lists |
| BinTable.BankStatsDistinct | backend/app.py:1311-1320 | filtering and sorting the dictionary's entries never repeats a bank |
| BinTable.BankStatsComplete | backend/app.py:1311-1320 | every issuer whose total is positive survives the filter and the sort |
| BinTable.BankReported | backend/app.py:1313-1320 | a dictionary entry with cards appears in the sorted result |
| BinUpload.Fields | backend/app.py:2359 | a line's fields are its comma-separated pieces, one per piece, each stripped of surrounding whitespace |
| BinUpload.FieldsAppend | backend/app.py:2359 | text joined by a comma gives the two halves' fields one after the other |
| BinUpload.NewItem | backend/app.py:2377-2389 | an uploaded row keeps the BIN and the bank name, upper-cases the country, has severity `high`, is active, and is created by user 1 |
| BinUpload.StepFields | backend/app.py:2358-2394 | each counted line adds exactly one entry, to exactly one of created, skipped or errors. Fewer than 4 fields is a format error. A first field that is not 6 digits is a BIN error. A valid BIN already in the table is skipped, and only then. A fresh valid BIN whose bank name and country fit their columns is created, appended to the table with the next id. One that does not fit is an insert error and changes nothing else |
| BinUpload.StepLine | backend/app.py:2349-2355 | a blank line, a `#` comment, or a line 1 starting with `bin,` in any case leaves the state untouched; any other line goes to the field step |
| BinUpload.Upload | backend/app.py:2317-2418 | the request is refused with 400 exactly when the file name is empty or lacks `.txt`, or the JSON body carries no `content`. It fails with 500 and `Failed to upload BIN watchlist` exactly when the request checks raise. In both cases the table is unchanged. Otherwise the answer is the report of parsing the file's or the `content` text |
| BinUpload.Parse | backend/app.py:2344-2414 | an upload that passed the checks is always answered with a report. Every counted line is in exactly one of its three lists, and the table grows by exactly the created rows, each a fresh six-digit BIN with severity `high` |
| BinUpload.Run | backend/app.py:2348-2414 | the created, skipped and error lists only grow over the loop, and each line that is not blank, a comment or the header adds exactly one entry to one of them |
| BinUpload.LinesOf | backend/app.py:2341 | the lines are the stripped content cut at newlines: none holds a newline, and joined back with newlines they give the stripped content |
| BinUpload.RunAccounts | backend/app.py:2344-2414 | over a whole upload, every counted line lands in exactly one list. The table grows by exactly the created rows, which get consecutive ids. Each created row has a 6-digit BIN absent before the upload, severity `high`, created by user 1, an upper-case country, and no BIN is created twice |
| BinUpload.StepAccounts | backend/app.py:2358-2394 | one line step keeps the table/created/id bookkeeping and the freshness of created rows |
| BinUpload.StepUsesFirstFour | backend/app.py:2363 | only the first four fields of a line decide its outcome |
| BinUpload.ExtraFieldsIgnored | backend/app.py:2359-2363 | appending `,` and more text to a line with at least four fields does not change its outcome |
| BinUpload.RepeatInUploadSkipped | backend/app.py:2370-2375 | a BIN created by an earlier line of the same upload is skipped, not created again |
| BinUpload.Counts | backend/app.py:2402-2410 | `created_count`, `skipped_count` and `error_count` add up to the total length of the three lists |
| BinUpload.Received | backend/app.py:2321-2342 | a request is refused with 400 exactly when the file name is empty or lacks `.txt`, or the JSON body is falsy, has no `content` member, or is an array or string without `content`. It raises exactly for a file that is not UTF-8, a scalar body, an array or string that holds `content`, or a `content` that is not a string. Otherwise the text is the file's or the `content` string |
| BinUpload.RunCreatedGrows | backend/app.py:2349-2394 | the created list only grows as the loop goes on |
| BinUpload.RunPrefixStep | backend/app.py:2349-2355 | the loop over the first j+1 lines is the loop over the first j followed by line j+1 |
| BinUpload.StepCreatesFit | backend/app.py:2370-2391 | a line with a fresh six-digit BIN whose bank name and country fit their columns leaves that BIN among the created rows |
| BinUpload.RunCreatesEveryFit | backend/app.py:2349-2394 | every counted line with a six-digit BIN absent before the upload, whose bank name and country fit their columns, has its BIN created, by that line or an earlier one |
| AlertReview.ReviewerOf | backend/app.py:1842-1845 | `reviewed_by` is 1 when the body or its `user_id` key is missing, NULL when the key holds JSON null, and otherwise the given user |
| AlertReview.Update | backend/app.py:1847-1852 | the UPDATE rewrites the status and reviewer of exactly the rows with the id, keeps their other columns, and leaves every other row as it was |
| AlertReview.Review | backend/app.py:1522-1564 | a review succeeds exactly when a row has the id; on 404 the table is unchanged; otherwise the row gets `reviewed` (resolve) or `false_positive` with the requested reviewer, and no other row or column changes |
| AlertReview.ReviewIgnoresPriorStatus | backend/app.py:1840-1882 | two tables that differ only in the reviewed alert's status and reviewer give the same reply and the same table afterwards |
| AlertReview.ReviewLastWriteWins | backend/app.py:1840-1882 | reviewing twice leaves what the second review alone would leave, so repeating a review is idempotent and the later action wins |
| Store.SystemOf | backend/app.py:793-888 | the `LEFT JOIN system_info` finds a row only for a credential whose `system_info_id` is set, and that row has that id; no row is found when no id matches |
| WatchlistMatch.IpOf | backend/app.py:840-849 | the `ip` field is the textual address of the credential's joined `system_info` row, and is absent when there is no such row |
| WatchlistMatch.LowerHit | backend/app.py:815-823 | `LOWER(field) LIKE '%kw%'` holds exactly when the field is present and its lower-cased text contains the keyword, and the matched value is then the field itself |
| WatchlistMatch.MatchedValue | backend/app.py:814-870 | an item whose field type is not `domain`, `username`, `ip` or `url` matches nothing |
| WatchlistMatch.PendingIn | backend/app.py:815-824 | the query's rows before the LIMIT are exactly the credentials that match the item and are not yet alerted for it |
| WatchlistMatch.PendingFrom | backend/app.py:815-824 | the query only returns credentials of the table |
| WatchlistMatch.PendingUnique | backend/app.py:815-824 | the query returns no credential id twice when the table's ids are unique |
| WatchlistMatch.Batch | backend/app.py:824 | one item's batch is at most 50 pending credentials of the table, without repeated ids |
| WatchlistMatch.NewAlerts | backend/app.py:872-879 | one alert per credential of the batch, numbered consecutively, in batch order |
| WatchlistMatch.CheckItem | backend/app.py:571-655 | one item leaves the credential and system tables alone, only appends alerts, and appends at most 50. An unknown field type appends none. Otherwise it appends one alert per pending credential among the first 50. Each new alert has the next id, status `new`, no reviewer, record type `credential`, and the item's id, field type and severity. Each new alert gets one details row that names it and its credential and fits the column widths |
| WatchlistMatch.CheckItems | backend/app.py:808-880 | the loop over the items never touches the credential and system tables. It only appends alerts, advancing the id counter by their number, and adds one details row per alert |
| WatchlistMatch.CheckWatchlist | backend/app.py:793-808 | the run over the watchlist leaves the credential and system tables alone and only appends alerts, each from an active item whose field type is handled; `CheckItemsIdempotent` shows a second run adds nothing when no item hits the limit |
| WatchlistMatch.ActiveSources | backend/app.py:798-808 | a run over items taken from the active items of the watchlist adds only alerts of active items |
| WatchlistMatch.CheckItemJustified | backend/app.py:808-880 | every alert an item adds names a credential of the table that matches the item with that matched value and was not alerted for the item before |
| WatchlistMatch.NewAlertIs | backend/app.py:872-879 | the m-th alert an item adds is the alert for the m-th credential of its batch |
| WatchlistMatch.NewPairFresh | backend/app.py:819-823 | the (item, credential) pair of a new alert is not the pair of any existing credential alert |
| WatchlistMatch.CheckItemNoDuplicates | backend/app.py:808-880 | given unique credential ids, one item never creates a second alert for a (watchlist item, credential) pair |
| WatchlistMatch.CheckItemsNoDuplicates | backend/app.py:808-880 | a whole run keeps the alert table free of duplicate (watchlist item, credential) pairs |
| WatchlistMatch.CheckItemsSources | backend/app.py:808-870 | every alert a run adds comes from one of the run's items with a handled field type |
| WatchlistMatch.CheckWatchlistActiveOnly | backend/app.py:798-808 | only active watchlist items raise alerts |
| WatchlistMatch.SaturatedNoop | backend/app.py:808-880 | an item with nothing pending adds no alert |
| WatchlistMatch.NoPending | backend/app.py:815-824 | with no credential pending, the query returns nothing |
| WatchlistMatch.AlertedGrows | backend/app.py:819-823 | alerts are never removed, so an alerted pair stays alerted |
| WatchlistMatch.PendingShrinks | backend/app.py:819-823 | more alerts leave no more credentials pending |
| WatchlistMatch.CheckItemSaturates | backend/app.py:808-880 | an item with at most 50 pending credentials has none pending after its turn |
| WatchlistMatch.CoveredAfterCheck | backend/app.py:808-880 | after such a turn, no credential of the table is still pending for the item |
| WatchlistMatch.SaturatedStays | backend/app.py:808-880 | an item with nothing pending stays so while other items add alerts |
| WatchlistMatch.CheckItemsSaturates | backend/app.py:808-880 | after a run in which no item had more than 50 pending, no item has any pending |
| WatchlistMatch.CheckItemsNoop | backend/app.py:808-880 | a run over items with nothing pending changes nothing |
| WatchlistMatch.CheckItemsIdempotent | backend/app.py:793-888 | matching is idempotent when no item hits the LIMIT: a second run straight after the first adds nothing |
| WatchlistMatch.NewDetails | backend/app.py:598-650 | one details row per alert, built from the credential and its machine through the LEFT JOIN |
| CardMatch.PendingIn | backend/app.py:531-541 | the query's rows before the LIMIT are exactly the cards whose first six characters equal the item's BIN and that have no card alert for the item |
| CardMatch.PendingFrom | backend/app.py:531-541 | the query only returns cards of the table |
| CardMatch.PendingUnique | backend/app.py:531-541 | the query returns no card id twice when the table's ids are unique |
| CardMatch.Stored | backend/app.py:539-565 | at most 50 cards are alerted per item; each is a pending card of the table whose number fits the alert table's column, without repeated ids |
| CardMatch.NewAlerts | backend/app.py:547-560 | one card alert per stored card, numbered consecutively, in query order |
| CardMatch.CheckItem | backend/app.py:526-567 | one item leaves the card table alone, only appends alerts, and appends at most 50. Each new alert has the next id, status `new`, no reviewer, and the item's id, BIN, bank name and severity |
| CardMatch.CheckItems | backend/app.py:526-567 | the loop over the items only appends card alerts, with consecutive ids |
| CardMatch.CheckWatchlist | backend/app.py:510-526 | the run over the card watchlist leaves the card table alone and only appends alerts, each inserted by an active item for its own BIN; `CheckItemsIdempotent` shows a second run adds nothing when no item hits the limit |
| CardMatch.ActiveSources | backend/app.py:515-526 | a run over items taken from the active card items adds only alerts of active items |
| CardMatch.NewAlertIs | backend/app.py:547-560 | the m-th alert an item adds is the alert for the m-th stored card |
| CardMatch.CheckItemJustified | backend/app.py:531-560 | every new card alert names a card of the table with that number. The number starts with the item's BIN and fits the column, and the card had no alert for the item before |
| CardMatch.NewPairFresh | backend/app.py:535-538 | the (item, card) pair of a new alert is not the pair of any existing card alert |
| CardMatch.CheckItemNoDuplicates | backend/app.py:526-567 | given unique card ids, one item never creates a second alert for an (item, card) pair |
| CardMatch.CheckItemsNoDuplicates | backend/app.py:510-570 | a whole run keeps the card alert table free of duplicate (item, card) pairs |
| CardMatch.CheckItemsSources | backend/app.py:526-567 | every card alert a run adds was inserted by one of the run's items |
| CardMatch.CheckWatchlistActiveOnly | backend/app.py:515-526 | only active card watchlist items raise alerts |
| CardMatch.SaturatedNoop | backend/app.py:526-567 | an item whose every pending card cannot be stored adds nothing |
| CardMatch.AlertedGrows | backend/app.py:535-538 | card alerts are never removed, so an alerted pair stays alerted |
| CardMatch.PendingShrinks | backend/app.py:535-538 | more card alerts leave no more cards pending |
| CardMatch.CoveredAfterCheck | backend/app.py:526-567 | after an item with at most 50 pending cards has had its turn, each of those cards that fits the column has been alerted |
| CardMatch.CheckItemSaturates | backend/app.py:526-567 | an item with at most 50 pending cards is settled after its turn |
| CardMatch.SaturatedStays | backend/app.py:526-567 | a settled item stays settled while other items add alerts |
| CardMatch.CheckItemsSaturates | backend/app.py:526-567 | after a run in which no item had more than 50 pending cards, every item is settled |
| CardMatch.StepSaturates | backend/app.py:526-567 | one more item's turn keeps the earlier items settled and settles the new one |
| CardMatch.CheckItemsNoop | backend/app.py:526-567 | a run over settled items changes nothing |
| CardMatch.CheckItemsIdempotent | backend/app.py:510-570 | card matching is idempotent when no item hits the LIMIT: a second run straight after the first adds nothing |
| AlertDetails.SafeCountryValue | backend/app.py:670-683 | a falsy country gives NULL and nothing else does; otherwise the result is a prefix, at most 50 characters, of the stripped text, and is the stripped text itself when that is already at most 50 characters |
| AlertDetails.Clip | backend/app.py:624-630 | `str(x)[:width] if x else None` is NULL exactly for a falsy value, otherwise a prefix of at most `width` characters, and the value itself when it already fits |
| AlertDetails.Keep | backend/app.py:626 | `str(x) if x else None` is NULL exactly for a falsy value and otherwise the value itself |
| AlertDetails.BuildDetail | backend/app.py:620-655 | the details row fits every column width. It keeps the alert and credential ids and the url and password (NULL when falsy). Domain, username, stealer type and the system columns are the live values cut to their widths. Every system column is NULL when there is no system row |
| AlertDetails.Merge | backend/app.py:1783-1797 | for each of the nine columns, a truthy value of the details copy is the one shown, and otherwise the live credential or system value is shown. The address is the copy's address, else the live address, else `''`. A row counts as optimised exactly when a details row exists with a non-NULL domain |
| AlertDetails.ClipOrLive | backend/app.py:1786-1794 | `opt or live`, where `opt` was clipped from `live`, is the clipped copy for a truthy live value and the live value otherwise |
| AlertDetails.MergeOfFreshDetail | backend/app.py:620-655 | reading back a details row built from the same credential and machine shows each clipped column, credential and system alike, as the live value cut to width. The url and the address are shown unchanged. The country shows the stripped copy cut to 50 characters, except that a country of only whitespace shows raw. The row counts as optimised exactly when the credential's domain is truthy |
| AlertDetails.OptimizationStats | backend/app.py:1814-1816 | the optimised and fallback counts are the numbers of rows that did and did not use the copy, and they add up to the page length |
| Paging.CeilDiv | backend/app.py:1160 | `(n + d - 1) // d` is the least number of pages of `d` rows holding `n` rows |
| Paging.PyInt | backend/app.py:1038-1039 | `int(text)` accepts no blank text |
| Paging.PyIntOfDigits | backend/app.py:1038 | a plain digit string reads as its value |
| Paging.PyIntRoundTrip | backend/app.py:1038 | every page number written in decimal, sign included, reads back as itself |
| Paging.SearchOffset | backend/app.py:1044-1050 | the offset is `(page - 1) * 100` up to page 500, and is clamped to 49900 from there on, so it never exceeds 49900 |
| Paging.SearchPageOf | backend/app.py:1108-1174 | the count is capped at 50000. `total_pages` is the ceiling of count/100. `has_next` holds iff page < total_pages, and `has_prev` iff page > 1. At most 100 results are returned, and they are the matching rows from the offset on, in order. A negative offset gives no rows, and a page inside the data is full |
| Paging.SearchRequest | backend/app.py:1038-1104 | the request is answered exactly when `page` and `per_page` are absent or read as integers (otherwise the endpoint fails with 500); the defaults give page 1; the answer carries the requested page. A non-empty bank name that no BIN's issuer contains answers at once with no rows, no pages and neither next nor previous; any other request gets the ordinary page |
| Paging.RowOnItsPage | backend/app.py:1044-1136 | every row below the cap is on the page its index says, at the position its index says |
| Paging.PagesPastCapRepeat | backend/app.py:1048-1050 | every page from 500 on shows the same rows as page 500 |
| Paging.NextPageNonEmpty | backend/app.py:1160-1161 | when `has_next` is set the next page holds at least one row |
| Paging.PageWindow | src/pages/Cards.tsx:555-565 | the page links are `min(5, maxPages)` consecutive page numbers |
| Paging.PageWindowBounds | src/pages/Cards.tsx:555-565 | every link is a page between 1 and maxPages, and the current page is among them exactly when it lies in that range |
| Paging.PageWindowCentred | src/pages/Cards.tsx:559-564 | away from both ends the current page is the middle link |
| Paging.JsSlice | src/pages/AlertsDashboard.tsx:52-55 | a slice is never longer than the list |
| Paging.SlicePage | src/pages/AlertsDashboard.tsx:51-55 | page `p ≥ 1` holds at most `limit` items, and is the items from `(p-1)*limit` up to `p*limit` clamped to the list |
| Paging.PagesUpToPrefix | src/pages/AlertsDashboard.tsx:51-55 | the first n pages laid end to end are the first n×limit items |
| Paging.SlicePageClamped | src/pages/AlertsDashboard.tsx:51-55 | page n is the slice between `(n-1)*limit` and `n*limit`, both clamped to the list |
| Paging.SlicePagesPartition | src/pages/AlertsDashboard.tsx:51-55 | the `ceil(len/limit)` pages cover the list exactly once and in order |
| Paging.UnknownBankDropsPrev | backend/app.py:1093-1104 | for an unknown bank, page 2 reports no previous page, where an ordinary page 2 reports one |
| Paging.JsSliceWithin | src/pages/AlertsDashboard.tsx:52-55 | a slice holds only items of the sequence it is cut from |
| ApiClient.Param | src/services/api.ts:310-314 | a filter entry adds at most one parameter, and adds one exactly when its value is neither undefined nor the empty string |
| ApiClient.Query | src/services/api.ts:308-315 | the query string has no more parameters than the filter object has entries |
| ApiClient.QueryAppend | src/services/api.ts:308-315 | the parameters follow the entries' order: the query of two entry lists laid end to end is their two queries laid end to end |
| ApiClient.QueryMember | src/services/api.ts:308-315 | `(k, t)` is a parameter exactly when the filter object holds a sent value for `k` whose `toString()` is `t` |
| ApiClient.ExportQuery | src/services/api.ts:594-603 | `format` is always the first parameter, followed by exactly the query of the filters (nothing more when there are none) |
| ApiClient.DashboardQuery | src/services/api.ts:665-669 | the dashboard request carries the single `country` parameter exactly when the country is truthy |
| ApiClient.Start | src/services/api.ts:252-254 | a new client takes its token from `auth_token` in storage |
| ApiClient.Login | src/services/api.ts:266-282 | a login succeeds exactly when the server accepts it; the client then holds the returned access token, and storage holds the token and the user |
| ApiClient.Logout | src/services/api.ts:284-288 | after a logout no token is held and both storage keys are gone |
| ApiClient.LoginSurvivesReload | src/services/api.ts:252-282 | after a login, a client created on reload holds the same token |
| ApiClient.LogoutSurvivesReload | src/services/api.ts:252-288 | after a logout, a reloaded client holds no token, and logging out twice is the same as once |
| ApiClient.Headers | src/services/api.ts:256-264 | `Content-Type: application/json` is always first, and an `Authorization` header is present iff a non-empty token is held, with value `Bearer ` + token |
| ApiClient.UploadHeaders | src/services/api.ts:519-524 | the upload sends exactly one `Authorization` header: `Bearer ` + token when a token is held, else the empty string |
| ApiClient.HeadersFollowSession | src/services/api.ts:256-288 | after a login requests carry the new bearer token; after a logout they carry only the content type |
| ApiClient.ReviewUserId | src/services/api.ts:617-657 | the reviewing user is the stored user's id when it is set and non-zero, and otherwise 1, so it is always at least 1 |
| ApiClient.ReviewBody | src/services/api.ts:617-657 | review requests always carry an explicit `user_id` of at least 1 |
| ApiClient.ReviewRecordsClientUser | src/services/api.ts:617-657 | end to end with the backend: a review sent by this client records the client's user as reviewer and writes the action's status on the alert |
| CardFormat.MaskCard | src/pages/Cards.tsx:105-111 | a missing or empty number shows `N/A`. Otherwise it shows its first four characters, then ` **** **** `, then its last four; a number shorter than four appears whole on both sides |
| CardFormat.MaskHidesMiddle | src/pages/CardDetail.tsx:24-30 | two numbers that share their first and last four characters are masked alike, so the mask hides the middle |
| CardFormat.MaskKeepsEnds | src/pages/CardDetail.tsx:24-30 | two long numbers with the same mask share their first and last four characters, so the mask keeps exactly the ends |
| CardFormat.DashboardMask | src/pages/CardDashboard.tsx:412 | a missing number shows `N/A`; otherwise the first four characters, `****`, and the last four |
| CardFormat.GroupUngroup | src/pages/Cards.tsx:108 | deleting the spaces from the grouped number gives back the number, for any number without spaces |
| CardFormat.Group | src/pages/Cards.tsx:108 | grouping only inserts characters, and a number of at most four characters is shown unchanged; `GroupUngroup` shows that deleting the spaces gives back the number |
| CardFormat.UnspaceGroupHead | src/pages/Cards.tsx:108 | deleting the spaces of a space-free group, one space and the rest deletes them from the rest only |
| CardFormat.Chunks | src/pages/Cards.tsx:108 | a number is cut from the left into groups of four digits, and the last group has between 1 and 4 digits |
| CardFormat.ChunksConcat | src/pages/Cards.tsx:108 | the groups joined without separators are the number |
| CardFormat.GroupShort | src/pages/Cards.tsx:108 | a number of at most four digits is shown unchanged |
| CardFormat.GroupDigits | src/pages/Cards.tsx:108 | for a digit-only number, the grouped form is its groups of four joined by single spaces |
| CardFormat.GroupsOfFour | src/pages/CardDetail.tsx:27 | splitting the grouped form of a digit-only number at spaces gives its groups, so every group but the last has exactly four digits |
| CardFormat.ChunksAreDigits | src/pages/Cards.tsx:108 | every group of a digit-only number holds only digits |
| CardFormat.BinRange | src/pages/CardDetail.tsx:188 | the BIN range is the first six characters of the number, or `N/A` when there is no number |
| CardFormat.BinRangeIsLookupKey | src/pages/CardDetail.tsx:188 | when the backend found BIN information for the card, the shown BIN range is exactly the key it was found under |
| CardFormat.ClientBinInfo | src/pages/CardDetail.tsx:32-35 | the page shows no BIN information for a missing number or one shorter than six characters, and otherwise what the backend sent |
| CardFormat.ClientGuardAgrees | src/pages/CardDetail.tsx:32-35 | the page's guard matches the backend's own `get_bin_info` guard: it never hides information the backend found |
| CardFormat.Enrich | backend/app.py:1140-1152 | `bin_info` is `get_bin_info` of the number. `egyptian_bank` is set exactly when it is found, and is then the issuer. `scheme` is its scheme, or `Unknown`. `is_egyptian` holds iff the info exists with country `EG` |
| CardFormat.EgyptianHasKnownBin | backend/app.py:1140-1152 | a card marked Egyptian has a number of at least six characters whose first six are a key of the built-in table |
| CardFormat.CardTypeColor | src/pages/CardDetail.tsx:37-44 | the type colour is gray for a missing type, and is a non-gray colour exactly for `credit`, `debit` and `prepaid` in any letter case |
| CardFormat.SchemeColor | src/pages/CardDetail.tsx:46-54 | the scheme colour is gray for a missing scheme, and is a non-gray colour exactly for `visa`, `mastercard`, `maestro` and `american express` in any letter case |
| CardFormat.ColorsIgnoreCase | src/pages/CardDetail.tsx:37-54 | upper-casing a type or scheme does not change its colour |
| ListPage.LimitOf | src/pages/Cards.tsx:160 | the page size is the stored `limit` when it is a non-zero number, and 100 otherwise |
| ListPage.OffsetOf | src/pages/Cards.tsx:161 | the offset is the stored number, and 0 when none is stored |
| ListPage.InitialFilters | src/pages/Cards.tsx:16-19 | the first filters give a page size of 100 at offset 0 |
| ListPage.HandleSearch | src/pages/Search.tsx:57-73 | the trimmed term is stored under the search key, and a blank term deletes that key. The offset goes back to 0 and the page to 1; every other filter, the total and the checkboxes are unchanged |
| ListPage.HandleFilterChange | src/pages/Cards.tsx:73-83 | a truthy value other than `all` is stored under its key, and any other value deletes the key. The offset goes back to 0 and the page to 1; every other filter is unchanged |
| ListPage.HandleLimitChange | src/pages/Search.tsx:87-91 | `all` stores 50 000 and any other choice stores its `parseInt`. The offset goes back to 0 and the page to 1; every other filter is unchanged |
| ListPage.HandlePageChange | src/pages/Cards.tsx:91-99 | a page whose offset would reach 50 000 changes nothing. Any other page stores offset (page-1)·limit, becomes the current page, and leaves the other filters alone |
| ListPage.Loaded | src/pages/Cards.tsx:31-39 | a short page fixes the total at offset plus rows. A full page sets it one past that, capped at 50 000 |
| ListPage.ClearAll | src/pages/Cards.tsx:140-146 | the filters go back to limit 100 and offset 0, the page to 1, and both checkboxes off |
| ListPage.Rows | src/pages/Search.tsx:150 | an array reply is used as it is; the backend's `{results, pagination}` envelope, or no reply, shows no rows |
| ListPage.MaxPages | src/pages/Cards.tsx:164 | the page count is the least number of pages of `limit` rows that cover the total, capped at 50 000 |
| ListPage.ShownCards | src/pages/Cards.tsx:148-158 | a card is shown if and only if it was loaded, is Egyptian when that box is ticked, and is in the alert set when that box is ticked and alerts are loaded. When that box is ticked and the alert reply is the backend's envelope, `map` throws and nothing is shown |
| ListPage.ShownCardsKeepsOrder | src/pages/Cards.tsx:148-158 | the shown cards keep the list order: the cards shown from two lists joined are those of the first list followed by those of the second |
| ListPage.ExportFilters | src/pages/Search.tsx:107-112 | the export filters lack `limit` and `offset` and agree with the page's filters on every other key |
| ListPage.ExportFiltersInOrder | src/pages/Search.tsx:107-112 | the export filters are the page's entries, in their order, without the two paging keys |
| ListPage.ConfidenceColor | src/pages/Search.tsx:144-148 | a score of at least 0.8 is green, at least 0.6 is yellow, and anything lower is red |
| ListPage.PasswordCell | src/pages/Search.tsx:428 | a missing or empty password shows `N/A`. Any other password shows one dot per character, at most twelve |
| ListPage.PasswordCellHidesText | src/pages/Search.tsx:428 | two passwords of the same length, or both of length twelve or more, show the same cell, so the cell reveals nothing but the length |
| ListPage.InitialConsistent | src/pages/Cards.tsx:16-19 | the first state is consistent: the limit divides 50 000, and the offset is where the current page starts, below the cap |
| ListPage.LimitChoices | src/pages/Cards.tsx:85-89 | each page-size option gives a positive divisor of 50 000 |
| ListPage.StepConsistent | src/pages/Cards.tsx:55-146 | every event the page's controls can raise keeps the state consistent |
| ListPage.ResetKeepsLimit | src/pages/Cards.tsx:73-83 | a handler that keeps the limit and resets offset and page to 0 and 1 keeps the state consistent |
| ListPage.LimitChangeConsistent | src/pages/Cards.tsx:85-89 | choosing a page size keeps the state consistent |
| ListPage.PageChangeConsistent | src/pages/Cards.tsx:91-99 | moving to any page at least 1 keeps the state consistent, whether or not the cap refuses the move |
| ListPage.RunConsistent | src/pages/Search.tsx:57-142 | every sequence of control events from a consistent state ends in a consistent state |
| ListPage.NextPageMoves | src/pages/Cards.tsx:165 | when Next is offered, pressing it advances the page by one and the offset by exactly one limit |
| ListPage.HasNextPage | src/pages/Cards.tsx:165 | on a consistent page, Next is offered only when the next page starts below the 50 000 cap, and never under the `all` setting |
| ListPage.ShortPageIsLast | src/pages/Cards.tsx:33-35 | after a short non-empty page, the page count equals the current page, so that page is shown as the last one |
| ListPage.FullPageOffersNext | src/pages/Cards.tsx:36-38 | after a full page below the cap, the page count is one more than the current page |
| AlertsPanel.Tag | src/components/EnhancedAlertsPanel.tsx:55-56 | each alert is kept, in order, and tagged with its kind |
| AlertsPanel.Combine | src/components/EnhancedAlertsPanel.tsx:54-57 | the combined list is every credential alert, tagged `credential`, followed by every card alert, tagged `card` |
| AlertsPanel.Filtered | src/components/EnhancedAlertsPanel.tsx:59-62 | `all` keeps the whole list. Any other choice keeps exactly the alerts of that kind |
| AlertsPanel.FilterSeparates | src/components/EnhancedAlertsPanel.tsx:54-62 | filtering by one kind gives back exactly that kind's own alerts, in their order |
| AlertsPanel.Displayed | src/components/EnhancedAlertsPanel.tsx:64 | the shown alerts are a prefix of the filtered list, exactly as long as the page when enough alerts are there |
| AlertsPanel.FooterWhenCut | src/components/EnhancedAlertsPanel.tsx:236-238 | the "Showing n of m" footer appears if and only if some filtered alerts are not shown |
| AlertsPanel.ButtonRoute | src/components/EnhancedAlertsPanel.tsx:179-204 | the two buttons appear only on `new` alerts. On a credential alert each button calls its own credential handler with the alert's id. On a card alert it calls its own card handler, `onResolveCardAlert` or `onMarkCardAlertFalsePositive`, when the parent passed that one, and nothing otherwise |
| AlertsPanel.ButtonsKeepTheirTable | src/components/EnhancedAlertsPanel.tsx:54-204 | a shown button that reaches a credential handler belongs to a credential alert, and one that reaches a card handler belongs to a card alert |
| AlertsDashboard.AllAlerts | src/pages/AlertsDashboard.tsx:42-55 | a list that has not loaded counts as empty. `all` is the credential alerts followed by the card alerts, and each other choice is its own list. An envelope reply in a list the view reads makes the page throw |
| AlertsDashboard.PageSizeOf | src/pages/AlertsDashboard.tsx:20-27 | the page size is a positive whole number, and the first limit of 50 gives 50 |
| AlertsDashboard.TotalPages | src/pages/AlertsDashboard.tsx:51 | the page count is the least number of pages of the chosen size that hold every alert |
| AlertsDashboard.PageOf | src/pages/AlertsDashboard.tsx:52-55 | page `p` holds at most one page of alerts: the alerts from `(p-1)·size` up to `p·size`, cut at the list's end |
| AlertsDashboard.PagesCoverAll | src/pages/AlertsDashboard.tsx:51-55 | pages 1 to `totalPages`, put together, give back every alert exactly once, in order |
| AlertsDashboard.Window | src/pages/AlertsDashboard.tsx:589-590 | the page buttons are always pages 1 to `min(5, totalPages)` |
| AlertsDashboard.WindowStopsAtFive | src/pages/AlertsDashboard.tsx:589-590 | from page 6 on, the current page has no button, although the list pages' centred window would show it |
| AlertsDashboard.HandleFilterChange | src/pages/AlertsDashboard.tsx:143-150 | `all` is stored as the empty string and any other value as itself. The offset goes back to 0 and the page to 1; the other filters and the type view are unchanged |
| AlertsDashboard.ClearFilters | src/pages/AlertsDashboard.tsx:152-163 | from any state, Clear returns the first state: the initial filters, all types, page 1 |
| AlertsDashboard.PerPageChoice | src/pages/AlertsDashboard.tsx:429-437 | choosing a page size stores the text of its number, and the list is then cut by that number; after Clear it is cut by 50 again |
| AlertsDashboard.RequestFilters | src/pages/AlertsDashboard.tsx:31-39 | both alert requests send the page's filters, except that the limit is always 500 |
| AlertsDashboard.AllChoiceNotSent | src/pages/AlertsDashboard.tsx:143-150 | after choosing `all` for a filter, the request's query string carries no pair for that key |
| AlertsDashboard.ChoiceSent | src/pages/AlertsDashboard.tsx:143-150 | after choosing any other non-empty value, the query string carries that key with that value |
| AlertsDashboard.Stats | src/pages/AlertsDashboard.tsx:185-194 | whatever the type view, each severity count and each status count is the number of alerts, over both lists, with that value, and each set of counts adds up to the number of alerts. An envelope in either list makes the spread throw |
| AlertsDashboard.HeaderSingleLine | src/pages/AlertsDashboard.tsx:105 | the CSV header holds no line break |
| AlertsDashboard.Cells | src/pages/AlertsDashboard.tsx:106-116 | each line has seven cells. A card alert, recognised by having `matched_bin`, is typed `Card Alert` with field `BIN`; a credential alert is typed `Credential Alert` with its own matched field |
| AlertsDashboard.CsvLineCount | src/pages/AlertsDashboard.tsx:104-118 | when no cell holds a line break, splitting the document at line breaks gives the header and then one line per alert, in order |
| AlertsDashboard.Csv | src/pages/AlertsDashboard.tsx:104-118 | the document starts with the header, is just the header for no alerts, and otherwise has a line break right after the header |
| AlertsDashboard.LineAvoidsBreak | src/pages/AlertsDashboard.tsx:116 | a line joined from cells without line breaks has none itself |
| AlertsDashboard.ButtonRoute | src/pages/AlertsDashboard.tsx:538-553 | the review buttons appear only for `new` alerts. Each calls its own handler with the alert's id, and with the card flag set exactly for card alerts |
| AlertsDashboard.ViewRoutes | src/pages/AlertsDashboard.tsx:42-55 | on any page that renders, every button under the `card` view reaches a card endpoint, and every button under the `credential` view a credential endpoint |
| AlertsDashboard.SliceWithin | src/pages/AlertsDashboard.tsx:52-55 | every alert on a page comes from the list the page was cut from |
| AlertsDashboard.RendersIffNoEnvelope | src/pages/AlertsDashboard.tsx:42-55 | the list and the counts render, whatever the view, exactly when neither alert reply is an envelope. An envelope in either reply always breaks the counts |
| CardDashboard.TotalAlerts | src/pages/CardDashboard.tsx:104 | the alert total is the list's length. A reply that has not loaded counts as 0, and so does the backend's `{results, pagination}` envelope, which has no `length` |
| CardDashboard.TotalPages | src/pages/CardDashboard.tsx:105 | the page count is the least number of pages of 100 alerts that hold the total |
| CardDashboard.PageOffset | src/pages/CardDashboard.tsx:32-35 | on any real page, the query's offset is a non-negative multiple of 100 |
| CardDashboard.NextPageStartsInside | src/pages/CardDashboard.tsx:106 | from any real page, Next is offered exactly when the next page starts before the end of the list |
| CardDashboard.HasNextPage | src/pages/CardDashboard.tsx:106 | from any real page, Next is offered exactly when the list holds more alerts than the pages up to the current one |
| CardDashboard.AlertOnOnePage | src/pages/CardDashboard.tsx:32-35 | every alert of the list lies on exactly one page, and that page is one the pager counts |
| CardDashboard.PageRequest | src/pages/CardDashboard.tsx:31-37 | the paged query carries the current page's offset |
| CardDashboard.PageRequestLacksPage | backend/app.py:1431-1433 | the paged query sends `offset` but never `page` or `per_page`, which are what the card alert endpoint reads, so every page asks for the same rows |
| CardDashboard.Window | src/pages/CardDashboard.tsx:478-490 | the pager shows at most five page numbers, all real pages, and the current page is among them exactly when it is a real page |
| CardDashboard.PagerIffSecondPage | src/pages/CardDashboard.tsx:465 | the pager is drawn exactly when the list holds more than 100 alerts |
| CardDashboard.ShowsPager | src/pages/CardDashboard.tsx:465 | the pager is drawn exactly when the list holds more than 100 alerts |
| CardDashboard.Actions | src/pages/CardDashboard.tsx:429-455 | a row offers Resolve and False Positive exactly while its status is `new`, and always ends with View Card for the alert's card |
| CardDashboard.ReviewedRowOnlyViews | backend/app.py:1522-1564 | once either review has been applied to an alert, its row offers only View Card |
| CardDashboard.NewAlertCount | src/pages/CardDashboard.tsx:227 | the tile shows 0 before the list loads, and after it the number of `new` alerts, at most the list's length. An envelope, which has no `filter`, makes the page fail instead |
| CardDashboard.ResolveLowersNewCount | backend/app.py:1522-1542 | resolving a `new` alert lowers the tile by exactly one, when alert ids are unique |
| CardDashboard.CountChangesAt | src/pages/CardDashboard.tsx:227 | two lists that differ only at one index, where only the first holds a `new` alert, differ by one in their count of `new` alerts |
| CardDashboard.SameCount | src/pages/CardDashboard.tsx:227 | two lists that agree, index by index, on which alerts are `new` have the same count |
| CardDashboard.TotalCardsFound | src/pages/CardDashboard.tsx:210 | the tile is 0 before the statistics load, and otherwise the sum of the per-BIN counts |
| CardDashboard.ReduceIsSum | src/pages/CardDashboard.tsx:210 | the `reduce` from a start value adds every count to that start |
| CardDashboard.NewCountIsTally | src/pages/CardDashboard.tsx:227 | filtering on status `new` keeps as many alerts as the list has `new` statuses |
| Risk.RiskLevel | src/components/CredentialsTable.tsx:22-27 | a score lies in the band of the level it gets: critical from 80, high from 60 to below 80, medium from 40 to below 60, low below 40 |
| Risk.BandsPartition | src/components/CredentialsTable.tsx:22-27 | the bands are disjoint and cover every score: a score is in a level's band exactly when it gets that level |
| Risk.RiskLevelMonotone | src/components/CredentialsTable.tsx:22-27 | a higher score never gets a lower level |
| Risk.TableRiskColor | src/components/CredentialsTable.tsx:45-54 | the table's badge colour is the colour of the score's level |
| Risk.TableColorByLevel | src/components/CredentialsTable.tsx:45-54 | the table's colour depends on the score only through its level |
| Risk.DetailRiskLevel | src/pages/CredentialDetail.tsx:52-57 | the detail page's label is the capitalised name of the table's level for the same score |
| Risk.DetailColorMatchesLevel | src/pages/CredentialDetail.tsx:45-50 | the detail page's colour thresholds, written on their own, give the colour of the score's level, the same as the table's |
| Risk.DetailRiskColor | src/pages/CredentialDetail.tsx:45-50 | the detail page's colour is the table's colour for the same score |
| Risk.DetailColorMonotone | src/pages/CredentialDetail.tsx:45-50 | a higher score never gets a colour of a lower band on the detail page |
| Risk.ConfidenceScalesDisagree | src/pages/Search.tsx:144-148 | the search page reads confidence on a 0–1 scale and the risk helpers on 0–100, so a score the search page shows green is low risk on the risk scale |
| Risk.SearchFields | src/components/CredentialsTable.tsx:30-35 | the searched text is built from four fields; which fields they are is stated by Risk.FieldHitKept and Risk.SearchedFieldsNamed |
| Risk.Filtered | src/components/CredentialsTable.tsx:29-43 | a credential is kept if and only if the lower-cased search text contains the lower-cased term and the risk choice is `all` or its level's key |
| Risk.Keeps | src/components/CredentialsTable.tsx:29-43 | an empty search with risk `all` keeps every credential, and a risk choice that names no level keeps none |
| Risk.FilteredKeepsOrder | src/components/CredentialsTable.tsx:29-43 | filtering decides each credential on its own: filtering a joined list gives the two filtered parts, joined in order |
| Risk.EmptySearchKeepsAll | src/components/CredentialsTable.tsx:29-43 | an empty search with risk `all` keeps every credential |
| Risk.UnknownRiskKeepsNothing | src/components/CredentialsTable.tsx:39-40 | a risk choice that names no level keeps nothing |
| Risk.UsernameHitKept | src/components/CredentialsTable.tsx:30-37 | a term found in the lower-cased user name finds the credential, when the risk choice allows its level |
| Risk.FieldHitKept | src/components/CredentialsTable.tsx:30-37 | a term found, ignoring case, in any one of the four searched fields finds the credential, when the risk choice allows its level |
| Risk.SearchedFieldsNamed | src/components/CredentialsTable.tsx:30-37 | a term found in the domain, the stealer type or the URL finds the credential, when the risk choice allows its level |
| Risk.PasswordCell | src/components/CredentialsTable.tsx:122 | with passwords shown, the cell is the password, or `N/A` when it is missing or empty. With passwords hidden, it is eight dots |
| Risk.HiddenCellsAlike | src/components/CredentialsTable.tsx:122 | with passwords hidden, every credential shows the same eight-dot cell |
| Dashboard.NewCount | src/pages/Dashboard.tsx:196-197 | the alert tile is the number of alerts whose status is `new`, and 0 before the list loads. On the backend's envelope `filter` throws |
| Dashboard.SystemIds | src/pages/Dashboard.tsx:214-218 | the distinct system ids never outnumber the credentials, and the falsy id 0 is dropped |
| Dashboard.SystemIdsMembers | src/pages/Dashboard.tsx:214-218 | an id is counted exactly when it is non-zero and some credential carries it |
| Dashboard.FilteredStats | src/pages/Dashboard.tsx:193-226 | the tiles render exactly when neither alert reply is an envelope and, with a country, the credential reply is not either. Both views count `new` alerts over the full lists. Without a country, the totals are the server's, or 0 when missing. With a country, they are the country's credential count, its card count and its distinct systems |
| Dashboard.SystemsWithinCredentials | src/pages/Dashboard.tsx:214-223 | with a country chosen, the systems tile never exceeds the credentials tile |
| Dashboard.StealerData | src/pages/Dashboard.tsx:229-244 | without a country, or before the credentials load, the chart is the server's. An envelope credential reply makes `reduce` throw. Otherwise it has one row per stealer, sorted by count descending, and each row's count is the number of the country's credentials with that stealer. The counts add up to the number of credentials |
| Dashboard.MissingStealerIsUnknown | src/pages/Dashboard.tsx:236 | a credential without a stealer type is counted under `Unknown` |
| Dashboard.DomainOf | src/pages/Dashboard.tsx:252-258 | a credential's domain is its own domain when that is set. Otherwise it is the host of its URL, given as a parameter; a credential with neither contributes nothing, and an empty host is not counted |
| Dashboard.NoSourceAddsNothing | src/pages/Dashboard.tsx:253 | a credential with neither URL nor domain adds no domain to the counts |
| Dashboard.DomainFieldCounted | src/pages/Dashboard.tsx:255-257 | a credential with a domain adds exactly that domain to the counts |
| Dashboard.DomainData | src/pages/Dashboard.tsx:246-269 | without a country, the chart is the server's. An envelope credential reply makes `reduce` throw. Otherwise it has at most 20 distinct domains, sorted by count descending, each row counting that domain's credentials. A domain of the country's credentials is left off only when the chart already holds 20 domains, none of them rarer than it |
| Dashboard.FewDomainsAllListed | src/pages/Dashboard.tsx:262-268 | when fewer than 20 domains are shown, every domain of the country's credentials is shown |
| Dashboard.DayCounts | src/pages/Dashboard.tsx:277-286 | the timeline holds at most 30 days, in ascending order, and each row counts the credentials of its day, at least one |
| Dashboard.TimelineRows | src/pages/Dashboard.tsx:283-286 | the last rows of any date-ascending arrangement of the day counts are ascending days, each with its own count |
| Dashboard.Ascending | src/pages/Dashboard.tsx:285-286 | a suffix of a date-sorted list of distinct days is strictly ascending |
| Dashboard.TimelineData | src/pages/Dashboard.tsx:272-287 | without a country, the chart is the server's. An envelope credential reply makes `reduce` throw. Otherwise it is the day counts of the country's credentials |
| Dashboard.DayCountsKeepLatest | src/pages/Dashboard.tsx:286 | every credential's day is on the timeline unless all 30 rows are later days |
| Dashboard.SuffixKeepsLatest | src/pages/Dashboard.tsx:286 | keeping the last 30 rows of the sorted days drops only days earlier than every kept day |
| Dashboard.TilesRenderIffNoEnvelope | src/pages/Dashboard.tsx:193-226 | without a country the tiles render exactly when neither alert reply is an envelope |
| Dashboard.PanelAlerts | src/pages/Dashboard.tsx:339-341 | the panel shows the credential alerts followed by the first page of card alerts, tagged by kind; an envelope in either reply breaks it |
| WatchlistStats.OverviewOf | src/pages/WatchlistStats.tsx:45-48 | the totals are the two lists' lengths, or 0 before they load. The active tile counts the active items and the `new` tile the `new` alerts, never more than their totals. An envelope alert reply makes `filter` throw |
| WatchlistStats.ActiveSplitsWatchlist | src/pages/WatchlistStats.tsx:45-46 | the items that are not counted active are exactly the inactive ones |
| WatchlistStats.GroupCount | src/pages/WatchlistStats.tsx:51-60 | grouping gives one row per distinct value present, each counting the items with that value, at least one; the counts add up to the number of items |
| WatchlistStats.SeverityStats | src/pages/WatchlistStats.tsx:51-54 | one row per severity present, each counting the items of that severity; the counts add up to the number of items |
| WatchlistStats.FieldTypeStats | src/pages/WatchlistStats.tsx:57-60 | one row per field type present, each counting the items of that type; the counts add up to the number of items |
| WatchlistStats.SumWidthsIsShare | src/pages/WatchlistStats.tsx:167 | the bar widths of any rows add up to their counts' share of the total, in percent |
| WatchlistStats.Width | src/pages/WatchlistStats.tsx:167 | a bar's width is a non-negative percentage, at most 100 when the count is within the total, and exactly 100 for the whole watchlist |
| WatchlistStats.BarsFill | src/pages/WatchlistStats.tsx:160-197 | for a non-empty watchlist, the severity bars together fill exactly 100 percent, and so do the field-type bars |
| WatchlistStats.FieldLabel | src/pages/WatchlistStats.tsx:190 | the label replaces only the first underscore with a space and keeps every other character |
| WatchlistStats.FieldLabelFirstOnly | src/pages/WatchlistStats.tsx:190 | a type with two underscores keeps one in its label, and a type with one underscore keeps none |
| WatchlistStats.SeverityColor | src/pages/WatchlistStats.tsx:76-84 | a severity gets gray exactly when it is not one of critical, high, medium and low |
| WatchlistStats.SeverityColorMatchesRisk | src/pages/WatchlistStats.tsx:76-84 | each of the four severities gets the same colour as the risk level of that name |
| WatchlistStats.AlertCount | src/pages/WatchlistStats.tsx:63-66 | an item's alert count is the number of alerts raised by that item |
| WatchlistStats.Ranked | src/pages/WatchlistStats.tsx:68-72 | each item is paired, in order, with its own alert count |
| WatchlistStats.TopTriggered | src/pages/WatchlistStats.tsx:63-74 | the top list holds five items, or every item when there are fewer. It is sorted by alert count descending. Each entry is an item of the watchlist with its own alert count, and no entry appears more often than in the ranking of the whole watchlist. An envelope alert reply makes `reduce` throw |
| WatchlistStats.TopFromRanked | src/pages/WatchlistStats.tsx:73-74 | sorting the ranked items and keeping five gives a sorted selection of the ranked items, each with its own count |
| WatchlistStats.InRanked | src/pages/WatchlistStats.tsx:68-72 | every ranked entry is a watchlist item paired with its own count |
| WatchlistStats.TopIsMaximal | src/pages/WatchlistStats.tsx:68-74 | an item with more alerts than some listed entry is itself listed |
| WatchlistStats.TopOfSortedMaximal | src/pages/WatchlistStats.tsx:73-74 | after a descending sort and a cut, an entry with a higher count than some kept entry is kept |
| WatchlistStats.Round | src/pages/WatchlistStats.tsx:256 | `Math.round` gives the whole number within a half of the value, rounding halves up |
| WatchlistStats.Percent | src/pages/WatchlistStats.tsx:256-280 | a rate is 0 for an empty base. Otherwise it is the rounded percentage, between 0 and 100 for a share of the base, and exactly 100 for the whole base |
| WatchlistStats.RatesOf | src/pages/WatchlistStats.tsx:256-280 | detection is the rounded percentage of `new` alerts per watchlist item, coverage the rounded percentage of active items, and response the rounded percentage of alerts no longer `new`, each 0 on an empty base. Coverage and response lie between 0 and 100, and detection is at least 0. An envelope alert reply makes the page throw before |
| WatchlistStats.DetectionCanExceedHundred | src/pages/WatchlistStats.tsx:256 | the detection rate divides `new` alerts by items, so one item with two `new` alerts shows 200 percent |
| WatchlistStats.ResponseAndNewShare | src/pages/WatchlistStats.tsx:280 | the response rate and the rounded share of `new` alerts add up to 100 or 101, never less |
| WatchlistStats.ResponseAndNewShareReach101 | src/pages/WatchlistStats.tsx:280 | with 8 alerts of which 1 is `new`, the two rounded shares add up to 101 |
| Charts.Toggle | src/components/EnhancedCharts.tsx:49 | a click clears the selection when it is the clicked bar, and otherwise selects the clicked bar |
| Charts.ToggleTwice | src/components/EnhancedCharts.tsx:47-52 | two clicks on the same bar give back the selection exactly when nothing, or that bar, was selected; from another bar's selection they clear it |
| Charts.HandleCountryClick | src/components/EnhancedCharts.tsx:47-52 | the toggled selection goes to the parent exactly when the parent passed a callback |
| Charts.ClearFilter | src/components/EnhancedCharts.tsx:61-70 | Clear Filter hands `null` to the callback exactly when there is one |
| Charts.ClickShowsOrHidesClear | src/components/EnhancedCharts.tsx:47-70 | after a click on a non-empty country, the Clear Filter button shows exactly when that country was not the selection |
| Charts.Shown | src/components/EnhancedCharts.tsx:75 | each chart shows a prefix of its data of at most ten rows, and the whole data when it has ten rows or fewer |
| Charts.DomainRisk | src/components/EnhancedCharts.tsx:145-150 | more than 1000 credentials is critical, more than 500 up to 1000 high, more than 100 up to 500 medium, and at most 100 low |
| Charts.DomainBadge | src/components/EnhancedCharts.tsx:152 | a row's badge is the label and colour of its count's level, and a missing count is `Low` in green |
| Charts.DomainRiskMonotone | src/components/EnhancedCharts.tsx:145-150 | a domain with more credentials never gets a lower badge |
| Charts.DomainRiskBoundaries | src/components/EnhancedCharts.tsx:145-150 | the thresholds are strict: exactly 1000, 500 and 100 stay in the band below |
| Charts.DomainTableRows | src/components/EnhancedCharts.tsx:144-152 | the domain table's rows are the data's first rows, each with the badge of its own count |
| ChartPanel.InitialFilters | src/components/EnhancedChart.tsx:31-36 | the panel starts with an empty search and a limit of 10 |
| ChartPanel.HandleFilterChange | src/components/EnhancedChart.tsx:40-44 | a change stores the control's text under its key |
| ChartPanel.FilterChangeOnlyKey | src/components/EnhancedChart.tsx:40-44 | a change leaves every other key as it was |
| ChartPanel.NumberOf | src/components/EnhancedChart.tsx:69 | `Number` of the empty text is 0, and a number read from text is never negative |
| ChartPanel.SliceEnd | src/components/EnhancedChart.tsx:69 | a numeric limit is used as it is, and a missing limit slices to the end |
| ChartPanel.FilteredData | src/components/EnhancedChart.tsx:49-69 | the shown rows are a prefix of the passing rows and every one passes. Without a limit they are all the passing rows; a limit `e` keeps the first `e` of them, and a negative one drops the last `-e` |
| ChartPanel.NonNumericDropped | src/components/EnhancedChart.tsx:50 | a row without a numeric count is never shown, whatever the filters |
| ChartPanel.Keeps | src/components/EnhancedChart.tsx:48-68 | a null row or one without a numeric count is never kept, and with an empty search a numeric row is kept exactly when it is in the date range |
| ChartPanel.SearchIgnoresCase | src/components/EnhancedChart.tsx:52-56 | a term and its lower-cased form keep the same rows |
| ChartPanel.UnlimitedKeepsPassing | src/components/EnhancedChart.tsx:49-69 | without a limit, a row is shown if and only if it passes |
| ChartPanel.LimitAfterFilter | src/components/EnhancedChart.tsx:69 | with a limit of `n` and at least `n` passing rows, exactly the first `n` passing rows are shown |
| ChartPanel.ChosenLimitIsNumber | src/components/EnhancedChart.tsx:155 | the selector stores the limit as text, and choosing "20" still cuts at twenty rows |
| ChartPanel.Counts | src/components/EnhancedChart.tsx:71 | the counts the bars are scaled by are the rows' own counts, in order |
| ChartPanel.MaxCount | src/components/EnhancedChart.tsx:71 | the scale is `NaN` exactly when some count is `NaN`. Otherwise it is at least 1 and at least every count |
| ChartPanel.PanelMax | src/components/EnhancedChart.tsx:71 | the scale is 1 with no rows. When every shown count is a number, it is a number at least 1 and at least every count |
| ChartPanel.NaNCountSpoilsScale | src/components/EnhancedChart.tsx:50-71 | a shown row whose count is `NaN` passes the `typeof` test and makes the scale `NaN`, so the floor of 1 does not survive it |
| WorldMap.MappedCode | src/components/WorldMap.tsx:94-117 | every code in the table is two upper-case letters |
| WorldMap.CountryCode | src/components/WorldMap.tsx:118 | a name in the table gets its code. Any other name gets its first two characters, upper-cased, so a code never has more than two characters |
| WorldMap.KnownCodes | src/components/WorldMap.tsx:95-107 | the United States is `US`, Germany `DE` and the United Kingdom `GB` |
| WorldMap.UnlistedNamesCollide | src/components/WorldMap.tsx:118 | a name outside the table that starts with "Us" gets `US`, the code of the United States |
| WorldMap.UnlistedCodeIgnoresCase | src/components/WorldMap.tsx:118 | two names outside the table that agree when upper-cased get the same code |
| WorldMap.CountryMap | src/components/WorldMap.tsx:19-24 | the code map has no more entries than the data has rows |
| WorldMap.LastCountFor | src/components/WorldMap.tsx:19-24 | the reference lookup finds the count of a row with that code, or reports that no row has it |
| WorldMap.CountryMapLastWins | src/components/WorldMap.tsx:19-24 | looking a code up in the map gives the count of the last row with that code, and nothing when no row has it |
| WorldMap.MaxCount | src/components/WorldMap.tsx:16 | the scale is at least 1 and at least every count, and it is 1 or some row's count |
| WorldMap.Intensity | src/components/WorldMap.tsx:26-28 | the intensity is at most 1, and not negative for a non-negative count |
| WorldMap.Red | src/components/WorldMap.tsx:30-33 | the red channel of an intensity between 0 and 1 is between 0 and 255 |
| WorldMap.IntensityUncapped | src/components/WorldMap.tsx:16-28 | because the scale is the largest count, a row's intensity is its plain share of the scale, and the largest row is at full intensity |
| WorldMap.Listed | src/components/WorldMap.tsx:47 | the list shows a prefix of the data of at most ten countries, exactly ten when there are enough |
| IndexPage.Initial | src/pages/Index.tsx:18-20 | the page starts with no country, no stealer and an empty domain box |
| IndexPage.CountryClick | src/pages/Index.tsx:70-72 | a country click toggles the country filter and leaves the other two alone |
| IndexPage.StealerClick | src/pages/Index.tsx:74-76 | a stealer click toggles the stealer filter and leaves the other two alone |
| IndexPage.ClearFilters | src/pages/Index.tsx:78-82 | Clear returns the first state from any filters |
| IndexPage.ClickTogglesSelection | src/pages/Index.tsx:70-76 | a click on the selected bar clears its filter, and a click on another bar selects that bar |
| IndexPage.FilteredCountries | src/pages/Index.tsx:58-60 | a row is kept if and only if it is in the loaded list and no country is chosen or it is the chosen country. With no country chosen the whole list is kept, and a list that has not loaded is empty |
| IndexPage.FilteredStealers | src/pages/Index.tsx:62-64 | a row is kept if and only if it is in the loaded list and no stealer is chosen or it is the chosen stealer. With no stealer chosen the whole list is kept |
| IndexPage.FilteredDomains | src/pages/Index.tsx:66-68 | a row is kept if and only if it is in the loaded list and its lower-cased domain contains the lower-cased box text. An empty box keeps the whole list |
| IndexPage.ClearShowsAll | src/pages/Index.tsx:58-82 | after Clear every list is shown in full |
| IndexPage.CountryClickRoundTrip | src/pages/Index.tsx:58-72 | a click on a country keeps exactly that country's rows, and a second click on it brings every row back |
| IndexPage.DomainFilterIgnoresCase | src/pages/Index.tsx:66-68 | the domain box matches without regard to case |
| WatchlistForms.DefaultItem | src/components/watchlist/BinWatchlistForm.tsx:29-35 | a fresh form has empty BIN, scheme and bank name, country `EG` and severity `medium` |
| WatchlistForms.HandleFileChange | src/components/watchlist/BinWatchlistForm.tsx:37-50 | an accepted file becomes the selection. A rejected file raises a toast and an empty pick does nothing, and both leave the selection as it was; the manual fields and the dialog are untouched |
| WatchlistForms.FileAcceptance | src/components/watchlist/BinWatchlistForm.tsx:40 | a name ending in `.txt` is taken whatever type the browser reports, and a `.csv` file reported as `text/csv` is refused |
| WatchlistForms.HandleFileUpload | src/components/watchlist/BinWatchlistForm.tsx:52-62 | without a selection nothing happens. Otherwise the file goes to the parent; a success clears the selection and closes the dialog, and a failure leaves the form as it was |
| WatchlistForms.HandleManualSubmit | src/components/watchlist/BinWatchlistForm.tsx:64-88 | the fields go to the parent exactly when BIN and bank name are both non-empty. Only a success resets them to the defaults and closes the dialog |
| WatchlistForms.ResubmitAfterAdd | src/components/watchlist/BinWatchlistForm.tsx:64-88 | after a successful add, submitting again without typing is refused; after a failed add, a retry hands the parent the same fields |
| WatchlistForms.UploadOnce | src/components/watchlist/BinWatchlistForm.tsx:52-62 | after a successful upload, the upload button does nothing until a new file is picked |
| WatchlistForms.OfferedFieldsVersusMatcher | src/components/watchlist/WatchlistForm.tsx:68-72 | of the offered field types, exactly `machine_user` and `computer_name` are unknown to the matcher, so their items never raise an alert; the matcher's `url` type is not offered |
| WorldMap.RowAlpha | src/components/WorldMap.tsx:48-53 | a row is tinted at between 0 and 30% opacity. It is exactly 30% when the intensity is 1, which is the busiest country, and exactly transparent when the intensity is 0 |
| WorldMap.RowAlphaMonotone | src/components/WorldMap.tsx:48-53 | a country with more credentials is never tinted paler |
| JsObject.Get | src/pages/Cards.tsx:160-161 | reading a property finds nothing exactly when the key is absent |
| JsObject.Set | src/pages/Cards.tsx:73-83 | after an assignment the key holds the new value and every other key reads as before. A new key goes at the end of the key order, and an existing key keeps its place |
| JsObject.Delete | src/pages/Cards.tsx:78 | after `delete` the key is absent, every other key reads as before, and no entry is new |
| JsObject.DeleteIsFilter | src/pages/Search.tsx:111-112 | `delete` keeps the other entries in their order |
| JsObject.ParseIntOfDigits | src/pages/Cards.tsx:86 | `parseInt` of a run of digits is its decimal value |
| JsObject.ParseIntRoundTrip | src/pages/Cards.tsx:86 | `parseInt` of the text of any whole number gives back that number |
| JsObject.ParseInt | src/pages/Cards.tsx:86 | `parseInt` gives a number or NaN: a non-negative number for text starting with a digit, and NaN for text without any digit; `ParseIntRoundTrip` shows it reads back the text of any whole number |
| Wrappers.OrElse | backend/app.py:1786-1797 | `a or b` is `a` when `a` is truthy and `b` otherwise |
| Seqs.CountBy | src/pages/Dashboard.tsx:235-239 | the counting `reduce` gives one entry per distinct key present, each the number of occurrences of its key; the counts add up to the number of keys |
| Seqs.SortDesc | src/pages/Dashboard.tsx:243 | the sort by count descending is sorted and is a permutation of its input |
| Seqs.Tally | src/pages/Dashboard.tsx:235-243 | the counted and sorted entries are sorted descending by count, one per distinct key, each counting its key's occurrences, and cover every key |
| Seqs.TopTally | src/pages/Dashboard.tsx:262-268 | keeping the first `n` of the tally keeps a prefix of it, with at most `n` entries, and the whole tally when it is shorter |
| Seqs.TopTallyMaximal | src/pages/Dashboard.tsx:262-268 | a key left out of the first `n` rows of the tally means all `n` rows are taken, each by a key at least as frequent |
| Text.Strip | backend/app.py:2350 | the stripped text is no longer than the input, and neither of its ends is whitespace in the language's own sense |
| Text.StripIdempotent | backend/app.py:2350 | stripping twice is stripping once |
| Text.StripPadding | backend/app.py:2350 | the stripped text is the piece of the input at some offset, and everything before and after that piece is whitespace |
| Text.SeparatorIsPythonSpace | backend/app.py:2350 | Python's `strip` removes the file separator 0x1C, which JavaScript's `trim` keeps |

## Left out

- Case mapping and `isdigit` know only ASCII. Python's `isdigit` also accepts other Unicode digits, and `int()` accepts underscores; neither is modelled. `strip` and `trim` follow each language's own whitespace set (`Text.IsSpace`).
- BinUpload.Upload: a request with neither a file part nor a JSON body, on which Flask's `get_json` itself fails, is not modelled. Every request is either a file upload or a parsed JSON value.
- Exceptions that the upload's per-line `try` catches come only from the database, so they are covered by the database line below. Apart from the over-long values, each upload insert and each alert-details insert is modelled as succeeding, and the credential re-read for the details row is modelled as finding its row.
- PostgreSQL `inet` values and timestamps are modelled as opaque text.
- SQL `LIKE` patterns are modelled as plain substring tests, so `%` and `_` inside a search term are not treated as wildcards.
- A `LIMIT` without `ORDER BY` is modelled as reading in table order. PostgreSQL does not promise any order there.
- Database failures are left out, except the inserts that fail on a value wider than its column: an over-long card number in a card alert, and an over-long bank name or country in an uploaded BIN. So are gaps in sequence numbers. Foreign keys and the users table are not modelled beyond the id a review stores.
- Login, password hashing and token issuing (backend/app.py:909-935) are not modelled. The token is an opaque string held by the client.
- Dates are not modelled. This covers `toLocaleDateString`, the chart panel's date range (a parameter of `ChartPanel.Keeps`), and export file names built from the date.
- Floating-point arithmetic is modelled as exact real arithmetic. `Math.round` of a percentage is rounded half up on the exact value.
- JavaScript objects keep their keys in insertion order. The engine's rule that integer-like keys come first is not modelled.
- URL encoding of query values is not modelled.
- The overview page's `new URL(...)` host extraction is a parameter of the dashboard model.
- Keys inherited from `Object.prototype` (such as `constructor`) reaching `getCountryCode`'s table are not modelled.
- The SQL filters of `get_optimized_alerts` are not modelled: the merge is modelled on the rows they return. A `per_page` of 0 is also left out.
- ChartPanel.NumberOf: `Number()` on text with surrounding spaces or a sign is modelled as `NaN`. The selector never produces such text.
- WatchlistStats.TopTriggered: the order among items with equal trigger counts is not stated. The same holds for Seqs.SortDesc.
- WorldMap.CountryMap: the map is built as the component builds it, but rendering never reads it, so no property connects it to the list shown.
- AlertsDashboard.PageSizeOf: a limit that is not a positive whole number is treated as no page size. The page's controls cannot produce one.
- The badge colours of each severity and status on the alerts pages belong to rendering and are not modelled beyond the shared tones.
- The alerts panel's `handlePerPageChange` only forwards to the parent and is not modelled.
- The overview page's per-alert country lookups (src/pages/Dashboard.tsx:40-88) are network calls and are not modelled.
- Rendering, toasts, react-query caching and retries are not modelled. Where a handler's outcome depends on a parent callback or a request, whether that call succeeds is a `succeeds` parameter.
- The start, debug and test scripts of the repository are not part of this model.

=== FILE: alert_details.dfy ===
/** The denormalised copy of a credential alert's record in
    `credential_alert_details` (backend/app.py,
    `create_enhanced_credential_alert` and `safe_country_value`), and the
    read side of `get_optimized_alerts`, which prefers that copy and falls
    back to the live credential and system rows. */
module AlertDetails {
  import opened Wrappers
  import opened Store
  import Text
  import Seqs

  /** Column widths of `credential_alert_details`. */
  const CountryWidth: nat := 50
  const NameWidth: nat := 255
  const StealerWidth: nat := 100

  /** `safe_country_value`: `None` for a falsy value, else the stripped text
      cut to the width of `system_country`. */
  function SafeCountryValue(v: Option<string>): (r: Option<string>)
    ensures r.None? <==> !Truthy(v)
    ensures r.Some? ==> |r.value| <= CountryWidth && r.value <= Text.Strip(Text.Python, v.value)
    ensures r.Some? && |Text.Strip(Text.Python, v.value)| <= CountryWidth ==> r.value == Text.Strip(Text.Python, v.value)
  {
    if !Truthy(v) then None
    else
      var s := Text.Strip(Text.Python, v.value);
      if |s| > CountryWidth then Some(s[..CountryWidth]) else Some(s)
  }

  /** `str(x)[:width] if x else None`. */
  function Clip(v: Option<string>, width: nat): (r: Option<string>)
    ensures r.None? <==> !Truthy(v)
    ensures r.Some? ==> |r.value| <= width && r.value <= v.value
    ensures r.Some? && |v.value| <= width ==> r == v
    ensures width > 0 && Truthy(v) ==> Truthy(r)
  {
    if !Truthy(v) then None
    else if |v.value| > width then Some(v.value[..width]) else v
  }

  /** `str(x) if x else None`: an empty text is stored as NULL. */
  function Keep(v: Option<string>): (r: Option<string>)
    ensures r.None? <==> !Truthy(v)
    ensures r.Some? ==> r == v
  {
    if Truthy(v) then v else None
  }

  /** A row of `credential_alert_details`. */
  datatype Detail = Detail(
    alertId: nat, credentialId: nat, domain: Option<string>, url: Option<string>,
    username: Option<string>, password: Option<string>, stealerType: Option<string>,
    country: Option<string>, ip: Option<string>, computerName: Option<string>,
    osVersion: Option<string>, machineUser: Option<string>)

  predicate FitsWidth(v: Option<string>, width: nat) {
    v.None? || |v.value| <= width
  }

  /** Every bounded column of the row is within its VARCHAR width, so the
      insert cannot fail on length. */
  predicate FitsSchema(d: Detail) {
    FitsWidth(d.domain, NameWidth) && FitsWidth(d.username, NameWidth) &&
    FitsWidth(d.stealerType, StealerWidth) && FitsWidth(d.country, CountryWidth) &&
    FitsWidth(d.computerName, NameWidth) && FitsWidth(d.osVersion, NameWidth) &&
    FitsWidth(d.machineUser, NameWidth)
  }

  /** The stored copy is NULL exactly for a falsy live value; otherwise it is
      a prefix of the live value and the whole of it when that fits `width`. */
  predicate Abbreviates(stored: Option<string>, live: Option<string>, width: nat) {
    (stored.None? <==> !Truthy(live)) &&
    (stored.Some? ==> stored.value <= live.value && (|live.value| <= width ==> stored == live))
  }

  /** The details row for alert `alertId` on credential `c`, whose machine
      is `s` (the LEFT JOIN on `system_info`). */
  function BuildDetail(alertId: nat, c: Credential, s: Option<SystemInfo>): (d: Detail)
    ensures FitsSchema(d)
    ensures d.alertId == alertId && d.credentialId == c.id
    ensures Abbreviates(d.domain, c.domain, NameWidth) && Abbreviates(d.username, c.username, NameWidth)
    ensures Abbreviates(d.stealerType, c.stealerType, StealerWidth)
    ensures (d.url.None? <==> !Truthy(c.url)) && (d.url.Some? ==> d.url == c.url)
    ensures (d.password.None? <==> !Truthy(c.password)) && (d.password.Some? ==> d.password == c.password)
    ensures s.None? ==> d.country.None? && d.ip.None? && d.computerName.None? &&
                        d.osVersion.None? && d.machineUser.None?
    ensures s.Some? ==>
      Abbreviates(d.computerName, s.value.computerName, NameWidth) &&
      Abbreviates(d.osVersion, s.value.osVersion, NameWidth) &&
      Abbreviates(d.machineUser, s.value.machineUser, NameWidth)
  {
    var country := if s.Some? then s.value.country else None;
    Detail(alertId, c.id, Clip(c.domain, NameWidth), Keep(c.url), Clip(c.username, NameWidth),
           Keep(c.password), Clip(c.stealerType, StealerWidth), SafeCountryValue(country),
           Keep(if s.Some? then s.value.ipText else None),
           Clip(if s.Some? then s.value.computerName else None, NameWidth),
           Clip(if s.Some? then s.value.osVersion else None, NameWidth),
           Clip(if s.Some? then s.value.machineUser else None, NameWidth))
  }

  // ---- get_optimized_alerts -------------------------------------------------

  /** The record columns of one row of the optimized alert list. */
  datatype Merged = Merged(
    domain: Option<string>, url: Option<string>, credentialUsername: Option<string>,
    stealerType: Option<string>, systemCountry: Option<string>, systemIp: string,
    computerName: Option<string>, osVersion: Option<string>, machineUser: Option<string>,
    usedOptimizedData: bool)

  function Field(d: Option<Detail>, f: Detail -> Option<string>): Option<string> {
    if d.Some? then f(d.value) else None
  }

  function SysField(s: Option<SystemInfo>, f: SystemInfo -> Option<string>): Option<string> {
    if s.Some? then f(s.value) else None
  }

  function CredField(c: Option<Credential>, f: Credential -> Option<string>): Option<string> {
    if c.Some? then f(c.value) else None
  }

  /** One result row: each column is `opt_x or fallback_x`, the address is
      `str(opt_ip or fallback_ip or '')`, and the row counts as optimised
      when `opt_domain` is not NULL. `d`, `c` and `s` are the LEFT JOINed
      details, credential and system rows. */
  function Merge(d: Option<Detail>, c: Option<Credential>, s: Option<SystemInfo>): (m: Merged)
    ensures m.usedOptimizedData <==> d.Some? && d.value.domain.Some?
    ensures d.None? ==>
      m.domain == CredField(c, (x: Credential) => x.domain) &&
      m.url == CredField(c, (x: Credential) => x.url) &&
      m.credentialUsername == CredField(c, (x: Credential) => x.username) &&
      m.stealerType == CredField(c, (x: Credential) => x.stealerType) &&
      m.systemCountry == SysField(s, (x: SystemInfo) => x.country) &&
      m.computerName == SysField(s, (x: SystemInfo) => x.computerName) &&
      m.osVersion == SysField(s, (x: SystemInfo) => x.osVersion) &&
      m.machineUser == SysField(s, (x: SystemInfo) => x.machineUser)
    ensures d.None? && s.Some? && Truthy(s.value.ipText) ==> m.systemIp == s.value.ipText.value
    ensures (d.None? || !Truthy(d.value.ip)) && (s.None? || !Truthy(s.value.ipText)) ==> m.systemIp == ""
    // a truthy column of the copy is the one shown; otherwise the live column is
    ensures d.Some? && Truthy(d.value.domain) ==> m.domain == d.value.domain
    ensures d.Some? && Truthy(d.value.url) ==> m.url == d.value.url
    ensures d.Some? && Truthy(d.value.username) ==> m.credentialUsername == d.value.username
    ensures d.Some? && Truthy(d.value.stealerType) ==> m.stealerType == d.value.stealerType
    ensures d.Some? && Truthy(d.value.country) ==> m.systemCountry == d.value.country
    ensures d.Some? && Truthy(d.value.ip) ==> m.systemIp == d.value.ip.value
    ensures d.Some? && Truthy(d.value.computerName) ==> m.computerName == d.value.computerName
    ensures d.Some? && Truthy(d.value.osVersion) ==> m.osVersion == d.value.osVersion
    ensures d.Some? && Truthy(d.value.machineUser) ==> m.machineUser == d.value.machineUser
    ensures (d.None? || !Truthy(d.value.domain)) ==> m.domain == CredField(c, (x: Credential) => x.domain)
    ensures (d.None? || !Truthy(d.value.url)) ==> m.url == CredField(c, (x: Credential) => x.url)
    ensures (d.None? || !Truthy(d.value.username)) ==>
      m.credentialUsername == CredField(c, (x: Credential) => x.username)
    ensures (d.None? || !Truthy(d.value.stealerType)) ==>
      m.stealerType == CredField(c, (x: Credential) => x.stealerType)
    ensures (d.None? || !Truthy(d.value.country)) ==> m.systemCountry == SysField(s, (x: SystemInfo) => x.country)
    ensures (d.None? || !Truthy(d.value.ip)) && s.Some? && Truthy(s.value.ipText) ==>
      m.systemIp == s.value.ipText.value
    ensures (d.None? || !Truthy(d.value.computerName)) ==>
      m.computerName == SysField(s, (x: SystemInfo) => x.computerName)
    ensures (d.None? || !Truthy(d.value.osVersion)) ==>
      m.osVersion == SysField(s, (x: SystemInfo) => x.osVersion)
    ensures (d.None? || !Truthy(d.value.machineUser)) ==>
      m.machineUser == SysField(s, (x: SystemInfo) => x.machineUser)
  {
    var ip := OrElse(OrElse(Field(d, (x: Detail) => x.ip), SysField(s, (x: SystemInfo) => x.ipText)), Some(""));
    Merged(
      OrElse(Field(d, (x: Detail) => x.domain), CredField(c, (x: Credential) => x.domain)),
      OrElse(Field(d, (x: Detail) => x.url), CredField(c, (x: Credential) => x.url)),
      OrElse(Field(d, (x: Detail) => x.username), CredField(c, (x: Credential) => x.username)),
      OrElse(Field(d, (x: Detail) => x.stealerType), CredField(c, (x: Credential) => x.stealerType)),
      OrElse(Field(d, (x: Detail) => x.country), SysField(s, (x: SystemInfo) => x.country)),
      ip.GetOr(""),
      OrElse(Field(d, (x: Detail) => x.computerName), SysField(s, (x: SystemInfo) => x.computerName)),
      OrElse(Field(d, (x: Detail) => x.osVersion), SysField(s, (x: SystemInfo) => x.osVersion)),
      OrElse(Field(d, (x: Detail) => x.machineUser), SysField(s, (x: SystemInfo) => x.machineUser)),
      d.Some? && d.value.domain.Some?)
  }

  /** `opt or live` where `opt` was clipped from `live`: the clipped copy when
      the live value is truthy, else the live value itself. */
  lemma ClipOrLive(live: Option<string>, width: nat)
    requires width > 0
    ensures OrElse(Clip(live, width), live) == (if Truthy(live) then Clip(live, width) else live)
  {
  }

  /** Reading back a details row built from the same credential and system
      rows: each clipped column shows the live value cut to its width (the
      live value itself when it is falsy), and the row counts as optimised
      exactly when the credential's domain is truthy. The country shows the
      stripped and cut copy, except that a country of only whitespace strips
      to the empty text, which is falsy, so the raw live country shows. */
  lemma MergeOfFreshDetail(alertId: nat, c: Credential, s: Option<SystemInfo>)
    ensures var m := Merge(Some(BuildDetail(alertId, c, s)), Some(c), s);
      (m.usedOptimizedData <==> Truthy(c.domain)) &&
      m.domain == (if Truthy(c.domain) then Clip(c.domain, NameWidth) else c.domain) &&
      m.credentialUsername == (if Truthy(c.username) then Clip(c.username, NameWidth) else c.username) &&
      m.stealerType == (if Truthy(c.stealerType) then Clip(c.stealerType, StealerWidth) else c.stealerType) &&
      m.url == c.url
    ensures var m := Merge(Some(BuildDetail(alertId, c, s)), Some(c), s);
      s.None? ==> m.systemCountry.None? && m.systemIp == "" && m.computerName.None? &&
                  m.osVersion.None? && m.machineUser.None?
    ensures var m := Merge(Some(BuildDetail(alertId, c, s)), Some(c), s);
      s.Some? ==>
        m.systemIp == (if Truthy(s.value.ipText) then s.value.ipText.value else "") &&
        m.computerName == (if Truthy(s.value.computerName) then Clip(s.value.computerName, NameWidth) else s.value.computerName) &&
        m.osVersion == (if Truthy(s.value.osVersion) then Clip(s.value.osVersion, NameWidth) else s.value.osVersion) &&
        m.machineUser == (if Truthy(s.value.machineUser) then Clip(s.value.machineUser, NameWidth) else s.value.machineUser)
    ensures var m := Merge(Some(BuildDetail(alertId, c, s)), Some(c), s);
      s.Some? && Truthy(s.value.country) && Text.Strip(Text.Python, s.value.country.value) != "" ==>
        m.systemCountry == SafeCountryValue(s.value.country)
    ensures var m := Merge(Some(BuildDetail(alertId, c, s)), Some(c), s);
      s.Some? && (!Truthy(s.value.country) || Text.Strip(Text.Python, s.value.country.value) == "") ==>
        m.systemCountry == s.value.country
  {
    ClipOrLive(c.domain, NameWidth);
    ClipOrLive(c.username, NameWidth);
    ClipOrLive(c.stealerType, StealerWidth);
    if s.Some? {
      ClipOrLive(s.value.computerName, NameWidth);
      ClipOrLive(s.value.osVersion, NameWidth);
      ClipOrLive(s.value.machineUser, NameWidth);
    }
  }

  predicate UsedOptimized(m: Merged) { m.usedOptimizedData }

  predicate UsedFallback(m: Merged) { !m.usedOptimizedData }

  /** `optimization_stats`: the optimised count, and the rest of the page as
      the fallback count, which is the number of rows read from live data. */
  function OptimizationStats(rows: seq<Merged>): (r: (nat, nat))
    ensures r.0 + r.1 == |rows|
    ensures r.0 == Seqs.CountWhere(rows, UsedOptimized)
    ensures r.1 == Seqs.CountWhere(rows, UsedFallback)
  {
    var opt := Seqs.CountWhere(rows, UsedOptimized);
    Seqs.FilterComplement(rows, UsedOptimized, UsedFallback);
    (opt, |rows| - opt)
  }
}

=== FILE: alert_review.dfy ===
/** The review transitions of an alert (backend/app.py, the `resolve` and
    `false-positive` endpoints of both alert tables): an UPDATE of every row
    with the given id, answered with 404 when no row matched. */
module AlertReview {
  import opened Wrappers
  import opened Store

  datatype Action = Resolve | MarkFalsePositive

  /** The status an action writes, whatever the status was before. */
  function Target(a: Action): Status {
    match a
    case Resolve => Reviewed
    case MarkFalsePositive => FalsePositive
  }

  datatype Reply = Ok(message: string) | NotFound(error: string)

  /** The `user_id` field of the request body: absent, JSON null, or a user. */
  datatype UserField = Absent | Null | User(id: nat)

  /** `data.get('user_id', 1)` on the body (a missing body counts as `{}`). */
  function ReviewerOf(body: Option<UserField>): (r: Option<nat>)
    ensures body.None? || body == Some(Absent) ==> r == Some(1)
    ensures body == Some(Null) ==> r.None?
    ensures forall u: nat :: body == Some(User(u)) ==> r == Some(u)
  {
    match body
    case None => Some(1)
    case Some(Absent) => Some(1)
    case Some(Null) => None
    case Some(User(u)) => Some(u)
  }

  function Messages(a: Action, card: bool): (string, string) {
    match (a, card)
    case (Resolve, false) => ("Alert resolved successfully", "Alert not found")
    case (MarkFalsePositive, false) => ("Alert marked as false positive", "Alert not found")
    case (Resolve, true) => ("Card alert resolved successfully", "Card alert not found")
    case (MarkFalsePositive, true) => ("Card alert marked as false positive", "Card alert not found")
  }

  /** `UPDATE ... SET status = target, reviewed_by = user WHERE id = alertId`. */
  function Update<D>(rows: seq<Row<D>>, alertId: nat, target: Status, user: Option<nat>): (r: seq<Row<D>>)
    ensures |r| == |rows|
    ensures forall i :: 0 <= i < |rows| && rows[i].id == alertId ==>
      r[i] == Row(alertId, target, user, rows[i].data)
    ensures forall i :: 0 <= i < |rows| && rows[i].id != alertId ==> r[i] == rows[i]
  {
    seq(|rows|, i requires 0 <= i < |rows| =>
      if rows[i].id == alertId then rows[i].(status := target, reviewedBy := user) else rows[i])
  }

  predicate HasId<D>(rows: seq<Row<D>>, alertId: nat) {
    exists i :: 0 <= i < |rows| && rows[i].id == alertId
  }

  /** One review request against an alert table (`card` selects the card
      alert table's messages). */
  function Review<D>(rows: seq<Row<D>>, alertId: nat, a: Action, body: Option<UserField>, card: bool)
    : (res: (seq<Row<D>>, Reply))
    ensures res.1.Ok? <==> HasId(rows, alertId)
    ensures res.1.NotFound? ==> res.0 == rows
    ensures |res.0| == |rows|
    ensures forall i :: 0 <= i < |rows| ==>
      res.0[i].id == rows[i].id && res.0[i].data == rows[i].data
    ensures forall i :: 0 <= i < |rows| && rows[i].id == alertId ==>
      res.0[i].status == Target(a) && res.0[i].reviewedBy == ReviewerOf(body)
    ensures forall i :: 0 <= i < |rows| && rows[i].id != alertId ==> res.0[i] == rows[i]
  {
    var (ok, missing) := Messages(a, card);
    if HasId(rows, alertId) then (Update(rows, alertId, Target(a), ReviewerOf(body)), Ok(ok))
    else
      assert Update(rows, alertId, Target(a), ReviewerOf(body)) == rows;
      (rows, NotFound(missing))
  }

  /** The prior status of the reviewed alert plays no part: two tables that
      differ only in review columns end in the same state. */
  lemma ReviewIgnoresPriorStatus<D>(rows: seq<Row<D>>, other: seq<Row<D>>, alertId: nat,
                                    a: Action, body: Option<UserField>, card: bool)
    requires |rows| == |other|
    requires forall i :: 0 <= i < |rows| ==> rows[i].id == other[i].id && rows[i].data == other[i].data
    requires forall i :: 0 <= i < |rows| && rows[i].id != alertId ==> rows[i] == other[i]
    ensures Review(rows, alertId, a, body, card) == Review(other, alertId, a, body, card)
  {
    assert HasId(rows, alertId) <==> HasId(other, alertId) by {
      if HasId(rows, alertId) {
        var i :| 0 <= i < |rows| && rows[i].id == alertId;
        assert other[i].id == alertId;
      }
      if HasId(other, alertId) {
        var i :| 0 <= i < |other| && other[i].id == alertId;
        assert rows[i].id == alertId;
      }
    }
    var r1 := Review(rows, alertId, a, body, card).0;
    var r2 := Review(other, alertId, a, body, card).0;
    if HasId(rows, alertId) {
      assert forall i :: 0 <= i < |rows| ==> r1[i] == r2[i];
      assert r1 == r2;
    } else {
      assert rows == other;
    }
  }

  /** Repeating a review changes nothing further, and the later of two
      reviews decides the status. */
  lemma ReviewLastWriteWins<D>(rows: seq<Row<D>>, alertId: nat, a: Action, b: Action,
                               body: Option<UserField>, body2: Option<UserField>, card: bool)
    ensures var once := Review(rows, alertId, a, body, card).0;
      Review(once, alertId, b, body2, card).0 == Review(rows, alertId, b, body2, card).0
  {
    var once := Review(rows, alertId, a, body, card).0;
    ReviewIgnoresPriorStatus(once, rows, alertId, b, body2, card);
  }
}

=== FILE: alerts_dashboard.dfy ===
/** The alerts page (src/pages/AlertsDashboard.tsx): credential and card
    alerts combined by type, paged on the client in pages of 50, the filter
    object sent with both alert requests, the per-severity and per-status
    counts, the CSV export, and the review buttons. */
module AlertsDashboard {
  import opened Wrappers
  import opened JsObject
  import Text
  import Seqs
  import Paging
  import ApiClient
  import AlertsPanel

  /** What the page reads of an alert. A card alert is recognised by having
      a `matched_bin` field at all. */
  datatype Alert = Alert(
    id: nat, severity: string, status: string, matchedField: string, matchedValue: string,
    matchedBin: Option<string>, date: string)

  predicate IsCard(a: Alert) {
    a.matchedBin.Some?
  }

  /** The type selector. */
  datatype View = AllTypes | CredentialsOnly | CardsOnly

  /** `allAlerts`: a list that has not loaded counts as empty; `'all'` puts
      credential alerts first. An envelope reply makes the page throw
      (`None`): under `'all'` when it is spread, under a single view when
      the page calls `slice` on it for the current page. */
  function AllAlerts(alerts: Option<Reply<Alert>>, cardAlerts: Option<Reply<Alert>>, v: View): (r: Option<seq<Alert>>)
    ensures r.None? <==>
      (v != CardsOnly && alerts.Some? && alerts.value.Envelope?) ||
      (v != CredentialsOnly && cardAlerts.Some? && cardAlerts.value.Envelope?)
    ensures r.Some? && v == AllTypes ==> r.value == ArrayOf(alerts).value + ArrayOf(cardAlerts).value
    ensures r.Some? && v == CredentialsOnly ==> r.value == ArrayOf(alerts).value
    ensures r.Some? && v == CardsOnly ==> r.value == ArrayOf(cardAlerts).value
  {
    match v
    case AllTypes =>
      if ArrayOf(alerts).None? || ArrayOf(cardAlerts).None? then None
      else Some(ArrayOf(alerts).value + ArrayOf(cardAlerts).value)
    case CredentialsOnly => ArrayOf(alerts)
    case CardsOnly => ArrayOf(cardAlerts)
  }

  /** The client-side page size: `filters.limit`, which starts as the
      number 50 and which the Per Page selector replaces with the text it
      holds ("25", "50" or "100"); the division of `totalPages` and the
      products handed to `slice` read that text as its number. `None` for a
      limit that is not a positive whole number. */
  function PageSizeOf(f: Entries): (n: Option<nat>)
    ensures n.Some? ==> n.value > 0
    ensures Get(f, "limit") == Some(Num(50)) ==> n == Some(50)
  {
    match Get(f, "limit")
    case Some(v) =>
      if v.Num? then (if v.n > 0 then Some(v.n as nat) else None)
      else if v.Str? && Text.IsDigits(v.s) && Text.DigitsValue(v.s) > 0 then Some(Text.DigitsValue(v.s))
      else None
    case None => None
  }

  /** `totalPages`: the least number of pages of `size` alerts that hold the
      list. */
  function TotalPages(all: seq<Alert>, size: nat): (n: nat)
    requires size > 0
    ensures n * size >= |all| && (n == 0 || (n - 1) * size < |all|)
  {
    Paging.CeilDiv(|all|, size)
  }

  /** `paginatedAlerts`: page `p` is the slice from `(p-1)*size` to
      `p*size`. */
  function PageOf(all: seq<Alert>, p: int, size: nat): (r: seq<Alert>)
    requires size > 0
    ensures p >= 1 ==> |r| <= size
    ensures p >= 1 && (p - 1) * size <= |all| ==>
      r == all[(p - 1) * size..if p * size <= |all| then p * size else |all|]
  {
    Paging.SlicePage(all, p, size)
  }

  /** Pages 1 to `totalPages` hold every alert once, in order. */
  lemma PagesCoverAll(all: seq<Alert>, size: nat)
    requires size > 0
    ensures Paging.PagesUpTo(all, TotalPages(all, size), size) == all
  {
    Paging.SlicePagesPartition(all, size);
  }

  /** The page buttons: always pages 1 to `min(5, totalPages)`, whatever the
      current page. */
  function Window(totalPages: nat): (w: seq<int>)
    ensures |w| == if totalPages < 5 then totalPages else 5
    ensures forall i :: 0 <= i < |w| ==> w[i] == i + 1
  {
    seq(if totalPages < 5 then totalPages else 5, i => i + 1)
  }

  /** Unlike the list pages' centred window, this one never offers a page
      past the fifth: from page 6 on, the current page has no button, though
      the list pages' window would show it. */
  lemma WindowStopsAtFive(current: int, totalPages: nat)
    requires 5 < current <= totalPages
    ensures current !in Window(totalPages)
    ensures current in Paging.PageWindow(current, totalPages)
  {
    Paging.PageWindowBounds(current, totalPages);
  }

  // ---- filters ----------------------------------------------------------------

  function InitialFilters(): (f: Entries)
    ensures WellFormed(f)
  {
    [("status", Str("")), ("severity", Str("")), ("date_from", Str("")), ("date_to", Str("")),
     ("limit", Num(50)), ("offset", Num(0))]
  }

  /** The page's state: filters, type selector and page number. */
  datatype State = State(filters: Entries, view: View, currentPage: int)

  const Initial: State := State(InitialFilters(), AllTypes, 1)

  /** `handleFilterChange`: `'all'` is stored as the empty string, any other
      value as itself; offset 0 and page 1. */
  function HandleFilterChange(s: State, key: string, value: string): (r: State)
    // the call sites pass filter names, never `offset`
    requires WellFormed(s.filters) && key != "offset"
    ensures WellFormed(r.filters)
    ensures Get(r.filters, key) == Some(Str(if value == "all" then "" else value))
    ensures Get(r.filters, "offset") == Some(Num(0))
    ensures forall k :: k != key && k != "offset" ==> Get(r.filters, k) == Get(s.filters, k)
    ensures r.currentPage == 1 && r.view == s.view
  {
    var f := Set(s.filters, key, Str(if value == "all" then "" else value));
    State(Set(f, "offset", Num(0)), s.view, 1)
  }

  /** `clearFilters`: back to the initial filters, all types, page 1, from
      any state. */
  function ClearFilters(s: State): (r: State)
    ensures r == Initial
  {
    State(InitialFilters(), AllTypes, 1)
  }

  /** The Per Page selector stores the text of its number, and the list is
      then cut by that number; the first state, and so Clear, cut by 50. */
  lemma PerPageChoice(s: State, n: nat)
    requires WellFormed(s.filters) && n > 0
    ensures PageSizeOf(HandleFilterChange(s, "limit", Text.IntToString(n)).filters) == Some(n)
    ensures PageSizeOf(ClearFilters(s).filters) == Some(50)
  {
    var t := Text.IntToString(n);
    assert t != "all" by {
      assert Text.IsDigit(t[0]);
    }
    Text.NatToStringRoundTrip(n);
  }

  /** The filters both alert requests send: the page's with limit 500. */
  function RequestFilters(f: Entries): (r: Entries)
    requires WellFormed(f)
    ensures WellFormed(r)
    ensures Get(r, "limit") == Some(Num(500))
    ensures forall k :: k != "limit" ==> Get(r, k) == Get(f, k)
  {
    Set(f, "limit", Num(500))
  }

  /** Choosing `'all'` in a filter drops that filter from the request:
      the empty string it stores is never sent. */
  lemma AllChoiceNotSent(s: State, key: string, t: string)
    // `offset` is never passed; a `limit` choice is replaced by 500 in the request
    requires WellFormed(s.filters) && key != "offset" && key != "limit"
    ensures (key, t) !in ApiClient.Query(RequestFilters(HandleFilterChange(s, key, "all").filters))
  {
    var r := RequestFilters(HandleFilterChange(s, key, "all").filters);
    ApiClient.QueryMember(r, key, t);
  }

  /** Any other choice is sent under its key. */
  lemma ChoiceSent(s: State, key: string, value: string)
    // `offset` is never passed; a `limit` choice is replaced by 500 in the request
    requires WellFormed(s.filters) && key != "offset" && key != "limit"
    requires value != "all" && value != ""
    ensures (key, value) in ApiClient.Query(RequestFilters(HandleFilterChange(s, key, value).filters))
  {
    var f := HandleFilterChange(s, key, value).filters;
    StringSent(RequestFilters(f), key, value);
  }

  /** A non-empty string stored under a key is sent under it. */
  lemma StringSent(r: Entries, key: string, value: string)
    requires WellFormed(r) && Get(r, key) == Some(Str(value)) && value != ""
    ensures (key, value) in ApiClient.Query(r)
  {
    ApiClient.QueryMember(r, key, value);
  }

  // ---- counts -----------------------------------------------------------------

  function Severities(alerts: seq<Alert>): (ks: seq<string>)
    ensures |ks| == |alerts| && forall i :: 0 <= i < |alerts| ==> ks[i] == alerts[i].severity
  {
    seq(|alerts|, i requires 0 <= i < |alerts| => alerts[i].severity)
  }

  function Statuses(alerts: seq<Alert>): (ks: seq<string>)
    ensures |ks| == |alerts| && forall i :: 0 <= i < |alerts| ==> ks[i] == alerts[i].status
  {
    seq(|alerts|, i requires 0 <= i < |alerts| => alerts[i].status)
  }

  /** `severityStats` and `statusStats` over both lists, whatever the type
      selector shows: each count is the number of alerts with that value, and
      each set of counts adds up to the number of alerts. Both lists are
      spread, so an envelope in either makes the page throw (`None`). */
  function Stats(alerts: Option<Reply<Alert>>, cardAlerts: Option<Reply<Alert>>)
    : (r: Option<(seq<(string, nat)>, seq<(string, nat)>)>)
    ensures r.None? <==> (alerts.Some? && alerts.value.Envelope?) || (cardAlerts.Some? && cardAlerts.value.Envelope?)
    ensures r.Some? ==> var all := ArrayOf(alerts).value + ArrayOf(cardAlerts).value;
      Seqs.SumCounts(r.value.0) == |all| && Seqs.SumCounts(r.value.1) == |all| &&
      (forall i :: 0 <= i < |r.value.0| ==> r.value.0[i].1 == multiset(Severities(all))[r.value.0[i].0]) &&
      (forall i :: 0 <= i < |r.value.1| ==> r.value.1[i].1 == multiset(Statuses(all))[r.value.1[i].0])
  {
    if ArrayOf(alerts).None? || ArrayOf(cardAlerts).None? then None
    else
      var all := ArrayOf(alerts).value + ArrayOf(cardAlerts).value;
      Some((Seqs.CountBy(Severities(all)), Seqs.CountBy(Statuses(all))))
  }

  /** The page renders, whatever the type selector shows, exactly when
      neither reply is an envelope. The backend's alert endpoints always
      answer with one, so once either query has loaded the page throws. */
  lemma RendersIffNoEnvelope(alerts: Option<Reply<Alert>>, cardAlerts: Option<Reply<Alert>>, v: View)
    ensures Stats(alerts, cardAlerts).Some? && AllAlerts(alerts, cardAlerts, v).Some? <==>
      ArrayOf(alerts).Some? && ArrayOf(cardAlerts).Some?
    ensures forall rs, cs :: Stats(Some(Envelope(rs)), cardAlerts).None? && Stats(alerts, Some(Envelope(cs))).None?
  {
  }

  // ---- CSV export -------------------------------------------------------------

  /** The header line's column names, in the order of each alert's cells. */
  const HeaderCells: seq<string> :=
    ["Type", "ID", "Severity", "Status", "Matched Field", "Matched Value", "Date Created"]

  const CsvHeader: string := Text.Join(HeaderCells, ',')

  lemma HeaderSingleLine()
    ensures '\n' !in CsvHeader
  {
    forall i | 0 <= i < |HeaderCells| ensures '\n' !in HeaderCells[i] {
      assert i in {0, 1, 2, 3, 4, 5, 6};
    }
    Text.JoinAvoids(HeaderCells, ',', '\n');
  }

  /** The cells of one alert's line. */
  function Cells(a: Alert): (c: seq<string>)
    ensures |c| == 7
    ensures c[0] == (if IsCard(a) then "Card Alert" else "Credential Alert")
    ensures c[4] == (if IsCard(a) then "BIN" else a.matchedField)
  {
    [if IsCard(a) then "Card Alert" else "Credential Alert",
     Text.IntToString(a.id), a.severity, a.status,
     if IsCard(a) then "BIN" else a.matchedField,
     if IsCard(a) then a.matchedBin.value else a.matchedValue,
     a.date]
  }

  function Line(a: Alert): string {
    Text.Join(Cells(a), ',')
  }

  function Lines(all: seq<Alert>): (ls: seq<string>)
    ensures |ls| == |all| && forall i :: 0 <= i < |all| ==> ls[i] == Line(all[i])
  {
    seq(|all|, i requires 0 <= i < |all| => Line(all[i]))
  }

  /** The exported document: the header, then one line per alert of the
      current type view, joined by newlines. */
  function Csv(all: seq<Alert>): (doc: string)
    ensures CsvHeader <= doc
    ensures all == [] ==> doc == CsvHeader
    ensures all != [] ==> |doc| > |CsvHeader| && doc[|CsvHeader|] == '\n'
  {
    if all != [] then Text.JoinCons(CsvHeader, Lines(all), '\n'); Text.Join([CsvHeader] + Lines(all), '\n')
    else Text.Join([CsvHeader] + Lines(all), '\n')
  }

  /** No cell of the alert holds a line break. */
  predicate SingleLine(a: Alert) {
    forall i :: 0 <= i < |Cells(a)| ==> '\n' !in Cells(a)[i]
  }

  /** When no cell holds a line break, the document has exactly one header
      line and then one line per alert, in order. */
  lemma CsvLineCount(all: seq<Alert>)
    requires forall i :: 0 <= i < |all| ==> SingleLine(all[i])
    ensures Text.Split(Csv(all), '\n') == [CsvHeader] + Lines(all)
    ensures |Text.Split(Csv(all), '\n')| == 1 + |all|
  {
    var parts := [CsvHeader] + Lines(all);
    HeaderSingleLine();
    forall i | 0 <= i < |parts| ensures '\n' !in parts[i] {
      if i > 0 {
        assert parts[i] == Line(all[i - 1]);
        LineAvoidsBreak(all[i - 1]);
      }
    }
    Text.SplitJoin(parts, '\n');
  }

  lemma LineAvoidsBreak(a: Alert)
    requires SingleLine(a)
    ensures '\n' !in Line(a)
  {
    Text.JoinAvoids(Cells(a), ',', '\n');
  }

  // ---- row actions ------------------------------------------------------------

  /** The review buttons of a row: only for status `new`, and they go to the
      card alert endpoints exactly for card alerts. */
  function ButtonRoute(a: Alert, b: AlertsPanel.Button): (r: Option<AlertsPanel.Route>)
    ensures r.Some? <==> a.status == "new"
    ensures r.Some? ==> (r.value.CardRoute? <==> IsCard(a)) && !r.value.NoRoute?
    ensures r.Some? ==> r.value.button == b && r.value.id == a.id
  {
    if a.status != "new" then None
    else if IsCard(a) then Some(AlertsPanel.CardRoute(b, a.id))
    else Some(AlertsPanel.CredentialRoute(b, a.id))
  }

  /** Under the `card` view every button on every page goes to a card
      endpoint, and under the `credential` view to a credential endpoint,
      as long as the lists hold the kind their endpoint serves. */
  lemma ViewRoutes(alerts: Option<Reply<Alert>>, cardAlerts: Option<Reply<Alert>>, p: int, size: nat, a: Alert,
                   b: AlertsPanel.Button)
    requires size > 0
    requires forall x :: x in ArrayOf(alerts).GetOr([]) ==> !IsCard(x)
    requires forall x :: x in ArrayOf(cardAlerts).GetOr([]) ==> IsCard(x)
    requires a.status == "new"
    ensures var cs := AllAlerts(alerts, cardAlerts, CardsOnly);
      cs.Some? && a in PageOf(cs.value, p, size) ==> ButtonRoute(a, b).value.CardRoute?
    ensures var cr := AllAlerts(alerts, cardAlerts, CredentialsOnly);
      cr.Some? && a in PageOf(cr.value, p, size) ==> ButtonRoute(a, b).value.CredentialRoute?
  {
    var cs := AllAlerts(alerts, cardAlerts, CardsOnly);
    var cr := AllAlerts(alerts, cardAlerts, CredentialsOnly);
    if cs.Some? {
      SliceWithin(cs.value, p, size, a);
    }
    if cr.Some? {
      SliceWithin(cr.value, p, size, a);
    }
  }

  /** Everything on a page comes from the list it was cut from. */
  lemma SliceWithin(all: seq<Alert>, p: int, size: nat, a: Alert)
    requires size > 0
    ensures a in PageOf(all, p, size) ==> a in all
  {
    if a in PageOf(all, p, size) {
      Paging.JsSliceWithin(all, (p - 1) * size, p * size, a);
    }
  }
}

=== FILE: alerts_panel.dfy ===
/** The alerts panel of the overview page
    (src/components/EnhancedAlertsPanel.tsx): credential and card alerts
    tagged with their kind, filtered by kind, cut to the first page, and the
    review buttons that dispatch to the handler of the alert's kind. */
module AlertsPanel {
  import opened Wrappers
  import Seqs

  datatype Kind = CredentialKind | CardKind

  /** What the panel reads of an alert. */
  datatype Item = Item(id: nat, status: string)

  /** An alert with the `type` tag the panel adds. */
  datatype Tagged = Tagged(item: Item, kind: Kind)

  function Tag(items: seq<Item>, k: Kind): (r: seq<Tagged>)
    ensures |r| == |items|
    ensures forall i :: 0 <= i < |items| ==> r[i] == Tagged(items[i], k)
  {
    seq(|items|, i requires 0 <= i < |items| => Tagged(items[i], k))
  }

  /** `combinedAlerts`: the credential alerts tagged `credential`, then the
      card alerts tagged `card`. */
  function Combine(alerts: seq<Item>, cardAlerts: seq<Item>): (r: seq<Tagged>)
    ensures |r| == |alerts| + |cardAlerts|
    ensures forall i :: 0 <= i < |alerts| ==> r[i] == Tagged(alerts[i], CredentialKind)
    ensures forall j :: 0 <= j < |cardAlerts| ==> r[|alerts| + j] == Tagged(cardAlerts[j], CardKind)
  {
    Tag(alerts, CredentialKind) + Tag(cardAlerts, CardKind)
  }

  /** The panel's type selector: everything, or one kind. */
  datatype FilterType = AllKinds | OnlyKind(kind: Kind)

  function Keeps(f: FilterType): Tagged -> bool {
    (t: Tagged) => f.AllKinds? || t.kind == f.kind
  }

  /** `filteredAlerts`, in combined order. */
  function Filtered(combined: seq<Tagged>, f: FilterType): (r: seq<Tagged>)
    ensures f.AllKinds? ==> r == combined
    ensures forall t :: t in r <==> t in combined && (f.AllKinds? || t.kind == f.kind)
  {
    Seqs.FilterMembers(combined, Keeps(f));
    if f.AllKinds? then combined else Seqs.Filter(combined, Keeps(f))
  }

  /** Choosing one kind shows exactly the alerts of that kind, in their
      order: the filter undoes the combining. */
  lemma FilterSeparates(alerts: seq<Item>, cardAlerts: seq<Item>)
    ensures Filtered(Combine(alerts, cardAlerts), OnlyKind(CredentialKind)) == Tag(alerts, CredentialKind)
    ensures Filtered(Combine(alerts, cardAlerts), OnlyKind(CardKind)) == Tag(cardAlerts, CardKind)
  {
    var a := Tag(alerts, CredentialKind);
    var b := Tag(cardAlerts, CardKind);
    Seqs.FilterAppend(a, b, Keeps(OnlyKind(CredentialKind)));
    Seqs.FilterAppend(a, b, Keeps(OnlyKind(CardKind)));
    Seqs.FilterKeepsAll(a, Keeps(OnlyKind(CredentialKind)));
    Seqs.FilterKeepsAll(b, Keeps(OnlyKind(CardKind)));
    Seqs.FilterNone(b, Keeps(OnlyKind(CredentialKind)));
    Seqs.FilterNone(a, Keeps(OnlyKind(CardKind)));
  }

  /** `displayedAlerts`: the first `perPage` filtered alerts. */
  function Displayed(filtered: seq<Tagged>, perPage: nat): (r: seq<Tagged>)
    ensures |r| <= perPage && r <= filtered
    ensures |filtered| >= perPage ==> |r| == perPage
  {
    Seqs.Take(filtered, perPage)
  }

  /** The "Showing n of m" footer appears exactly when some filtered alert
      is not displayed. */
  lemma FooterWhenCut(filtered: seq<Tagged>, perPage: nat)
    ensures |filtered| > perPage <==> |Displayed(filtered, perPage)| < |filtered|
  {
  }

  /** The two review buttons of a row. */
  datatype Button = Resolve | FalsePositive

  /** Which handler a review button calls, and for which alert. */
  datatype Route = CredentialRoute(button: Button, id: nat) | CardRoute(button: Button, id: nat) | NoRoute

  /** The optional card props the parent supplied: `onResolveCardAlert`
      and `onMarkCardAlertFalsePositive`. */
  datatype CardHandlers = CardHandlers(resolve: bool, falsePositive: bool) {
    predicate Has(b: Button) {
      match b
      case Resolve => resolve
      case FalsePositive => falsePositive
    }
  }

  /** A row's Resolve or False Positive button: none unless the status is
      `new`; a credential alert goes to that button's credential handler, a
      card alert to that button's card handler when the parent supplied it
      and nowhere otherwise. */
  function ButtonRoute(t: Tagged, b: Button, card: CardHandlers): (r: Option<Route>)
    ensures r.Some? <==> t.item.status == "new"
    ensures r.Some? && t.kind == CredentialKind ==> r.value == CredentialRoute(b, t.item.id)
    ensures r.Some? && t.kind == CardKind ==> r.value == (if card.Has(b) then CardRoute(b, t.item.id) else NoRoute)
  {
    if t.item.status != "new" then None
    else if t.kind == CredentialKind then Some(CredentialRoute(b, t.item.id))
    else if card.Has(b) then Some(CardRoute(b, t.item.id))
    else Some(NoRoute)
  }

  /** Every button on the panel reaches the table the alert came from: a
      displayed card alert never reaches the credential handler, and a
      credential alert never the card handler. */
  lemma ButtonsKeepTheirTable(alerts: seq<Item>, cardAlerts: seq<Item>, f: FilterType, perPage: nat,
                              b: Button, card: CardHandlers, t: Tagged)
    requires t in Displayed(Filtered(Combine(alerts, cardAlerts), f), perPage)
    requires ButtonRoute(t, b, card).Some?
    ensures ButtonRoute(t, b, card).value.CredentialRoute? ==> t.item in alerts
    ensures ButtonRoute(t, b, card).value.CardRoute? ==> t.item in cardAlerts
  {
    var c := Combine(alerts, cardAlerts);
    assert t in c;
    var i :| 0 <= i < |c| && c[i] == t;
    if i >= |alerts| {
      assert c[|alerts| + (i - |alerts|)] == Tagged(cardAlerts[i - |alerts|], CardKind);
    }
  }

}

=== FILE: api_client.dfy ===
/** The browser-side API client (src/services/api.ts): how filter objects
    become query strings, which headers a request carries, the token the
    client holds across login, logout and a page reload, and the `user_id`
    it sends with a review. */
module ApiClient {
  import opened Wrappers
  import JsObject
  import AlertReview
  import Seqs
  import Store

  // ---- query strings ----------------------------------------------------

  /** A filter entry reaches the query string unless its value is
      `undefined` or the empty string. */
  predicate Sent(v: JsObject.Value) {
    v != JsObject.Undefined && v != JsObject.Str("")
  }

  /** The parameter one entry contributes: none, or the key with the value's
      text. */
  function Param(e: (string, JsObject.Value)): (q: seq<(string, string)>)
    ensures |q| <= 1
    ensures q != [] <==> Sent(e.1)
  {
    if Sent(e.1) then [(e.0, JsObject.ToText(e.1))] else []
  }

  /** `URLSearchParams` built from a filter object: the sent entries in the
      object's order, each value turned into text. */
  function Query(filters: JsObject.Entries): (q: seq<(string, string)>)
    ensures |q| <= |filters|
    decreases |filters|
  {
    if |filters| == 0 then []
    else Param(filters[0]) + Query(filters[1..])
  }

  /** Building the query string distributes over the entry list, so entry
      order is query order. */
  lemma {:induction false} QueryAppend(a: JsObject.Entries, b: JsObject.Entries)
    ensures Query(a + b) == Query(a) + Query(b)
    decreases |a|
  {
    if |a| == 0 {
      assert a + b == b;
    } else {
      assert (a + b)[0] == a[0];
      assert (a + b)[1..] == a[1..] + b;
      QueryAppend(a[1..], b);
      calc {
        Query(a + b);
        Param(a[0]) + Query(a[1..] + b);
        Param(a[0]) + (Query(a[1..]) + Query(b));
        (Param(a[0]) + Query(a[1..])) + Query(b);
      }
    }
  }

  /** In a well-formed filter object, `(k, t)` is a query parameter exactly
      when `k` holds a sent value whose text is `t`. */
  lemma {:induction false} QueryMember(filters: JsObject.Entries, k: string, t: string)
    requires JsObject.WellFormed(filters)
    ensures (k, t) in Query(filters) <==>
      (JsObject.Get(filters, k).Some? && Sent(JsObject.Get(filters, k).value) && t == JsObject.ToText(JsObject.Get(filters, k).value))
    decreases |filters|
  {
    if |filters| > 0 {
      var e := filters[0];
      var rest := filters[1..];
      assert filters == [e] + rest;
      JsObject.GetCons(e, rest, k);
      assert JsObject.WellFormed(rest) by {
        forall i, j | 0 <= i < j < |rest| ensures rest[i].0 != rest[j].0 {
          assert rest[i] == filters[i + 1] && rest[j] == filters[j + 1];
        }
      }
      QueryMember(rest, k, t);
      if e.0 == k {
        assert JsObject.Get(rest, k).None?;
      }
    }
  }

  /** `exportCredentials`: `format` first, then the sent filters. */
  function ExportQuery(format: string, filters: Option<JsObject.Entries>): (q: seq<(string, string)>)
    ensures |q| >= 1 && q[0] == ("format", format)
    ensures filters.None? ==> q == [("format", format)]
    ensures filters.Some? ==> q[1..] == Query(filters.value)
  {
    [("format", format)] + (if filters.Some? then Query(filters.value) else [])
  }

  /** `getComprehensiveDashboard`: the country parameter only when truthy. */
  function DashboardQuery(country: Option<string>): (q: seq<(string, string)>)
    ensures q != [] <==> Truthy(country)
    ensures q != [] ==> q == [("country", country.value)]
  {
    if Truthy(country) then [("country", country.value)] else []
  }

  // ---- client state -------------------------------------------------------

  /** The stored user record; only its `id` matters here. */
  datatype StoredUser = StoredUser(id: Option<nat>)

  /** The two `localStorage` keys the client uses. */
  datatype Storage = Storage(authToken: Option<string>, user: Option<StoredUser>)

  /** The client: the token it holds and the browser storage. */
  datatype Client = Client(token: Option<string>, storage: Storage)

  /** A new client (on every page load) reads its token from storage. */
  function Start(storage: Storage): (c: Client)
    ensures c.token == storage.authToken && c.storage == storage
  {
    Client(storage.authToken, storage)
  }

  /** The server's answer to a login request. */
  datatype LoginReply = Rejected | Accepted(accessToken: string, user: StoredUser)

  /** `login`: a rejected login throws and leaves the client as it was
      (`None`); an accepted one holds and stores the access token and stores
      the user. */
  function Login(c: Client, reply: LoginReply): (r: Option<Client>)
    ensures r.Some? <==> reply.Accepted?
    ensures r.Some? ==> r.value.token == Some(reply.accessToken)
    ensures r.Some? ==> r.value.storage == Storage(Some(reply.accessToken), Some(reply.user))
  {
    match reply
    case Rejected => None
    case Accepted(t, u) => Some(Client(Some(t), Storage(Some(t), Some(u))))
  }

  /** `logout`: no token held, both storage keys removed. */
  function Logout(c: Client): (r: Client)
    ensures r.token.None? && r.storage.authToken.None? && r.storage.user.None?
  {
    Client(None, Storage(None, None))
  }

  /** A login survives a reload: the new client starts with the same token. */
  lemma LoginSurvivesReload(c: Client, t: string, u: StoredUser)
    ensures Login(c, Accepted(t, u)).Some?
    ensures Start(Login(c, Accepted(t, u)).value.storage).token == Some(t)
  {
  }

  /** A logout survives a reload, and logging out twice is logging out once. */
  lemma LogoutSurvivesReload(c: Client)
    ensures Start(Logout(c).storage).token.None?
    ensures Logout(Logout(c)) == Logout(c)
  {
  }

  // ---- headers ------------------------------------------------------------

  /** `getHeaders`: JSON content type always, a bearer token when one is held
      and is not the empty string. */
  function Headers(c: Client): (h: seq<(string, string)>)
    ensures |h| >= 1 && h[0] == ("Content-Type", "application/json")
    ensures |h| <= 2
    ensures forall v :: ("Authorization", v) in h <==>
      (Truthy(c.token) && v == "Bearer " + c.token.value)
  {
    [("Content-Type", "application/json")] +
    (if Truthy(c.token) then [("Authorization", "Bearer " + c.token.value)] else [])
  }

  /** The headers of `uploadBinFile`: only an Authorization header, empty when
      no token is held (the browser sets the multipart content type). */
  function UploadHeaders(c: Client): (h: seq<(string, string)>)
    ensures |h| == 1 && h[0].0 == "Authorization"
    ensures Truthy(c.token) ==> h[0].1 == "Bearer " + c.token.value
    ensures !Truthy(c.token) ==> h[0].1 == ""
  {
    [("Authorization", if Truthy(c.token) then "Bearer " + c.token.value else "")]
  }

  /** After a login, requests carry that token; after a logout, none. */
  lemma HeadersFollowSession(c: Client, t: string, u: StoredUser)
    requires t != ""
    ensures ("Authorization", "Bearer " + t) in Headers(Login(c, Accepted(t, u)).value)
    ensures Headers(Logout(c)) == [("Content-Type", "application/json")]
  {
    assert Headers(Login(c, Accepted(t, u)).value)[1] == ("Authorization", "Bearer " + t);
  }

  // ---- review requests ----------------------------------------------------

  /** `getCurrentUser()?.id || 1`: the stored user's id, or 1 when there is no
      stored user or its id is missing or 0. */
  function ReviewUserId(c: Client): (id: nat)
    ensures id >= 1
    ensures c.storage.user.Some? && c.storage.user.value.id.Some? && c.storage.user.value.id.value != 0 ==>
      id == c.storage.user.value.id.value
    ensures c.storage.user.None? || c.storage.user.value.id.None? || c.storage.user.value.id == Some(0) ==>
      id == 1
  {
    match c.storage.user
    case None => 1
    case Some(u) =>
      match u.id
      case None => 1
      case Some(n) => if n == 0 then 1 else n
  }

  /** The body of the four review requests. */
  function ReviewBody(c: Client): (b: AlertReview.UserField)
    ensures b.User? && b.id >= 1
  {
    AlertReview.User(ReviewUserId(c))
  }

  /** End to end: a review sent by this client records, on every row with
      the id, the logged-in user's id (1 when none) and never NULL. */
  lemma ReviewRecordsClientUser<D>(c: Client, rows: seq<Store.Row<D>>, alertId: nat,
                                   a: AlertReview.Action, card: bool)
    ensures var res := AlertReview.Review(rows, alertId, a, Some(ReviewBody(c)), card);
      forall i :: 0 <= i < |rows| && rows[i].id == alertId ==>
        res.0[i].reviewedBy == Some(ReviewUserId(c)) && res.0[i].status == AlertReview.Target(a)
  {
  }
}

=== FILE: bin_table.dfy ===
/** The built-in table of Egyptian BINs (the first six digits of a card
    number) and the lookups and per-bank aggregation built on it
    (backend/app.py). */
module BinTable {
  import opened Wrappers
  import Text
  import Seqs

  /** Scheme, card type, issuing bank and country of one BIN. */
  datatype BinInfo = BinInfo(scheme: string, cardType: string, issuer: string, country: string)

  /** `EGYPTIAN_BINS`, in the dictionary's insertion order. */
  const EgyptianBins: seq<(string, BinInfo)> := [
    ("623078", BinInfo("China union pay", "Debit", "EGYPTIAN GULF BANK", "EG")),
    ("594526", BinInfo("Maestro", "Credit", "HSBC BANK EGYPT S.A.E", "EG")),
    ("559461", BinInfo("Mastercard", "Debit", "EMIRATES NATIONAL BANK OF DUBAI S.A.E", "EG")),
    ("559444", BinInfo("Mastercard", "Debit", "NATIONAL BANK OF EGYPT", "EG")),
    ("559254", BinInfo("Mastercard", "Credit", "ABU DHABI ISLAMIC BANK", "EG")),
    ("558712", BinInfo("Mastercard", "Credit", "HSBC BANK EGYPT", "EG")),
    ("558711", BinInfo("Mastercard", "Credit", "HSBC BANK EGYPT", "EG")),
    ("558710", BinInfo("Mastercard", "Credit", "HSBC BANK EGYPT", "EG")),
    ("558708", BinInfo("Mastercard", "Credit", "HSBC BANK EGYPT", "EG")),
    ("557666", BinInfo("Mastercard", "Debit", "EGYPTIAN BANKS CO. FOR TECHNOLOGICAL ADVANCEMENT, S.A.E.", "EG")),
    ("557653", BinInfo("Mastercard", "Debit", "EGYPTIAN BANKS CO. FOR TECHNOLOGICAL ADVANCEMENT, S.A.E.", "EG")),
    ("557607", BinInfo("Mastercard", "Debit", "COMMERCIAL INTERNATIONAL BANK (EGYPT) S.A.E.", "EG")),
    ("557313", BinInfo("Mastercard", "Debit", "BANQUE MISR", "EG")),
    ("556633", BinInfo("Mastercard", "Credit", "BANK AUDI SAL", "EG")),
    ("555922", BinInfo("Mastercard", "Debit", "EGYPTIAN BANKS CO. FOR TECHNOLOGICAL ADVANCEMENT, S.A.E.", "EG")),
    ("553413", BinInfo("Mastercard", "Credit", "NATIONAL BANK OF EGYPT", "EG")),
    ("552921", BinInfo("Mastercard", "Credit", "CITIBANK, N.A.", "EG")),
    ("552919", BinInfo("Mastercard", "Credit", "CITIBANK, N.A.", "EG")),
    ("552918", BinInfo("Mastercard", "Credit", "CITIBANK, N.A.", "EG")),
    ("552916", BinInfo("Mastercard", "Credit", "HSBC BANK EGYPT", "EG")),
    ("552566", BinInfo("Mastercard", "Credit", "COMMERCIAL INTERNATIONAL BANK (EGYPT) S.A.E.", "EG")),
    ("552425", BinInfo("Mastercard", "Credit", "NATIONAL BANK OF KUWAIT (S.A.K.)", "EG")),
    ("552362", BinInfo("Mastercard", "Credit", "BANK AUDI SAL", "EG")),
    ("550506", BinInfo("Mastercard", "Credit", "COMMERCIAL INTERNATIONAL BANK (EGYPT) S.A.E.", "EG")),
    ("550444", BinInfo("Mastercard", "Credit", "ARAB INTERNATIONAL BANK", "EG")),
    ("550442", BinInfo("Mastercard", "Credit", "ARAB INTERNATIONAL BANK", "EG")),
    ("550431", BinInfo("Mastercard", "Credit", "ARAB INTERNATIONAL BANK", "EG")),
    ("550368", BinInfo("Mastercard", "Debit", "BANQUE MISR", "EG")),
    ("550228", BinInfo("Mastercard", "Credit", "UNITED BANK S.E.A.", "EG")),
    ("498881", BinInfo("Visa", "Credit", "BANQUE MISR", "EG")),
    ("498880", BinInfo("Visa", "Debit", "BANQUE MISR", "EG")),
    ("498839", BinInfo("Visa", "Credit", "BANQUE MISR", "EG")),
    ("498835", BinInfo("Visa", "Credit", "BANQUE MISR", "EG")),
    ("498814", BinInfo("Visa", "Debit", "BANQUE MISR", "EG")),
    ("498813", BinInfo("Visa", "Debit", "BANQUE MISR", "EG")),
    ("494609", BinInfo("Visa", "Debit", "NATIONAL BANK OF EGYPT", "EG")),
    ("494608", BinInfo("Visa", "Credit", "NATIONAL BANK OF EGYPT", "EG")),
    ("494606", BinInfo("Visa", "Debit", "NATIONAL BANK OF EGYPT", "EG")),
    ("488953", BinInfo("Visa", "Credit", "NATIONAL BANK OF EGYPT", "EG")),
    ("486667", BinInfo("Visa", "Credit", "CITIBANK", "EG")),
    ("486393", BinInfo("Visa", "Debit", "BANK OF ALEXANDRIA", "EG")),
    ("486318", BinInfo("Visa", "Credit", "COMMERCIAL INTERNATIONAL BANK", "EG")),
    ("484890", BinInfo("Visa", "Debit", "NATIONAL SOCIETE GENERALE BANK S.A.E.", "EG")),
    ("484889", BinInfo("Visa", "Credit", "NATIONAL SOCIETE GENERALE BANK S.A.E.", "EG")),
    ("483469", BinInfo("Visa", "Debit", "NATIONAL BANK OF EGYPT", "EG")),
    ("481355", BinInfo("Visa", "Credit", "BANQUE MISR", "EG")),
    ("479069", BinInfo("Visa", "Credit", "COMMERCIAL INTERNATIONAL BANK", "EG")),
    ("479031", BinInfo("Visa", "Credit", "NATIONAL BANK OF EGYPT", "EG")),
    ("478749", BinInfo("Visa", "Credit", "BANQUE MISR", "EG")),
    ("478684", BinInfo("Visa", "Debit", "UNION NATIONAL BANK - EGYPT", "EG")),
    ("474733", BinInfo("Visa", "Credit", "ARAB BANK PLC", "EG")),
    ("474718", BinInfo("Visa", "Debit", "ARAB BANK PLC", "EG")),
    ("473866", BinInfo("Visa", "Debit", "NATIONAL SOCIETE GENERALE BANK S.A.E.", "EG")),
    ("473865", BinInfo("Visa", "Debit", "NATIONAL SOCIETE GENERALE BANK S.A.E.", "EG")),
    ("473864", BinInfo("Visa", "Debit", "NATIONAL SOCIETE GENERALE BANK S.A.E.", "EG")),
    ("472845", BinInfo("Visa", "Debit", "NATIONAL BANK OF EGYPT", "EG")),
    ("472594", BinInfo("Visa", "Debit", "BANK OF ALEXANDRIA", "EG")),
    ("471445", BinInfo("Visa", "Debit", "BANQUE MISR", "EG")),
    ("470697", BinInfo("Visa", "Credit", "BLOM BANK EGYPT", "EG")),
    ("470696", BinInfo("Visa", "Debit", "BLOM BANK EGYPT", "EG")),
    ("470695", BinInfo("Visa", "Credit", "BLOM BANK EGYPT", "EG")),
    ("470694", BinInfo("Visa", "Credit", "BLOM BANK EGYPT", "EG")),
    ("470693", BinInfo("Visa", "Credit", "BLOM BANK EGYPT", "EG")),
    ("470599", BinInfo("Visa", "Credit", "NATIONAL BANK OF EGYPT", "EG")),
    ("470363", BinInfo("Visa", "Credit", "CREDIT AGRICOLE EGYPT S.A.E.", "EG")),
    ("469680", BinInfo("Visa", "Credit", "ARAB AFRICAN INTERNATIONAL BANK", "EG")),
    ("469580", BinInfo("Visa", "Credit", "ARAB BANKING CORPORATION - EGYPT", "EG")),
    ("469579", BinInfo("Visa", "Credit", "ARAB BANKING CORPORATION - EGYPT", "EG")),
    ("469578", BinInfo("Visa", "Credit", "ARAB BANKING CORPORATION - EGYPT", "EG")),
    ("469361", BinInfo("Visa", "Credit", "CITIBANK", "EG")),
    ("467738", BinInfo("Visa", "Debit", "ALWATANY BANK OF EGYPT", "EG")),
    ("465727", BinInfo("Visa", "Credit", "ARAB INTERNATIONAL BANK", "EG")),
    ("465566", BinInfo("Visa", "Debit", "BANQUE MISR", "EG")),
    ("464619", BinInfo("Visa", "Credit", "BANQUE MISR", "EG")),
    ("464481", BinInfo("Visa", "Credit", "EGYPTIAN GULF BANK", "EG")),
    ("464480", BinInfo("Visa", "Credit", "EGYPTIAN GULF BANK", "EG")),
    ("460014", BinInfo("Visa", "Debit", "ARAB AFRICAN INTERNATIONAL BANK", "EG")),
    ("458834", BinInfo("Visa", "Debit", "HSBC BANK - EGYPT SAE", "EG")),
    ("458832", BinInfo("Visa", "Debit", "HSBC BANK - EGYPT SAE", "EG")),
    ("458830", BinInfo("Visa", "Debit", "HSBC BANK - EGYPT SAE", "EG")),
    ("458783", BinInfo("Visa", "Credit", "ARAB AFRICAN INTERNATIONAL BANK", "EG")),
    ("458245", BinInfo("Visa", "Debit", "CITIBANK, N.A.", "EG")),
    ("458244", BinInfo("Visa", "Debit", "CITIBANK, N.A.", "EG")),
    ("458243", BinInfo("Visa", "Debit", "CITIBANK, N.A.", "EG")),
    ("457872", BinInfo("Visa", "Credit", "UNION NATIONAL BANK - EGYPT", "EG")),
    ("457871", BinInfo("Visa", "Debit", "UNION NATIONAL BANK - EGYPT", "EG")),
    ("457638", BinInfo("Visa", "Debit", "CREDIT AGRICOLE EGYPT S.A.E.", "EG")),
    ("457376", BinInfo("Visa", "Debit", "NATIONAL BANK OF EGYPT", "EG")),
    ("457338", BinInfo("Visa", "Debit", "BLOM BANK EGYPT", "EG"))
  ]

  /** `table.get(bin)` on a dictionary listed as key/value pairs: the value
      of the first pair with key `bin`, if any. */
  function LookupIn(table: seq<(string, BinInfo)>, bin: string): (r: Option<BinInfo>)
    ensures r.Some? <==> bin in Seqs.Keys(table)
    ensures r.Some? ==> (bin, r.value) in table
  {
    var i := Seqs.KeyIndex(table, bin);
    if i < |table| then
      assert table[i] == (bin, table[i].1);
      Some(table[i].1)
    else None
  }

  /** `EGYPTIAN_BINS.get(bin)`: the entry listed for `bin`, if any. */
  function Lookup(bin: string): (r: Option<BinInfo>)
    ensures r.Some? <==> bin in Seqs.Keys(EgyptianBins)
    ensures r.Some? ==> (bin, r.value) in EgyptianBins
  {
    LookupIn(EgyptianBins, bin)
  }

  /** `get_bin_info(card_number)`: nothing for a missing, empty or short
      number, otherwise the table entry for its first six characters. */
  function GetBinInfo(number: Option<string>): (r: Option<BinInfo>)
    ensures number.None? || |number.value| < 6 ==> r.None?
    ensures r.Some? ==> (number.value[..6], r.value) in EgyptianBins
    ensures number.Some? && |number.value| >= 6 && number.value[..6] in Seqs.Keys(EgyptianBins) ==> r.Some?
  {
    if !Truthy(number) || |number.value| < 6 then None
    else Lookup(number.value[..6])
  }

  /** The lookup reads nothing past the sixth character. */
  lemma GetBinInfoUsesPrefix(a: string, b: string)
    requires |a| >= 6 && |b| >= 6 && a[..6] == b[..6]
    ensures GetBinInfo(Some(a)) == GetBinInfo(Some(b))
  {
  }

  // ---- bank-name filter -------------------------------------------------

  /** The issuer of a table entry names the bank, ignoring case. */
  predicate IssuerMatches(bankName: string, e: (string, BinInfo)) {
    Text.Contains(Text.ToLower(e.1.issuer), Text.ToLower(bankName))
  }

  /** The BINs of `table` whose issuer contains `bankName` case-insensitively,
      in table order. */
  function MatchingBinsIn(table: seq<(string, BinInfo)>, bankName: string): (r: seq<string>)
    ensures |r| <= |table|
    ensures forall i :: 0 <= i < |r| ==>
      exists e :: e in table && e.0 == r[i] && IssuerMatches(bankName, e)
    ensures forall i :: 0 <= i < |table| && IssuerMatches(bankName, table[i]) ==>
      table[i].0 in r
  {
    var hits := Seqs.Filter(table, e => IssuerMatches(bankName, e));
    var r := Seqs.Keys(hits);
    Seqs.FilterMembers(table, e => IssuerMatches(bankName, e));
    assert forall i :: 0 <= i < |r| ==> hits[i] in table && hits[i].0 == r[i] && IssuerMatches(bankName, hits[i]);
    assert forall i :: 0 <= i < |table| && IssuerMatches(bankName, table[i]) ==> table[i] in hits;
    r
  }

  /** The bank-name filter of the card search, over the built-in table. */
  function MatchingBins(bankName: string): seq<string> {
    MatchingBinsIn(EgyptianBins, bankName)
  }

  // ---- per-bank aggregation -----------------------------------------------

  /** The number of cards counted for `bin` in the per-BIN statistics: the
      first row with that BIN, or 0 when there is none. */
  function CountFor(binStats: seq<(string, nat)>, bin: string): (c: nat)
    ensures bin !in Seqs.Keys(binStats) ==> c == 0
    ensures bin in Seqs.Keys(binStats) ==> exists i :: 0 <= i < |binStats| && binStats[i] == (bin, c)
  {
    var i := Seqs.KeyIndex(binStats, bin);
    if i < |binStats| then binStats[i].1 else 0
  }

  /** A bank with the total card count over its BINs and the BINs that
      contributed at least one card. */
  datatype BankStat = BankStat(bankName: string, count: nat, bins: seq<string>)

  /** Reference definition: the cards counted over every entry of `table`
      issued by `bank`. */
  function IssuerTotal(table: seq<(string, BinInfo)>, binStats: seq<(string, nat)>, bank: string): nat
    decreases |table|
  {
    if |table| == 0 then 0
    else
      var (bin, info) := table[|table| - 1];
      IssuerTotal(table[..|table| - 1], binStats, bank) + (if info.issuer == bank then CountFor(binStats, bin) else 0)
  }

  /** Reference definition: the BINs of `table` issued by `bank` that have at
      least one card, in table order. */
  function IssuerBins(table: seq<(string, BinInfo)>, binStats: seq<(string, nat)>, bank: string): seq<string>
    decreases |table|
  {
    if |table| == 0 then []
    else
      var (bin, info) := table[|table| - 1];
      IssuerBins(table[..|table| - 1], binStats, bank)
        + (if info.issuer == bank && CountFor(binStats, bin) > 0 then [bin] else [])
  }

  function Names(acc: seq<BankStat>): (ns: seq<string>)
    ensures |ns| == |acc|
    ensures forall i :: 0 <= i < |acc| ==> ns[i] == acc[i].bankName
  {
    seq(|acc|, i requires 0 <= i < |acc| => acc[i].bankName)
  }

  function Issuers(table: seq<(string, BinInfo)>): (ns: seq<string>)
    ensures |ns| == |table|
    ensures forall i :: 0 <= i < |table| ==> ns[i] == table[i].1.issuer
  {
    seq(|table|, i requires 0 <= i < |table| => table[i].1.issuer)
  }

  predicate DistinctBanks(acc: seq<BankStat>) {
    forall i, j :: 0 <= i < j < |acc| ==> acc[i].bankName != acc[j].bankName
  }

  /** Position of `bank` in `acc`, or `|acc|` when absent. */
  function BankIndex(acc: seq<BankStat>, bank: string): (i: nat)
    ensures i <= |acc|
    ensures i < |acc| ==> acc[i].bankName == bank
    ensures i == |acc| ==> bank !in Names(acc)
    decreases |acc|
  {
    if |acc| == 0 then 0
    else if acc[0].bankName == bank then 0
    else
      var j := BankIndex(acc[1..], bank);
      assert Names(acc) == [acc[0].bankName] + Names(acc[1..]);
      1 + j
  }

  /** One step of the `bank_stats` loop: add BIN `bin` with `c` cards to the
      entry of `bank`, creating the entry (with count 0) the first time the
      bank is seen. */
  function AddBin(acc: seq<BankStat>, bank: string, bin: string, c: nat): (r: seq<BankStat>)
    requires DistinctBanks(acc)
    ensures DistinctBanks(r)
    ensures Names(r) == if bank in Names(acc) then Names(acc) else Names(acc) + [bank]
    ensures forall i :: 0 <= i < |acc| && acc[i].bankName != bank ==> r[i] == acc[i]
    ensures forall i :: 0 <= i < |r| && r[i].bankName == bank ==>
      var before := if i < |acc| then acc[i] else BankStat(bank, 0, []);
      r[i] == BankStat(bank, before.count + c, before.bins + if c > 0 then [bin] else [])
  {
    var i := BankIndex(acc, bank);
    var added := if c > 0 then [bin] else [];
    if i < |acc| then
      var r := acc[i := BankStat(bank, acc[i].count + c, acc[i].bins + added)];
      assert bank in Names(acc) by { assert Names(acc)[i] == bank; }
      assert Names(r) == Names(acc) by {
        forall k | 0 <= k < |r| ensures Names(r)[k] == Names(acc)[k] {
        }
      }
      DistinctBanksByNames(acc, r);
      r
    else
      var r := acc + [BankStat(bank, c, added)];
      assert Names(r) == Names(acc) + [bank] by {
        forall k | 0 <= k < |r| ensures Names(r)[k] == (Names(acc) + [bank])[k] {
        }
      }
      AppendNewBank(acc, BankStat(bank, c, added));
      r
  }

  /** Distinctness depends on the names alone. */
  lemma DistinctBanksByNames(acc: seq<BankStat>, r: seq<BankStat>)
    requires DistinctBanks(acc) && Names(r) == Names(acc)
    ensures DistinctBanks(r)
  {
    forall i, j | 0 <= i < j < |r| ensures r[i].bankName != r[j].bankName {
      assert Names(r)[i] == Names(acc)[i] && Names(r)[j] == Names(acc)[j];
    }
  }

  /** A new bank appended after distinct banks keeps them distinct. */
  lemma AppendNewBank(acc: seq<BankStat>, b: BankStat)
    requires DistinctBanks(acc) && b.bankName !in Names(acc)
    ensures DistinctBanks(acc + [b])
  {
    var r := acc + [b];
    forall i, j | 0 <= i < j < |r| ensures r[i].bankName != r[j].bankName {
      if j == |acc| {
        assert Names(acc)[i] == r[i].bankName;
      }
    }
  }

  /** The distinct elements of `s` in order of first appearance (the key
      order of a dictionary filled from `s`). */
  function FirstSeen(s: seq<string>): (r: seq<string>)
    ensures forall x :: x in r <==> x in s
    ensures forall i, j :: 0 <= i < j < |r| ==> r[i] != r[j]
    decreases |s|
  {
    if |s| == 0 then []
    else
      var prev := FirstSeen(s[..|s| - 1]);
      assert s == s[..|s| - 1] + [s[|s| - 1]];
      if s[|s| - 1] in prev then prev else prev + [s[|s| - 1]]
  }

  /** The `bank_stats` dictionary after walking `table` in order: one entry
      per issuer, in order of first appearance. */
  function Accumulate(table: seq<(string, BinInfo)>, binStats: seq<(string, nat)>): (acc: seq<BankStat>)
    ensures DistinctBanks(acc)
    ensures Names(acc) == FirstSeen(Issuers(table))
    decreases |table|
  {
    if |table| == 0 then []
    else
      var init := table[..|table| - 1];
      var last := table[|table| - 1];
      assert Issuers(table) == Issuers(init) + [last.1.issuer];
      AddBin(Accumulate(init, binStats), last.1.issuer, last.0, CountFor(binStats, last.0))
  }

  /** Each accumulated bank carries its reference total and BIN list. */
  lemma {:induction false} AccumulateTotals(table: seq<(string, BinInfo)>, binStats: seq<(string, nat)>)
    ensures var acc := Accumulate(table, binStats);
      forall i :: 0 <= i < |acc| ==>
        acc[i].count == IssuerTotal(table, binStats, acc[i].bankName) &&
        acc[i].bins == IssuerBins(table, binStats, acc[i].bankName)
    decreases |table|
  {
    if |table| > 0 {
      var init := table[..|table| - 1];
      AccumulateTotals(init, binStats);
      var acc := Accumulate(table, binStats);
      forall i | 0 <= i < |acc|
        ensures acc[i].count == IssuerTotal(table, binStats, acc[i].bankName)
        ensures acc[i].bins == IssuerBins(table, binStats, acc[i].bankName)
      {
        AccumulateEntry(table, binStats, Accumulate(init, binStats), i);
      }
    }
  }

  /** The inductive step of `AccumulateTotals` for one entry. */
  lemma AccumulateEntry(table: seq<(string, BinInfo)>, binStats: seq<(string, nat)>,
                        prev: seq<BankStat>, i: nat)
    requires |table| > 0
    requires prev == Accumulate(table[..|table| - 1], binStats)
    requires forall k :: 0 <= k < |prev| ==>
        prev[k].count == IssuerTotal(table[..|table| - 1], binStats, prev[k].bankName) &&
        prev[k].bins == IssuerBins(table[..|table| - 1], binStats, prev[k].bankName)
    requires i < |Accumulate(table, binStats)|
    ensures var acc := Accumulate(table, binStats);
      acc[i].count == IssuerTotal(table, binStats, acc[i].bankName) &&
      acc[i].bins == IssuerBins(table, binStats, acc[i].bankName)
  {
    var init := table[..|table| - 1];
    var last := table[|table| - 1];
    var c := CountFor(binStats, last.0);
    var acc := Accumulate(table, binStats);
    assert acc == AddBin(prev, last.1.issuer, last.0, c);
    if i < |prev| {
      AccumulateOldBank(table, binStats, prev, acc, i);
    } else {
      AccumulateNewBank(table, binStats, prev, acc, i);
    }
  }

  /** The reference totals gain the last entry's count exactly for its issuer. */
  lemma IssuerStep(table: seq<(string, BinInfo)>, binStats: seq<(string, nat)>, name: string)
    requires |table| > 0
    ensures var init, last := table[..|table| - 1], table[|table| - 1];
      var c := CountFor(binStats, last.0);
      IssuerTotal(table, binStats, name) == IssuerTotal(init, binStats, name) + (if last.1.issuer == name then c else 0) &&
      IssuerBins(table, binStats, name) ==
        IssuerBins(init, binStats, name) + (if last.1.issuer == name && c > 0 then [last.0] else [])
  {
  }

  /** A bank already in the dictionary. */
  lemma AccumulateOldBank(table: seq<(string, BinInfo)>, binStats: seq<(string, nat)>,
                          prev: seq<BankStat>, acc: seq<BankStat>, i: nat)
    requires |table| > 0
    requires DistinctBanks(prev)
    requires forall k :: 0 <= k < |prev| ==>
        prev[k].count == IssuerTotal(table[..|table| - 1], binStats, prev[k].bankName) &&
        prev[k].bins == IssuerBins(table[..|table| - 1], binStats, prev[k].bankName)
    requires acc == AddBin(prev, table[|table| - 1].1.issuer, table[|table| - 1].0, CountFor(binStats, table[|table| - 1].0))
    requires i < |prev|
    ensures acc[i].count == IssuerTotal(table, binStats, acc[i].bankName) &&
      acc[i].bins == IssuerBins(table, binStats, acc[i].bankName)
  {
    var last := table[|table| - 1];
    var c := CountFor(binStats, last.0);
    var name := prev[i].bankName;
    assert Names(acc)[i] == Names(prev)[i];
    assert acc[i].bankName == name;
    IssuerStep(table, binStats, name);
    if last.1.issuer == name {
      assert acc[i] == BankStat(name, prev[i].count + c, prev[i].bins + if c > 0 then [last.0] else []);
    } else {
      assert acc[i] == prev[i];
    }
  }

  /** The bank of the last entry, seen for the first time. */
  lemma AccumulateNewBank(table: seq<(string, BinInfo)>, binStats: seq<(string, nat)>,
                          prev: seq<BankStat>, acc: seq<BankStat>, i: nat)
    requires |table| > 0
    requires DistinctBanks(prev) && Names(prev) == FirstSeen(Issuers(table[..|table| - 1]))
    requires acc == AddBin(prev, table[|table| - 1].1.issuer, table[|table| - 1].0, CountFor(binStats, table[|table| - 1].0))
    requires |prev| <= i < |acc|
    ensures acc[i].count == IssuerTotal(table, binStats, acc[i].bankName) &&
      acc[i].bins == IssuerBins(table, binStats, acc[i].bankName)
  {
    var init := table[..|table| - 1];
    var last := table[|table| - 1];
    var c := CountFor(binStats, last.0);
    var name := last.1.issuer;
    var np := Names(prev);
    assert name !in np by {
      assert |Names(acc)| == |acc| > |prev| == |np|;
    }
    assert |acc| == |prev| + 1 && i == |prev|;
    assert Names(acc)[i] == name;
    assert acc[i] == BankStat(name, c, if c > 0 then [last.0] else []);
    assert name !in Issuers(init);
    IssuerTotalAbsent(init, binStats, name);
    IssuerStep(table, binStats, name);
  }

  /** A bank issuing nothing in `table` has no cards and no BINs there. */
  lemma {:induction false} IssuerTotalAbsent(table: seq<(string, BinInfo)>, binStats: seq<(string, nat)>, bank: string)
    requires bank !in Issuers(table)
    ensures IssuerTotal(table, binStats, bank) == 0
    ensures IssuerBins(table, binStats, bank) == []
    decreases |table|
  {
    if |table| > 0 {
      var init := table[..|table| - 1];
      assert Issuers(table)[|table| - 1] == table[|table| - 1].1.issuer;
      assert forall j :: 0 <= j < |init| ==> Issuers(init)[j] == Issuers(table)[j];
      IssuerTotalAbsent(init, binStats, bank);
    }
  }

  /** No value occurs twice in a list of distinct banks. */
  lemma {:induction false} DistinctBanksOnce(acc: seq<BankStat>, e: BankStat)
    requires DistinctBanks(acc)
    ensures multiset(acc)[e] <= 1
    decreases |acc|
  {
    if |acc| > 0 {
      var init := acc[..|acc| - 1];
      assert acc == init + [acc[|acc| - 1]];
      DistinctBanksOnce(init, e);
      if e == acc[|acc| - 1] {
        assert e !in init by {
          forall k | 0 <= k < |init| ensures init[k] != e {
            assert acc[k].bankName != acc[|acc| - 1].bankName;
          }
        }
      }
    }
  }

  function CountOf(b: BankStat): int { b.count }

  predicate HasCards(b: BankStat) { b.count > 0 }

  /** `bank_data` of `get_card_stats`: the banks of `table` with at least one
      card, sorted by non-increasing count (Python's sort is stable, so ties
      keep the order in which the banks were first seen). */
  function BankStatsIn(table: seq<(string, BinInfo)>, binStats: seq<(string, nat)>): (r: seq<BankStat>)
    ensures Seqs.SortedDesc(r, CountOf)
    ensures DistinctBanks(r)
    ensures forall i :: 0 <= i < |r| ==>
      r[i].count > 0 && r[i].bankName in Issuers(table) &&
      r[i].count == IssuerTotal(table, binStats, r[i].bankName) &&
      r[i].bins == IssuerBins(table, binStats, r[i].bankName)
    ensures forall j :: 0 <= j < |table| && IssuerTotal(table, binStats, table[j].1.issuer) > 0 ==>
      table[j].1.issuer in Names(r)
  {
    var acc := Accumulate(table, binStats);
    var kept := Seqs.Filter(acc, HasCards);
    var r := Seqs.SortDesc(kept, CountOf);
    BankStatsMembers(table, binStats, acc, kept, r);
    BankStatsDistinct(acc, kept, r);
    BankStatsComplete(table, binStats, acc, kept, r);
    r
  }

  /** Every reported bank comes from the accumulated dictionary, with cards. */
  lemma BankStatsMembers(table: seq<(string, BinInfo)>, binStats: seq<(string, nat)>,
                         acc: seq<BankStat>, kept: seq<BankStat>, r: seq<BankStat>)
    requires acc == Accumulate(table, binStats)
    requires kept == Seqs.Filter(acc, HasCards) && multiset(r) == multiset(kept)
    ensures forall i :: 0 <= i < |r| ==>
      r[i].count > 0 && r[i].bankName in Issuers(table) &&
      r[i].count == IssuerTotal(table, binStats, r[i].bankName) &&
      r[i].bins == IssuerBins(table, binStats, r[i].bankName)
  {
    AccumulateTotals(table, binStats);
    forall i | 0 <= i < |r|
      ensures r[i].count > 0 && r[i].bankName in Issuers(table)
      ensures r[i].count == IssuerTotal(table, binStats, r[i].bankName)
      ensures r[i].bins == IssuerBins(table, binStats, r[i].bankName)
    {
      assert r[i] in multiset(r);
      assert r[i] in kept;
      Seqs.FilterFrom(acc, HasCards, r[i]);
      var k :| 0 <= k < |acc| && acc[k] == r[i];
      assert Names(acc)[k] == r[i].bankName;
    }
  }

  /** Sorting and filtering the dictionary's entries cannot repeat a bank. */
  lemma BankStatsDistinct(acc: seq<BankStat>, kept: seq<BankStat>, r: seq<BankStat>)
    requires DistinctBanks(acc)
    requires kept == Seqs.Filter(acc, HasCards) && multiset(r) == multiset(kept)
    ensures DistinctBanks(r)
  {
    Seqs.FilterSubMultiset(acc, HasCards);
    forall i, j | 0 <= i < j < |r| ensures r[i].bankName != r[j].bankName {
      if r[i].bankName == r[j].bankName {
        assert r[i] in multiset(r) && r[j] in multiset(r);
        var a :| 0 <= a < |acc| && acc[a] == r[i];
        var b :| 0 <= b < |acc| && acc[b] == r[j];
        assert a == b;
        Seqs.RepeatedTwice(r, i, j);
        DistinctBanksOnce(acc, r[i]);
        assert false;
      }
    }
  }

  /** Every bank with at least one card is reported. */
  lemma BankStatsComplete(table: seq<(string, BinInfo)>, binStats: seq<(string, nat)>,
                          acc: seq<BankStat>, kept: seq<BankStat>, r: seq<BankStat>)
    requires acc == Accumulate(table, binStats)
    requires kept == Seqs.Filter(acc, HasCards) && multiset(r) == multiset(kept)
    ensures forall j :: 0 <= j < |table| && IssuerTotal(table, binStats, table[j].1.issuer) > 0 ==>
      table[j].1.issuer in Names(r)
  {
    AccumulateTotals(table, binStats);
    forall j | 0 <= j < |table| && IssuerTotal(table, binStats, table[j].1.issuer) > 0
      ensures table[j].1.issuer in Names(r)
    {
      var name := table[j].1.issuer;
      assert Issuers(table)[j] == name;
      assert name in FirstSeen(Issuers(table));
      var k :| 0 <= k < |acc| && Names(acc)[k] == name;
      BankReported(acc, kept, r, k);
    }
  }

  /** A dictionary entry with cards survives the filter and the sort. */
  lemma BankReported(acc: seq<BankStat>, kept: seq<BankStat>, r: seq<BankStat>, k: nat)
    requires kept == Seqs.Filter(acc, HasCards) && multiset(r) == multiset(kept)
    requires k < |acc| && HasCards(acc[k])
    ensures acc[k].bankName in Names(r)
  {
    assert acc[k] in kept;
    assert acc[k] in multiset(r);
    var m :| 0 <= m < |r| && r[m] == acc[k];
    assert Names(r)[m] == acc[k].bankName;
  }

  /** `bank_data` over the built-in table. */
  function BankStats(binStats: seq<(string, nat)>): seq<BankStat> {
    BankStatsIn(EgyptianBins, binStats)
  }
}

=== FILE: bin_upload.dfy ===
/** The BIN watchlist upload (backend/app.py, `upload_bin_watchlist`): a text
    of `BIN,Scheme,Bank,Country` lines is parsed line by line, and each line
    is ignored, reported as an error, skipped as a duplicate, or inserted into
    `card_watchlist`. */
module BinUpload {
  import opened Wrappers
  import opened Store
  import Text

  /** The two ways the endpoint receives the text: a multipart file, whose
      bytes decode as UTF-8 (`Some`) or do not (`None`), or a JSON body. A
      file part takes precedence over a body. */
  datatype Request = FileUpload(filename: string, text: Option<string>) | JsonUpload(body: Body)

  /** What `request.get_json()` gives. `Falsy`: nothing, or a falsy value
      (`null`, `{}`, `[]`, `""`, `0`, `false`). `Object`: an object with or
      without a `content` member. `Searchable`: a non-empty array or string,
      which `'content' in data` searches (`found` is the outcome). `Scalar`:
      a non-zero number or `true`, on which `in` raises. */
  datatype Body = Falsy | Object(content: Option<Content>) | Searchable(found: bool) | Scalar

  /** The `content` member: a string, `null`, or any other JSON value
      (number, boolean, array or object), none of which has `strip`. */
  datatype Content = TextContent(s: string) | NullContent | OtherContent

  datatype Response =
    | BadRequest(error: string)
    | ServerError(error: string)
    | Report(created: seq<CardWatchItem>, skipped: seq<string>, errors: seq<string>)

  /** The message of every exception that escapes the parse loop. */
  const UploadFailure: string := "Failed to upload BIN watchlist"

  /** A JSON body the endpoint refuses with 400: `not data` holds, or the
      `in` test finds no `content`. */
  predicate NoContent(b: Body) {
    b.Falsy? || (b.Object? && b.content.None?) || (b.Searchable? && !b.found)
  }

  /** A JSON body on which the request checks raise: `in` on a scalar,
      `data['content']` on an array or string, or `.strip()` on a content
      that is not a string. */
  predicate Raises(b: Body) {
    b.Scalar? || (b.Searchable? && b.found) || (b.Object? && b.content.Some? && !b.content.value.TextContent?)
  }

  /** The watchlist table, the next value of its id sequence, and the three
      result lists built so far. */
  datatype State = State(
    table: seq<CardWatchItem>, nextId: nat,
    created: seq<CardWatchItem>, skipped: seq<string>, errors: seq<string>)

  /** The declared widths of `card_watchlist.bank_name` and `.country`; a
      longer value makes the INSERT fail. */
  const BankNameWidth: nat := 255
  const CountryWidth: nat := 2

  /** The comma-separated fields of a line, each stripped. */
  function Fields(line: string): (fs: seq<string>)
    ensures |fs| == |Text.Split(line, ',')|
    ensures forall k :: 0 <= k < |fs| ==> fs[k] == Text.Strip(Text.Python, Text.Split(line, ',')[k])
  {
    var parts := Text.Split(line, ',');
    seq(|parts|, k requires 0 <= k < |parts| => Text.Strip(Text.Python, parts[k]))
  }

  /** Extra fields after a line only extend its field list. */
  lemma FieldsAppend(a: string, b: string)
    ensures Fields(a + [','] + b) == Fields(a) + Fields(b)
  {
    Text.SplitAppend(a, b, ',');
  }

  predicate StartsWith(s: string, p: string) {
    |p| <= |s| && s[..|p|] == p
  }

  /** A stripped line that produces no entry: blank, a `#` comment, or a
      `bin,` header on line 1 (case-insensitive). */
  predicate Ignored(i: nat, line: string) {
    line == [] || line[0] == '#' || (i == 1 && StartsWith(Text.ToLower(line), "bin,"))
  }

  predicate ValidBin(b: string) {
    |b| == 6 && Text.IsDigits(b)
  }

  predicate BinListed(table: seq<CardWatchItem>, bin: string) {
    exists k :: 0 <= k < |table| && table[k].bin == bin
  }

  function LineLabel(i: nat): string {
    "Line " + Text.NatToString(i) + ": "
  }

  function FormatError(i: nat): string {
    LineLabel(i) + "Invalid format - expected BIN,Scheme,Bank,Country"
  }

  function BinError(i: nat): string {
    LineLabel(i) + "Invalid BIN number - must be 6 digits"
  }

  function InsertError(i: nat, bin: string): string {
    LineLabel(i) + "Failed to create watchlist item for BIN " + bin
  }

  function SkipNote(bin: string): string {
    "BIN " + bin + " already exists in watchlist"
  }

  /** The row inserted for the fields `bin, scheme, bank, country`. */
  function NewItem(id: nat, bin: string, scheme: string, bank: string, country: string): (w: CardWatchItem)
    ensures w.bin == bin && w.severity == "high" && w.createdBy == 1 && w.isActive
    ensures w.country == Text.ToUpper(country) && w.bankName == Some(bank)
  {
    CardWatchItem(id, bin, Some(bank), Text.ToUpper(country), "high",
                  "Uploaded BIN for " + bank + " (" + scheme + ")", true, 1)
  }

  /** A line whose bank name and upper-cased country fit their columns. */
  predicate FitsColumns(fs: seq<string>)
    requires |fs| >= 4
  {
    |fs[2]| <= BankNameWidth && |Text.ToUpper(fs[3])| <= CountryWidth
  }

  /** The loop body for a counted line `i` with fields `fs`. */
  function StepFields(st: State, i: nat, fs: seq<string>): (r: State)
    ensures |r.created| + |r.skipped| + |r.errors| == |st.created| + |st.skipped| + |st.errors| + 1
    ensures st.created <= r.created && st.skipped <= r.skipped && st.errors <= r.errors
    ensures |fs| < 4 ==> r == st.(errors := st.errors + [FormatError(i)])
    ensures |fs| >= 4 && !ValidBin(fs[0]) ==> r == st.(errors := st.errors + [BinError(i)])
    ensures |fs| >= 4 && ValidBin(fs[0]) ==>
      (r == st.(skipped := st.skipped + [SkipNote(fs[0])]) <==> BinListed(st.table, fs[0]))
    ensures |r.created| > |st.created| ==>
      |fs| >= 4 && ValidBin(fs[0]) && !BinListed(st.table, fs[0]) &&
      r == st.(table := st.table + [NewItem(st.nextId, fs[0], fs[1], fs[2], fs[3])],
               nextId := st.nextId + 1,
               created := st.created + [NewItem(st.nextId, fs[0], fs[1], fs[2], fs[3])])
    ensures |r.created| == |st.created| ==> r.table == st.table && r.nextId == st.nextId
    ensures |fs| >= 4 && ValidBin(fs[0]) && !BinListed(st.table, fs[0]) && FitsColumns(fs) ==>
      r.created == st.created + [NewItem(st.nextId, fs[0], fs[1], fs[2], fs[3])]
    ensures |fs| >= 4 && ValidBin(fs[0]) && !BinListed(st.table, fs[0]) && !FitsColumns(fs) ==>
      r == st.(errors := st.errors + [InsertError(i, fs[0])])
  {
    if |fs| < 4 then st.(errors := st.errors + [FormatError(i)])
    else
      var bin, scheme, bank, country := fs[0], fs[1], fs[2], fs[3];
      if !ValidBin(bin) then st.(errors := st.errors + [BinError(i)])
      else if BinListed(st.table, bin) then st.(skipped := st.skipped + [SkipNote(bin)])
      else if |bank| > BankNameWidth || |Text.ToUpper(country)| > CountryWidth then
        st.(errors := st.errors + [InsertError(i, bin)])
      else
        var item := NewItem(st.nextId, bin, scheme, bank, country);
        st.(table := st.table + [item], nextId := st.nextId + 1, created := st.created + [item])
  }

  /** The loop body for line number `i`, already stripped. */
  function StepLine(st: State, i: nat, line: string): (r: State)
    ensures Ignored(i, line) ==> r == st
    ensures !Ignored(i, line) ==> r == StepFields(st, i, Fields(line))
  {
    if Ignored(i, line) then st else StepFields(st, i, Fields(line))
  }

  /** The loop over `lines`, numbered from 1. The three lists only grow, and
      every line that is not ignored adds exactly one entry to one of them. */
  function Run(st: State, lines: seq<string>): (r: State)
    ensures st.created <= r.created && st.skipped <= r.skipped && st.errors <= r.errors
    ensures |r.created| + |r.skipped| + |r.errors| == |st.created| + |st.skipped| + |st.errors| + Counted(lines)
    decreases |lines|
  {
    if |lines| == 0 then st
    else StepLine(Run(st, lines[..|lines| - 1]), |lines|, Text.Strip(Text.Python, lines[|lines| - 1]))
  }

  /** Number of lines (numbered from 1) that are not ignored. */
  function Counted(lines: seq<string>): nat
    decreases |lines|
  {
    if |lines| == 0 then 0
    else Counted(lines[..|lines| - 1]) + (if Ignored(|lines|, Text.Strip(Text.Python, lines[|lines| - 1])) then 0 else 1)
  }

  /** The lines the endpoint parses: the stripped text split at newlines.
      No line holds a newline, and joined back with newlines they give the
      stripped text. */
  function LinesOf(content: string): (ls: seq<string>)
    ensures |ls| >= 1 && forall i :: 0 <= i < |ls| ==> '\n' !in ls[i]
    ensures Text.Join(ls, '\n') == Text.Strip(Text.Python, content)
  {
    Text.JoinSplit(Text.Strip(Text.Python, content), '\n');
    Text.Split(Text.Strip(Text.Python, content), '\n')
  }

  /** The endpoint: the request checks, then the parse loop over the
      current `card_watchlist` rows. Returns the table afterwards and the
      response. */
  function Upload(table: seq<CardWatchItem>, nextId: nat, req: Request): (res: (seq<CardWatchItem>, Response))
    ensures !res.1.Report? ==> res.0 == table
    ensures res.1.BadRequest? <==>
      (req.FileUpload? && (req.filename == "" || !Text.EndsWith(req.filename, ".txt"))) ||
      (req.JsonUpload? && NoContent(req.body))
    ensures res.1.ServerError? <==>
      (req.FileUpload? && req.filename != "" && Text.EndsWith(req.filename, ".txt") && req.text.None?) ||
      (req.JsonUpload? && Raises(req.body))
    ensures res.1.ServerError? ==> res.1.error == UploadFailure
    ensures req.FileUpload? && res.1.Report? ==> res == Parse(table, nextId, req.text.value)
    ensures req.JsonUpload? && res.1.Report? ==> res == Parse(table, nextId, req.body.content.value.s)
  {
    match Received(req)
    case Refused(e) => (table, BadRequest(e))
    case Crashed => (table, ServerError(UploadFailure))
    case Accepted(text) => Parse(table, nextId, text)
  }

  /** The outcome of the request checks: a 400 message, an exception, or
      the text to parse. */
  datatype Checked = Refused(error: string) | Crashed | Accepted(text: string)

  /** The request checks before the parse loop. */
  function Received(req: Request): (c: Checked)
    ensures c.Refused? <==>
      (req.FileUpload? && (req.filename == "" || !Text.EndsWith(req.filename, ".txt"))) ||
      (req.JsonUpload? && NoContent(req.body))
    ensures c.Crashed? <==>
      (req.FileUpload? && req.filename != "" && Text.EndsWith(req.filename, ".txt") && req.text.None?) ||
      (req.JsonUpload? && Raises(req.body))
    ensures c.Accepted? && req.FileUpload? ==> c.text == req.text.value
    ensures c.Accepted? && req.JsonUpload? ==> c.text == req.body.content.value.s
  {
    match req
    case FileUpload(name, text) =>
      if name == "" then Refused("No file selected")
      else if !Text.EndsWith(name, ".txt") then Refused("Only .txt files are allowed")
      else if text.None? then Crashed
      else Accepted(text.value)
    case JsonUpload(body) =>
      match body
      case Falsy => Refused("No content provided")
      case Scalar => Crashed
      case Searchable(found) => if found then Crashed else Refused("No content provided")
      case Object(content) =>
        if content.None? then Refused("No content provided")
        else if !content.value.TextContent? then Crashed
        else Accepted(content.value.s)
  }

  /** The parsing loop over the uploaded text: every counted line is reported
      in exactly one list, and the table grows by exactly the created rows,
      each a fresh six-digit BIN. */
  function Parse(table: seq<CardWatchItem>, nextId: nat, content: string): (res: (seq<CardWatchItem>, Response))
    ensures res.1.Report?
    ensures |res.1.created| + |res.1.skipped| + |res.1.errors| == Counted(LinesOf(content))
    ensures res.0 == table + res.1.created
    ensures FreshRows(table, res.1.created)
  {
    var st := Run(State(table, nextId, [], [], []), LinesOf(content));
    RunAccounts(table, nextId, LinesOf(content));
    (st.table, Report(st.created, st.skipped, st.errors))
  }

  /** What the upload promises about the rows it creates relative to the
      table it started from: each is a fresh six-digit BIN, severity `high`,
      created by user 1, an upper-case country, and no BIN is created twice. */
  predicate FreshRows(t0: seq<CardWatchItem>, created: seq<CardWatchItem>) {
    (forall k :: 0 <= k < |created| ==>
      ValidBin(created[k].bin) && !BinListed(t0, created[k].bin) &&
      created[k].severity == "high" && created[k].createdBy == 1 &&
      Text.ToUpper(created[k].country) == created[k].country) &&
    (forall j, k :: 0 <= j < k < |created| ==> created[j].bin != created[k].bin)
  }

  /** The accounting of the loop from an empty report: every counted line
      lands in exactly one of the three lists, the created rows are exactly
      the rows added to the table, with consecutive ids, and they are fresh. */
  lemma {:induction false} RunAccounts(t0: seq<CardWatchItem>, id0: nat, lines: seq<string>)
    ensures var r := Run(State(t0, id0, [], [], []), lines);
      |r.created| + |r.skipped| + |r.errors| == Counted(lines) &&
      r.table == t0 + r.created &&
      r.nextId == id0 + |r.created| &&
      (forall k :: 0 <= k < |r.created| ==> r.created[k].id == id0 + k) &&
      FreshRows(t0, r.created)
    decreases |lines|
  {
    if |lines| > 0 {
      var init := lines[..|lines| - 1];
      RunAccounts(t0, id0, init);
      var st := Run(State(t0, id0, [], [], []), init);
      var line := Text.Strip(Text.Python, lines[|lines| - 1]);
      if !Ignored(|lines|, line) {
        StepAccounts(t0, id0, st, |lines|, Fields(line));
      }
    }
  }

  /** The inductive step of `RunAccounts`. */
  lemma StepAccounts(t0: seq<CardWatchItem>, id0: nat, st: State, i: nat, fs: seq<string>)
    requires st.table == t0 + st.created && st.nextId == id0 + |st.created|
    requires forall k :: 0 <= k < |st.created| ==> st.created[k].id == id0 + k
    requires FreshRows(t0, st.created)
    ensures var r := StepFields(st, i, fs);
      r.table == t0 + r.created && r.nextId == id0 + |r.created| &&
      (forall k :: 0 <= k < |r.created| ==> r.created[k].id == id0 + k) &&
      FreshRows(t0, r.created)
  {
    var r := StepFields(st, i, fs);
    if |r.created| > |st.created| {
      var item := NewItem(st.nextId, fs[0], fs[1], fs[2], fs[3]);
      assert r.created == st.created + [item];
      Text.ToUpperIdempotent(fs[3]);
      forall k | 0 <= k < |st.created| ensures st.created[k].bin != item.bin {
        assert st.table[|t0| + k] == st.created[k];
      }
      assert !BinListed(t0, item.bin) by {
        forall k | 0 <= k < |t0| ensures t0[k].bin != item.bin {
          assert st.table[k] == t0[k];
        }
      }
    }
  }

  /** Only the first four fields of a counted line matter. */
  lemma StepUsesFirstFour(st: State, i: nat, fs: seq<string>)
    requires |fs| >= 4
    ensures StepFields(st, i, fs) == StepFields(st, i, fs[..4])
  {
  }

  /** A line with at least four fields is handled the same whatever follows
      it after a further comma. */
  lemma ExtraFieldsIgnored(st: State, i: nat, a: string, b: string)
    requires |Fields(a)| >= 4
    ensures StepFields(st, i, Fields(a + [','] + b)) == StepFields(st, i, Fields(a))
  {
    FieldsAppend(a, b);
    var fs := Fields(a + [','] + b);
    assert fs[..4] == Fields(a)[..4];
    StepUsesFirstFour(st, i, fs);
    StepUsesFirstFour(st, i, Fields(a));
  }

  /** A BIN created by an earlier line of the same upload is skipped. */
  lemma RepeatInUploadSkipped(t0: seq<CardWatchItem>, id0: nat, lines: seq<string>, i: nat, fs: seq<string>)
    requires |fs| >= 4 && ValidBin(fs[0])
    requires var st := Run(State(t0, id0, [], [], []), lines);
      exists k :: 0 <= k < |st.created| && st.created[k].bin == fs[0]
    ensures var st := Run(State(t0, id0, [], [], []), lines);
      StepFields(st, i, fs) == st.(skipped := st.skipped + [SkipNote(fs[0])])
  {
    var st := Run(State(t0, id0, [], [], []), lines);
    RunAccounts(t0, id0, lines);
    var k :| 0 <= k < |st.created| && st.created[k].bin == fs[0];
    assert st.table[|t0| + k] == st.created[k];
  }

  /** The created list only grows as the loop goes on: what a prefix of
      the lines created stays created. */
  lemma {:induction false} RunCreatedGrows(st: State, lines: seq<string>, m: nat)
    requires m <= |lines|
    ensures Run(st, lines[..m]).created <= Run(st, lines).created
    decreases |lines|
  {
    if m < |lines| {
      var init := lines[..|lines| - 1];
      assert init[..m] == lines[..m];
      RunCreatedGrows(st, init, m);
    } else {
      assert lines[..m] == lines;
    }
  }

  /** Every counted line with a six-digit BIN absent from the table before
      the upload, whose bank name and country fit their columns, has its BIN
      among the created rows, created by that line or by an earlier one. */
  lemma RunCreatesEveryFit(t0: seq<CardWatchItem>, id0: nat, lines: seq<string>, j: nat)
    requires j < |lines|
    requires !Ignored(j + 1, Text.Strip(Text.Python, lines[j]))
    requires var fs := Fields(Text.Strip(Text.Python, lines[j]));
      |fs| >= 4 && ValidBin(fs[0]) && !BinListed(t0, fs[0]) && FitsColumns(fs)
    ensures var r := Run(State(t0, id0, [], [], []), lines);
      exists k :: 0 <= k < |r.created| && r.created[k].bin == Fields(Text.Strip(Text.Python, lines[j]))[0]
  {
    var st0 := State(t0, id0, [], [], []);
    var fs := Fields(Text.Strip(Text.Python, lines[j]));
    var st := Run(st0, lines[..j]);
    var r := Run(st0, lines[..j + 1]);
    RunPrefixStep(st0, lines, j);
    RunAccounts(t0, id0, lines[..j]);
    var k := StepCreatesFit(t0, st, j + 1, fs);
    RunCreatedGrows(st0, lines, j + 1);
    var final := Run(st0, lines);
    assert final.created[k] == r.created[k];
  }

  /** The run over the first `j + 1` lines is the run over the first `j`
      followed by line `j + 1`. */
  lemma RunPrefixStep(st0: State, lines: seq<string>, j: nat)
    requires j < |lines|
    ensures Run(st0, lines[..j + 1]) == StepLine(Run(st0, lines[..j]), j + 1, Text.Strip(Text.Python, lines[j]))
  {
    var p := lines[..j + 1];
    assert p[..|p| - 1] == lines[..j];
    assert p[|p| - 1] == lines[j];
  }

  /** One step on a fitting line with a BIN absent before the upload leaves
      that BIN among the created rows, at position `k`. */
  lemma StepCreatesFit(t0: seq<CardWatchItem>, st: State, i: nat, fs: seq<string>) returns (k: nat)
    requires st.table == t0 + st.created
    requires |fs| >= 4 && ValidBin(fs[0]) && !BinListed(t0, fs[0]) && FitsColumns(fs)
    ensures k < |StepFields(st, i, fs).created| && StepFields(st, i, fs).created[k].bin == fs[0]
  {
    var r := StepFields(st, i, fs);
    if BinListed(st.table, fs[0]) {
      var n :| 0 <= n < |st.table| && st.table[n].bin == fs[0];
      assert n >= |t0|;
      assert st.table[n] == st.created[n - |t0|];
      k := n - |t0|;
    } else {
      k := |st.created|;
    }
  }

  /** The three counts of the response are the lengths of its lists. */
  function Counts(r: Response): (c: (nat, nat, nat))
    requires r.Report?
    ensures c.0 + c.1 + c.2 == |r.created| + |r.skipped| + |r.errors|
  {
    (|r.created|, |r.skipped|, |r.errors|)
  }
}

=== FILE: card_dashboard.dfy ===
/** The card alert dashboard (src/pages/CardDashboard.tsx): the page
    arithmetic over the alert list, the query it sends for one page, the row
    actions, and the summary tiles. */
module CardDashboard {
  import opened Wrappers
  import opened Store
  import JsObject
  import ApiClient
  import AlertReview
  import Paging
  import Seqs

  const AlertsPerPage: nat := 100

  /** `allCardAlerts?.length || 0`: an envelope has no `length`, so it
      counts as no alerts at all. */
  function TotalAlerts(reply: Option<Reply<Row<CardAlert>>>): (n: nat)
    ensures reply.Some? && reply.value.Items? ==> n == |reply.value.items|
    ensures reply.None? || reply.value.Envelope? ==> n == 0
  {
    LengthOrZero(reply)
  }

  /** `Math.ceil(totalAlerts / alertsPerPage)`. */
  function TotalPages(total: nat): (t: nat)
    ensures t * AlertsPerPage >= total
    ensures t == 0 || (t - 1) * AlertsPerPage < total
  {
    Paging.CeilDiv(total, AlertsPerPage)
  }

  predicate HasNextPage(current: int, total: nat): (r: bool)
    ensures current >= 1 ==> (r <==> current * AlertsPerPage < total)
  {
    current < TotalPages(total)
  }

  predicate HasPrevPage(current: int) {
    current > 1
  }

  /** The offset of the paged query: `(currentPage - 1) * alertsPerPage`. */
  function PageOffset(current: int): (o: int)
    ensures current >= 1 ==> o >= 0 && o % AlertsPerPage == 0
  {
    (current - 1) * AlertsPerPage
  }

  /** From any real page, "next" is offered exactly when the next page
      starts before the end of the list. */
  lemma NextPageStartsInside(current: int, total: nat)
    requires current >= 1
    ensures HasNextPage(current, total) <==> PageOffset(current + 1) < total
  {
    var t := TotalPages(total);
    if current < t {
      assert current <= t - 1;
      assert current * AlertsPerPage <= (t - 1) * AlertsPerPage;
    } else {
      assert current * AlertsPerPage >= t * AlertsPerPage;
    }
  }

  /** Every alert of the list lies on exactly one page, and that page is
      one the pager counts. */
  lemma AlertOnOnePage(total: nat, k: nat)
    requires k < total
    ensures var p := k / AlertsPerPage + 1;
      1 <= p <= TotalPages(total) && PageOffset(p) <= k < PageOffset(p) + AlertsPerPage
    ensures forall q: int :: PageOffset(q) <= k < PageOffset(q) + AlertsPerPage ==> q == k / AlertsPerPage + 1
  {
    var p := k / AlertsPerPage + 1;
    var t := TotalPages(total);
    assert PageOffset(p) == k - k % AlertsPerPage;
  }

  /** The filters of the paged query: `{limit: alertsPerPage, offset}`. */
  function PageRequest(current: int): (f: JsObject.Entries)
    ensures JsObject.WellFormed(f)
    ensures JsObject.Get(f, "offset") == Some(JsObject.Num(PageOffset(current)))
  {
    var last := ("offset", JsObject.Num(PageOffset(current)));
    JsObject.GetCons(("limit", JsObject.Num(AlertsPerPage)), [last], "offset");
    JsObject.GetCons(last, [], "offset");
    [("limit", JsObject.Num(AlertsPerPage)), last]
  }

  /** The card alert endpoint reads `page` and `per_page`, which the paged
      query never sends, so every page asks the backend for the same
      rows. */
  lemma PageRequestLacksPage(current: int, t: string)
    ensures ("page", t) !in ApiClient.Query(PageRequest(current))
    ensures ("per_page", t) !in ApiClient.Query(PageRequest(current))
    ensures ("offset", JsObject.ToText(JsObject.Num(PageOffset(current)))) in ApiClient.Query(PageRequest(current))
  {
    ApiClient.QueryMember(PageRequest(current), "page", t);
    ApiClient.QueryMember(PageRequest(current), "per_page", t);
    ApiClient.QueryMember(PageRequest(current), "offset", JsObject.ToText(JsObject.Num(PageOffset(current))));
  }

  /** The pager's numbered buttons: the list pages' five-slot window over
      `totalPages`. */
  function Window(current: int, total: nat): (w: seq<int>)
    ensures |w| == if TotalPages(total) < 5 then TotalPages(total) else 5
    ensures forall i :: 0 <= i < |w| ==> 1 <= w[i] <= TotalPages(total)
    ensures current in w <==> 1 <= current <= TotalPages(total)
  {
    Paging.PageWindowBounds(current, TotalPages(total));
    Paging.PageWindow(current, TotalPages(total))
  }

  /** The pager is drawn only when there is more than one page. */
  predicate ShowsPager(total: nat): (r: bool)
    ensures r <==> total > AlertsPerPage
  {
    TotalPages(total) > 1
  }

  /** A list of at most one page never draws the pager, and a longer one
      always does. */
  lemma PagerIffSecondPage(total: nat)
    ensures ShowsPager(total) <==> total > AlertsPerPage
  {
  }

  // ---- rows -------------------------------------------------------------------

  datatype RowAction = ResolveAlert(alertId: nat) | MarkFalsePositive(alertId: nat) | ViewCard(cardId: nat)

  /** The buttons of one alert row: Resolve and False Positive only while the
      status is `new`, then View Card for the alert's card. */
  function Actions(a: Row<CardAlert>): (r: seq<RowAction>)
    ensures |r| >= 1 && r[|r| - 1] == ViewCard(a.data.cardId)
    ensures ResolveAlert(a.id) in r <==> a.status.Text() == "new"
    ensures MarkFalsePositive(a.id) in r <==> a.status.Text() == "new"
    ensures forall x :: x in r ==> x == ResolveAlert(a.id) || x == MarkFalsePositive(a.id) || x == ViewCard(a.data.cardId)
  {
    if a.status.Text() == "new" then [ResolveAlert(a.id), MarkFalsePositive(a.id), ViewCard(a.data.cardId)]
    else [ViewCard(a.data.cardId)]
  }

  /** Once either review button has been used on an alert, its row offers
      only View Card, whatever the backend reply was for other rows. */
  lemma ReviewedRowOnlyViews(rows: seq<Row<CardAlert>>, alertId: nat, act: AlertReview.Action,
                             body: Option<AlertReview.UserField>, i: nat)
    requires i < |rows| && rows[i].id == alertId
    ensures var after := AlertReview.Review(rows, alertId, act, body, true).0;
      Actions(after[i]) == [ViewCard(rows[i].data.cardId)]
  {
    var after := AlertReview.Review(rows, alertId, act, body, true).0;
    assert after[i].status == AlertReview.Target(act);
  }

  // ---- summary tiles ------------------------------------------------------------

  predicate IsNew(a: Row<CardAlert>) {
    a.status.Text() == "new"
  }

  /** The "Card Alerts" tile: the number of `new` alerts in the list; `None`
      for an envelope, which has no `filter` method and makes the page
      throw. */
  function NewAlertCount(reply: Option<Reply<Row<CardAlert>>>): (r: Option<nat>)
    ensures reply.None? ==> r == Some(0)
    ensures reply.Some? && reply.value.Envelope? ==> r.None?
    ensures r.Some? ==> r.value <= TotalAlerts(reply)
    ensures r.Some? ==> r.value == multiset(StatusTexts(ArrayOf(reply).value))["new"]
  {
    match ArrayOf(reply)
    case None => None
    case Some(alerts) =>
      NewCountIsTally(alerts);
      Some(Seqs.CountWhere(alerts, IsNew))
  }

  /** The status text of each alert, in list order. */
  function StatusTexts(rows: seq<Row<CardAlert>>): (ts: seq<string>)
    ensures |ts| == |rows| && forall i :: 0 <= i < |rows| ==> ts[i] == rows[i].status.Text()
  {
    seq(|rows|, i requires 0 <= i < |rows| => rows[i].status.Text())
  }

  /** Filtering on `status === 'new'` keeps as many alerts as the list has
      `new` statuses. */
  lemma {:induction false} NewCountIsTally(rows: seq<Row<CardAlert>>)
    ensures |Seqs.Filter(rows, IsNew)| == multiset(StatusTexts(rows))["new"]
    decreases |rows|
  {
    if |rows| > 0 {
      NewCountIsTally(rows[1..]);
      assert StatusTexts(rows) == [rows[0].status.Text()] + StatusTexts(rows[1..]);
    }
  }

  /** Resolving an alert that was `new` lowers the tile by exactly one. */
  lemma ResolveLowersNewCount(rows: seq<Row<CardAlert>>, alertId: nat, body: Option<AlertReview.UserField>)
    requires UniqueIds(rows)
    requires exists i :: 0 <= i < |rows| && rows[i].id == alertId && rows[i].status == New
    ensures var after := AlertReview.Review(rows, alertId, AlertReview.Resolve, body, true).0;
      NewAlertCount(Some(Items(after))).value + 1 == NewAlertCount(Some(Items(rows))).value
  {
    var after := AlertReview.Review(rows, alertId, AlertReview.Resolve, body, true).0;
    var i :| 0 <= i < |rows| && rows[i].id == alertId && rows[i].status == New;
    CountChangesAt(rows, after, i);
  }

  /** Two lists that agree off index `i`, where only `a` holds a new alert,
      differ by one in their count of new alerts. */
  lemma {:induction false} CountChangesAt(a: seq<Row<CardAlert>>, b: seq<Row<CardAlert>>, i: nat)
    requires |a| == |b| && i < |a|
    requires IsNew(a[i]) && !IsNew(b[i])
    requires forall j :: 0 <= j < |a| && j != i ==> IsNew(a[j]) == IsNew(b[j])
    ensures |Seqs.Filter(b, IsNew)| + 1 == |Seqs.Filter(a, IsNew)|
    decreases |a|
  {
    assert forall j :: 1 <= j < |a| ==> a[j] == a[1..][j - 1] && b[j] == b[1..][j - 1];
    if i == 0 {
      SameCount(a[1..], b[1..]);
    } else {
      CountChangesAt(a[1..], b[1..], i - 1);
    }
  }

  /** Lists that agree on which alerts are new have the same count. */
  lemma {:induction false} SameCount(a: seq<Row<CardAlert>>, b: seq<Row<CardAlert>>)
    requires |a| == |b|
    requires forall j :: 0 <= j < |a| ==> IsNew(a[j]) == IsNew(b[j])
    ensures |Seqs.Filter(a, IsNew)| == |Seqs.Filter(b, IsNew)|
    decreases |a|
  {
    if |a| > 0 {
      assert forall j :: 1 <= j < |a| ==> a[j] == a[1..][j - 1] && b[j] == b[1..][j - 1];
      SameCount(a[1..], b[1..]);
    }
  }

  /** `reduce((sum, bin) => sum + bin.count, start)`, walking from the
      front. */
  function Reduce(binStats: seq<(string, nat)>, start: nat): nat
    decreases |binStats|
  {
    if |binStats| == 0 then start else Reduce(binStats[1..], start + binStats[0].1)
  }

  /** The "Total Cards Found" tile: the counts of `bin_stats` added up, or 0
      when the statistics carry no `bin_stats`. */
  function TotalCardsFound(binStats: Option<seq<(string, nat)>>): (n: nat)
    ensures binStats.None? ==> n == 0
    ensures binStats.Some? ==> n == Seqs.SumCounts(binStats.value)
  {
    match binStats
    case None => 0
    case Some(s) =>
      ReduceIsSum(s, 0);
      Reduce(s, 0)
  }

  /** The front-to-back reduce computes the same total as the reference sum,
      which adds the rows from the back. */
  lemma {:induction false} ReduceIsSum(s: seq<(string, nat)>, start: nat)
    ensures Reduce(s, start) == start + Seqs.SumCounts(s)
    decreases |s|
  {
    if |s| > 0 {
      ReduceIsSum(s[1..], start + s[0].1);
      SumCountsCons(s);
    }
  }

  /** The reference sum also splits off the first row. */
  lemma {:induction false} SumCountsCons(s: seq<(string, nat)>)
    requires |s| > 0
    ensures Seqs.SumCounts(s) == s[0].1 + Seqs.SumCounts(s[1..])
    decreases |s|
  {
    if |s| > 1 {
      var init := s[..|s| - 1];
      assert init[0] == s[0];
      assert init[1..] == s[1..][..|s[1..]| - 1];
      SumCountsCons(init);
    } else {
      assert s[..|s| - 1] == [];
      assert s[1..] == [];
    }
  }
}

=== FILE: card_format.dfy ===
/** How the pages show a card: the masked and grouped number
    (src/pages/Cards.tsx and src/pages/CardDetail.tsx, `formatCardNumber`;
    the alert table of src/pages/CardDashboard.tsx), the BIN range and BIN
    information of the detail page, the badge colours of card type and
    scheme, and the BIN fields the backend attaches to each card it returns
    (backend/app.py, `search_cards` and `get_card_detail`). */
module CardFormat {
  import opened Wrappers
  import Text
  import Seqs
  import BinTable
  import opened Tones

  // ---- masking ------------------------------------------------------------

  /** The hidden form of `formatCardNumber`: `'N/A'` for a missing or empty
      number, else the first four and last four characters around
      `" **** **** "` (a number shorter than four shows whole on both sides). */
  function MaskCard(number: Option<string>): (r: string)
    ensures !Truthy(number) ==> r == "N/A"
    ensures Truthy(number) ==> |r| == 2 * (if |number.value| < 4 then |number.value| else 4) + 11
    ensures Truthy(number) ==> r[..|Text.Prefix(number.value, 4)|] == Text.Prefix(number.value, 4)
    ensures Truthy(number) && |number.value| >= 4 ==>
      r[4..15] == " **** **** " && r[15..] == number.value[|number.value| - 4..]
  {
    if !Truthy(number) then "N/A"
    else Text.Prefix(number.value, 4) + " **** **** " + Seqs.TakeLast(number.value, 4)
  }

  /** The mask shows nothing of a number but its first and last four
      characters: numbers that agree there are masked alike. */
  lemma MaskHidesMiddle(a: string, b: string)
    requires |a| >= 8 && |b| >= 8
    requires a[..4] == b[..4] && a[|a| - 4..] == b[|b| - 4..]
    ensures MaskCard(Some(a)) == MaskCard(Some(b))
  {
  }

  /** Two long numbers with the same mask agree on their first and last four
      characters, so the mask keeps exactly that much. */
  lemma MaskKeepsEnds(a: string, b: string)
    requires |a| >= 8 && |b| >= 8
    requires MaskCard(Some(a)) == MaskCard(Some(b))
    ensures a[..4] == b[..4] && a[|a| - 4..] == b[|b| - 4..]
  {
    var m := MaskCard(Some(a));
    assert m[..4] == a[..4];
    assert m[15..] == a[|a| - 4..];
    assert MaskCard(Some(b))[15..] == b[|b| - 4..];
  }

  /** The card dashboard's mask: first four, `"****"`, last four, or
      `'N/A'` for a missing or empty number. */
  function DashboardMask(number: Option<string>): (r: string)
    ensures !Truthy(number) ==> r == "N/A"
    ensures Truthy(number) && |number.value| >= 4 ==>
      |r| == 12 && r[..4] == number.value[..4] && r[8..] == number.value[|number.value| - 4..] &&
      r[4..8] == "****"
  {
    if !Truthy(number) then "N/A"
    else Text.Prefix(number.value, 4) + "****" + Seqs.TakeLast(number.value, 4)
  }

  // ---- grouping -----------------------------------------------------------

  /** `number.replace(/(\d{4})(?=\d)/g, '$1 ')`: scanning from the left, four
      digits followed by a fifth get a space after them and the scan resumes
      at the fifth; at any other position one character is copied. */
  function Group(s: string): (r: string)
    ensures |r| >= |s|
    ensures |s| <= 4 ==> r == s
    decreases |s|
  {
    if |s| >= 5 && Text.IsDigits(s[..5]) then s[..4] + " " + Group(s[4..])
    else if |s| == 0 then []
    else [s[0]] + Group(s[1..])
  }

  /** The number with its spaces deleted (`replace(/ /g, '')`). */
  function Unspace(s: string): string
    decreases |s|
  {
    if |s| == 0 then []
    else if s[0] == ' ' then Unspace(s[1..])
    else [s[0]] + Unspace(s[1..])
  }

  /** Deleting the spaces from the shown number gives back the number, for
      any number that had no spaces to begin with. */
  lemma {:induction false} GroupUngroup(s: string)
    requires ' ' !in s
    ensures Unspace(Group(s)) == s
    decreases |s|
  {
    if |s| >= 5 && Text.IsDigits(s[..5]) {
      var a, b := s[..4], s[4..];
      assert ' ' !in b;
      forall i | 0 <= i < |a| ensures a[i] != ' ' {
        assert a[i] == s[i];
      }
      assert Group(s) == a + " " + Group(b);
      GroupUngroup(b);
      UnspaceGroupHead(a, Group(b));
      assert a + b == s;
    } else if |s| > 0 {
      assert ' ' !in s[1..];
      var g := Group(s[1..]);
      assert Group(s) == [s[0]] + g;
      GroupUngroup(s[1..]);
      assert ([s[0]] + g)[1..] == g;
      assert [s[0]] + s[1..] == s;
    }
  }

  /** Deleting the spaces of a space-free prefix, one space, and the rest. */
  lemma {:induction false} UnspaceGroupHead(a: string, g: string)
    requires forall i :: 0 <= i < |a| ==> a[i] != ' '
    ensures Unspace(a + " " + g) == a + Unspace(g)
    decreases |a|
  {
    var w := a + " " + g;
    if |a| == 0 {
      assert w == " " + g;
      assert w[1..] == g;
    } else {
      assert w[0] == a[0];
      assert w[1..] == a[1..] + " " + g;
      UnspaceGroupHead(a[1..], g);
      assert a == [a[0]] + a[1..];
    }
  }

  /** A digit string cut into groups of four from the left; the last group
      holds the remaining one to four digits. */
  function Chunks(s: string): (r: seq<string>)
    ensures |r| >= 1
    ensures forall i :: 0 <= i < |r| - 1 ==> |r[i]| == 4
    ensures |r[|r| - 1]| <= 4 && (s != [] ==> |r[|r| - 1]| >= 1)
    decreases |s|
  {
    if |s| <= 4 then [s] else [s[..4]] + Chunks(s[4..])
  }

  /** The groups of a number concatenate back to it. */
  lemma {:induction false} ChunksConcat(s: string)
    ensures Seqs.Flatten(Chunks(s)) == s
    decreases |s|
  {
    if |s| > 4 {
      ChunksConcat(s[4..]);
      assert [s[..4]] + Chunks(s[4..]) == Chunks(s);
      Seqs.FlattenCons(s[..4], Chunks(s[4..]));
      assert s[..4] + s[4..] == s;
    }
  }

  /** A run of at most four digits is shown unchanged. */
  lemma {:induction false} GroupShort(s: string)
    requires |s| <= 4
    ensures Group(s) == s
    decreases |s|
  {
    if |s| > 0 {
      GroupShort(s[1..]);
      assert [s[0]] + s[1..] == s;
    }
  }

  /** For a digit-only number the shown form is its groups of four joined by
      single spaces. */
  lemma {:induction false} GroupDigits(s: string)
    requires Text.IsDigits(s)
    ensures Group(s) == Text.Join(Chunks(s), ' ')
    decreases |s|
  {
    if |s| <= 4 {
      GroupShort(s);
    } else {
      var t := s[4..];
      assert Text.IsDigits(s[..5]) && Text.IsDigits(t) by {
        assert forall i :: 0 <= i < 5 ==> s[..5][i] == s[i];
        assert forall i :: 0 <= i < |t| ==> t[i] == s[i + 4];
      }
      assert Group(s) == s[..4] + " " + Group(t);
      GroupDigits(t);
      var rest := Chunks(t);
      assert Chunks(s) == [s[..4]] + rest;
      Text.JoinCons(s[..4], rest, ' ');
    }
  }

  /** Splitting the shown form of a digit-only number at spaces yields its
      groups: every group before the last has four digits. */
  lemma GroupsOfFour(s: string)
    requires Text.IsDigits(s)
    ensures Text.Split(Group(s), ' ') == Chunks(s)
  {
    GroupDigits(s);
    var cs := Chunks(s);
    forall i | 0 <= i < |cs| ensures ' ' !in cs[i] {
      ChunksAreDigits(s, i);
    }
    Text.SplitJoin(cs, ' ');
  }

  /** Each group is a piece of the digit string, so it holds only digits. */
  lemma {:induction false} ChunksAreDigits(s: string, i: nat)
    requires Text.IsDigits(s) && i < |Chunks(s)|
    ensures Text.IsDigits(Chunks(s)[i])
    decreases |s|
  {
    if |s| > 4 && i > 0 {
      assert Chunks(s)[i] == Chunks(s[4..])[i - 1];
      ChunksAreDigits(s[4..], i - 1);
    }
  }

  // ---- the detail page ----------------------------------------------------

  /** The BIN range of the detail page: `number?.slice(0, 6) || 'N/A'`. */
  function BinRange(number: Option<string>): (r: string)
    ensures !Truthy(number) ==> r == "N/A"
    ensures Truthy(number) ==> r == Text.Prefix(number.value, 6)
  {
    if Truthy(number) then Text.Prefix(number.value, 6) else "N/A"
  }

  /** When the backend found BIN information for a card, the detail page's
      BIN range is exactly the key that information was found under. */
  lemma BinRangeIsLookupKey(number: Option<string>)
    requires BinTable.GetBinInfo(number).Some?
    ensures (BinRange(number), BinTable.GetBinInfo(number).value) in BinTable.EgyptianBins
  {
  }

  /** The detail page's `getBinInfo`: no information for a missing number or
      one shorter than six characters, else what the server sent. */
  function ClientBinInfo<T>(number: Option<string>, served: Option<T>): (r: Option<T>)
    ensures !Truthy(number) || |number.value| < 6 ==> r.None?
    ensures Truthy(number) && |number.value| >= 6 ==> r == served
  {
    if !Truthy(number) || |number.value| < 6 then None else served
  }

  /** The page's guard is the backend's own: showing what `get_bin_info`
      computed for the same number changes nothing. */
  lemma ClientGuardAgrees(number: Option<string>)
    ensures ClientBinInfo(number, BinTable.GetBinInfo(number)) == BinTable.GetBinInfo(number)
  {
  }

  /** The fields the backend attaches to a card from its BIN information. */
  datatype Enriched = Enriched(
    binInfo: Option<BinTable.BinInfo>, egyptianBank: Option<string>, scheme: string, isEgyptian: bool)

  /** `bin_info`, `egyptian_bank`, `scheme` and `is_egyptian` of a returned
      card: from the table entry when there is one, else nothing, `'Unknown'`
      and false. */
  function Enrich(number: Option<string>): (e: Enriched)
    ensures e.binInfo == BinTable.GetBinInfo(number)
    ensures e.isEgyptian <==> e.binInfo.Some? && e.binInfo.value.country == "EG"
    ensures e.egyptianBank.Some? <==> e.binInfo.Some?
    ensures e.binInfo.Some? ==> e.egyptianBank == Some(e.binInfo.value.issuer) && e.scheme == e.binInfo.value.scheme
    ensures e.binInfo.None? ==> e.scheme == "Unknown"
  {
    match BinTable.GetBinInfo(number)
    case Some(info) => Enriched(Some(info), Some(info.issuer), info.scheme, info.country == "EG")
    case None => Enriched(None, None, "Unknown", false)
  }

  /** A card marked Egyptian has a number of at least six characters whose
      first six are a known BIN. */
  lemma EgyptianHasKnownBin(number: Option<string>)
    requires Enrich(number).isEgyptian
    ensures number.Some? && |number.value| >= 6
    ensures number.value[..6] in Seqs.Keys(BinTable.EgyptianBins)
  {
    var info := BinTable.GetBinInfo(number).value;
    assert (number.value[..6], info) in BinTable.EgyptianBins;
    var i :| 0 <= i < |BinTable.EgyptianBins| && BinTable.EgyptianBins[i] == (number.value[..6], info);
    assert Seqs.Keys(BinTable.EgyptianBins)[i] == number.value[..6];
  }

  // ---- badge colours ------------------------------------------------------

  /** `getCardTypeColor`: by the lower-cased type; gray for anything else,
      including a missing type. */
  function CardTypeColor(cardType: Option<string>): (t: Tone)
    ensures cardType.None? ==> t == Gray
    ensures t != Gray <==> cardType.Some? && Text.ToLower(cardType.value) in {"credit", "debit", "prepaid"}
  {
    if cardType.None? then Gray
    else
      var k := Text.ToLower(cardType.value);
      if k == "credit" then Red
      else if k == "debit" then Blue
      else if k == "prepaid" then Green
      else Gray
  }

  /** `getSchemeColor`: by the lower-cased scheme; gray for anything else. */
  function SchemeColor(scheme: Option<string>): (t: Tone)
    ensures scheme.None? ==> t == Gray
    ensures t != Gray <==> (scheme.Some? &&
      Text.ToLower(scheme.value) in {"visa", "mastercard", "maestro", "american express"})
  {
    if scheme.None? then Gray
    else
      var k := Text.ToLower(scheme.value);
      if k == "visa" then Blue
      else if k == "mastercard" then Red
      else if k == "maestro" then Orange
      else if k == "american express" then Green
      else Gray
  }

  /** Both colour maps ignore letter case: the upper-cased name gets the
      colour of the name itself. */
  lemma ColorsIgnoreCase(s: string)
    ensures CardTypeColor(Some(Text.ToUpper(s))) == CardTypeColor(Some(s))
    ensures SchemeColor(Some(Text.ToUpper(s))) == SchemeColor(Some(s))
  {
    Text.ToLowerOfUpper(s);
  }
}

=== FILE: card_match.dfy ===
/** Card BIN watchlist matching (backend/app.py, `check_card_watchlist_matches`):
    for every active `card_watchlist` item, in table order, the cards whose
    number begins with the item's BIN and that have no card alert for that
    item yet are read (at most 50 of them), and one `new` card alert is
    inserted per card. An insert the `card_alerts` schema refuses (a card
    number longer than its VARCHAR column) fails on its own and is skipped. */
module CardMatch {
  import opened Wrappers
  import opened Store
  import Text
  import Seqs

  /** The LIMIT of the match query. */
  const MatchLimit: nat := 50

  /** The width of `card_alerts.card_number`. */
  const CardNumberWidth: nat := 255

  /** The tables the matcher reads and writes, and the next alert id. */
  datatype Db = Db(cards: seq<Card>, alerts: seq<Row<CardAlert>>, nextId: nat)

  /** `LEFT(number, 6) = bin`; a NULL number matches nothing. */
  predicate BinMatches(item: CardWatchItem, c: Card) {
    c.number.Some? && Text.Prefix(c.number.value, 6) == item.bin
  }

  /** The card table already holds an alert for this (item, card) pair. */
  predicate Alerted(alerts: seq<Row<CardAlert>>, itemId: nat, cardId: nat) {
    exists k :: 0 <= k < |alerts| && alerts[k].data.cardWatchlistId == itemId && alerts[k].data.cardId == cardId
  }

  /** `c` matches the item and has no alert for it yet. */
  predicate Pending(item: CardWatchItem, c: Card, alerts: seq<Row<CardAlert>>) {
    BinMatches(item, c) && !Alerted(alerts, item.id, c.id)
  }

  function CardId(c: Card): nat { c.id }

  /** The card's number fits the alert table's column, so its insert succeeds. */
  predicate Fits(c: Card) {
    c.number.Some? && |c.number.value| <= CardNumberWidth
  }

  /** The rows of the item's query before its LIMIT: the pending cards of
      `cs`, in order. */
  function PendingIn(item: CardWatchItem, cs: seq<Card>, alerts: seq<Row<CardAlert>>): (r: seq<Card>)
    ensures |r| <= |cs|
    ensures forall k :: 0 <= k < |r| ==> Pending(item, r[k], alerts)
    ensures forall k :: 0 <= k < |cs| && Pending(item, cs[k], alerts) ==> cs[k] in r
    decreases |cs|
  {
    if |cs| == 0 then []
    else
      var rest := PendingIn(item, cs[1..], alerts);
      assert forall k :: 1 <= k < |cs| ==> cs[k] == cs[1..][k - 1];
      (if Pending(item, cs[0], alerts) then [cs[0]] else []) + rest
  }

  /** The pending cards are cards of `cs`. */
  lemma {:induction false} PendingFrom(item: CardWatchItem, cs: seq<Card>, alerts: seq<Row<CardAlert>>)
    ensures forall k :: 0 <= k < |PendingIn(item, cs, alerts)| ==> PendingIn(item, cs, alerts)[k] in cs
    decreases |cs|
  {
    if |cs| > 0 {
      var t := cs[1..];
      var rest := PendingIn(item, t, alerts);
      PendingFrom(item, t, alerts);
      var r := PendingIn(item, cs, alerts);
      assert r == (if Pending(item, cs[0], alerts) then [cs[0]] else []) + rest;
      forall k | 0 <= k < |r| ensures r[k] in cs {
        if r[k] in rest {
          var m :| 0 <= m < |t| && t[m] == r[k];
          assert cs[m + 1] == t[m];
        }
      }
    }
  }

  /** Filtering keeps unique ids unique. */
  lemma {:induction false} PendingUnique(item: CardWatchItem, cs: seq<Card>, alerts: seq<Row<CardAlert>>)
    requires Seqs.UniqueKeys(cs, CardId)
    ensures Seqs.UniqueKeys(PendingIn(item, cs, alerts), CardId)
    decreases |cs|
  {
    if |cs| > 0 {
      var t := cs[1..];
      var rest := PendingIn(item, t, alerts);
      assert Seqs.UniqueKeys(t, CardId);
      PendingUnique(item, t, alerts);
      var r := PendingIn(item, cs, alerts);
      assert r == (if Pending(item, cs[0], alerts) then [cs[0]] else []) + rest;
      if Pending(item, cs[0], alerts) {
        PendingFrom(item, t, alerts);
        forall k | 0 <= k < |rest| ensures rest[k].id != cs[0].id {
          var m :| 0 <= m < |t| && t[m] == rest[k];
          assert cs[m + 1] == rest[k];
        }
        forall i, j | 0 <= i < j < |r| ensures r[i].id != r[j].id {
          if i > 0 {
            assert r[i] == rest[i - 1] && r[j] == rest[j - 1];
          } else {
            assert r[j] == rest[j - 1];
          }
        }
      }
    }
  }

  function PendingFor(item: CardWatchItem, db: Db): seq<Card> {
    PendingIn(item, db.cards, db.alerts)
  }

  /** The cards whose alerts are stored in the item's turn: the first 50
      pending cards, less those whose insert fails. */
  function Stored(db: Db, item: CardWatchItem): (r: seq<Card>)
    ensures |r| <= MatchLimit
    ensures forall k :: 0 <= k < |r| ==> r[k] in db.cards && Pending(item, r[k], db.alerts) && Fits(r[k])
    ensures Seqs.UniqueKeys(db.cards, CardId) ==> Seqs.UniqueKeys(r, CardId)
  {
    var pending := PendingFor(item, db);
    PendingFrom(item, db.cards, db.alerts);
    var batch := Seqs.Take(pending, MatchLimit);
    assert forall k :: 0 <= k < |batch| ==> batch[k] == pending[k];
    Seqs.FilterMembers(batch, Fits);
    assert Seqs.UniqueKeys(db.cards, CardId) ==> Seqs.UniqueKeys(Seqs.Filter(batch, Fits), CardId) by {
      if Seqs.UniqueKeys(db.cards, CardId) {
        PendingUnique(item, db.cards, db.alerts);
        Seqs.FilterUniqueKeys(batch, Fits, CardId);
      }
    }
    Seqs.Filter(batch, Fits)
  }

  /** The card alert inserted for card `c` found by `item`. */
  function MakeAlert(id: nat, item: CardWatchItem, c: Card): Row<CardAlert> {
    Row(id, New, None, CardAlert(item.id, item.bin, c.number.GetOr(""), c.id, item.bankName, item.severity))
  }

  /** The alerts one item inserts, numbered from `firstId`. */
  function NewAlerts(item: CardWatchItem, batch: seq<Card>, firstId: nat): (r: seq<Row<CardAlert>>)
    ensures |r| == |batch|
    ensures forall k :: 0 <= k < |r| ==> r[k] == MakeAlert(firstId + k, item, batch[k])
  {
    seq(|batch|, k requires 0 <= k < |batch| => MakeAlert(firstId + k, item, batch[k]))
  }

  /** One iteration of the loop over card watchlist items. */
  function CheckItem(db: Db, item: CardWatchItem): (r: Db)
    ensures r.cards == db.cards
    ensures db.alerts <= r.alerts && r.nextId == db.nextId + (|r.alerts| - |db.alerts|)
    ensures |r.alerts| - |db.alerts| <= MatchLimit
    ensures forall k :: |db.alerts| <= k < |r.alerts| ==>
      var a := r.alerts[k];
      a.id == db.nextId + (k - |db.alerts|) && a.status == New && a.reviewedBy.None? &&
      a.data.cardWatchlistId == item.id && a.data.matchedBin == item.bin &&
      a.data.bankName == item.bankName && a.data.severity == item.severity
  {
    var stored := Stored(db, item);
    db.(alerts := db.alerts + NewAlerts(item, stored, db.nextId), nextId := db.nextId + |stored|)
  }

  /** The loop over `items`, in order. */
  function CheckItems(db: Db, items: seq<CardWatchItem>): (r: Db)
    ensures r.cards == db.cards
    ensures db.alerts <= r.alerts && r.nextId == db.nextId + (|r.alerts| - |db.alerts|)
    decreases |items|
  {
    if |items| == 0 then db
    else CheckItem(CheckItems(db, items[..|items| - 1]), items[|items| - 1])
  }

  /** `check_card_watchlist_matches`: the loop over the active items. It
      leaves the card table alone, only appends alerts, and every alert it
      appends was inserted by an active item for that item's BIN. */
  function CheckWatchlist(watchlist: seq<CardWatchItem>, db: Db): (r: Db)
    ensures r.cards == db.cards && db.alerts <= r.alerts
    ensures forall k :: |db.alerts| <= k < |r.alerts| ==> FromActive(r.alerts[k], watchlist)
  {
    var active := Seqs.Filter(watchlist, (w: CardWatchItem) => w.isActive);
    Seqs.FilterMembers(watchlist, (w: CardWatchItem) => w.isActive);
    ActiveSources(db, watchlist, active);
    CheckItems(db, active)
  }

  /** A run over items drawn from the active items of `watchlist` adds only
      alerts of active items. */
  lemma ActiveSources(db: Db, watchlist: seq<CardWatchItem>, active: seq<CardWatchItem>)
    requires forall w :: w in active ==> w in watchlist && w.isActive
    ensures forall k :: |db.alerts| <= k < |CheckItems(db, active).alerts| ==>
      FromActive(CheckItems(db, active).alerts[k], watchlist)
  {
    CheckItemsSources(db, active);
    var r := CheckItems(db, active);
    forall k | |db.alerts| <= k < |r.alerts| ensures FromActive(r.alerts[k], watchlist) {
      assert InsertedBy(r.alerts[k], active);
      var i :| 0 <= i < |active| && active[i].id == r.alerts[k].data.cardWatchlistId &&
        active[i].bin == r.alerts[k].data.matchedBin;
      assert active[i] in active;
    }
  }

  // ---- what one item inserts -----------------------------------------------

  lemma NewAlertIs(db: Db, item: CardWatchItem, m: nat)
    requires m < |Stored(db, item)|
    ensures var r := CheckItem(db, item);
      |db.alerts| + m < |r.alerts| &&
      r.alerts[|db.alerts| + m] == MakeAlert(db.nextId + m, item, Stored(db, item)[m])
  {
  }

  /** Every card alert an item inserts names a card of the table whose number
      begins with the item's BIN, fits the column, and had no alert for the
      item; the alert copies that number. */
  lemma CheckItemJustified(db: Db, item: CardWatchItem, k: nat)
    requires |db.alerts| <= k < |CheckItem(db, item).alerts|
    ensures var a := CheckItem(db, item).alerts[k];
      exists j :: (0 <= j < |db.cards| && db.cards[j].id == a.data.cardId &&
                   db.cards[j].number == Some(a.data.cardNumber) &&
                   Text.Prefix(a.data.cardNumber, 6) == item.bin &&
                   |a.data.cardNumber| <= CardNumberWidth &&
                   !Alerted(db.alerts, item.id, db.cards[j].id))
  {
    var m := k - |db.alerts|;
    NewAlertIs(db, item, m);
    var c := Stored(db, item)[m];
    assert c in db.cards;
    var j :| 0 <= j < |db.cards| && db.cards[j] == c;
  }

  /** No two card alerts share a (card watchlist item, card) pair. */
  predicate NoDuplicateAlerts(alerts: seq<Row<CardAlert>>) {
    forall i, j :: 0 <= i < j < |alerts| ==>
      (alerts[i].data.cardWatchlistId, alerts[i].data.cardId) != (alerts[j].data.cardWatchlistId, alerts[j].data.cardId)
  }

  /** A new alert's pair was not in the table before. */
  lemma NewPairFresh(db: Db, item: CardWatchItem, i: nat, m: nat)
    requires m < |Stored(db, item)| && i < |db.alerts|
    ensures (db.alerts[i].data.cardWatchlistId, db.alerts[i].data.cardId) != (item.id, Stored(db, item)[m].id)
  {
    var c := Stored(db, item)[m];
    assert !Alerted(db.alerts, item.id, c.id);
  }

  /** An item never alerts twice on one card, given the card table's unique
      ids. */
  lemma CheckItemNoDuplicates(db: Db, item: CardWatchItem)
    requires Seqs.UniqueKeys(db.cards, CardId)
    requires NoDuplicateAlerts(db.alerts)
    ensures NoDuplicateAlerts(CheckItem(db, item).alerts)
  {
    var r := CheckItem(db, item);
    var stored := Stored(db, item);
    var n := |db.alerts|;
    forall i, j | 0 <= i < j < |r.alerts|
      ensures (r.alerts[i].data.cardWatchlistId, r.alerts[i].data.cardId) !=
              (r.alerts[j].data.cardWatchlistId, r.alerts[j].data.cardId)
    {
      if j < n {
        assert r.alerts[i] == db.alerts[i] && r.alerts[j] == db.alerts[j];
      } else if i < n {
        NewAlertIs(db, item, j - n);
        NewPairFresh(db, item, i, j - n);
        assert r.alerts[i] == db.alerts[i];
      } else {
        NewAlertIs(db, item, i - n);
        NewAlertIs(db, item, j - n);
        assert CardId(stored[i - n]) != CardId(stored[j - n]);
      }
    }
  }

  /** The whole loop keeps the card alert table free of duplicate pairs. */
  lemma {:induction false} CheckItemsNoDuplicates(db: Db, items: seq<CardWatchItem>)
    requires Seqs.UniqueKeys(db.cards, CardId)
    requires NoDuplicateAlerts(db.alerts)
    ensures NoDuplicateAlerts(CheckItems(db, items).alerts)
    decreases |items|
  {
    if |items| > 0 {
      CheckItemsNoDuplicates(db, items[..|items| - 1]);
      CheckItemNoDuplicates(CheckItems(db, items[..|items| - 1]), items[|items| - 1]);
    }
  }

  /** The alert comes from an active card watchlist item and carries its BIN. */
  predicate FromActive(a: Row<CardAlert>, watchlist: seq<CardWatchItem>) {
    exists w :: w in watchlist && w.isActive && w.id == a.data.cardWatchlistId && w.bin == a.data.matchedBin
  }

  predicate InsertedBy(a: Row<CardAlert>, items: seq<CardWatchItem>) {
    exists i :: 0 <= i < |items| && items[i].id == a.data.cardWatchlistId && items[i].bin == a.data.matchedBin
  }

  /** Only the items of the loop insert alerts. */
  lemma {:induction false} CheckItemsSources(db: Db, items: seq<CardWatchItem>)
    ensures forall k :: |db.alerts| <= k < |CheckItems(db, items).alerts| ==>
      InsertedBy(CheckItems(db, items).alerts[k], items)
    decreases |items|
  {
    if |items| > 0 {
      var init := items[..|items| - 1];
      var last := items[|items| - 1];
      CheckItemsSources(db, init);
      var mid := CheckItems(db, init);
      var r := CheckItem(mid, last);
      forall k | |db.alerts| <= k < |r.alerts| ensures InsertedBy(r.alerts[k], items) {
        if k < |mid.alerts| {
          assert r.alerts[k] == mid.alerts[k];
          assert InsertedBy(mid.alerts[k], init);
          var i :| 0 <= i < |init| && init[i].id == mid.alerts[k].data.cardWatchlistId &&
            init[i].bin == mid.alerts[k].data.matchedBin;
          assert items[i] == init[i];
        } else {
          assert items[|items| - 1] == last;
        }
      }
    }
  }

  /** Inactive items never alert. */
  lemma CheckWatchlistActiveOnly(watchlist: seq<CardWatchItem>, db: Db)
    ensures forall k :: |db.alerts| <= k < |CheckWatchlist(watchlist, db).alerts| ==>
      FromActive(CheckWatchlist(watchlist, db).alerts[k], watchlist)
  {
    var active := Seqs.Filter(watchlist, (w: CardWatchItem) => w.isActive);
    CheckItemsSources(db, active);
    var r := CheckItems(db, active);
    forall k | |db.alerts| <= k < |r.alerts| ensures FromActive(r.alerts[k], watchlist) {
      assert InsertedBy(r.alerts[k], active);
      var i :| 0 <= i < |active| && active[i].id == r.alerts[k].data.cardWatchlistId &&
        active[i].bin == r.alerts[k].data.matchedBin;
      Seqs.FilterFrom(watchlist, (w: CardWatchItem) => w.isActive, active[i]);
    }
  }

  // ---- idempotence -------------------------------------------------------

  /** Every card still pending for the item is one whose insert fails. */
  predicate Saturated(item: CardWatchItem, db: Db) {
    forall k :: 0 <= k < |db.cards| ==> Settled(item, db.cards[k], db.alerts)
  }

  /** The card is not pending for the item, or its insert fails. */
  predicate Settled(item: CardWatchItem, c: Card, alerts: seq<Row<CardAlert>>) {
    Pending(item, c, alerts) ==> !Fits(c)
  }

  /** A saturated item inserts nothing. */
  lemma SaturatedNoop(db: Db, item: CardWatchItem)
    requires Saturated(item, db)
    ensures CheckItem(db, item) == db
  {
    var pending := PendingFor(item, db);
    PendingFrom(item, db.cards, db.alerts);
    var batch := Seqs.Take(pending, MatchLimit);
    forall i | 0 <= i < |batch| ensures !Fits(batch[i]) {
      assert batch[i] == pending[i];
      assert pending[i] in db.cards;
      var k :| 0 <= k < |db.cards| && db.cards[k] == pending[i];
      assert Settled(item, db.cards[k], db.alerts);
    }
    Seqs.FilterNone(batch, Fits);
  }

  /** Alerts are never removed, so an alerted pair stays alerted. */
  lemma AlertedGrows(a: seq<Row<CardAlert>>, b: seq<Row<CardAlert>>, itemId: nat, cardId: nat)
    requires a <= b && Alerted(a, itemId, cardId)
    ensures Alerted(b, itemId, cardId)
  {
    var k :| 0 <= k < |a| && a[k].data.cardWatchlistId == itemId && a[k].data.cardId == cardId;
    assert b[k] == a[k];
  }

  /** More alerts leave no more cards pending. */
  lemma {:induction false} PendingShrinks(item: CardWatchItem, cs: seq<Card>,
                                          a: seq<Row<CardAlert>>, b: seq<Row<CardAlert>>)
    requires a <= b
    ensures |PendingIn(item, cs, b)| <= |PendingIn(item, cs, a)|
    decreases |cs|
  {
    if |cs| > 0 {
      PendingShrinks(item, cs[1..], a, b);
      if Pending(item, cs[0], b) {
        if Alerted(a, item.id, cs[0].id) {
          AlertedGrows(a, b, item.id, cs[0].id);
        }
      }
    }
  }

  lemma CoveredAfterCheck(db: Db, item: CardWatchItem, c: Card)
    requires |PendingFor(item, db)| <= MatchLimit && c in db.cards && Fits(c)
    ensures !Pending(item, c, CheckItem(db, item).alerts)
  {
    var r := CheckItem(db, item);
    if Pending(item, c, db.alerts) {
      var pending := PendingFor(item, db);
      assert Seqs.Take(pending, MatchLimit) == pending;
      var stored := Stored(db, item);
      assert c in stored;
      var m :| 0 <= m < |stored| && stored[m] == c;
      NewAlertIs(db, item, m);
      assert r.alerts[|db.alerts| + m].data.cardId == c.id;
      assert Alerted(r.alerts, item.id, c.id);
    } else if BinMatches(item, c) {
      AlertedGrows(db.alerts, r.alerts, item.id, c.id);
    }
  }

  /** An item whose pending cards fit in one batch is saturated after its
      turn. */
  lemma CheckItemSaturates(db: Db, item: CardWatchItem)
    requires |PendingFor(item, db)| <= MatchLimit
    ensures Saturated(item, CheckItem(db, item))
  {
    var r := CheckItem(db, item);
    forall k | 0 <= k < |db.cards| ensures Settled(item, db.cards[k], r.alerts) {
      if Fits(db.cards[k]) {
        CoveredAfterCheck(db, item, db.cards[k]);
      }
    }
  }

  /** A saturated item stays saturated while alerts are added. */
  lemma SaturatedStays(item: CardWatchItem, db: Db, later: Db)
    requires later.cards == db.cards && db.alerts <= later.alerts
    requires Saturated(item, db)
    ensures Saturated(item, later)
  {
    forall k | 0 <= k < |db.cards| ensures Settled(item, db.cards[k], later.alerts) {
      assert Settled(item, db.cards[k], db.alerts);
      if Alerted(db.alerts, item.id, db.cards[k].id) {
        AlertedGrows(db.alerts, later.alerts, item.id, db.cards[k].id);
      }
    }
  }

  /** After a run in which no item had more than one batch pending, every
      item of the run is saturated. */
  lemma {:induction false} CheckItemsSaturates(db: Db, items: seq<CardWatchItem>)
    requires forall i :: 0 <= i < |items| ==> |PendingFor(items[i], db)| <= MatchLimit
    ensures forall i :: 0 <= i < |items| ==> Saturated(items[i], CheckItems(db, items))
    decreases |items|
  {
    if |items| > 0 {
      var init := items[..|items| - 1];
      var last := items[|items| - 1];
      assert forall i :: 0 <= i < |init| ==> init[i] == items[i];
      CheckItemsSaturates(db, init);
      var mid := CheckItems(db, init);
      PendingShrinks(last, db.cards, db.alerts, mid.alerts);
      StepSaturates(mid, items);
    }
  }

  /** The last item's turn saturates it and keeps the earlier ones saturated. */
  lemma StepSaturates(mid: Db, items: seq<CardWatchItem>)
    requires |items| > 0
    requires forall i :: 0 <= i < |items| - 1 ==> Saturated(items[i], mid)
    requires |PendingFor(items[|items| - 1], mid)| <= MatchLimit
    ensures forall i :: 0 <= i < |items| ==> Saturated(items[i], CheckItem(mid, items[|items| - 1]))
  {
    var last := items[|items| - 1];
    var r := CheckItem(mid, last);
    CheckItemSaturates(mid, last);
    forall i | 0 <= i < |items| - 1 ensures Saturated(items[i], r) {
      SaturatedStays(items[i], mid, r);
    }
  }

  /** A run over saturated items changes nothing. */
  lemma {:induction false} CheckItemsNoop(db: Db, items: seq<CardWatchItem>)
    requires forall i :: 0 <= i < |items| ==> Saturated(items[i], db)
    ensures CheckItems(db, items) == db
    decreases |items|
  {
    if |items| > 0 {
      CheckItemsNoop(db, items[..|items| - 1]);
      SaturatedNoop(db, items[|items| - 1]);
    }
  }

  /** Card matching is idempotent when no item hits the LIMIT: a second run
      right after the first inserts nothing. */
  lemma CheckItemsIdempotent(db: Db, items: seq<CardWatchItem>)
    requires forall i :: 0 <= i < |items| ==> |PendingFor(items[i], db)| <= MatchLimit
    ensures CheckItems(CheckItems(db, items), items) == CheckItems(db, items)
  {
    CheckItemsSaturates(db, items);
    CheckItemsNoop(CheckItems(db, items), items);
  }
}

=== FILE: chart_panel.dfy ===
/** One filterable chart panel (src/components/EnhancedChart.tsx): its
    filter object, the search and limit applied to the rows, and the largest
    count the bars are scaled by. */
module ChartPanel {
  import opened Wrappers
  import Text
  import Seqs
  import JsObject
  import Paging

  /** A row of chart data. `count` is whatever the row holds there: the
      panel checks only `typeof count === 'number'`, which `NaN` passes. */
  datatype Item = Item(country: Option<string>, stealerType: Option<string>, domain: Option<string>,
                       count: JsObject.Value)

  /** The panel's initial `filters` state. */
  function InitialFilters(): (f: JsObject.Entries)
    ensures JsObject.WellFormed(f)
    ensures JsObject.Get(f, "search") == Some(JsObject.Str(""))
    ensures JsObject.Get(f, "limit") == Some(JsObject.Num(10))
  {
    var f0 := JsObject.Set([], "dateFrom", JsObject.Str(""));
    var f1 := JsObject.Set(f0, "dateTo", JsObject.Str(""));
    var f2 := JsObject.Set(f1, "search", JsObject.Str(""));
    JsObject.Set(f2, "limit", JsObject.Num(10))
  }

  /** `handleFilterChange(key, value)`: `{...filters, [key]: value}`, the
      value stored as the text the control produced. */
  function HandleFilterChange(f: JsObject.Entries, key: string, value: string): (r: JsObject.Entries)
    requires JsObject.WellFormed(f)
    ensures JsObject.WellFormed(r)
    ensures JsObject.Get(r, key) == Some(JsObject.Str(value))
  {
    JsObject.Set(f, key, JsObject.Str(value))
  }

  /** A filter change leaves every other key as it was, and adds no key when
      the changed one was already there. */
  lemma FilterChangeOnlyKey(f: JsObject.Entries, key: string, value: string, other: string)
    requires JsObject.WellFormed(f)
    requires other != key
    ensures JsObject.Get(HandleFilterChange(f, key, value), other) == JsObject.Get(f, other)
  {
  }

  /** `String.prototype.toLowerCase().includes` on a present field. */
  predicate FieldHit(field: Option<string>, term: string) {
    Truthy(field) && Text.Contains(Text.ToLower(field.value), term)
  }

  /** `typeof item.count === 'number'`. */
  predicate NumericCount(item: Item) {
    item.count.Num? || item.count.NaN?
  }

  /** The row test of `filteredData`. `item` is `None` for a null row. The
      date-range test is a parameter: it parses dates with the host's
      `Date`. */
  predicate Keeps(item: Option<Item>, search: string, inDateRange: Item -> bool): (r: bool)
    ensures item.None? ==> !r
    ensures item.Some? && !NumericCount(item.value) ==> !r
    ensures item.Some? && NumericCount(item.value) && search == "" ==> (r <==> inDateRange(item.value))
  {
    item.Some? && NumericCount(item.value) &&
    (search == "" ||
      var term := Text.ToLower(search);
      FieldHit(item.value.country, term) || FieldHit(item.value.stealerType, term) ||
      FieldHit(item.value.domain, term)) &&
    inDateRange(item.value)
  }

  /** `Number(text)` for the limit the selector stores: a non-empty run of
      digits is its value, the empty text is 0, any other text is `NaN`. */
  function NumberOf(t: string): (v: JsObject.Value)
    ensures v.Num? ==> v.n >= 0
    ensures t == "" ==> v == JsObject.Num(0)
  {
    if t == "" then JsObject.Num(0)
    else if Text.IsDigits(t) then JsObject.Num(Text.DigitsValue(t))
    else JsObject.NaN
  }

  /** The end `slice(0, limit)` cuts at: a number is used as it is, text is
      converted with `Number`, `NaN` counts as 0, and a missing limit slices
      to the end (`None`). */
  function SliceEnd(limit: Option<JsObject.Value>): (e: Option<int>)
    ensures limit.Some? && limit.value.Num? ==> e == Some(limit.value.n)
    ensures limit.None? || limit.value.Undefined? ==> e.None?
  {
    if limit.None? || limit.value.Undefined? then None
    else if limit.value.Num? then Some(limit.value.n)
    else if limit.value.NaN? then Some(0)
    else
      var v := NumberOf(limit.value.s);
      if v.Num? then Some(v.n) else Some(0)
  }

  /** `filteredData`: the rows that pass, cut to the limit afterwards, so the
      limit counts only rows that passed and the input order is kept. */
  function FilteredData(data: seq<Option<Item>>, filters: JsObject.Entries, inDateRange: Item -> bool): (r: seq<Option<Item>>)
    ensures |r| <= |Seqs.Filter(data, x => Keeps(x, SearchOf(filters), inDateRange))|
    ensures r <= Seqs.Filter(data, x => Keeps(x, SearchOf(filters), inDateRange))
    ensures forall i :: 0 <= i < |r| ==> Keeps(r[i], SearchOf(filters), inDateRange)
    ensures SliceEnd(JsObject.Get(filters, "limit")).Some? && SliceEnd(JsObject.Get(filters, "limit")).value >= 0 ==>
      |r| <= SliceEnd(JsObject.Get(filters, "limit")).value
    ensures var kept := Seqs.Filter(data, x => Keeps(x, SearchOf(filters), inDateRange));
      var e := SliceEnd(JsObject.Get(filters, "limit"));
      (e.None? ==> r == kept) &&
      (e.Some? && e.value >= 0 ==> |r| == if e.value < |kept| then e.value else |kept|) &&
      (e.Some? && e.value < 0 ==> |r| == Max0(|kept| + e.value))
  {
    var kept := Seqs.Filter(data, x => Keeps(x, SearchOf(filters), inDateRange));
    match SliceEnd(JsObject.Get(filters, "limit"))
    case None => kept
    case Some(e) =>
      var r := Paging.JsSlice(kept, 0, e);
      assert r == kept[..if e < 0 then Max0(|kept| + e) else if e > |kept| then |kept| else e];
      r
  }

  function Max0(n: int): nat {
    if n < 0 then 0 else n
  }

  /** The search text in the filters, `''` when it is not text. */
  function SearchOf(filters: JsObject.Entries): string {
    var v := JsObject.Get(filters, "search");
    if v.Some? && v.value.Str? then v.value.s else ""
  }

  /** A row without a numeric count never reaches the chart, whatever the
      filters are. */
  lemma NonNumericDropped(data: seq<Option<Item>>, filters: JsObject.Entries, inDateRange: Item -> bool, i: nat)
    requires i < |data| && data[i].Some? && !NumericCount(data[i].value)
    ensures data[i] !in FilteredData(data, filters, inDateRange)
  {
    var r := FilteredData(data, filters, inDateRange);
    forall k | 0 <= k < |r| ensures r[k] != data[i] {
      assert Keeps(r[k], SearchOf(filters), inDateRange);
    }
  }

  /** The search is case-blind: a term and its lower-cased form keep the
      same rows. */
  lemma SearchIgnoresCase(item: Option<Item>, search: string, inDateRange: Item -> bool)
    ensures Keeps(item, search, inDateRange) == Keeps(item, Text.ToLower(search), inDateRange)
  {
    Text.ToLowerIdempotent(search);
    if search != "" {
      assert Text.ToLower(search) != "";
    }
  }

  /** Without a limit the panel keeps exactly the passing rows, so a row is
      shown if and only if it passes. */
  lemma UnlimitedKeepsPassing(data: seq<Option<Item>>, filters: JsObject.Entries, inDateRange: Item -> bool)
    requires JsObject.Get(filters, "limit").None?
    ensures forall x :: x in FilteredData(data, filters, inDateRange) <==> x in data && Keeps(x, SearchOf(filters), inDateRange)
  {
    Seqs.FilterMembers(data, x => Keeps(x, SearchOf(filters), inDateRange));
  }

  /** With a limit of `n` and at least `n` passing rows, exactly the first
      `n` passing rows are shown. */
  lemma LimitAfterFilter(data: seq<Option<Item>>, filters: JsObject.Entries, inDateRange: Item -> bool, n: nat)
    requires JsObject.Get(filters, "limit") == Some(JsObject.Num(n))
    requires |Seqs.Filter(data, x => Keeps(x, SearchOf(filters), inDateRange))| >= n
    ensures FilteredData(data, filters, inDateRange) == Seqs.Filter(data, x => Keeps(x, SearchOf(filters), inDateRange))[..n]
  {
  }

  /** A limit chosen in the selector is stored as text and still cuts at its
      number: choosing "20" shows the first twenty passing rows. */
  lemma ChosenLimitIsNumber(data: seq<Option<Item>>, filters: JsObject.Entries, inDateRange: Item -> bool)
    requires JsObject.WellFormed(filters)
    ensures SliceEnd(JsObject.Get(HandleFilterChange(filters, "limit", "20"), "limit")) == Some(20)
  {
    assert Text.IsDigits("20") by {
      assert forall i :: 0 <= i < 2 ==> Text.IsDigit("20"[i]);
    }
    assert Text.DigitsValue("20") == 20 by {
      assert "20"[..1] == "2";
      assert Text.DigitsValue("2") == 2 by {
        assert "2"[..0] == "";
      }
    }
  }

  /** The counts the bars are scaled by. */
  function Counts(data: seq<Option<Item>>): (r: seq<JsObject.Value>)
    ensures |r| == |data|
    ensures forall i :: 0 <= i < |data| && data[i].Some? ==> r[i] == data[i].value.count
  {
    seq(|data|, i requires 0 <= i < |data| => if data[i].Some? then data[i].value.count else JsObject.Undefined)
  }

  /** `Math.max(...counts, 1)` over the shown rows' numeric counts: `NaN`
      when any of them is `NaN`, else the largest with 1 as floor. */
  function MaxCount(shown: seq<JsObject.Value>): (m: JsObject.Value)
    requires forall i :: 0 <= i < |shown| ==> shown[i].Num? || shown[i].NaN?
    ensures (exists i :: 0 <= i < |shown| && shown[i].NaN?) <==> m.NaN?
    ensures m.Num? ==> m.n >= 1 && forall i :: 0 <= i < |shown| ==> shown[i].n <= m.n
    ensures m.NaN? || m.Num?
    decreases |shown|
  {
    if |shown| == 0 then JsObject.Num(1)
    else
      var rest := MaxCount(shown[1..]);
      assert forall i :: 1 <= i < |shown| ==> shown[i] == shown[1..][i - 1];
      if shown[0].NaN? || rest.NaN? then JsObject.NaN
      else if shown[0].n > rest.n then shown[0] else rest
  }

  /** `maxCount` of the panel: 1 for no rows, else the `Math.max` above over
      the shown rows (which all have numeric counts). */
  function PanelMax(shown: seq<Option<Item>>, search: string, inDateRange: Item -> bool): (m: JsObject.Value)
    requires forall i :: 0 <= i < |shown| ==> Keeps(shown[i], search, inDateRange)
    ensures |shown| == 0 ==> m == JsObject.Num(1)
    ensures m.Num? ==> m.n >= 1
    ensures (forall i :: 0 <= i < |shown| ==> shown[i].Some? && shown[i].value.count.Num?) ==>
      m.Num? && forall i :: 0 <= i < |shown| ==> shown[i].Some? && shown[i].value.count.n <= m.n
  {
    if |shown| == 0 then JsObject.Num(1)
    else
      var cs := Counts(shown);
      assert forall i :: 0 <= i < |shown| ==> cs[i].Num? || cs[i].NaN? by {
        forall i | 0 <= i < |shown| ensures cs[i].Num? || cs[i].NaN? {
          assert Keeps(shown[i], search, inDateRange);
        }
      }
      MaxCount(cs)
  }

  /** A shown row whose count is `NaN` makes the scale `NaN`: the floor of 1
      does not survive it. */
  lemma NaNCountSpoilsScale(shown: seq<Option<Item>>, search: string, inDateRange: Item -> bool, i: nat)
    requires forall k :: 0 <= k < |shown| ==> Keeps(shown[k], search, inDateRange)
    requires i < |shown| && shown[i].Some? && shown[i].value.count.NaN?
    ensures PanelMax(shown, search, inDateRange).NaN?
  {
    var cs := Counts(shown);
    assert cs[i].NaN?;
  }
}

=== FILE: dashboard.dfy ===
/** The overview dashboard's country view (src/pages/Dashboard.tsx): the
    summary tiles and the stealer, domain and timeline charts, taken from the
    server's global statistics until a country is chosen, then recomputed
    from that country's credentials. */
module Dashboard {
  import opened Wrappers
  import Seqs
  import AlertsPanel

  /** The fields of a credential the dashboard aggregates. `day` is the
      credential's creation date as a day number; its ISO text and the
      `Date` it parses back to order the same way. */
  datatype Cred = Cred(
    stealerType: Option<string>, domain: Option<string>, url: Option<string>,
    systemInfoId: Option<nat>, day: int)

  /** The server's `/stats` totals, each possibly missing. */
  datatype ServerStats = ServerStats(totalCredentials: Option<nat>, totalCards: Option<nat>, totalSystems: Option<nat>)

  datatype Tiles = Tiles(
    totalCredentials: nat, totalCards: nat, totalSystems: nat, credentialAlerts: nat, cardAlerts: nat)

  /** `x || 0` on a count that may be missing. */
  function OrZero(n: Option<nat>): nat {
    n.GetOr(0)
  }

  /** `alerts?.filter(a => a.status === 'new').length || 0`, over the
      alerts' statuses: 0 before the query has loaded, and `None` for an
      envelope, which has no `filter` method and makes the page throw. */
  function NewCount(statuses: Option<Reply<string>>): (n: Option<nat>)
    ensures n.None? <==> statuses.Some? && statuses.value.Envelope?
    ensures statuses.None? ==> n == Some(0)
    ensures n.Some? ==> n.value <= |ArrayOf(statuses).value|
    ensures n.Some? ==> n.value == multiset(ArrayOf(statuses).value)["new"]
  {
    match ArrayOf(statuses)
    case None => None
    case Some(ss) =>
      var p := (s: string) => s == "new";
      Seqs.FilterCountsValue(ss, p, "new");
      Some(Seqs.CountWhere(ss, p))
  }

  /** `new Set(credentials.map(c => c.system_info_id).filter(Boolean))`:
      the distinct system ids, where a missing id and id 0 are both falsy. */
  function SystemIds(creds: seq<Cred>): (ids: set<nat>)
    ensures |ids| <= |creds|
    ensures 0 !in ids
    decreases |creds|
  {
    if |creds| == 0 then {}
    else
      var c := creds[|creds| - 1];
      var prev := SystemIds(creds[..|creds| - 1]);
      if c.systemInfoId.Some? && c.systemInfoId.value != 0 then prev + {c.systemInfoId.value} else prev
  }

  /** A system is counted exactly when some credential carries its (truthy)
      id. */
  lemma {:induction false} SystemIdsMembers(creds: seq<Cred>, id: nat)
    ensures id in SystemIds(creds) <==>
      id != 0 && exists i :: 0 <= i < |creds| && creds[i].systemInfoId == Some(id)
    decreases |creds|
  {
    if |creds| > 0 {
      var init := creds[..|creds| - 1];
      SystemIdsMembers(init, id);
      assert forall i :: 0 <= i < |init| ==> init[i] == creds[i];
      if id != 0 && (exists i :: 0 <= i < |creds| && creds[i].systemInfoId == Some(id)) {
        var i :| 0 <= i < |creds| && creds[i].systemInfoId == Some(id);
        if i < |init| {
          assert init[i].systemInfoId == Some(id);
        }
      }
    }
  }

  /** `getFilteredStats`: the server's totals with no country chosen, else
      counts over the country's credential and card lists; the alert tiles
      count `new` alerts either way. `None` where the page throws: an
      envelope in either alert list, or, with a country chosen, an envelope
      credential list, which `map` is called on. The card list is only read
      through `length`, so an envelope there counts as no cards. */
  function FilteredStats<C>(country: Option<string>, server: Option<ServerStats>,
                            alerts: Option<Reply<string>>, cardAlerts: Option<Reply<string>>,
                            creds: Option<Reply<Cred>>, cards: Option<Reply<C>>): (r: Option<Tiles>)
    ensures r.None? <==>
      (NewCount(alerts).None? || NewCount(cardAlerts).None? || (Truthy(country) && ArrayOf(creds).None?))
    ensures r.Some? ==> r.value.credentialAlerts == NewCount(alerts).value && r.value.cardAlerts == NewCount(cardAlerts).value
    ensures r.Some? && !Truthy(country) && server.Some? ==>
      r.value.totalCredentials == OrZero(server.value.totalCredentials) &&
      r.value.totalCards == OrZero(server.value.totalCards) &&
      r.value.totalSystems == OrZero(server.value.totalSystems)
    ensures r.Some? && !Truthy(country) && server.None? ==>
      r.value.totalCredentials == r.value.totalCards == r.value.totalSystems == 0
    ensures r.Some? && Truthy(country) ==>
      r.value.totalCredentials == |ArrayOf(creds).value| && r.value.totalCards == LengthOrZero(cards) &&
      r.value.totalSystems == |SystemIds(ArrayOf(creds).value)|
  {
    if NewCount(alerts).None? || NewCount(cardAlerts).None? then None
    else
      var credAlerts := NewCount(alerts).value;
      var cardNew := NewCount(cardAlerts).value;
      if !Truthy(country) then
        match server
        case None => Some(Tiles(0, 0, 0, credAlerts, cardNew))
        case Some(s) => Some(Tiles(OrZero(s.totalCredentials), OrZero(s.totalCards), OrZero(s.totalSystems), credAlerts, cardNew))
      else
        match ArrayOf(creds)
        case None => None
        case Some(cs) => Some(Tiles(|cs|, LengthOrZero(cards), |SystemIds(cs)|, credAlerts, cardNew))
  }

  /** With a country chosen, the systems tile never exceeds the credentials
      tile. */
  lemma SystemsWithinCredentials<C>(country: Option<string>, server: Option<ServerStats>,
                                    alerts: Option<Reply<string>>, cardAlerts: Option<Reply<string>>,
                                    creds: Option<Reply<Cred>>, cards: Option<Reply<C>>)
    requires Truthy(country)
    ensures var r := FilteredStats(country, server, alerts, cardAlerts, creds, cards);
      r.Some? ==> r.value.totalSystems <= r.value.totalCredentials
  {
  }

  /** The tiles render exactly when no list the page calls an array method
      on is an envelope. The backend's list endpoints always send one, so
      the tiles render only while those queries have not loaded. */
  lemma TilesRenderIffNoEnvelope<C>(country: Option<string>, server: Option<ServerStats>,
                                    alerts: Option<Reply<string>>, cardAlerts: Option<Reply<string>>,
                                    creds: Option<Reply<Cred>>, cards: Option<Reply<C>>)
    ensures FilteredStats(country, server, alerts, cardAlerts, creds, cards).Some? <==>
      !(alerts.Some? && alerts.value.Envelope?) && !(cardAlerts.Some? && cardAlerts.value.Envelope?) &&
      !(Truthy(country) && creds.Some? && creds.value.Envelope?)
  {
  }

  /** What the overview page hands the alerts panel: `alerts || []` and
      `allCardAlerts?.slice(0, alertsPerPage) || []`, tagged and combined by
      the panel's `map`s. An envelope in either makes the page throw
      (`None`): the panel maps over it, or `slice` is called on it. */
  function PanelAlerts(alerts: Option<Reply<AlertsPanel.Item>>, cardAlerts: Option<Reply<AlertsPanel.Item>>,
                       perPage: nat): (r: Option<seq<AlertsPanel.Tagged>>)
    ensures r.None? <==> ArrayOf(alerts).None? || ArrayOf(cardAlerts).None?
    ensures r.Some? ==> r.value == AlertsPanel.Combine(ArrayOf(alerts).value, Seqs.Take(ArrayOf(cardAlerts).value, perPage))
    ensures r.Some? ==> |r.value| <= |ArrayOf(alerts).value| + perPage
  {
    match (ArrayOf(alerts), ArrayOf(cardAlerts))
    case (Some(a), Some(c)) => Some(AlertsPanel.Combine(a, Seqs.Take(c, perPage)))
    case _ => None
  }

  // ---- stealer chart ------------------------------------------------------------

  /** `cred.stealer_type || 'Unknown'`. */
  function StealerOf(c: Cred): string {
    if Truthy(c.stealerType) then c.stealerType.value else "Unknown"
  }

  function StealerKeys(creds: seq<Cred>): (ks: seq<string>)
    ensures |ks| == |creds| && forall i :: 0 <= i < |creds| ==> ks[i] == StealerOf(creds[i])
  {
    seq(|creds|, i requires 0 <= i < |creds| => StealerOf(creds[i]))
  }

  /** `getFilteredStealerData`: the server's list until a country is chosen
      and its credentials have loaded, then the country's stealer tally. */
  function StealerData(country: Option<string>, creds: Option<Reply<Cred>>, server: Option<seq<(string, nat)>>)
    : (r: Option<seq<(string, nat)>>)
    ensures r.None? <==> Truthy(country) && creds.Some? && creds.value.Envelope?
    ensures !Truthy(country) || creds.None? ==> r == Some(server.GetOr([]))
    ensures Truthy(country) && creds.Some? && creds.value.Items? ==>
      r.Some? &&
      var cs := creds.value.items;
      Seqs.SortedDesc(r.value, Seqs.CountKey) && Seqs.DistinctKeys(r.value) &&
      Seqs.SumCounts(r.value) == |cs| &&
      (forall i :: 0 <= i < |r.value| ==> r.value[i].1 == multiset(StealerKeys(cs))[r.value[i].0]) &&
      (forall i :: 0 <= i < |cs| ==> StealerOf(cs[i]) in Seqs.Keys(r.value))
  {
    if !Truthy(country) || creds.None? then Some(server.GetOr([]))
    else
      match creds.value
      case Envelope(_) => None
      case Items(cs) => Some(Seqs.Tally(StealerKeys(cs)))
  }

  /** A credential without a stealer type is counted under `Unknown`. */
  lemma MissingStealerIsUnknown(country: Option<string>, creds: seq<Cred>, server: Option<seq<(string, nat)>>, i: nat)
    requires Truthy(country) && i < |creds| && !Truthy(creds[i].stealerType)
    ensures "Unknown" in Seqs.Keys(StealerData(country, Some(Items(creds)), server).value)
  {
    assert StealerOf(creds[i]) == "Unknown";
  }

  // ---- domain chart -------------------------------------------------------------

  const DomainLimit: nat := 20

  /** The domain a credential is counted under: its `domain`, else the host
      name of its `url`; nothing when it has neither, when the URL does not
      parse, or when the host name is empty. `hostOf` stands for
      `new URL(url).hostname`, `None` where the constructor throws. */
  function DomainOf(c: Cred, hostOf: string -> Option<string>): (d: Option<string>)
    ensures d.Some? ==> d.value != ""
    ensures Truthy(c.domain) ==> d == c.domain
    ensures !Truthy(c.domain) && !Truthy(c.url) ==> d.None?
  {
    if !Truthy(c.url) && !Truthy(c.domain) then None
    else
      var d := if Truthy(c.domain) then c.domain else hostOf(c.url.value);
      if Truthy(d) then d else None
  }

  /** The domains counted, one per counted credential, in order. */
  function DomainKeys(creds: seq<Cred>, hostOf: string -> Option<string>): (ks: seq<string>)
    ensures |ks| <= |creds|
    decreases |creds|
  {
    if |creds| == 0 then []
    else
      var init := DomainKeys(creds[..|creds| - 1], hostOf);
      match DomainOf(creds[|creds| - 1], hostOf)
      case None => init
      case Some(d) => init + [d]
  }

  /** A credential with neither a URL nor a domain adds nothing. */
  lemma NoSourceAddsNothing(creds: seq<Cred>, c: Cred, hostOf: string -> Option<string>)
    requires !Truthy(c.url) && !Truthy(c.domain)
    ensures DomainKeys(creds + [c], hostOf) == DomainKeys(creds, hostOf)
  {
    assert (creds + [c])[..|creds|] == creds;
  }

  /** A credential with a domain is counted under that domain, whatever its
      URL. */
  lemma DomainFieldCounted(creds: seq<Cred>, c: Cred, hostOf: string -> Option<string>)
    requires Truthy(c.domain)
    ensures DomainKeys(creds + [c], hostOf) == DomainKeys(creds, hostOf) + [c.domain.value]
  {
    assert (creds + [c])[..|creds|] == creds;
  }

  /** `getFilteredDomainData`: the server's list until a country is chosen,
      then the twenty most frequent domains of the country's credentials. */
  function DomainData(country: Option<string>, creds: Option<Reply<Cred>>, hostOf: string -> Option<string>,
                      server: Option<seq<(string, nat)>>): (r: Option<seq<(string, nat)>>)
    ensures r.None? <==> Truthy(country) && creds.Some? && creds.value.Envelope?
    ensures !Truthy(country) || creds.None? ==> r == Some(server.GetOr([]))
    ensures Truthy(country) && creds.Some? && creds.value.Items? ==>
      r.Some? &&
      var cs := creds.value.items;
      |r.value| <= DomainLimit && Seqs.SortedDesc(r.value, Seqs.CountKey) && Seqs.DistinctKeys(r.value) &&
      Seqs.SumCounts(r.value) <= |cs| &&
      (forall i :: 0 <= i < |r.value| ==> r.value[i].1 == multiset(DomainKeys(cs, hostOf))[r.value[i].0])
    // a domain left off the chart leaves it full, and is no more frequent than any domain on it
    ensures Truthy(country) && creds.Some? && creds.value.Items? ==>
      r.Some? &&
      var ks := DomainKeys(creds.value.items, hostOf);
      forall d :: d in ks && d !in Seqs.Keys(r.value) ==>
        |r.value| == DomainLimit && forall i :: 0 <= i < |r.value| ==> multiset(ks)[d] <= r.value[i].1
  {
    if !Truthy(country) || creds.None? then Some(server.GetOr([]))
    else
      match creds.value
      case Envelope(_) => None
      case Items(cs) =>
        Seqs.TopTallyMaximal(DomainKeys(cs, hostOf), DomainLimit);
        Some(Seqs.TopTally(DomainKeys(cs, hostOf), DomainLimit))
  }

  /** With fewer than twenty distinct domains, every domain of the
      country's credentials is on the chart. */
  lemma FewDomainsAllListed(country: Option<string>, cs: seq<Cred>, hostOf: string -> Option<string>,
                            server: Option<seq<(string, nat)>>, d: string)
    requires Truthy(country)
    requires |DomainData(country, Some(Items(cs)), hostOf, server).value| < DomainLimit
    requires d in DomainKeys(cs, hostOf)
    ensures d in Seqs.Keys(DomainData(country, Some(Items(cs)), hostOf, server).value)
  {
  }

  // ---- timeline chart -------------------------------------------------------------

  const TimelineLimit: nat := 30

  function Days(creds: seq<Cred>): (ks: seq<int>)
    ensures |ks| == |creds| && forall i :: 0 <= i < |creds| ==> ks[i] == creds[i].day
  {
    seq(|creds|, i requires 0 <= i < |creds| => creds[i].day)
  }

  /** The sort key that puts earlier days first. */
  function Earliness(e: (int, nat)): int {
    -e.0
  }

  /** The days counted and put in date order, the last thirty kept. */
  function DayCounts(days: seq<int>): (r: seq<(int, nat)>)
    ensures |r| <= TimelineLimit
    ensures forall i, j :: 0 <= i < j < |r| ==> r[i].0 < r[j].0
    ensures forall i :: 0 <= i < |r| ==> r[i].1 == multiset(days)[r[i].0] && r[i].1 >= 1
  {
    var counts := Seqs.CountBy(days);
    var sorted := Seqs.SortDesc(counts, Earliness);
    var r := Seqs.TakeLast(sorted, TimelineLimit);
    TimelineRows(days, counts, sorted, r);
    r
  }

  lemma TimelineRows(days: seq<int>, counts: seq<(int, nat)>, sorted: seq<(int, nat)>, r: seq<(int, nat)>)
    requires Seqs.DistinctKeys(counts)
    requires forall i :: 0 <= i < |counts| ==> counts[i].1 == multiset(days)[counts[i].0] && counts[i].1 >= 1
    requires multiset(sorted) == multiset(counts) && Seqs.SortedDesc(sorted, Earliness)
    requires |r| <= |sorted| && r == sorted[|sorted| - |r|..]
    ensures forall i, j :: 0 <= i < j < |r| ==> r[i].0 < r[j].0
    ensures forall i :: 0 <= i < |r| ==> r[i].1 == multiset(days)[r[i].0] && r[i].1 >= 1
  {
    Seqs.DistinctKeysPerm(counts, sorted);
    Ascending(sorted, r);
    Seqs.TallyCounts(days, counts, sorted);
    forall i | 0 <= i < |r| ensures r[i].1 == multiset(days)[r[i].0] && r[i].1 >= 1 {
      assert r[i] == sorted[|sorted| - |r| + i];
    }
  }

  /** A suffix of rows sorted by date with distinct dates has strictly
      increasing dates. */
  lemma Ascending(sorted: seq<(int, nat)>, r: seq<(int, nat)>)
    requires Seqs.SortedDesc(sorted, Earliness) && Seqs.DistinctKeys(sorted)
    requires |r| <= |sorted| && r == sorted[|sorted| - |r|..]
    ensures forall i, j :: 0 <= i < j < |r| ==> r[i].0 < r[j].0
  {
    var start := |sorted| - |r|;
    forall i, j | 0 <= i < j < |r| ensures r[i].0 < r[j].0 {
      assert r[i] == sorted[start + i] && r[j] == sorted[start + j];
      assert Earliness(sorted[start + i]) >= Earliness(sorted[start + j]);
    }
  }

  /** `getFilteredTimelineData`: the server's list until a country is
      chosen, then the country's credentials counted per day, in date
      order, keeping the last thirty days that have any. */
  function TimelineData(country: Option<string>, creds: Option<Reply<Cred>>, server: Option<seq<(int, nat)>>)
    : (r: Option<seq<(int, nat)>>)
    ensures r.None? <==> Truthy(country) && creds.Some? && creds.value.Envelope?
    ensures !Truthy(country) || creds.None? ==> r == Some(server.GetOr([]))
    ensures Truthy(country) && creds.Some? && creds.value.Items? ==> r == Some(DayCounts(Days(creds.value.items)))
  {
    if !Truthy(country) || creds.None? then Some(server.GetOr([]))
    else
      match creds.value
      case Envelope(_) => None
      case Items(cs) => Some(DayCounts(Days(cs)))
  }

  /** The timeline keeps the latest days: a day of the credentials that is
      left out is earlier than every day shown. */
  lemma DayCountsKeepLatest(days: seq<int>, k: nat)
    requires k < |days|
    ensures var r := DayCounts(days);
      days[k] in Seqs.Keys(r) || (|r| == TimelineLimit && days[k] < r[0].0)
  {
    var counts := Seqs.CountBy(days);
    var sorted := Seqs.SortDesc(counts, Earliness);
    Seqs.TallyCovers(days, counts, sorted);
    Seqs.DistinctKeysPerm(counts, sorted);
    var m :| 0 <= m < |sorted| && Seqs.Keys(sorted)[m] == days[k];
    SuffixKeepsLatest(sorted, Seqs.TakeLast(sorted, TimelineLimit), m);
  }

  /** In rows sorted by date with distinct dates, a row outside the last
      thirty is earlier than all of them. */
  lemma SuffixKeepsLatest(sorted: seq<(int, nat)>, r: seq<(int, nat)>, m: nat)
    requires Seqs.SortedDesc(sorted, Earliness) && Seqs.DistinctKeys(sorted)
    requires |r| == (if TimelineLimit <= |sorted| then TimelineLimit else |sorted|)
    requires r == sorted[|sorted| - |r|..] && m < |sorted|
    ensures sorted[m].0 in Seqs.Keys(r) || (|r| == TimelineLimit && sorted[m].0 < r[0].0)
  {
    var start := |sorted| - |r|;
    if m >= start {
      assert r[m - start] == sorted[m];
      assert Seqs.Keys(r)[m - start] == sorted[m].0;
    } else {
      assert Earliness(sorted[m]) >= Earliness(sorted[start]);
      assert sorted[m].0 != sorted[start].0;
    }
  }
}

=== FILE: enhanced_charts.dfy ===
/** The overview page's chart grid (src/components/EnhancedCharts.tsx): the
    country toggle, the Clear Filter control, the top-ten cut of each chart,
    and the domain table's risk badge. */
module Charts {
  import opened Wrappers
  import opened Tones
  import Seqs
  import Risk

  /** How many rows each chart and the domain table show. */
  const ShownRows: nat := 10

  /** Clicking a bar: the selected value is cleared when clicked again,
      otherwise the clicked value becomes the selection. */
  function Toggle(selected: Option<string>, clicked: string): (r: Option<string>)
    ensures r.Some? <==> selected != Some(clicked)
    ensures r.Some? ==> r.value == clicked
  {
    if selected == Some(clicked) then None else Some(clicked)
  }

  /** Clicking the same bar twice gives back the selection exactly when
      nothing was selected or that bar was: from another bar's selection
      the second click clears it. */
  lemma ToggleTwice(selected: Option<string>, clicked: string)
    ensures Toggle(Toggle(selected, clicked), clicked) == selected <==> selected.None? || selected == Some(clicked)
  {
  }

  /** `handleCountryClick`: the new selection handed to `onCountryFilter`, or
      `None` when the parent passed no callback and nothing happens. */
  function HandleCountryClick(hasCallback: bool, selected: Option<string>, country: string): (r: Option<Option<string>>)
    ensures r.Some? <==> hasCallback
    ensures r.Some? ==> r.value == Toggle(selected, country)
  {
    if hasCallback then Some(Toggle(selected, country)) else None
  }

  /** The Clear Filter button is drawn while the selection is truthy. */
  predicate ShowsClearFilter(selected: Option<string>) {
    Truthy(selected)
  }

  /** The Clear Filter button hands `null` to the callback when there is one. */
  function ClearFilter(hasCallback: bool): (r: Option<Option<string>>)
    ensures r.Some? <==> hasCallback
    ensures r.Some? ==> r.value.None?
  {
    if hasCallback then Some(None) else None
  }

  /** After a click on a selected country the button disappears, and after a
      click on any other non-empty country it appears. */
  lemma ClickShowsOrHidesClear(selected: Option<string>, country: string)
    requires country != ""
    ensures ShowsClearFilter(Toggle(selected, country)) <==> selected != Some(country)
  {
  }

  /** `data.slice(0, 10)`: the first ten rows of a chart. */
  function Shown<T>(data: seq<T>): (r: seq<T>)
    ensures |r| <= ShownRows && r <= data
    ensures |data| <= ShownRows ==> r == data
  {
    Seqs.Take(data, ShownRows)
  }

  /** `getRiskLevel` of the domain table: strictly more than 1000
      credentials is critical, more than 500 high, more than 100 medium. */
  function DomainRisk(count: int): (l: Risk.Level)
    ensures l == Risk.Critical <==> count > 1000
    ensures l == Risk.High <==> 500 < count <= 1000
    ensures l == Risk.Medium <==> 100 < count <= 500
    ensures l == Risk.Low <==> count <= 100
  {
    if count > 1000 then Risk.Critical
    else if count > 500 then Risk.High
    else if count > 100 then Risk.Medium
    else Risk.Low
  }

  /** The badge for one domain row, `getRiskLevel(count || 0)`: a missing
      count is low. */
  function DomainBadge(count: Option<int>): (b: (string, Tone))
    ensures count.None? ==> b == ("Low", Green)
    ensures b.0 == DomainRisk(count.GetOr(0)).Label() && b.1 == DomainRisk(count.GetOr(0)).Color()
  {
    var l := DomainRisk(count.GetOr(0));
    (l.Label(), l.Color())
  }

  /** A domain with more credentials never gets a lower badge. */
  lemma DomainRiskMonotone(a: int, b: int)
    requires a <= b
    ensures DomainRisk(a).Rank() <= DomainRisk(b).Rank()
  {
  }

  /** The table's thresholds are strict: exactly 1000, 500 and 100 stay in
      the band below. */
  lemma DomainRiskBoundaries()
    ensures DomainRisk(1000) == Risk.High && DomainRisk(1001) == Risk.Critical
    ensures DomainRisk(500) == Risk.Medium && DomainRisk(100) == Risk.Low
  {
  }

  /** The domain table shows at most ten ranked rows, each with the badge of
      its own count. */
  lemma DomainTableRows(domains: seq<(string, Option<int>)>, i: nat)
    requires i < |Shown(domains)|
    ensures Shown(domains)[i] == domains[i]
    ensures DomainBadge(Shown(domains)[i].1).0 == DomainRisk(domains[i].1.GetOr(0)).Label()
  {
  }
}

=== FILE: index_page.dfy ===
/** The legacy overview page (src/pages/Index.tsx): the country, stealer and
    domain filters the charts set, and the statistics lists they narrow. */
module IndexPage {
  import opened Wrappers
  import Text
  import Seqs
  import Charts

  /** The page's three filter states: `null` or a value for country and
      stealer, text for the domain box. */
  datatype Filters = Filters(country: Option<string>, stealer: Option<string>, domain: string)

  /** The page's first state: no filter at all. */
  function Initial(): (f: Filters)
    ensures !Truthy(f.country) && !Truthy(f.stealer) && f.domain == ""
  {
    Filters(None, None, "")
  }

  /** `handleCountryChartClick`: toggles the country and touches nothing
      else. */
  function CountryClick(f: Filters, country: string): (r: Filters)
    ensures r.stealer == f.stealer && r.domain == f.domain
    ensures r.country == Charts.Toggle(f.country, country)
  {
    f.(country := Charts.Toggle(f.country, country))
  }

  /** `handleStealerChartClick`: toggles the stealer and touches nothing
      else. */
  function StealerClick(f: Filters, stealer: string): (r: Filters)
    ensures r.country == f.country && r.domain == f.domain
    ensures r.stealer == Charts.Toggle(f.stealer, stealer)
  {
    f.(stealer := Charts.Toggle(f.stealer, stealer))
  }

  /** `clearFilters`: back to the first state, whatever the filters were. */
  function ClearFilters(f: Filters): (r: Filters)
    ensures r == Initial()
  {
    Filters(None, None, "")
  }

  /** A click on the selected bar clears its filter, a click on another bar
      selects that bar. */
  lemma ClickTogglesSelection(f: Filters, country: string, stealer: string)
    ensures f.country == Some(country) ==> CountryClick(f, country).country.None?
    ensures f.country != Some(country) ==> CountryClick(f, country).country == Some(country)
    ensures f.stealer == Some(stealer) ==> StealerClick(f, stealer).stealer.None?
    ensures f.stealer != Some(stealer) ==> StealerClick(f, stealer).stealer == Some(stealer)
  {
  }

  datatype CountryStat = CountryStat(country: Option<string>, count: nat)
  datatype StealerStat = StealerStat(stealerType: Option<string>, count: nat)
  datatype DomainStat = DomainStat(domain: string, count: nat)

  /** `!countryFilter || item.country === countryFilter`. */
  predicate CountryKeeps(filter: Option<string>, item: CountryStat) {
    !Truthy(filter) || item.country == filter
  }

  /** `!stealerFilter || item.stealer_type === stealerFilter`. */
  predicate StealerKeeps(filter: Option<string>, item: StealerStat) {
    !Truthy(filter) || item.stealerType == filter
  }

  /** `!domainFilter || item.domain.toLowerCase().includes(domainFilter.toLowerCase())`. */
  predicate DomainKeeps(filter: string, item: DomainStat) {
    filter == "" || Text.Contains(Text.ToLower(item.domain), Text.ToLower(filter))
  }

  /** `filteredCountryStats`; empty while the list is missing. */
  function FilteredCountries(stats: Option<seq<CountryStat>>, f: Filters): (r: seq<CountryStat>)
    ensures forall x :: x in r <==> x in stats.GetOr([]) && CountryKeeps(f.country, x)
    ensures !Truthy(f.country) ==> r == stats.GetOr([])
  {
    var s := stats.GetOr([]);
    Seqs.FilterMembers(s, x => CountryKeeps(f.country, x));
    if !Truthy(f.country) then
      Seqs.FilterKeepsAll(s, x => CountryKeeps(f.country, x));
      Seqs.Filter(s, x => CountryKeeps(f.country, x))
    else Seqs.Filter(s, x => CountryKeeps(f.country, x))
  }

  /** `filteredStealerStats`; empty while the list is missing. */
  function FilteredStealers(stats: Option<seq<StealerStat>>, f: Filters): (r: seq<StealerStat>)
    ensures forall x :: x in r <==> x in stats.GetOr([]) && StealerKeeps(f.stealer, x)
    ensures !Truthy(f.stealer) ==> r == stats.GetOr([])
  {
    var s := stats.GetOr([]);
    Seqs.FilterMembers(s, x => StealerKeeps(f.stealer, x));
    if !Truthy(f.stealer) then
      Seqs.FilterKeepsAll(s, x => StealerKeeps(f.stealer, x));
      Seqs.Filter(s, x => StealerKeeps(f.stealer, x))
    else Seqs.Filter(s, x => StealerKeeps(f.stealer, x))
  }

  /** `filteredDomains`; empty while the list is missing. */
  function FilteredDomains(stats: Option<seq<DomainStat>>, f: Filters): (r: seq<DomainStat>)
    ensures forall x :: x in r <==> x in stats.GetOr([]) && DomainKeeps(f.domain, x)
    ensures f.domain == "" ==> r == stats.GetOr([])
  {
    var s := stats.GetOr([]);
    Seqs.FilterMembers(s, x => DomainKeeps(f.domain, x));
    if f.domain == "" then
      Seqs.FilterKeepsAll(s, x => DomainKeeps(f.domain, x));
      Seqs.Filter(s, x => DomainKeeps(f.domain, x))
    else Seqs.Filter(s, x => DomainKeeps(f.domain, x))
  }

  /** After Clear, every list is shown in full. */
  lemma ClearShowsAll(f: Filters, countries: Option<seq<CountryStat>>, stealers: Option<seq<StealerStat>>,
                      domains: Option<seq<DomainStat>>)
    ensures FilteredCountries(countries, ClearFilters(f)) == countries.GetOr([])
    ensures FilteredStealers(stealers, ClearFilters(f)) == stealers.GetOr([])
    ensures FilteredDomains(domains, ClearFilters(f)) == domains.GetOr([])
  {
  }

  /** With a country selected, the list keeps only that country's rows: a
      second click on the same bar brings every row back. */
  lemma CountryClickRoundTrip(stats: seq<CountryStat>, f: Filters, country: string)
    requires !Truthy(f.country) && country != ""
    ensures forall x :: x in FilteredCountries(Some(stats), CountryClick(f, country)) <==>
      x in stats && x.country == Some(country)
    ensures FilteredCountries(Some(stats), CountryClick(CountryClick(f, country), country)) == stats
  {
  }

  /** The domain box matches case-blind. */
  lemma DomainFilterIgnoresCase(filter: string, item: DomainStat)
    ensures DomainKeeps(filter, item) == DomainKeeps(Text.ToLower(filter), item)
  {
    Text.ToLowerIdempotent(filter);
    if filter != "" {
      assert |Text.ToLower(filter)| == |filter|;
    }
  }
}

=== FILE: js_object.dfy ===
/** JavaScript values as the pages keep them in filter objects, and plain
    objects used as insertion-ordered dictionaries (`{...o, [k]: v}`,
    `delete o[k]`). Insertion order matters: it is the order in which the API
    client copies entries into a query string. */
module JsObject {
  import opened Wrappers
  import Text
  import Seqs

  datatype Value = Undefined | Num(n: int) | NaN | Str(s: string)

  /** JavaScript truthiness (`value && ...`, `value || default`). */
  predicate Truthy(v: Value) {
    match v
    case Undefined => false
    case NaN => false
    case Num(n) => n != 0
    case Str(s) => s != ""
  }

  /** `String(v)` / `v.toString()`. */
  function ToText(v: Value): string {
    match v
    case Undefined => "undefined"
    case NaN => "NaN"
    case Num(n) => Text.IntToString(n)
    case Str(s) => s
  }

  type Entries = seq<(string, Value)>

  predicate WellFormed(o: Entries) {
    Seqs.DistinctKeys(o)
  }

  /** `o[k]`, or None when `k` is not an own key. */
  function Get(o: Entries, k: string): (r: Option<Value>)
    ensures r.None? <==> k !in Seqs.Keys(o)
  {
    var i := Seqs.KeyIndex(o, k);
    if i == |o| then None
    else
      assert Seqs.Keys(o)[i] == k;
      Some(o[i].1)
  }

  /** `o[k] = v`: an existing key keeps its position, a new key goes last. */
  function Set(o: Entries, k: string, v: Value): (r: Entries)
    requires WellFormed(o)
    ensures WellFormed(r)
    ensures Get(r, k) == Some(v)
    ensures forall k' :: k' != k ==> Get(r, k') == Get(o, k')
    ensures Seqs.Keys(r) == if k in Seqs.Keys(o) then Seqs.Keys(o) else Seqs.Keys(o) + [k]
  {
    var i := Seqs.KeyIndex(o, k);
    if i == |o| then
      var r := o + [(k, v)];
      assert Seqs.Keys(r) == Seqs.Keys(o) + [k];
      assert k !in Seqs.Keys(o);
      assert Seqs.KeyIndex(r, k) == |o| by { KeyIndexAppend(o, k, v, k); }
      assert forall k' :: k' != k ==> Get(r, k') == Get(o, k') by {
        forall k' | k' != k ensures Get(r, k') == Get(o, k') {
          KeyIndexAppend(o, k, v, k');
        }
      }
      r
    else
      var r := o[i := (k, v)];
      assert Seqs.Keys(r) == Seqs.Keys(o);
      assert k in Seqs.Keys(o) by { assert Seqs.Keys(o)[i] == k; }
      assert forall k' :: Seqs.KeyIndex(r, k') == Seqs.KeyIndex(o, k') by {
        forall k' ensures Seqs.KeyIndex(r, k') == Seqs.KeyIndex(o, k') {
          KeyIndexSameKeys(r, o, k');
        }
      }
      r
  }

  lemma {:induction false} KeyIndexAppend(o: Entries, k: string, v: Value, k': string)
    ensures Seqs.KeyIndex(o + [(k, v)], k') ==
      if Seqs.KeyIndex(o, k') < |o| then Seqs.KeyIndex(o, k') else if k == k' then |o| else |o| + 1
    decreases |o|
  {
    if |o| > 0 {
      assert (o + [(k, v)])[1..] == o[1..] + [(k, v)];
      KeyIndexAppend(o[1..], k, v, k');
    }
  }

  lemma {:induction false} KeyIndexSameKeys(a: Entries, b: Entries, k: string)
    requires Seqs.Keys(a) == Seqs.Keys(b)
    ensures Seqs.KeyIndex(a, k) == Seqs.KeyIndex(b, k)
    decreases |a|
  {
    if |a| > 0 && a[0].0 != k {
      assert Seqs.Keys(a[1..]) == Seqs.Keys(a)[1..];
      assert Seqs.Keys(b[1..]) == Seqs.Keys(b)[1..];
      KeyIndexSameKeys(a[1..], b[1..], k);
    }
  }

  /** Looking up in an entry list with a known first entry. */
  lemma GetCons(e: (string, Value), t: Entries, k: string)
    ensures Get([e] + t, k) == if e.0 == k then Some(e.1) else Get(t, k)
  {
    var o := [e] + t;
    assert o[0] == e && o[1..] == t;
    if e.0 != k {
      var i := Seqs.KeyIndex(t, k);
      assert Seqs.KeyIndex(o, k) == 1 + i;
      if i < |t| {
        assert o[1 + i] == t[i];
      }
    }
  }

  /** `delete o[k]`: the key is gone, every other entry keeps its value. */
  function Delete(o: Entries, k: string): (r: Entries)
    requires WellFormed(o)
    ensures WellFormed(r)
    ensures Get(r, k) == None
    ensures forall k' :: k' != k ==> Get(r, k') == Get(o, k')
    ensures forall i :: 0 <= i < |r| ==> r[i] in o
    decreases |o|
  {
    if |o| == 0 then []
    else
      var rest := Delete(o[1..], k);
      assert o == [o[0]] + o[1..];
      GetConsAll(o[0], o[1..]);
      if o[0].0 == k then rest
      else
        var r := [o[0]] + rest;
        GetConsAll(o[0], rest);
        LaterKeysDiffer(o, rest);
        r
  }

  /** `GetCons` for every key at once. */
  lemma GetConsAll(e: (string, Value), t: Entries)
    ensures forall k :: Get([e] + t, k) == if e.0 == k then Some(e.1) else Get(t, k)
  {
    forall k ensures Get([e] + t, k) == if e.0 == k then Some(e.1) else Get(t, k) {
      GetCons(e, t, k);
    }
  }

  /** Entries drawn from the tail of a well-formed object do not share the
      first entry's key. */
  lemma LaterKeysDiffer(o: Entries, rest: Entries)
    requires WellFormed(o) && |o| > 0
    requires forall i :: 0 <= i < |rest| ==> rest[i] in o[1..]
    ensures forall j :: 0 <= j < |rest| ==> rest[j].0 != o[0].0
  {
    forall j | 0 <= j < |rest| ensures rest[j].0 != o[0].0 {
      var m :| 0 <= m < |o[1..]| && o[1..][m] == rest[j];
      assert o[m + 1] == rest[j];
    }
  }

  /** Deleting a key keeps the other entries in their order: it is the filter
      that drops entries with that key. */
  lemma {:induction false} DeleteIsFilter(o: Entries, k: string)
    requires WellFormed(o)
    ensures Delete(o, k) == Seqs.Filter(o, (e: (string, Value)) => e.0 != k)
    decreases |o|
  {
    if |o| > 0 {
      DeleteIsFilter(o[1..], k);
    }
  }

  // ---- parseInt ---------------------------------------------------------

  /** The longest prefix of `s` made of decimal digits. */
  function DigitPrefix(s: string): (r: string)
    ensures r <= s && Text.IsDigits(r)
    ensures |r| < |s| ==> !Text.IsDigit(s[|r|])
    decreases |s|
  {
    if |s| > 0 && Text.IsDigit(s[0]) then [s[0]] + DigitPrefix(s[1..]) else []
  }

  /** The text after an optional leading sign. */
  function Unsigned(t: string): (r: string)
    ensures |t| > 0 && (t[0] == '-' || t[0] == '+') ==> r == t[1..]
    ensures !(|t| > 0 && (t[0] == '-' || t[0] == '+')) ==> r == t
  {
    if |t| > 0 && (t[0] == '-' || t[0] == '+') then t[1..] else t
  }

  /** JavaScript's `parseInt(s)` (radix 10): leading whitespace and one sign
      are skipped, then the longest run of digits is read; no digit gives NaN. */
  function ParseInt(s: string): (v: Value)
    ensures v.Num? || v.NaN?
    ensures |s| > 0 && Text.IsDigit(s[0]) ==> v.Num? && v.n >= 0
    ensures (forall i :: 0 <= i < |s| ==> !Text.IsDigit(s[i])) ==> v == NaN
  {
    var t := Text.TrimStart(Text.JavaScript, s);
    if |s| > 0 && Text.IsDigit(s[0]) then TrimStartUnpadded(s); ParseTrimmed(t)
    else ParseTrimmed(t)
  }

  /** `parseInt` once leading whitespace is gone. */
  function ParseTrimmed(t: string): (v: Value)
    ensures v.Num? || v.NaN?
    ensures |t| > 0 && Text.IsDigit(t[0]) ==> v.Num? && v.n >= 0
    ensures (forall i :: 0 <= i < |t| ==> !Text.IsDigit(t[i])) ==> v == NaN
  {
    var digits := DigitPrefix(Unsigned(t));
    if digits == [] then NaN
    else if |t| > 0 && t[0] == '-' then Num(-(Text.DigitsValue(digits) as int))
    else Num(Text.DigitsValue(digits))
  }

  lemma {:induction false} DigitPrefixAll(s: string)
    requires Text.IsDigits(s)
    ensures DigitPrefix(s) == s
    decreases |s|
  {
    if |s| > 0 {
      DigitPrefixAll(s[1..]);
    }
  }

  /** Reading a digit string that starts at a non-blank, unsigned position. */
  lemma ParseIntOfDigits(d: string)
    requires |d| >= 1 && Text.IsDigits(d)
    ensures ParseInt(d) == Num(Text.DigitsValue(d))
  {
    assert Text.IsDigit(d[0]);
    TrimStartUnpadded(d);
    assert Unsigned(d) == d;
    DigitPrefixAll(d);
    assert ParseTrimmed(d) == Num(Text.DigitsValue(d));
  }

  /** Reading a minus sign followed by a digit string. */
  lemma ParseIntOfNegDigits(d: string)
    requires |d| >= 1 && Text.IsDigits(d)
    ensures ParseInt("-" + d) == Num(-(Text.DigitsValue(d) as int))
  {
    var t := "-" + d;
    assert t[0] == '-' && t[1..] == d;
    TrimStartUnpadded(t);
    NegTrimmed(t, d);
  }

  lemma NegTrimmed(t: string, d: string)
    requires |d| >= 1 && Text.IsDigits(d)
    requires |t| > 0 && t[0] == '-' && t[1..] == d
    ensures ParseTrimmed(t) == Num(-(Text.DigitsValue(d) as int))
  {
    assert Unsigned(t) == d;
    DigitPrefixAll(d);
  }

  lemma TrimStartUnpadded(t: string)
    requires |t| > 0 && !Text.IsSpace(Text.JavaScript, t[0])
    ensures Text.TrimStart(Text.JavaScript, t) == t
  {
  }

  /** `parseInt(String(n)) === n` for every integer. */
  lemma ParseIntRoundTrip(n: int)
    ensures ParseInt(Text.IntToString(n)) == Num(n)
  {
    var m: nat := if n < 0 then -n else n;
    var d := Text.NatToString(m);
    Text.NatToStringRoundTrip(m);
    if n < 0 {
      ParseIntOfNegDigits(d);
    } else {
      ParseIntOfDigits(d);
    }
  }
}

=== FILE: list_page.dfy ===
/** The shared state of the two server-paged list pages, cards
    (src/pages/Cards.tsx) and credentials (src/pages/Search.tsx): the filter
    object sent to the API, the page number, the estimated total, and the
    handlers that change them. The two pages differ only in the key the
    search box writes (`cardholder` or `domain`) and in the card page's two
    client-side check boxes. */
module ListPage {
  import opened Wrappers
  import opened JsObject
  import opened Tones
  import Text
  import Seqs
  import Paging

  /** The cap the pages put on offsets and estimates. */
  const MaxRecords: int := 50000

  /** `filters.limit || 100`: a zero or non-numeric limit falls back to 100. */
  function LimitOf(f: Entries): (l: int)
    ensures (exists n :: Get(f, "limit") == Some(Num(n)) && n != 0) ==> Get(f, "limit") == Some(Num(l))
    ensures !(exists n :: Get(f, "limit") == Some(Num(n)) && n != 0) ==> l == 100
  {
    match Get(f, "limit")
    case Some(Num(n)) => if n != 0 then n else 100
    case _ => 100
  }

  /** `filters.offset || 0`. */
  function OffsetOf(f: Entries): (o: int)
    ensures (exists n :: Get(f, "offset") == Some(Num(n))) ==> Get(f, "offset") == Some(Num(o))
    ensures !(exists n :: Get(f, "offset") == Some(Num(n))) ==> o == 0
  {
    match Get(f, "offset")
    case Some(Num(n)) => n
    case _ => 0
  }

  /** A page: its filter object, its page number, its estimate of the total
      row count, and the card page's "Egyptian only" and "with alerts only"
      check boxes. */
  datatype State = State(filters: Entries, currentPage: int, total: int, onlyEgyptian: bool, onlyAlerts: bool)

  function InitialFilters(): (f: Entries)
    ensures WellFormed(f) && LimitOf(f) == 100 && OffsetOf(f) == 0
  {
    [("limit", Num(100)), ("offset", Num(0))]
  }

  const Initial: State := State(InitialFilters(), 1, 0, false, false)

  /** `handleSearch`: the trimmed term under `key` when it is not blank, else
      no `key` at all; offset 0 and page 1. */
  function HandleSearch(s: State, key: string, term: string): (r: State)
    // the call sites pass filter names, never `offset`
    requires WellFormed(s.filters) && key != "offset"
    ensures WellFormed(r.filters)
    ensures Text.Strip(Text.JavaScript, term) != [] ==> Get(r.filters, key) == Some(Str(Text.Strip(Text.JavaScript, term)))
    ensures Text.Strip(Text.JavaScript, term) == [] ==> Get(r.filters, key).None?
    ensures Get(r.filters, "offset") == Some(Num(0))
    ensures forall k :: k != key && k != "offset" ==> Get(r.filters, k) == Get(s.filters, k)
    ensures r.currentPage == 1 && r.total == s.total
    ensures r.onlyEgyptian == s.onlyEgyptian && r.onlyAlerts == s.onlyAlerts
  {
    var f := Set(s.filters, "offset", Num(0));
    var t := Text.Strip(Text.JavaScript, term);
    s.(filters := if t != [] then Set(f, key, Str(t)) else Delete(f, key), currentPage := 1)
  }

  /** `handleFilterChange`: a truthy value other than `'all'` is stored under
      `key`, anything else removes `key`; offset 0 and page 1. */
  function HandleFilterChange(s: State, key: string, value: Option<string>): (r: State)
    // the call sites pass filter names, never `offset`
    requires WellFormed(s.filters) && key != "offset"
    ensures WellFormed(r.filters)
    ensures Wrappers.Truthy(value) && value.value != "all" ==> Get(r.filters, key) == Some(Str(value.value))
    ensures !(Wrappers.Truthy(value) && value.value != "all") ==> Get(r.filters, key).None?
    ensures Get(r.filters, "offset") == Some(Num(0))
    ensures forall k :: k != key && k != "offset" ==> Get(r.filters, k) == Get(s.filters, k)
    ensures r.currentPage == 1 && r.total == s.total
    ensures r.onlyEgyptian == s.onlyEgyptian && r.onlyAlerts == s.onlyAlerts
  {
    var f := if Wrappers.Truthy(value) && value.value != "all" then Set(s.filters, key, Str(value.value))
             else Delete(s.filters, key);
    s.(filters := Set(f, "offset", Num(0)), currentPage := 1)
  }

  /** The limit a choice of the page-size selector stands for: `'all'` is
      50 000, anything else goes through `parseInt`. */
  function LimitValue(choice: string): Value {
    if choice == "all" then Num(MaxRecords) else ParseInt(choice)
  }

  /** `handleLimitChange`: the new limit and offset 0, page 1. */
  function HandleLimitChange(s: State, choice: string): (r: State)
    requires WellFormed(s.filters)
    ensures WellFormed(r.filters)
    ensures Get(r.filters, "limit") == Some(LimitValue(choice))
    ensures Get(r.filters, "offset") == Some(Num(0))
    ensures forall k :: k != "limit" && k != "offset" ==> Get(r.filters, k) == Get(s.filters, k)
    ensures r.currentPage == 1 && r.total == s.total
  {
    s.(filters := Set(Set(s.filters, "limit", LimitValue(choice)), "offset", Num(0)), currentPage := 1)
  }

  /** `handlePageChange`: offset `(page - 1) * limit` and the new page, unless
      that offset reaches 50 000, when nothing changes. */
  function HandlePageChange(s: State, page: int): (r: State)
    requires WellFormed(s.filters)
    ensures WellFormed(r.filters)
    ensures (page - 1) * LimitOf(s.filters) >= MaxRecords ==> r == s
    ensures (page - 1) * LimitOf(s.filters) < MaxRecords ==>
      Get(r.filters, "offset") == Some(Num((page - 1) * LimitOf(s.filters))) && r.currentPage == page
    ensures forall k :: k != "offset" ==> Get(r.filters, k) == Get(s.filters, k)
    ensures r.total == s.total
  {
    var o := (page - 1) * LimitOf(s.filters);
    if o >= MaxRecords then s
    else s.(filters := Set(s.filters, "offset", Num(o)), currentPage := page)
  }

  /** The total estimate after a load: exact for a short page, one past the
      page (capped at 50 000) for a full one; an envelope, which is not an
      array, leaves it as it was. */
  function Loaded<T>(s: State, reply: Reply<T>): (r: State)
    ensures r.filters == s.filters && r.currentPage == s.currentPage
    ensures reply.Envelope? ==> r == s
    ensures reply.Items? && |reply.items| < LimitOf(s.filters) ==> r.total == OffsetOf(s.filters) + |reply.items|
    ensures reply.Items? && |reply.items| >= LimitOf(s.filters) ==>
      r.total <= MaxRecords &&
      (OffsetOf(s.filters) + |reply.items| < MaxRecords ==> r.total == OffsetOf(s.filters) + |reply.items| + 1)
  {
    match reply
    case Envelope(_) => s
    case Items(rows) =>
      var n := |rows|;
      var o := OffsetOf(s.filters);
      if n < LimitOf(s.filters) then s.(total := o + n)
      else s.(total := if MaxRecords < o + n + 1 then MaxRecords else o + n + 1)
  }

  /** `clearAllFilters`: the initial filters, page 1, both check boxes off;
      the estimate is kept. */
  function ClearAll(s: State): (r: State)
    ensures r.filters == InitialFilters() && r.currentPage == 1
    ensures !r.onlyEgyptian && !r.onlyAlerts && r.total == s.total
  {
    State(InitialFilters(), 1, s.total, false, false)
  }

  // ---- what the page shows --------------------------------------------------

  /** `Array.isArray(result) ? result : []`: the rows of an array reply, and
      none before the query has loaded or for an envelope. Unlike the pages
      that read a reply with `ArrayOf`, this read never throws. */
  function Rows<T>(reply: Option<Reply<T>>): (r: seq<T>)
    ensures ArrayOf(reply).Some? ==> r == ArrayOf(reply).value
    ensures ArrayOf(reply).None? ==> r == []
  {
    match reply
    case Some(Items(rows)) => rows
    case _ => []
  }

  /** `hasNextPage`: a full page, room below the cap, and not the "all"
      setting. */
  predicate HasNextPage(s: State, shown: nat): (r: bool)
    ensures r && Consistent(s) ==> s.currentPage * LimitOf(s.filters) < MaxRecords
    ensures Consistent(s) && LimitOf(s.filters) == MaxRecords ==> !r
  {
    shown == LimitOf(s.filters) && OffsetOf(s.filters) + LimitOf(s.filters) < MaxRecords &&
    Get(s.filters, "limit") != Some(Num(MaxRecords))
  }

  predicate HasPrevPage(s: State) {
    s.currentPage > 1
  }

  /** `maxPossiblePages`: the estimate, capped, over the limit, rounded up. */
  function MaxPages(s: State): (n: nat)
    requires LimitOf(s.filters) > 0
    ensures var t := if s.total < 0 then 0 else if s.total < MaxRecords then s.total else MaxRecords;
      n * LimitOf(s.filters) >= t && (n == 0 || (n - 1) * LimitOf(s.filters) < t)
  {
    var t := if s.total < 0 then 0 else if s.total < MaxRecords then s.total else MaxRecords;
    Paging.CeilDiv(t, LimitOf(s.filters))
  }

  /** A card as the card page filters it. */
  datatype CardRow = CardRow(id: nat, isEgyptian: bool)

  /** The card page's check boxes: Egyptian cards only, and cards some alert
      points at only, both in list order. The alert filter applies once the
      card-alert query has loaded; each alert is given by its `card_id`. It
      builds the id set with `cardAlerts.map`, so an envelope reply makes the
      page throw (`None`). */
  function ShownCards(cards: seq<CardRow>, onlyEgyptian: bool, onlyAlerts: bool, cardAlerts: Option<Reply<nat>>)
    : (r: Option<seq<CardRow>>)
    ensures r.None? <==> onlyAlerts && cardAlerts.Some? && cardAlerts.value.Envelope?
    ensures r.Some? ==> |r.value| <= |cards|
    ensures r.Some? ==> forall c :: c in r.value <==>
      (c in cards && (onlyEgyptian ==> c.isEgyptian) &&
       (onlyAlerts && cardAlerts.Some? ==> c.id in cardAlerts.value.items))
  {
    Seqs.FilterMembers(cards, (c: CardRow) => c.isEgyptian);
    var a := if onlyEgyptian then Seqs.Filter(cards, (c: CardRow) => c.isEgyptian) else cards;
    if onlyAlerts && cardAlerts.Some? then
      match cardAlerts.value
      case Envelope(_) => None
      case Items(ids) =>
        Seqs.FilterMembers(a, (c: CardRow) => c.id in ids);
        Some(Seqs.Filter(a, (c: CardRow) => c.id in ids))
    else Some(a)
  }

  /** The check boxes decide each card on its own, so the shown cards keep
      the list order: the cards of a concatenation are the cards of each
      part, one after the other. */
  lemma ShownCardsKeepsOrder(a: seq<CardRow>, b: seq<CardRow>, onlyEgyptian: bool, onlyAlerts: bool,
                             cardAlerts: Option<Reply<nat>>)
    requires ShownCards(a + b, onlyEgyptian, onlyAlerts, cardAlerts).Some?
    ensures ShownCards(a + b, onlyEgyptian, onlyAlerts, cardAlerts).value ==
      ShownCards(a, onlyEgyptian, onlyAlerts, cardAlerts).value + ShownCards(b, onlyEgyptian, onlyAlerts, cardAlerts).value
  {
    var egypt := (c: CardRow) => c.isEgyptian;
    Seqs.FilterAppend(a, b, egypt);
    var ea := if onlyEgyptian then Seqs.Filter(a, egypt) else a;
    var eb := if onlyEgyptian then Seqs.Filter(b, egypt) else b;
    if onlyAlerts && cardAlerts.Some? {
      Seqs.FilterAppend(ea, eb, (c: CardRow) => c.id in cardAlerts.value.items);
    }
  }

  /** The filters `handleExport` sends: the page's filters without `limit`
      and `offset`, every other entry as it was. */
  function ExportFilters(f: Entries): (r: Entries)
    requires WellFormed(f)
    ensures WellFormed(r)
    ensures Get(r, "limit").None? && Get(r, "offset").None?
    ensures forall k :: k != "limit" && k != "offset" ==> Get(r, k) == Get(f, k)
  {
    Delete(Delete(f, "limit"), "offset")
  }

  predicate NotPaging(e: (string, Value)) {
    e.0 != "limit" && e.0 != "offset"
  }

  /** The export keeps the remaining entries in their order, so its query
      string is the page's without the two paging parameters. */
  lemma ExportFiltersInOrder(f: Entries)
    requires WellFormed(f)
    ensures ExportFilters(f) == Seqs.Filter(f, NotPaging)
  {
    var a := Delete(f, "limit");
    DeleteIsFilter(f, "limit");
    DeleteIsFilter(a, "offset");
    Seqs.FilterFilter(f, (e: (string, Value)) => e.0 != "limit", (e: (string, Value)) => e.0 != "offset", NotPaging);
  }

  /** `getConfidenceColor`, on the 0–1 scale: green from 0.8, yellow from 0.6,
      red below. */
  function ConfidenceColor(score: real): (t: Tone)
    ensures t == Green <==> score >= 0.8
    ensures t == Yellow <==> 0.6 <= score < 0.8
    ensures t == Red <==> score < 0.6
  {
    if score >= 0.8 then Green else if score >= 0.6 then Yellow else Red
  }

  /** The password cell: `'N/A'` for a missing or empty password, else one
      dot per character, at most twelve. */
  function PasswordCell(password: Option<string>): (r: string)
    ensures !Wrappers.Truthy(password) ==> r == "N/A"
    ensures Wrappers.Truthy(password) ==> (|r| == (if |password.value| < 12 then |password.value| else 12) &&
      forall i :: 0 <= i < |r| ==> r[i] == '●')
  {
    if !Wrappers.Truthy(password) then "N/A"
    else Text.Repeat('●', if |password.value| < 12 then |password.value| else 12)
  }

  /** The cell shows no character of the password: passwords of the same
      length, or both of twelve characters or more, look alike. */
  lemma PasswordCellHidesText(a: string, b: string)
    requires a != [] && b != []
    requires |a| == |b| || (|a| >= 12 && |b| >= 12)
    ensures PasswordCell(Some(a)) == PasswordCell(Some(b))
  {
  }

  // ---- the page as a state machine -------------------------------------------

  /** What the user can do on the page. */
  datatype Event<T> =
    | Search(term: string)
    | FilterChange(key: string, value: Option<string>)
    | LimitChange(choice: string)
    | PageChange(page: int)
    | Load(reply: Reply<T>)
    | SetEgyptianOnly(on: bool)
    | SetAlertsOnly(on: bool)
    | Clear

  /** One event; `searchKey` is the key the page's search box writes. */
  function Step<T>(s: State, searchKey: string, e: Event<T>): (r: State)
    requires WellFormed(s.filters) && searchKey != "offset"
    ensures WellFormed(r.filters)
  {
    match e
    case Search(term) => HandleSearch(s, searchKey, term)
    case FilterChange(k, v) => if k == "offset" then s else HandleFilterChange(s, k, v)
    case LimitChange(c) => HandleLimitChange(s, c)
    case PageChange(p) => HandlePageChange(s, p)
    case Load(reply) => Loaded(s, reply)
    case SetEgyptianOnly(on) => s.(onlyEgyptian := on)
    case SetAlertsOnly(on) => s.(onlyAlerts := on)
    case Clear => ClearAll(s)
  }

  /** Events the page's controls can raise: filter selects for keys other
      than `limit` and `offset`, the five page-size choices, and page
      buttons, which are never below page 1. */
  predicate FromControls<T>(e: Event<T>) {
    match e
    case FilterChange(k, _) => k != "limit" && k != "offset"
    case LimitChange(c) => SizeOption(c)
    case PageChange(p) => p >= 1
    case _ => true
  }

  /** What holds on every page the controls can reach: the limit is a
      positive divisor of 50 000, the offset is below the cap, and the offset
      is exactly where the current page starts. */
  predicate Consistent(s: State) {
    WellFormed(s.filters) &&
    LimitOf(s.filters) > 0 && MaxRecords % LimitOf(s.filters) == 0 &&
    s.currentPage >= 1 &&
    OffsetOf(s.filters) == (s.currentPage - 1) * LimitOf(s.filters) &&
    0 <= OffsetOf(s.filters) < MaxRecords
  }

  lemma InitialConsistent()
    ensures Consistent(Initial)
  {
  }

  /** The page-size selector's options: the texts of 100, 500, 1000 and
      5000, and `'all'`. */
  predicate SizeOption(c: string) {
    c == "all" || exists n :: n in {100, 500, 1000, 5000} && c == Text.IntToString(n)
  }

  /** Each option reads as a positive divisor of 50 000. */
  lemma LimitChoices(c: string)
    requires SizeOption(c)
    ensures LimitValue(c).Num? && LimitValue(c).n > 0 && MaxRecords % LimitValue(c).n == 0
  {
    if c != "all" {
      var n :| n in {100, 500, 1000, 5000} && c == Text.IntToString(n);
      ParseIntRoundTrip(n);
      assert LimitValue(c) == Num(n);
      assert n == 100 || n == 500 || n == 1000 || n == 5000;
    }
  }

  /** Every event the controls raise keeps the page consistent. */
  lemma StepConsistent<T>(s: State, searchKey: string, e: Event<T>)
    requires Consistent(s) && FromControls(e)
    requires searchKey != "limit" && searchKey != "offset"
    ensures Consistent(Step(s, searchKey, e))
  {
    match e
    case Search(term) => ResetKeepsLimit(s, Step(s, searchKey, e));
    case FilterChange(k, v) => ResetKeepsLimit(s, Step(s, searchKey, e));
    case LimitChange(c) => LimitChangeConsistent(s, c);
    case PageChange(p) => PageChangeConsistent(s, p);
    case Load(reply) =>
    case SetEgyptianOnly(on) =>
    case SetAlertsOnly(on) =>
    case Clear =>
  }

  /** Back to page 1 with offset 0 under an unchanged limit. */
  lemma ResetKeepsLimit(s: State, r: State)
    requires Consistent(s) && WellFormed(r.filters)
    requires Get(r.filters, "limit") == Get(s.filters, "limit")
    requires Get(r.filters, "offset") == Some(Num(0)) && r.currentPage == 1
    ensures Consistent(r)
  {
    assert LimitOf(r.filters) == LimitOf(s.filters);
  }

  lemma LimitChangeConsistent(s: State, c: string)
    requires Consistent(s) && SizeOption(c)
    ensures Consistent(HandleLimitChange(s, c))
  {
    var r := HandleLimitChange(s, c);
    LimitChoices(c);
    assert Get(r.filters, "limit") == Some(LimitValue(c));
    assert LimitOf(r.filters) == LimitValue(c).n;
  }

  lemma PageChangeConsistent(s: State, p: int)
    requires Consistent(s) && p >= 1
    ensures Consistent(HandlePageChange(s, p))
  {
    var l := LimitOf(s.filters);
    var o := (p - 1) * l;
    if o < MaxRecords {
      var r := HandlePageChange(s, p);
      assert Get(r.filters, "limit") == Get(s.filters, "limit");
      assert LimitOf(r.filters) == l;
      assert OffsetOf(r.filters) == o;
      MulNonNegative(p - 1, l);
    }
  }

  lemma MulNonNegative(a: int, b: int)
    requires a >= 0 && b >= 0
    ensures a * b >= 0
  {
  }

  /** A sequence of events, in order. */
  function Run<T>(s: State, searchKey: string, es: seq<Event<T>>): (r: State)
    requires WellFormed(s.filters) && searchKey != "offset"
    ensures WellFormed(r.filters)
    decreases |es|
  {
    if |es| == 0 then s else Run(Step(s, searchKey, es[0]), searchKey, es[1..])
  }

  /** Whatever the user does with the page's controls, the page stays
      consistent: no request ever carries an offset at or past 50 000, and
      the offset always matches the page number shown. */
  lemma {:induction false} RunConsistent<T>(s: State, searchKey: string, es: seq<Event<T>>)
    requires Consistent(s)
    requires searchKey != "limit" && searchKey != "offset"
    requires forall i :: 0 <= i < |es| ==> FromControls(es[i])
    ensures Consistent(Run(s, searchKey, es))
    decreases |es|
  {
    if |es| > 0 {
      StepConsistent(s, searchKey, es[0]);
      RunConsistent(Step(s, searchKey, es[0]), searchKey, es[1..]);
    }
  }

  /** The next button is never swallowed by the offset guard: on a
      consistent page that offers a next page, going there moves the offset
      on by one limit. */
  lemma NextPageMoves(s: State, shown: nat)
    requires Consistent(s) && HasNextPage(s, shown)
    ensures var r := HandlePageChange(s, s.currentPage + 1);
      r.currentPage == s.currentPage + 1 && OffsetOf(r.filters) == OffsetOf(s.filters) + LimitOf(s.filters)
  {
    assert s.currentPage * LimitOf(s.filters) == OffsetOf(s.filters) + LimitOf(s.filters);
  }

  /** A short, non-empty page makes the current page the last one the page
      window offers. */
  lemma ShortPageIsLast<T>(s: State, rows: seq<T>)
    requires Consistent(s) && 0 < |rows| < LimitOf(s.filters)
    ensures MaxPages(Loaded(s, Items(rows))) == s.currentPage
  {
    var n := |rows|;
    var l := LimitOf(s.filters);
    var r := Loaded(s, Items(rows));
    var cp := s.currentPage;
    assert r.total == (cp - 1) * l + n;
    assert OffsetOf(s.filters) + l <= MaxRecords by {
      MultipleBelowCap(cp - 1, l);
    }
    var q := MaxPages(r);
    assert q * l > (cp - 1) * l;
    assert (q - 1) * l < cp * l;
    LessTimes(cp - 1, q, l);
    LessTimes(q - 1, cp, l);
  }

  /** A full page below the cap makes the next page one the window can offer. */
  lemma FullPageOffersNext<T>(s: State, rows: seq<T>)
    requires Consistent(s) && OffsetOf(s.filters) + LimitOf(s.filters) < MaxRecords
    requires |rows| == LimitOf(s.filters)
    ensures MaxPages(Loaded(s, Items(rows))) == s.currentPage + 1
  {
    var l := LimitOf(s.filters);
    var r := Loaded(s, Items(rows));
    var cp := s.currentPage;
    assert r.total == cp * l + 1;
    var q := MaxPages(r);
    assert q * l > cp * l;
    assert (q - 1) * l < cp * l + 1;
    assert (q - 1) * l <= cp * l;
    LessTimes(cp, q, l);
    LessEqTimes(q - 1, cp, l);
  }

  /** A page start below 50 000 on a divisor of 50 000 leaves room for a
      whole page. */
  lemma MultipleBelowCap(k: int, l: int)
    requires l > 0 && MaxRecords % l == 0 && 0 <= k * l < MaxRecords
    ensures k * l + l <= MaxRecords
  {
    var m := MaxRecords / l;
    assert m * l == MaxRecords;
    LessTimes(k, m, l);
    assert (m - (k + 1)) * l >= 0;
  }

  lemma LessTimes(a: int, b: int, l: int)
    requires l > 0 && a * l < b * l
    ensures a < b
  {
  }

  lemma LessEqTimes(a: int, b: int, l: int)
    requires l > 0 && a * l <= b * l
    ensures a <= b
  {
  }
}

=== FILE: paging.dfy ===
/** Pagination arithmetic: the card search endpoint's fixed pages
    (backend/app.py, `search_cards`), the five-slot page window the list
    pages draw, and the client-side slicing of the alerts dashboard. */
module Paging {
  import opened Wrappers
  import Text
  import BinTable

  /** `ceil(n / d)`, written in the source as `(n + d - 1) // d` or
      `Math.ceil(n / d)`: the fewest pages of `d` rows that hold `n` rows. */
  function CeilDiv(n: nat, d: nat): (q: nat)
    requires d > 0
    ensures q * d >= n
    ensures q == 0 || (q - 1) * d < n
  {
    (n + d - 1) / d
  }

  // ---- the card search endpoint -----------------------------------------

  /** The page size the endpoint forces, whatever the request says. */
  const SearchPerPage: nat := 100

  /** The cap on the rows a search can reach. */
  const MaxRecords: nat := 50000

  /** Python's `int(text)` on the ASCII subset it accepts: optional
      surrounding whitespace, an optional sign, and at least one digit.
      Anything else raises, which the endpoint turns into a 500. */
  function PyInt(s: string): (r: Option<int>)
    ensures r.Some? ==> Text.Strip(Text.Python, s) != []
  {
    var t := Text.Strip(Text.Python, s);
    if |t| > 0 && Text.IsDigits(t) then Some(Text.DigitsValue(t) as int)
    else if |t| > 1 && (t[0] == '-' || t[0] == '+') && Text.IsDigits(t[1..]) then
      Some(if t[0] == '-' then -(Text.DigitsValue(t[1..]) as int) else Text.DigitsValue(t[1..]) as int)
    else None
  }

  /** A bare digit string reads as its value. */
  lemma PyIntOfDigits(s: string)
    requires Text.IsDigits(s) && s != []
    ensures PyInt(s) == Some(Text.DigitsValue(s) as int)
  {
    assert Text.IsDigit(s[0]) && Text.IsDigit(s[|s| - 1]);
    Text.StripUnpadded(Text.Python, s);
  }

  /** `int(str(n)) == n` for every integer. */
  lemma PyIntRoundTrip(n: int)
    ensures PyInt(Text.IntToString(n)) == Some(n)
  {
    var m: nat := if n < 0 then -n else n;
    var d := Text.NatToString(m);
    Text.NatToStringRoundTrip(m);
    if n >= 0 {
      PyIntOfDigits(d);
    } else {
      var t := "-" + d;
      assert t[1..] == d;
      assert Text.IsDigit(d[|d| - 1]);
      Text.StripUnpadded(Text.Python, t);
      assert !Text.IsDigits(t) by {
        assert !Text.IsDigit(t[0]);
      }
    }
  }

  /** The row offset of `page`: `(page - 1) * 100`, lowered to the last full
      page below the cap. A page below 1 gives a negative offset. */
  function SearchOffset(page: int): (o: int)
    ensures o <= MaxRecords - SearchPerPage
    ensures page <= MaxRecords / SearchPerPage ==> o == (page - 1) * SearchPerPage
    ensures page >= MaxRecords / SearchPerPage ==> o == MaxRecords - SearchPerPage
  {
    var o := (page - 1) * SearchPerPage;
    if o > MaxRecords - SearchPerPage then MaxRecords - SearchPerPage else o
  }

  /** The `results` and `pagination` of one response. */
  datatype SearchPage<T> = SearchPage(
    results: seq<T>, page: int, totalCount: nat, totalPages: nat, hasNext: bool, hasPrev: bool)

  /** One page of the rows the filters select, `matching` in the query's
      order. The count query counts at most 50 000 rows; a negative offset
      makes the row query fail, which leaves the results empty. */
  function SearchPageOf<T>(page: int, matching: seq<T>): (r: SearchPage<T>)
    ensures r.page == page
    ensures r.totalCount == if |matching| < MaxRecords then |matching| else MaxRecords
    ensures r.totalPages * SearchPerPage >= r.totalCount
    ensures r.totalPages == 0 || (r.totalPages - 1) * SearchPerPage < r.totalCount
    ensures r.hasNext <==> page < r.totalPages
    ensures r.hasPrev <==> page > 1
    ensures |r.results| <= SearchPerPage
    ensures SearchOffset(page) < 0 ==> r.results == []
    ensures SearchOffset(page) >= 0 ==>
      forall k :: 0 <= k < |r.results| ==>
        (SearchOffset(page) + k < |matching| && r.results[k] == matching[SearchOffset(page) + k])
    ensures 0 <= SearchOffset(page) && SearchOffset(page) + SearchPerPage <= |matching| ==>
      |r.results| == SearchPerPage
  {
    var total := if |matching| < MaxRecords then |matching| else MaxRecords;
    var offset := SearchOffset(page);
    var results :=
      if offset < 0 || offset >= |matching| then []
      else if offset + SearchPerPage <= |matching| then matching[offset..offset + SearchPerPage]
      else matching[offset..];
    var pages := CeilDiv(total, SearchPerPage);
    SearchPage(results, page, total, pages, page < pages, page > 1)
  }

  /** A bank-name filter that no BIN of the BIN table `bins` (the
      endpoint's `EGYPTIAN_BINS`) matches: a non-empty `bank_name` that no
      issuer contains. */
  predicate UnknownBank(bins: seq<(string, BinTable.BinInfo)>, bankName: Option<string>) {
    bankName.Some? && bankName.value != [] && BinTable.MatchingBinsIn(bins, bankName.value) == []
  }

  /** The response to a search request whose `page`, `per_page` and
      `bank_name` parameters are `pageArg`, `perPageArg` and `bankName`;
      `None` is the 500 reply when `page` or `per_page` is present and not an
      integer. A bank name that matches no BIN returns at once: no rows, no
      pages, and neither a next nor a previous page, whatever the page. */
  function SearchRequest<T>(pageArg: Option<string>, perPageArg: Option<string>,
                            bins: seq<(string, BinTable.BinInfo)>, bankName: Option<string>, matching: seq<T>)
    : (r: Option<SearchPage<T>>)
    ensures r.Some? <==> (pageArg.None? || PyInt(pageArg.value).Some?) &&
                         (perPageArg.None? || PyInt(perPageArg.value).Some?)
    ensures r.Some? && pageArg.None? ==> r.value.page == 1
    ensures r.Some? && pageArg.Some? ==> r.value.page == PyInt(pageArg.value).value
    ensures r.Some? && UnknownBank(bins, bankName) ==>
      r.value.results == [] && r.value.totalCount == 0 && r.value.totalPages == 0 &&
      !r.value.hasNext && !r.value.hasPrev
    ensures r.Some? && !UnknownBank(bins, bankName) ==> r.value == SearchPageOf(r.value.page, matching)
  {
    var page := if pageArg.None? then Some(1) else PyInt(pageArg.value);
    var perPage := if perPageArg.None? then Some(SearchPerPage as int) else PyInt(perPageArg.value);
    if page.None? || perPage.None? then None
    else if UnknownBank(bins, bankName) then Some(SearchPage([], page.value, 0, 0, false, false))
    else Some(SearchPageOf(page.value, matching))
  }

  /** The early return for an unknown bank drops `has_prev` on a later page,
      where an ordinary page with no rows keeps it. */
  lemma UnknownBankDropsPrev<T>(bins: seq<(string, BinTable.BinInfo)>, bankName: Option<string>, matching: seq<T>)
    requires UnknownBank(bins, bankName)
    ensures !SearchRequest(Some("2"), None, bins, bankName, matching).value.hasPrev
    ensures SearchPageOf(2, matching).hasPrev
  {
    PyIntOfDigits("2");
  }

  /** Every reachable row is on exactly the page its index says: row `i`
      is item `i % 100` of page `i / 100 + 1`. */
  lemma RowOnItsPage<T>(matching: seq<T>, i: nat)
    requires i < |matching| && i < MaxRecords
    ensures var r := SearchPageOf(i / SearchPerPage + 1, matching);
      i % SearchPerPage < |r.results| && r.results[i % SearchPerPage] == matching[i]
  {
    var page := i / SearchPerPage + 1;
    assert page <= MaxRecords / SearchPerPage;
    assert SearchOffset(page) == i - i % SearchPerPage;
  }

  /** Pages past the cap all show the last reachable page. */
  lemma PagesPastCapRepeat<T>(matching: seq<T>, page: int)
    requires page >= MaxRecords / SearchPerPage
    ensures SearchPageOf(page, matching).results == SearchPageOf(MaxRecords / SearchPerPage, matching).results
  {
  }

  /** When `has_next` is set, the next page is not empty. */
  lemma NextPageNonEmpty<T>(matching: seq<T>, page: int)
    requires page >= 1 && SearchPageOf(page, matching).hasNext
    ensures |SearchPageOf(page + 1, matching).results| > 0
  {
    var r := SearchPageOf(page, matching);
    assert page * SearchPerPage < r.totalCount by {
      assert (r.totalPages - 1) * SearchPerPage < r.totalCount;
      assert page <= r.totalPages - 1;
    }
    assert SearchOffset(page + 1) == page * SearchPerPage;
  }

  // ---- the page window --------------------------------------------------

  /** The page numbers the list pages draw: `min(5, maxPages)` slots,
      starting at 1 near the front, ending at `maxPages` near the back, and
      centred on `current` in between. */
  function PageWindow(current: int, maxPages: nat): (w: seq<int>)
    ensures |w| == if maxPages < 5 then maxPages else 5
    ensures forall i :: 0 <= i < |w| ==> w[i] == w[0] + i
  {
    var n := if maxPages < 5 then maxPages else 5;
    seq(n, i =>
      if maxPages <= 5 then i + 1
      else if current <= 3 then i + 1
      else if current >= maxPages - 2 then maxPages - 4 + i
      else current - 2 + i)
  }

  /** Every slot is a real page, whatever `current` is, and the current page
      has a slot exactly when it is a real page. */
  lemma PageWindowBounds(current: int, maxPages: nat)
    ensures forall i :: 0 <= i < |PageWindow(current, maxPages)| ==>
      1 <= PageWindow(current, maxPages)[i] <= maxPages
    ensures current in PageWindow(current, maxPages) <==> 1 <= current <= maxPages
  {
    var w := PageWindow(current, maxPages);
    if 1 <= current <= maxPages {
      var i := if maxPages <= 5 || current <= 3 then current - 1
               else if current >= maxPages - 2 then current - (maxPages - 4)
               else 2;
      assert w[i] == current;
    }
  }

  /** Away from both ends the current page sits in the middle slot. */
  lemma PageWindowCentred(current: int, maxPages: nat)
    requires maxPages > 5 && 3 < current < maxPages - 2
    ensures PageWindow(current, maxPages)[2] == current
  {
  }

  // ---- client-side slicing ----------------------------------------------

  /** JavaScript's `s.slice(start, end)`: negative bounds count from the
      end, and both are clamped to the sequence. */
  function JsSlice<T>(s: seq<T>, start: int, end: int): (r: seq<T>)
    ensures |r| <= |s|
  {
    var a := if start < 0 then (if |s| + start < 0 then 0 else |s| + start)
             else if start > |s| then |s| else start;
    var b := if end < 0 then (if |s| + end < 0 then 0 else |s| + end)
             else if end > |s| then |s| else end;
    if a < b then s[a..b] else []
  }

  /** A slice holds only items of the sequence it is cut from. */
  lemma JsSliceWithin<T>(s: seq<T>, start: int, end: int, x: T)
    requires x in JsSlice(s, start, end)
    ensures x in s
  {
  }

  /** Page `page` of the alerts dashboard: `slice((page-1)*limit, page*limit)`. */
  function SlicePage<T>(s: seq<T>, page: int, limit: nat): (r: seq<T>)
    requires limit > 0
    ensures page >= 1 ==> |r| <= limit
    ensures page >= 1 && (page - 1) * limit <= |s| ==>
      r == s[(page - 1) * limit..if page * limit <= |s| then page * limit else |s|]
  {
    JsSlice(s, (page - 1) * limit, page * limit)
  }

  /** The first `n` pages laid end to end. */
  function PagesUpTo<T>(s: seq<T>, n: nat, limit: nat): seq<T>
    requires limit > 0
  {
    if n == 0 then [] else PagesUpTo(s, n - 1, limit) + SlicePage(s, n, limit)
  }

  /** The first `n` pages are the first `n * limit` items. */
  lemma {:induction false} PagesUpToPrefix<T>(s: seq<T>, n: nat, limit: nat)
    requires limit > 0
    ensures PagesUpTo(s, n, limit) == s[..if n * limit <= |s| then n * limit else |s|]
  {
    if n > 0 {
      PagesUpToPrefix(s, n - 1, limit);
      var a := (n - 1) * limit;
      var b := n * limit;
      assert b == a + limit;
      var lo := if a <= |s| then a else |s|;
      var hi := if b <= |s| then b else |s|;
      SlicePageClamped(s, n, limit, a, b);
      assert PagesUpTo(s, n, limit) == s[..lo] + s[lo..hi];
      assert lo <= hi;
      assert s[..lo] + s[lo..hi] == s[..hi];
    }
  }

  /** Page `n` is the clamped slice between `(n-1)*limit` and `n*limit`. */
  lemma SlicePageClamped<T>(s: seq<T>, n: nat, limit: nat, a: int, b: int)
    requires limit > 0 && n > 0 && a == (n - 1) * limit && b == a + limit
    ensures a >= 0
    ensures var lo := if a <= |s| then a else |s|;
      var hi := if b <= |s| then b else |s|;
      SlicePage(s, n, limit) == s[lo..hi]
  {
    assert n * limit == b;
    MulNonNegative(n - 1, limit);
  }

  lemma MulNonNegative(a: int, b: int)
    requires a >= 0 && b >= 0
    ensures a * b >= 0
  {
  }

  /** The dashboard's pages cover the alert list exactly once and in order:
      pages 1 to `ceil(len / limit)` laid end to end give the whole list. */
  lemma SlicePagesPartition<T>(s: seq<T>, limit: nat)
    requires limit > 0
    ensures PagesUpTo(s, CeilDiv(|s|, limit), limit) == s
  {
    PagesUpToPrefix(s, CeilDiv(|s|, limit), limit);
  }
}

=== FILE: risk.dfy ===
/** Risk levels of a credential's confidence score, on the 0–100 scale
    (src/components/CredentialsTable.tsx, src/pages/CredentialDetail.tsx),
    and the credentials table's search and risk filter. */
module Risk {
  import opened Wrappers
  import opened Tones
  import Text
  import Seqs
  import ListPage

  datatype Level = Low | Medium | High | Critical {
    /** The lower-case key the table's risk selector compares against. */
    function Key(): string {
      match this
      case Low => "low"
      case Medium => "medium"
      case High => "high"
      case Critical => "critical"
    }

    /** The capitalised label of the detail page. */
    function Label(): string {
      match this
      case Low => "Low"
      case Medium => "Medium"
      case High => "High"
      case Critical => "Critical"
    }

    function Rank(): nat {
      match this
      case Low => 0
      case Medium => 1
      case High => 2
      case Critical => 3
    }

    /** The badge colour of the level. */
    function Color(): Tone {
      match this
      case Low => Green
      case Medium => Yellow
      case High => Orange
      case Critical => Red
    }
  }

  /** Reference definition of the bands: each level owns a half-open range
      of scores. */
  predicate InBand(l: Level, score: real) {
    match l
    case Critical => 80.0 <= score
    case High => 60.0 <= score < 80.0
    case Medium => 40.0 <= score < 60.0
    case Low => score < 40.0
  }

  /** `getRiskLevel`: critical from 80, high from 60, medium from 40, low
      below (both pages use these thresholds). */
  function RiskLevel(score: real): (l: Level)
    ensures InBand(l, score)
  {
    if score >= 80.0 then Critical
    else if score >= 60.0 then High
    else if score >= 40.0 then Medium
    else Low
  }

  /** The bands are disjoint and cover every score: a score is in a level's
      band exactly when it gets that level. */
  lemma BandsPartition(score: real, l: Level)
    ensures InBand(l, score) <==> RiskLevel(score) == l
  {
  }

  /** A higher score never gets a lower level. */
  lemma RiskLevelMonotone(a: real, b: real)
    requires a <= b
    ensures RiskLevel(a).Rank() <= RiskLevel(b).Rank()
  {
  }

  /** The table's `getRiskColor`: the colour of the table's level. */
  function TableRiskColor(score: real): (t: Tone)
    ensures t == RiskLevel(score).Color()
  {
    match RiskLevel(score).Key()
    case "critical" => Red
    case "high" => Orange
    case "medium" => Yellow
    case "low" => Green
    case _ => Gray
  }

  /** The table's colour depends on the score only through its level. */
  lemma TableColorByLevel(a: real, b: real)
    requires RiskLevel(a) == RiskLevel(b)
    ensures TableRiskColor(a) == TableRiskColor(b)
  {
  }

  /** The detail page's `getRiskColor`, written with its own thresholds. */
  function DetailRiskColor(score: real): (t: Tone)
    ensures t == TableRiskColor(score)
  {
    if score >= 80.0 then Red
    else if score >= 60.0 then Orange
    else if score >= 40.0 then Yellow
    else Green
  }

  /** The detail page's `getRiskLevel`: the capitalised label. */
  function DetailRiskLevel(score: real): (s: string)
    ensures s == RiskLevel(score).Label()
  {
    if score >= 80.0 then "Critical"
    else if score >= 60.0 then "High"
    else if score >= 40.0 then "Medium"
    else "Low"
  }

  /** The detail page's colour and label bands agree for every score, and
      with the table's. */
  lemma DetailColorMatchesLevel(score: real)
    ensures DetailRiskColor(score) == RiskLevel(score).Color()
    ensures DetailRiskColor(score) == TableRiskColor(score)
  {
  }

  /** The detail page's colour is monotone: a higher score never gets the
      colour of a lower band. */
  lemma DetailColorMonotone(a: real, b: real)
    requires a <= b
    ensures Band(DetailRiskColor(a)) <= Band(DetailRiskColor(b))
  {
  }

  /** Which band a detail-page colour stands for, from low to critical. */
  function Band(t: Tone): nat {
    match t
    case Green => 0
    case Yellow => 1
    case Orange => 2
    case _ => 3
  }

  /** The search page reads confidence on a 0–1 scale while the risk
      helpers read 0–100: a score the search page shows green as highly
      confident is a low risk here. */
  lemma ConfidenceScalesDisagree(score: real)
    requires 0.8 <= score <= 1.0
    ensures ListPage.ConfidenceColor(score) == Green
    ensures RiskLevel(score) == Low
  {
  }

  // ---- the credentials table -----------------------------------------------

  /** The fields of a credential the table reads. */
  datatype Cred = Cred(
    username: Option<string>, domain: Option<string>, stealerType: Option<string>,
    url: Option<string>, password: Option<string>, score: real)

  /** `[username || '', domain || '', stealer_type || '', url || '']`. */
  function SearchFields(c: Cred): (f: seq<string>)
    ensures |f| == 4
  {
    [c.username.GetOr(""), c.domain.GetOr(""), c.stealerType.GetOr(""), c.url.GetOr("")]
  }

  /** The lower-cased, space-joined text the search box is matched against. */
  function Searchable(c: Cred): string {
    Text.ToLower(Text.Join(SearchFields(c), ' '))
  }

  /** One credential passes the search box and the risk selector. */
  predicate Keeps(c: Cred, term: string, riskFilter: string): (r: bool)
    ensures term == "" && riskFilter == "all" ==> r
    ensures riskFilter !in {"all", "low", "medium", "high", "critical"} ==> !r
  {
    Text.ContainsEmpty(Searchable(c));
    Text.Contains(Searchable(c), Text.ToLower(term)) &&
    (riskFilter == "all" || RiskLevel(c.score).Key() == riskFilter)
  }

  /** `filteredCredentials`. */
  function Filtered(creds: seq<Cred>, term: string, riskFilter: string): (r: seq<Cred>)
    ensures |r| <= |creds|
    ensures forall c :: c in r <==> c in creds && Keeps(c, term, riskFilter)
  {
    Seqs.FilterMembers(creds, c => Keeps(c, term, riskFilter));
    Seqs.Filter(creds, c => Keeps(c, term, riskFilter))
  }

  /** The filter decides each credential on its own, so it keeps the input
      order: filtering a concatenation concatenates the results. */
  lemma FilteredKeepsOrder(a: seq<Cred>, b: seq<Cred>, term: string, riskFilter: string)
    ensures Filtered(a + b, term, riskFilter) == Filtered(a, term, riskFilter) + Filtered(b, term, riskFilter)
  {
    Seqs.FilterAppend(a, b, c => Keeps(c, term, riskFilter));
  }

  /** An empty search with risk `all` keeps every credential. */
  lemma EmptySearchKeepsAll(creds: seq<Cred>)
    ensures Filtered(creds, "", "all") == creds
  {
    forall i | 0 <= i < |creds| ensures Keeps(creds[i], "", "all") {
      Text.ContainsEmpty(Searchable(creds[i]));
    }
    Seqs.FilterKeepsAll(creds, c => Keeps(c, "", "all"));
  }

  /** A selector value that names no level keeps nothing. */
  lemma UnknownRiskKeepsNothing(creds: seq<Cred>, term: string, riskFilter: string)
    requires riskFilter !in {"all", "low", "medium", "high", "critical"}
    ensures Filtered(creds, term, riskFilter) == []
  {
    Seqs.FilterNone(creds, c => Keeps(c, term, riskFilter));
  }

  /** A term found in the lower-cased user name finds the credential, when
      the risk selector lets it through. */
  lemma UsernameHitKept(c: Cred, term: string, riskFilter: string)
    requires c.username.Some? && Text.Contains(Text.ToLower(c.username.value), Text.ToLower(term))
    requires riskFilter == "all" || RiskLevel(c.score).Key() == riskFilter
    ensures Keeps(c, term, riskFilter)
  {
    var f := SearchFields(c);
    var rest := Text.Join(f[1..], ' ');
    Text.JoinCons(f[0], f[1..], ' ');
    assert f == [f[0]] + f[1..];
    Text.ToLowerAppend(f[0], [' '] + rest);
    assert f[0] + [' '] + rest == f[0] + ([' '] + rest);
    Text.ContainsInAppend(Text.ToLower(f[0]), Text.ToLower([' '] + rest), Text.ToLower(term));
  }

  /** A term found in any of the four searched fields, ignoring case, finds
      the credential when the risk selector lets it through. */
  lemma FieldHitKept(c: Cred, j: nat, term: string, riskFilter: string)
    requires j < 4 && Text.Contains(Text.ToLower(SearchFields(c)[j]), Text.ToLower(term))
    requires riskFilter == "all" || RiskLevel(c.score).Key() == riskFilter
    ensures Keeps(c, term, riskFilter)
  {
    Text.JoinFindsPart(SearchFields(c), ' ', j, Text.ToLower(term));
  }

  /** The searched fields are the user name, domain, stealer type and URL. */
  lemma SearchedFieldsNamed(c: Cred, term: string, riskFilter: string)
    requires riskFilter == "all" || RiskLevel(c.score).Key() == riskFilter
    ensures c.domain.Some? && Text.Contains(Text.ToLower(c.domain.value), Text.ToLower(term)) ==> Keeps(c, term, riskFilter)
    ensures c.stealerType.Some? && Text.Contains(Text.ToLower(c.stealerType.value), Text.ToLower(term)) ==> Keeps(c, term, riskFilter)
    ensures c.url.Some? && Text.Contains(Text.ToLower(c.url.value), Text.ToLower(term)) ==> Keeps(c, term, riskFilter)
  {
    if c.domain.Some? && Text.Contains(Text.ToLower(c.domain.value), Text.ToLower(term)) {
      FieldHitKept(c, 1, term, riskFilter);
    }
    if c.stealerType.Some? && Text.Contains(Text.ToLower(c.stealerType.value), Text.ToLower(term)) {
      FieldHitKept(c, 2, term, riskFilter);
    }
    if c.url.Some? && Text.Contains(Text.ToLower(c.url.value), Text.ToLower(term)) {
      FieldHitKept(c, 3, term, riskFilter);
    }
  }

  /** The password cell: the password (or `'N/A'`) only while passwords are
      shown, else eight fixed dots. */
  function PasswordCell(showPasswords: bool, password: Option<string>): (r: string)
    ensures showPasswords && Truthy(password) ==> r == password.value
    ensures showPasswords && !Truthy(password) ==> r == "N/A"
    ensures !showPasswords ==> r == "••••••••"
  {
    if !showPasswords then "••••••••"
    else if Truthy(password) then password.value
    else "N/A"
  }

  /** With passwords hidden, the cell is the same for every credential. */
  lemma HiddenCellsAlike(a: Option<string>, b: Option<string>)
    ensures PasswordCell(false, a) == PasswordCell(false, b)
    ensures |PasswordCell(false, a)| == 8
  {
  }
}

=== FILE: seqs.dfy ===
/** Generic list operations the pages use: `filter`, `slice`, count-by-key
    reductions into an object, and a stable descending `sort`. */
module Seqs {

  /** JavaScript `Array.prototype.filter`. */
  function Filter<T>(s: seq<T>, p: T -> bool): (r: seq<T>)
    ensures |r| <= |s|
    ensures forall i :: 0 <= i < |r| ==> p(r[i])
    ensures forall i :: 0 <= i < |s| && p(s[i]) ==> s[i] in r
    decreases |s|
  {
    if |s| == 0 then []
    else
      var rest := Filter(s[1..], p);
      assert forall i :: 1 <= i < |s| ==> s[i] == s[1..][i - 1];
      (if p(s[0]) then [s[0]] else []) + rest
  }

  /** A filter keeps exactly the elements of its input that pass. */
  lemma FilterMembers<T>(s: seq<T>, p: T -> bool)
    ensures forall x :: x in Filter(s, p) <==> x in s && p(x)
  {
    forall x | x in Filter(s, p) ensures x in s && p(x) {
      FilterFrom(s, p, x);
    }
  }

  /** Everything a filter keeps comes from its input. */
  lemma FilterFrom<T>(s: seq<T>, p: T -> bool, x: T)
    requires x in Filter(s, p)
    ensures x in s && p(x)
  {
    FilterSubMultiset(s, p);
    assert x in multiset(Filter(s, p));
  }

  /** Filtering a concatenation filters each part in place, so a filter keeps
      the input order. */
  lemma {:induction false} FilterAppend<T>(a: seq<T>, b: seq<T>, p: T -> bool)
    ensures Filter(a + b, p) == Filter(a, p) + Filter(b, p)
    decreases |a|
  {
    if |a| == 0 {
      assert a + b == b;
    } else {
      assert (a + b)[1..] == a[1..] + b;
      FilterAppend(a[1..], b, p);
    }
  }

  /** A filter that every element passes keeps the whole list. */
  lemma {:induction false} FilterKeepsAll<T>(s: seq<T>, p: T -> bool)
    requires forall i :: 0 <= i < |s| ==> p(s[i])
    ensures Filter(s, p) == s
    decreases |s|
  {
    if |s| > 0 {
      FilterKeepsAll(s[1..], p);
    }
  }

  /** A filter that passes exactly one value keeps every occurrence of it
      and nothing else. */
  lemma {:induction false} FilterCountsValue<T>(s: seq<T>, p: T -> bool, v: T)
    requires forall x :: p(x) <==> x == v
    ensures |Filter(s, p)| == multiset(s)[v]
    decreases |s|
  {
    if |s| > 0 {
      FilterCountsValue(s[1..], p, v);
      assert s == [s[0]] + s[1..];
    }
  }

  /** A filter never repeats an element more often than its input does. */
  lemma {:induction false} FilterSubMultiset<T>(s: seq<T>, p: T -> bool)
    ensures multiset(Filter(s, p)) <= multiset(s)
    decreases |s|
  {
    if |s| > 0 {
      FilterSubMultiset(s[1..], p);
      assert s == [s[0]] + s[1..];
    }
  }

  /** No two elements share a key. */
  predicate UniqueKeys<T, K(==)>(s: seq<T>, key: T -> K) {
    forall i, j :: 0 <= i < j < |s| ==> key(s[i]) != key(s[j])
  }

  /** Filtering keeps keys that were unique unique. */
  lemma {:induction false} FilterUniqueKeys<T, K>(s: seq<T>, p: T -> bool, key: T -> K)
    requires UniqueKeys(s, key)
    ensures UniqueKeys(Filter(s, p), key)
    decreases |s|
  {
    if |s| > 0 {
      var t := s[1..];
      FilterUniqueKeys(t, p, key);
      var rest := Filter(t, p);

      forall k | 0 <= k < |rest| ensures key(rest[k]) != key(s[0]) {
        FilterFrom(t, p, rest[k]);
        var m :| 0 <= m < |t| && t[m] == rest[k];
        assert s[m + 1] == t[m];
      }
      var r := Filter(s, p);
      assert r == (if p(s[0]) then [s[0]] else []) + rest;
      if p(s[0]) {
        forall i, j | 0 <= i < j < |r| ensures key(r[i]) != key(r[j]) {
          if i > 0 {
            assert r[i] == rest[i - 1] && r[j] == rest[j - 1];
          } else {
            assert r[j] == rest[j - 1];
          }
        }
      }
    }
  }

  /** A stronger test keeps no more elements. */
  lemma {:induction false} FilterStrongerShorter<T>(s: seq<T>, p: T -> bool, q: T -> bool)
    requires forall i :: 0 <= i < |s| && p(s[i]) ==> q(s[i])
    ensures |Filter(s, p)| <= |Filter(s, q)|
    decreases |s|
  {
    if |s| > 0 {
      FilterStrongerShorter(s[1..], p, q);
    }
  }

  /** A filter that no element passes is empty. */
  lemma FilterNone<T>(s: seq<T>, p: T -> bool)
    requires forall i :: 0 <= i < |s| ==> !p(s[i])
    ensures Filter(s, p) == []
  {
  }

  /** A filter and its complement split the sequence between them. */
  lemma {:induction false} FilterComplement<T>(s: seq<T>, p: T -> bool, q: T -> bool)
    requires forall x :: q(x) == !p(x)
    ensures |Filter(s, p)| + |Filter(s, q)| == |s|
  {
    if |s| > 0 {
      FilterComplement(s[1..], p, q);
    }
  }

  /** Two positions holding the same value count twice in the multiset. */
  lemma RepeatedTwice<T>(s: seq<T>, i: nat, j: nat)
    requires i < j < |s| && s[i] == s[j]
    ensures multiset(s)[s[i]] >= 2
  {
    assert s == s[..i] + [s[i]] + s[i + 1..j] + [s[j]] + s[j + 1..];
  }

  /** Filtering by `p` and then by `q` is filtering by both at once. */
  lemma {:induction false} FilterFilter<T>(s: seq<T>, p: T -> bool, q: T -> bool, pq: T -> bool)
    requires forall x :: pq(x) == (p(x) && q(x))
    ensures Filter(Filter(s, p), q) == Filter(s, pq)
    decreases |s|
  {
    if |s| > 0 {
      FilterFilter(s[1..], p, q, pq);
      var rest := Filter(s[1..], p);
      assert Filter(s, pq) == (if pq(s[0]) then [s[0]] else []) + Filter(s[1..], pq);
      if p(s[0]) {
        var t := [s[0]] + rest;
        assert Filter(s, p) == t;
        assert t[0] == s[0] && t[1..] == rest;
        assert Filter(t, q) == (if q(s[0]) then [s[0]] else []) + Filter(rest, q);
      } else {
        assert Filter(s, p) == rest;
      }
    }
  }

  /** Number of elements satisfying `p`. */
  function CountWhere<T>(s: seq<T>, p: T -> bool): (n: nat)
    ensures n <= |s|
    ensures n == |Filter(s, p)|
  {
    |Filter(s, p)|
  }

  /** JavaScript `s.slice(0, n)` for n >= 0. */
  function Take<T>(s: seq<T>, n: nat): (r: seq<T>)
    ensures |r| == if n <= |s| then n else |s|
    ensures r == s[..|r|]
  {
    if n <= |s| then s[..n] else s
  }

  /** JavaScript `s.slice(-n)` for n > 0: the last `n` elements, or all of a
      shorter sequence. */
  function TakeLast<T>(s: seq<T>, n: nat): (r: seq<T>)
    ensures |r| == if n <= |s| then n else |s|
    ensures r == s[|s| - |r|..]
  {
    if n <= |s| then s[|s| - n..] else s
  }

  /** The pieces laid end to end. */
  function Flatten<T>(ss: seq<seq<T>>): seq<T>
    decreases |ss|
  {
    if |ss| == 0 then [] else ss[0] + Flatten(ss[1..])
  }

  lemma FlattenCons<T>(x: seq<T>, ss: seq<seq<T>>)
    ensures Flatten([x] + ss) == x + Flatten(ss)
  {
    assert ([x] + ss)[1..] == ss;
  }

  // ---- count-by-key reductions -------------------------------------------

  /** The keys of an association list, in order. */
  function Keys<K, V>(acc: seq<(K, V)>): (ks: seq<K>)
    ensures |ks| == |acc|
    ensures forall i :: 0 <= i < |acc| ==> ks[i] == acc[i].0
  {
    seq(|acc|, i requires 0 <= i < |acc| => acc[i].0)
  }

  predicate DistinctKeys<K(==), V>(acc: seq<(K, V)>) {
    forall i, j :: 0 <= i < j < |acc| ==> acc[i].0 != acc[j].0
  }

  function SumCounts<K>(acc: seq<(K, nat)>): nat
    decreases |acc|
  {
    if |acc| == 0 then 0 else SumCounts(acc[..|acc| - 1]) + acc[|acc| - 1].1
  }

  /** The total of a concatenation is the sum of the totals. */
  lemma {:induction false} SumCountsAppend<K>(a: seq<(K, nat)>, b: seq<(K, nat)>)
    ensures SumCounts(a + b) == SumCounts(a) + SumCounts(b)
    decreases |b|
  {
    if |b| == 0 {
      assert a + b == a;
    } else {
      var c := a + b;
      assert c[..|c| - 1] == a + b[..|b| - 1];
      SumCountsAppend(a, b[..|b| - 1]);
    }
  }

  /** Reordering the rows does not change the total. */
  lemma {:induction false} SumCountsPerm<K>(a: seq<(K, nat)>, b: seq<(K, nat)>)
    requires multiset(a) == multiset(b)
    ensures SumCounts(a) == SumCounts(b)
    decreases |a|
  {
    if |a| == 0 {
      assert |b| == |multiset(b)| == 0;
    } else {
      var x := a[|a| - 1];
      var init := a[..|a| - 1];
      assert a == init + [x];
      assert x in multiset(b);
      var j :| 0 <= j < |b| && b[j] == x;
      var u, v := b[..j], b[j + 1..];
      assert b == u + [x] + v;
      PermRemove(init, x, u, v);
      SumCountsPerm(init, u + v);
      SumCountsAppend(u, [x]);
      SumCountsAppend(u + [x], v);
      SumCountsAppend(u, v);
      assert SumCounts([x]) == x.1 by {
        assert [x][..0] == [];
      }
    }
  }

  /** Taking the same element out of two permutations of each other leaves
      permutations of each other. */
  lemma PermRemove<T>(init: seq<T>, x: T, u: seq<T>, v: seq<T>)
    requires multiset(init + [x]) == multiset(u + [x] + v)
    ensures multiset(init) == multiset(u + v)
  {
    calc {
      multiset(init);
      multiset(init + [x]) - multiset{x};
      multiset(u + [x] + v) - multiset{x};
      { assert multiset(u + [x] + v) == multiset(u + v) + multiset{x}; }
      multiset(u + v);
    }
  }

  /** Position of key `k` in `acc`, or `|acc|` when absent. */
  function KeyIndex<K(==), V>(acc: seq<(K, V)>, k: K): (i: nat)
    ensures i <= |acc|
    ensures i < |acc| ==> acc[i].0 == k
    ensures forall j :: 0 <= j < i ==> acc[j].0 != k
    decreases |acc|
  {
    if |acc| == 0 then 0
    else if acc[0].0 == k then 0
    else 1 + KeyIndex(acc[1..], k)
  }

  /** Incrementing one count adds one to the total. */
  lemma {:induction false} SumCountsIncrement<K>(acc: seq<(K, nat)>, i: nat, k: K)
    requires i < |acc|
    ensures SumCounts(acc[i := (k, acc[i].1 + 1)]) == SumCounts(acc) + 1
    decreases |acc|
  {
    var r := acc[i := (k, acc[i].1 + 1)];
    if i < |acc| - 1 {
      assert r[..|r| - 1] == acc[..|acc| - 1][i := (k, acc[i].1 + 1)];
      SumCountsIncrement(acc[..|acc| - 1], i, k);
    } else {
      assert r[..|r| - 1] == acc[..|acc| - 1];
    }
  }

  /** `acc[k] = (acc[k] || 0) + 1` on an object used as an insertion-ordered
      dictionary: an existing key is incremented in place, a new key is appended
      with count 1. */
  function Bump<K(==)>(acc: seq<(K, nat)>, k: K): (r: seq<(K, nat)>)
    requires DistinctKeys(acc)
    ensures DistinctKeys(r)
    ensures |r| == if k in Keys(acc) then |acc| else |acc| + 1
    ensures forall i :: 0 <= i < |acc| ==> r[i].0 == acc[i].0
    ensures forall i :: 0 <= i < |acc| ==> r[i].1 == acc[i].1 + (if acc[i].0 == k then 1 else 0)
    ensures k !in Keys(acc) ==> r[|acc|] == (k, 1)
    ensures SumCounts(r) == SumCounts(acc) + 1
  {
    var i := KeyIndex(acc, k);
    if i == |acc| then
      assert k !in Keys(acc);
      var r := acc + [(k, 1)];
      assert r[..|r| - 1] == acc;
      r
    else
      assert k in Keys(acc) by { assert Keys(acc)[i] == k; }
      SumCountsIncrement(acc, i, k);
      acc[i := (k, acc[i].1 + 1)]
  }

  /** The `reduce` that counts the elements of `keys` per key, in order of first
      appearance. */
  function CountBy<K(==)>(keys: seq<K>): (r: seq<(K, nat)>)
    ensures DistinctKeys(r)
    ensures forall i :: 0 <= i < |keys| ==> keys[i] in Keys(r)
    ensures forall i :: 0 <= i < |r| ==> r[i].0 in keys
    ensures forall i :: 0 <= i < |r| ==> r[i].1 == multiset(keys)[r[i].0] && r[i].1 >= 1
    ensures SumCounts(r) == |keys|
    decreases |keys|
  {
    if |keys| == 0 then []
    else
      var init := keys[..|keys| - 1];
      var k := keys[|keys| - 1];
      assert keys == init + [k];
      var acc := CountBy(init);
      CountByStep(init, k, acc);
      Bump(acc, k)
  }

  /** One step of the reduction: bumping key `k` in the counts of `init` gives
      the counts of `init + [k]`. */
  lemma CountByStep<K>(init: seq<K>, k: K, acc: seq<(K, nat)>)
    requires DistinctKeys(acc)
    requires forall i :: 0 <= i < |init| ==> init[i] in Keys(acc)
    requires forall i :: 0 <= i < |acc| ==> acc[i].0 in init
    requires forall i :: 0 <= i < |acc| ==> acc[i].1 == multiset(init)[acc[i].0] && acc[i].1 >= 1
    ensures var r := Bump(acc, k);
      && (forall i :: 0 <= i < |init| + 1 ==> (init + [k])[i] in Keys(r))
      && (forall i :: 0 <= i < |r| ==> r[i].0 in init + [k])
      && (forall i :: 0 <= i < |r| ==> r[i].1 == multiset(init + [k])[r[i].0] && r[i].1 >= 1)
  {
    var keys := init + [k];
    var r := Bump(acc, k);
    assert multiset(keys) == multiset(init) + multiset{k};
    forall i | 0 <= i < |keys|
      ensures keys[i] in Keys(r)
    {
      if i < |init| {
        assert keys[i] == init[i];
        var j :| 0 <= j < |acc| && Keys(acc)[j] == keys[i];
        assert Keys(r)[j] == keys[i];
      } else if k in Keys(acc) {
        var j :| 0 <= j < |acc| && Keys(acc)[j] == k;
        assert Keys(r)[j] == k;
      } else {
        assert Keys(r)[|acc|] == k;
      }
    }
    forall i | 0 <= i < |r|
      ensures r[i].0 in keys
      ensures r[i].1 == multiset(keys)[r[i].0] && r[i].1 >= 1
    {
      if i < |acc| {
        assert acc[i].0 in init;
      } else {
        assert k !in Keys(acc);
        assert k !in init;
      }
    }
  }

  // ---- stable descending sort ---------------------------------------------

  predicate SortedDesc<T>(s: seq<T>, key: T -> int) {
    forall i, j :: 0 <= i < j < |s| ==> key(s[i]) >= key(s[j])
  }

  /** Inserts `x` ahead of the first element whose key is not larger, so that
      `x` stays ahead of the equal keys that came after it in the input. */
  function InsertDesc<T>(x: T, s: seq<T>, key: T -> int): (r: seq<T>)
    requires SortedDesc(s, key)
    ensures SortedDesc(r, key)
    ensures multiset(r) == multiset(s) + multiset{x}
    ensures |r| == |s| + 1
    ensures r[0] == x || (|s| > 0 && r[0] == s[0])
    decreases |s|
  {
    if |s| == 0 || key(s[0]) <= key(x) then
      ConsSorted(x, s, key);
      [x] + s
    else
      var t := InsertDesc(x, s[1..], key);
      assert s == [s[0]] + s[1..];
      assert key(s[0]) >= key(t[0]);
      ConsSorted(s[0], t, key);
      [s[0]] + t
  }

  /** Putting an element with the largest key in front keeps a list sorted. */
  lemma ConsSorted<T>(y: T, t: seq<T>, key: T -> int)
    requires SortedDesc(t, key)
    requires |t| == 0 || key(y) >= key(t[0])
    ensures SortedDesc([y] + t, key)
  {
    var r := [y] + t;
    forall i, j | 0 <= i < j < |r| ensures key(r[i]) >= key(r[j]) {
      if i == 0 {
        assert r[j] == t[j - 1];
      } else {
        assert r[i] == t[i - 1] && r[j] == t[j - 1];
      }
    }
  }

  /** `s.sort((a, b) => key(b) - key(a))`: a stable sort by non-increasing key
      (JavaScript's sort is stable). The result is a permutation of `s`. */
  function SortDesc<T>(s: seq<T>, key: T -> int): (r: seq<T>)
    ensures SortedDesc(r, key)
    ensures multiset(r) == multiset(s)
    ensures |r| == |s|
    decreases |s|
  {
    if |s| == 0 then []
    else
      assert s == [s[0]] + s[1..];
      InsertDesc(s[0], SortDesc(s[1..], key), key)
  }

  /** A tally row's count, the key the tallies are sorted by. */
  function CountKey<K>(e: (K, nat)): int {
    e.1
  }

  /** Rows with distinct keys hold each row at most once. */
  lemma {:induction false} DistinctAtMostOnce<K, V>(s: seq<(K, V)>, x: (K, V))
    requires DistinctKeys(s)
    ensures multiset(s)[x] <= 1
    decreases |s|
  {
    if |s| > 0 {
      var t := s[1..];
      assert s == [s[0]] + t;
      assert DistinctKeys(t) by {
        forall i, j | 0 <= i < j < |t| ensures t[i].0 != t[j].0 {
          assert t[i] == s[i + 1] && t[j] == s[j + 1];
        }
      }
      DistinctAtMostOnce(t, x);
    }
  }

  /** Reordering rows with distinct keys keeps the keys distinct. */
  lemma DistinctKeysPerm<K, V>(s: seq<(K, V)>, r: seq<(K, V)>)
    requires DistinctKeys(s) && multiset(r) == multiset(s)
    ensures DistinctKeys(r)
  {
    forall i, j | 0 <= i < j < |r| && r[i].0 == r[j].0 ensures false {
      KeyOwner(s, r[i], r[j]);
      RepeatedTwice(r, i, j);
      DistinctAtMostOnce(s, r[i]);
    }
  }

  /** In rows with distinct keys, a key names one row. */
  lemma KeyOwner<K, V>(s: seq<(K, V)>, x: (K, V), y: (K, V))
    requires DistinctKeys(s) && x in multiset(s) && y in multiset(s) && x.0 == y.0
    ensures x == y
  {
    var p :| 0 <= p < |s| && s[p] == x;
    var q :| 0 <= q < |s| && s[q] == y;
    assert p == q;
  }

  /** `Object.entries(counts).sort((a, b) => b.count - a.count)` after a
      counting `reduce`: one row per distinct key with its number of
      occurrences, most frequent first. */
  function Tally<K(==)>(keys: seq<K>): (r: seq<(K, nat)>)
    ensures SortedDesc(r, CountKey)
    ensures DistinctKeys(r)
    ensures SumCounts(r) == |keys|
    ensures forall i :: 0 <= i < |r| ==> r[i].1 == multiset(keys)[r[i].0] && r[i].1 >= 1
    ensures forall i :: 0 <= i < |keys| ==> keys[i] in Keys(r)
  {
    var c := CountBy(keys);
    var r := SortDesc(c, CountKey);
    SumCountsPerm(r, c);
    DistinctKeysPerm(c, r);
    TallyCounts(keys, c, r);
    TallyCovers(keys, c, r);
    r
  }

  /** `.slice(0, n)` of a tally: the `n` most frequent keys. */
  function TopTally<K(==)>(keys: seq<K>, n: nat): (r: seq<(K, nat)>)
    ensures |r| <= n && |r| <= |Tally(keys)| && r == Tally(keys)[..|r|]
    ensures |r| < n ==> r == Tally(keys)
    ensures SortedDesc(r, CountKey) && DistinctKeys(r) && SumCounts(r) <= |keys|
    ensures forall i :: 0 <= i < |r| ==> r[i].1 == multiset(keys)[r[i].0] && r[i].1 >= 1
  {
    var t := Tally(keys);
    var r := Take(t, n);
    PrefixOfTally(keys, t, r);
    r
  }

  /** A key left out of the top `n` means the top is full and no listed
      key is rarer than it. */
  lemma TopTallyMaximal<K>(keys: seq<K>, n: nat)
    ensures var r := TopTally(keys, n);
      forall k :: k in keys && k !in Keys(r) ==>
        |r| == n && forall i :: 0 <= i < |r| ==> multiset(keys)[k] <= r[i].1
  {
    var r := TopTally(keys, n);
    forall k | k in keys && k !in Keys(r)
      ensures |r| == n && forall i :: 0 <= i < |r| ==> multiset(keys)[k] <= r[i].1
    {
      var m := TallyPosition(keys, k);
      LeftOutBelow(keys, n, k, m);
    }
  }

  /** The row of `k` in the tally of `keys`. */
  lemma TallyPosition<K>(keys: seq<K>, k: K) returns (m: nat)
    requires k in keys
    ensures m < |Tally(keys)| && Tally(keys)[m].0 == k && Tally(keys)[m].1 == multiset(keys)[k]
  {
    var t := Tally(keys);
    var j :| 0 <= j < |keys| && keys[j] == k;
    assert keys[j] in Keys(t);
    var p :| 0 <= p < |t| && Keys(t)[p] == k;
    m := p;
  }

  lemma LeftOutBelow<K>(keys: seq<K>, n: nat, k: K, m: nat)
    requires m < |Tally(keys)| && Tally(keys)[m].0 == k && Tally(keys)[m].1 == multiset(keys)[k]
    requires k !in Keys(TopTally(keys, n))
    ensures |TopTally(keys, n)| == n
    ensures forall i :: 0 <= i < |TopTally(keys, n)| ==> multiset(keys)[k] <= TopTally(keys, n)[i].1
  {
    PrefixLeavesOut(Tally(keys), TopTally(keys, n), n, k, m);
  }

  /** A row of a sorted list that its `n`-prefix leaves out sits after a full
      prefix, and counts no more than any row of it. */
  lemma PrefixLeavesOut<K>(t: seq<(K, nat)>, r: seq<(K, nat)>, n: nat, k: K, m: nat)
    requires |r| <= n && |r| <= |t| && r == t[..|r|]
    requires |r| < n ==> r == t
    requires SortedDesc(t, CountKey)
    requires m < |t| && t[m].0 == k
    requires k !in Keys(r)
    ensures |r| == n
    ensures forall i :: 0 <= i < |r| ==> t[m].1 <= r[i].1
  {
    assert m >= |r|;
    forall i | 0 <= i < |r| ensures t[m].1 <= r[i].1 {
      assert r[i] == t[i];
      assert CountKey(t[i]) >= CountKey(t[m]);
    }
  }

  lemma PrefixOfTally<K>(keys: seq<K>, t: seq<(K, nat)>, r: seq<(K, nat)>)
    requires SortedDesc(t, CountKey) && DistinctKeys(t) && SumCounts(t) == |keys|
    requires forall i :: 0 <= i < |t| ==> t[i].1 == multiset(keys)[t[i].0] && t[i].1 >= 1
    requires |r| <= |t| && r == t[..|r|]
    ensures SortedDesc(r, CountKey) && DistinctKeys(r) && SumCounts(r) <= |keys|
    ensures forall i :: 0 <= i < |r| ==> r[i].1 == multiset(keys)[r[i].0] && r[i].1 >= 1
  {
    assert t == r + t[|r|..];
    SumCountsAppend(r, t[|r|..]);
    assert forall i :: 0 <= i < |r| ==> r[i] == t[i];
  }

  /** A reordering of the counts keeps each key's count. */
  lemma TallyCounts<K>(keys: seq<K>, c: seq<(K, nat)>, r: seq<(K, nat)>)
    requires forall i :: 0 <= i < |c| ==> c[i].1 == multiset(keys)[c[i].0] && c[i].1 >= 1
    requires multiset(r) == multiset(c)
    ensures forall i :: 0 <= i < |r| ==> r[i].1 == multiset(keys)[r[i].0] && r[i].1 >= 1
  {
    forall i | 0 <= i < |r| ensures r[i].1 == multiset(keys)[r[i].0] && r[i].1 >= 1 {
      assert r[i] in multiset(c);
      var j :| 0 <= j < |c| && c[j] == r[i];
    }
  }

  /** A reordering of the counts still has a row for every key. */
  lemma TallyCovers<K>(keys: seq<K>, c: seq<(K, nat)>, r: seq<(K, nat)>)
    requires forall i :: 0 <= i < |keys| ==> keys[i] in Keys(c)
    requires multiset(r) == multiset(c)
    ensures forall i :: 0 <= i < |keys| ==> keys[i] in Keys(r)
  {
    forall i | 0 <= i < |keys| ensures keys[i] in Keys(r) {
      var j :| 0 <= j < |c| && Keys(c)[j] == keys[i];
      assert c[j] in multiset(r);
      var m :| 0 <= m < |r| && r[m] == c[j];
      assert Keys(r)[m] == keys[i];
    }
  }

  /** A prefix of a sorted list is sorted. */
  lemma TakeSorted<T>(s: seq<T>, n: nat, key: T -> int)
    requires SortedDesc(s, key)
    ensures SortedDesc(Take(s, n), key)
  {
  }

  /** JavaScript `Array.prototype.map`. */
  function Map<T, U>(s: seq<T>, f: T -> U): (r: seq<U>)
    ensures |r| == |s|
    ensures forall i :: 0 <= i < |s| ==> r[i] == f(s[i])
  {
    seq(|s|, i requires 0 <= i < |s| => f(s[i]))
  }

  /** How often a key occurs among the mapped elements is how many elements
      the filter on that key keeps. */
  lemma {:induction false} MultisetOfMap<T, K>(s: seq<T>, f: T -> K, k: K, p: T -> bool)
    requires forall x :: p(x) == (f(x) == k)
    ensures multiset(Map(s, f))[k] == |Filter(s, p)|
    decreases |s|
  {
    if |s| > 0 {
      assert Map(s, f) == [f(s[0])] + Map(s[1..], f);
      MultisetOfMap(s[1..], f, k, p);
    }
  }

  /** `(counts[k] || 0)`: the count stored under `k`, or 0 when there is no
      such key. */
  function CountOf<K(==)>(acc: seq<(K, nat)>, k: K): (n: nat)
    ensures k !in Keys(acc) ==> n == 0
    ensures forall i :: 0 <= i < |acc| && acc[i].0 == k && (forall j :: 0 <= j < i ==> acc[j].0 != k) ==> n == acc[i].1
  {
    var i := KeyIndex(acc, k);
    if i < |acc| then acc[i].1
    else
      assert k !in Keys(acc) by {
        forall j | 0 <= j < |acc| ensures Keys(acc)[j] != k { }
      }
      0
  }

  /** Looking a key up in the counts of `keys` gives its number of
      occurrences, 0 for a key that never occurs. */
  lemma CountOfCountBy<K>(keys: seq<K>, k: K)
    ensures CountOf(CountBy(keys), k) == multiset(keys)[k]
  {
    var c := CountBy(keys);
    if k in multiset(keys) {
      var j :| 0 <= j < |keys| && keys[j] == k;
      var m :| 0 <= m < |c| && Keys(c)[m] == k;
      assert KeyIndex(c, k) <= m;
    }
  }

  /** `Math.max(...xs, floor)`. */
  function MaxOr(xs: seq<int>, floor: int): (m: int)
    ensures m >= floor
    ensures forall i :: 0 <= i < |xs| ==> xs[i] <= m
    ensures m == floor || m in xs
    decreases |xs|
  {
    if |xs| == 0 then floor
    else
      var rest := MaxOr(xs[1..], floor);
      assert forall i :: 1 <= i < |xs| ==> xs[i] == xs[1..][i - 1];
      if xs[0] > rest then xs[0] else rest
  }
}

=== FILE: store.dfy ===
/** The records of the backend's tables that the model works on. Each table
    is a sequence of rows in storage order; a query without ORDER BY is read
    in that order. */
module Store {
  import opened Wrappers

  /** The three values the `status` column of both alert tables takes. */
  datatype Status = New | Reviewed | FalsePositive {
    /** The text stored in the column. */
    function Text(): string {
      match this
      case New => "new"
      case Reviewed => "reviewed"
      case FalsePositive => "false_positive"
    }
  }

  /** An alert row: its key, review state, and the table-specific columns
      `data` (`alerts` and `card_alerts` share the review columns). */
  datatype Row<D> = Row(id: nat, status: Status, reviewedBy: Option<nat>, data: D)

  /** A row of `card_watchlist`. */
  datatype CardWatchItem = CardWatchItem(
    id: nat, bin: string, bankName: Option<string>, country: string,
    severity: string, description: string, isActive: bool, createdBy: nat)

  /** A row of `watchlist`: a keyword watched on one credential field. */
  datatype WatchItem = WatchItem(
    id: nat, keyword: string, fieldType: string, severity: string, isActive: bool)

  /** A row of `credentials` (the columns the matcher reads). */
  datatype Credential = Credential(
    id: nat, domain: Option<string>, username: Option<string>, url: Option<string>,
    password: Option<string>, stealerType: Option<string>, systemInfoId: Option<nat>)

  /** A row of `system_info`; `ipText` is the address as PostgreSQL renders
      `CAST(ip AS TEXT)`. */
  datatype SystemInfo = SystemInfo(
    id: nat, ipText: Option<string>, country: Option<string>, computerName: Option<string>,
    osVersion: Option<string>, machineUser: Option<string>)

  /** A row of `cards` (the columns the matcher reads). */
  datatype Card = Card(id: nat, number: Option<string>)

  /** The columns of an `alerts` row other than the review state. */
  datatype CredAlert = CredAlert(
    watchlistId: nat, matchedField: string, matchedValue: string,
    recordType: string, recordId: nat, severity: string)

  /** The columns of a `card_alerts` row other than the review state. */
  datatype CardAlert = CardAlert(
    cardWatchlistId: nat, matchedBin: string, cardNumber: string, cardId: nat,
    bankName: Option<string>, severity: string)

  /** Primary keys are unique. */
  predicate UniqueIds<D>(rows: seq<Row<D>>) {
    forall i, j :: 0 <= i < j < |rows| ==> rows[i].id != rows[j].id
  }

  /** The credential's `system_info` row through `LEFT JOIN system_info s ON
      c.system_info_id = s.id`: the first row with that id, or `None` when the
      credential has no system id or no row has it. */
  function SystemOf(c: Credential, systems: seq<SystemInfo>): (r: Option<SystemInfo>)
    ensures r.Some? ==> c.systemInfoId.Some? && r.value in systems && r.value.id == c.systemInfoId.value
    ensures r.None? ==> c.systemInfoId.None? || forall k :: 0 <= k < |systems| ==> systems[k].id != c.systemInfoId.value
    decreases |systems|
  {
    if c.systemInfoId.None? || |systems| == 0 then None
    else if systems[0].id == c.systemInfoId.value then Some(systems[0])
    else
      var r := SystemOf(c, systems[1..]);
      assert forall k :: 0 < k < |systems| ==> systems[k] == systems[1..][k - 1];
      r
  }
}

=== FILE: text.dfy ===
/** Character and string helpers shared by the backend and front-end models.
    Case mapping is the ASCII subset of what Python, JavaScript and PostgreSQL
    do; whitespace follows each language's own definition. */
module Text {

  predicate IsDigit(c: char) { '0' <= c <= '9' }

  predicate IsDigits(s: string) {
    forall i :: 0 <= i < |s| ==> IsDigit(s[i])
  }

  /** Whose notion of whitespace applies. */
  datatype Runtime = Python | JavaScript

  /** The space separators of Unicode (other than the ASCII space) and the
      line and paragraph separators, whitespace in both languages. */
  predicate IsUnicodeSpace(c: char) {
    c as int == 0xA0 || c as int == 0x1680 || 0x2000 <= c as int <= 0x200A ||
    c as int == 0x2028 || c as int == 0x2029 || c as int == 0x202F ||
    c as int == 0x205F || c as int == 0x3000
  }

  /** Python's `str.isspace`, which `strip()` and `int()` skip: it adds the
      four ASCII separators 0x1C to 0x1F and NEL (0x85). JavaScript's
      WhiteSpace and LineTerminator, which `trim()` and `parseInt` skip: it
      adds the byte-order mark (0xFEFF). Both count tab to carriage return
      (0x09 to 0x0D) and the space. */
  predicate IsSpace(rt: Runtime, c: char) {
    (0x09 <= c as int <= 0x0D) || c == ' ' || IsUnicodeSpace(c) ||
    (if rt == Python then 0x1C <= c as int <= 0x1F || c as int == 0x85 else c as int == 0xFEFF)
  }

  function LowerChar(c: char): char {
    if 'A' <= c <= 'Z' then (c as int + 32) as char else c
  }

  function UpperChar(c: char): char {
    if 'a' <= c <= 'z' then (c as int - 32) as char else c
  }

  function ToLower(s: string): (r: string)
    ensures |r| == |s|
    ensures forall i :: 0 <= i < |s| ==> r[i] == LowerChar(s[i])
  {
    seq(|s|, i requires 0 <= i < |s| => LowerChar(s[i]))
  }

  function ToUpper(s: string): (r: string)
    ensures |r| == |s|
    ensures forall i :: 0 <= i < |s| ==> r[i] == UpperChar(s[i])
  {
    seq(|s|, i requires 0 <= i < |s| => UpperChar(s[i]))
  }

  /** Lower-casing twice is lower-casing once. */
  lemma ToLowerIdempotent(s: string)
    ensures ToLower(ToLower(s)) == ToLower(s)
  {
  }

  /** Lower-casing distributes over concatenation. */
  lemma ToLowerAppend(a: string, b: string)
    ensures ToLower(a + b) == ToLower(a) + ToLower(b)
  {
  }

  /** Leading whitespace removed. */
  function TrimStart(rt: Runtime, s: string): (r: string)
    ensures |r| <= |s| && r == s[|s| - |r|..]
    ensures forall i :: 0 <= i < |s| - |r| ==> IsSpace(rt, s[i])
    ensures r == [] || !IsSpace(rt, r[0])
  {
    if |s| > 0 && IsSpace(rt, s[0]) then TrimStart(rt, s[1..]) else s
  }

  /** Lower-casing ignores an earlier upper-casing: case-insensitive
      comparisons cannot tell `s` from `ToUpper(s)`. */
  lemma ToLowerOfUpper(s: string)
    ensures ToLower(ToUpper(s)) == ToLower(s)
  {
    forall i | 0 <= i < |s| ensures LowerChar(UpperChar(s[i])) == LowerChar(s[i]) {
      var c := s[i];
      if 'a' <= c <= 'z' {
        assert 'A' <= UpperChar(c) <= 'Z';
        assert (UpperChar(c) as int + 32) as char == c;
      }
    }
  }

  lemma ToUpperIdempotent(s: string)
    ensures ToUpper(ToUpper(s)) == ToUpper(s)
  {
  }

  /** Trailing whitespace removed. */
  function TrimEnd(rt: Runtime, s: string): (r: string)
    ensures |r| <= |s| && r == s[..|r|]
    ensures forall i :: |r| <= i < |s| ==> IsSpace(rt, s[i])
    ensures r == [] || !IsSpace(rt, r[|r| - 1])
  {
    if |s| > 0 && IsSpace(rt, s[|s| - 1]) then TrimEnd(rt, s[..|s| - 1]) else s
  }

  /** Python's `str.strip()` or JavaScript's `trim()`: both ends stripped.
      `StripPadding` states that the result is a piece of `s` and that
      only whitespace is cut off around it. */
  function Strip(rt: Runtime, s: string): (r: string)
    ensures |r| <= |s|
    ensures r == [] || (!IsSpace(rt, r[0]) && !IsSpace(rt, r[|r| - 1]))
  {
    var t := TrimStart(rt, s);
    var r := TrimEnd(rt, t);
    TrimmedEnds(rt, t, r);
    r
  }

  /** What `Strip` cuts off is whitespace: the result is the piece of `s`
      starting at `i`, and every character before or after that piece is
      whitespace. */
  lemma StripPadding(rt: Runtime, s: string) returns (i: nat)
    ensures i + |Strip(rt, s)| <= |s|
    ensures forall k :: 0 <= k < |Strip(rt, s)| ==> Strip(rt, s)[k] == s[i + k]
    ensures Padding(rt, s, i, i + |Strip(rt, s)|)
  {
    var t := TrimStart(rt, s);
    var r := TrimEnd(rt, t);
    i := |s| - |t|;
    TrimmedPadding(rt, s, t, r, i);
    assert Strip(rt, s) == r;
  }

  /** Cutting leading whitespace and then trailing whitespace leaves a piece
      of `s` padded by whitespace on both sides. */
  lemma TrimmedPadding(rt: Runtime, s: string, t: string, r: string, i: nat)
    requires |t| <= |s| && t == s[|s| - |t|..] && i == |s| - |t|
    requires forall k :: 0 <= k < i ==> IsSpace(rt, s[k])
    requires |r| <= |t| && r == t[..|r|]
    requires forall k :: |r| <= k < |t| ==> IsSpace(rt, t[k])
    ensures i + |r| <= |s|
    ensures forall k :: 0 <= k < |r| ==> r[k] == s[i + k]
    ensures Padding(rt, s, i, i + |r|)
  {
    forall k | i + |r| <= k < |s| ensures IsSpace(rt, s[k]) {
      assert s[k] == t[k - i];
    }
  }

  /** A prefix of a text that does not start with whitespace does not
      either. */
  lemma TrimmedEnds(rt: Runtime, t: string, r: string)
    requires t == [] || !IsSpace(rt, t[0])
    requires |r| <= |t| && r == t[..|r|]
    requires r == [] || !IsSpace(rt, r[|r| - 1])
    ensures r == [] || (!IsSpace(rt, r[0]) && !IsSpace(rt, r[|r| - 1]))
  {
    assert r != [] ==> r[0] == t[0];
  }

  /** Every character of `s` outside `[lo, hi)` is whitespace. */
  predicate Padding(rt: Runtime, s: string, lo: nat, hi: nat)
    requires lo <= hi <= |s|
  {
    (forall k :: 0 <= k < lo ==> IsSpace(rt, s[k])) &&
    (forall k :: hi <= k < |s| ==> IsSpace(rt, s[k]))
  }

  /** A text with no whitespace at either end is left as it is. */
  lemma StripUnpadded(rt: Runtime, s: string)
    requires s == [] || (!IsSpace(rt, s[0]) && !IsSpace(rt, s[|s| - 1]))
    ensures Strip(rt, s) == s
  {
    var t := TrimStart(rt, s);
    assert t == s by {
      if s != [] { assert !IsSpace(rt, s[0]); }
    }
    assert TrimEnd(rt, t) == t by {
      if t != [] { assert !IsSpace(rt, t[|t| - 1]); }
    }
  }

  /** The ASCII file separator (0x1C) is whitespace to Python but not to
      JavaScript. */
  lemma SeparatorIsPythonSpace()
    ensures Strip(Python, [0x1C as char]) == []
    ensures Strip(JavaScript, [0x1C as char]) == [0x1C as char]
  {
    StripUnpadded(JavaScript, [0x1C as char]);
  }

  /** Stripping is idempotent. */
  lemma StripIdempotent(rt: Runtime, s: string)
    ensures Strip(rt, Strip(rt, s)) == Strip(rt, s)
  {
    StripUnpadded(rt, Strip(rt, s));
  }

  /** `sub` occurs somewhere in `s` (JavaScript `includes`, Python `in`,
      SQL `LIKE '%sub%'`). */
  predicate Contains(s: string, sub: string)
    decreases |s|
  {
    |sub| <= |s| && (s[..|sub|] == sub || Contains(s[1..], sub))
  }

  predicate OccursAt(s: string, sub: string, i: int) {
    0 <= i && i + |sub| <= |s| && s[i..i + |sub|] == sub
  }

  /** The recursive containment test agrees with "occurs at some index". */
  lemma {:induction false} ContainsIff(s: string, sub: string)
    ensures Contains(s, sub) <==> exists i :: OccursAt(s, sub, i)
    decreases |s|
  {
    if |sub| <= |s| && s[..|sub|] == sub {
      assert OccursAt(s, sub, 0);
    } else if |sub| <= |s| {
      ContainsIff(s[1..], sub);
      if Contains(s[1..], sub) {
        var i :| OccursAt(s[1..], sub, i);
        assert s[i + 1..i + 1 + |sub|] == s[1..][i..i + |sub|];
        assert OccursAt(s, sub, i + 1);
      }
      if exists i :: OccursAt(s, sub, i) {
        var i :| OccursAt(s, sub, i);
        if i > 0 {
          assert s[1..][i - 1..i - 1 + |sub|] == s[i..i + |sub|];
          assert OccursAt(s[1..], sub, i - 1);
        }
      }
    }
  }

  /** Every string contains the empty string. */
  lemma ContainsEmpty(s: string)
    ensures Contains(s, [])
  {
    assert OccursAt(s, [], 0);
    ContainsIff(s, []);
  }

  /** A piece of `s` that contains `sub` makes `s` contain it. */
  lemma ContainsInAppend(a: string, b: string, sub: string)
    ensures Contains(a, sub) ==> Contains(a + b, sub)
    ensures Contains(b, sub) ==> Contains(a + b, sub)
  {
    ContainsIff(a, sub);
    ContainsIff(b, sub);
    ContainsIff(a + b, sub);
    if Contains(a, sub) {
      var i :| OccursAt(a, sub, i);
      assert (a + b)[i..i + |sub|] == a[i..i + |sub|];
      assert OccursAt(a + b, sub, i);
    }
    if Contains(b, sub) {
      var i :| OccursAt(b, sub, i);
      assert (a + b)[|a| + i..|a| + i + |sub|] == b[i..i + |sub|];
      assert OccursAt(a + b, sub, |a| + i);
    }
  }

  predicate EndsWith(s: string, suffix: string) {
    |suffix| <= |s| && s[|s| - |suffix|..] == suffix
  }

  /** JavaScript `s.slice(0, n)` / Python `s[:n]` for n >= 0. */
  function Prefix(s: string, n: nat): (r: string)
    ensures |r| == if n <= |s| then n else |s|
    ensures r <= s
  {
    if n <= |s| then s[..n] else s
  }

  /** `c` repeated `n` times (JavaScript `c.repeat(n)`). */
  function Repeat(c: char, n: nat): (r: string)
    ensures |r| == n
    ensures forall i :: 0 <= i < n ==> r[i] == c
  {
    seq(n, _ => c)
  }

  /** The index of the first `c` in `s`, or `|s|` when there is none. */
  function IndexOf(s: string, c: char): (k: nat)
    ensures k <= |s|
    ensures c !in s[..k]
    ensures k < |s| ==> s[k] == c
  {
    if |s| == 0 then 0
    else if s[0] == c then 0
    else 1 + IndexOf(s[1..], c)
  }

  /** Python's `s.split(c)` and JavaScript's `s.split(c)` for a one-character
      separator: always at least one piece, and no piece holds `c`. */
  function Split(s: string, c: char): (r: seq<string>)
    ensures |r| >= 1
    ensures forall i :: 0 <= i < |r| ==> c !in r[i]
    decreases |s|
  {
    var k := IndexOf(s, c);
    if k == |s| then [s] else [s[..k]] + Split(s[k + 1..], c)
  }

  /** `parts` joined with `c` between consecutive parts (`c.join(parts)`,
      `parts.join(c)`). */
  function Join(parts: seq<string>, c: char): string
    decreases |parts|
  {
    if |parts| == 0 then ""
    else if |parts| == 1 then parts[0]
    else parts[0] + [c] + Join(parts[1..], c)
  }

  /** Joining never introduces a character other than the separator. */
  lemma {:induction false} JoinAvoids(parts: seq<string>, c: char, d: char)
    requires c != d
    requires forall i :: 0 <= i < |parts| ==> d !in parts[i]
    ensures d !in Join(parts, c)
    decreases |parts|
  {
    if |parts| > 1 {
      JoinAvoids(parts[1..], c, d);
    }
  }

  /** Joining the pieces of a split gives back the original string. */
  lemma {:induction false} JoinSplit(s: string, c: char)
    ensures Join(Split(s, c), c) == s
    decreases |s|
  {
    var k := IndexOf(s, c);
    if k < |s| {
      var rest := s[k + 1..];
      var parts := Split(rest, c);
      JoinSplit(rest, c);
      assert Split(s, c) == [s[..k]] + parts;
      JoinCons(s[..k], parts, c);
      assert s == s[..k] + [c] + rest;
    } else {
      assert Split(s, c) == [s];
    }
  }

  /** Text found in one part, case-insensitively, is found in the
      lower-cased join. */
  lemma {:induction false} JoinFindsPart(parts: seq<string>, c: char, j: nat, t: string)
    requires j < |parts| && Contains(ToLower(parts[j]), t)
    ensures Contains(ToLower(Join(parts, c)), t)
    decreases |parts|
  {
    if |parts| > 1 {
      var rest := Join(parts[1..], c);
      assert Join(parts, c) == parts[0] + ([c] + rest);
      ToLowerAppend(parts[0], [c] + rest);
      ToLowerAppend([c], rest);
      if j == 0 {
        ContainsInAppend(ToLower(parts[0]), ToLower([c] + rest), t);
      } else {
        assert parts[1..][j - 1] == parts[j];
        JoinFindsPart(parts[1..], c, j - 1, t);
        ContainsInAppend(ToLower([c]), ToLower(rest), t);
        ContainsInAppend(ToLower(parts[0]), ToLower([c] + rest), t);
      }
    }
  }

  lemma JoinCons(p: string, parts: seq<string>, c: char)
    requires |parts| >= 1
    ensures Join([p] + parts, c) == p + [c] + Join(parts, c)
  {
    assert ([p] + parts)[1..] == parts;
  }

  /** Splitting a join of separator-free parts gives back the parts. */
  lemma {:induction false} SplitJoin(parts: seq<string>, c: char)
    requires |parts| >= 1
    requires forall i :: 0 <= i < |parts| ==> c !in parts[i]
    ensures Split(Join(parts, c), c) == parts
    decreases |parts|
  {
    if |parts| == 1 {
      IndexOfAbsent(parts[0], c);
    } else {
      var s := Join(parts, c);
      var p := parts[0];
      IndexOfAbsent(p, c);
      IndexOfAfter(p, Join(parts[1..], c), c);
      assert s[..|p|] == p;
      assert s[|p| + 1..] == Join(parts[1..], c);
      SplitJoin(parts[1..], c);
    }
  }

  lemma IndexOfAbsent(s: string, c: char)
    requires c !in s
    ensures IndexOf(s, c) == |s|
  {
  }

  lemma {:induction false} IndexOfAfter(p: string, rest: string, c: char)
    requires c !in p
    ensures IndexOf(p + [c] + rest, c) == |p|
    decreases |p|
  {
    if |p| > 0 {
      assert (p + [c] + rest)[1..] == p[1..] + [c] + rest;
      IndexOfAfter(p[1..], rest, c);
    }
  }

  /** Splitting `a`, separator, `b` splits `a` and `b` independently. */
  lemma {:induction false} SplitAppend(a: string, b: string, c: char)
    ensures Split(a + [c] + b, c) == Split(a, c) + Split(b, c)
    decreases |a|
  {
    var s := a + [c] + b;
    var k := IndexOf(a, c);
    if k == |a| {
      IndexOfAfter(a, b, c);
      assert s[..|a|] == a;
      assert s[|a| + 1..] == b;
    } else {
      assert IndexOf(s, c) == k by { IndexOfPrefix(a, [c] + b, c); assert s == a + ([c] + b); }
      assert s[..k] == a[..k];
      assert s[k + 1..] == a[k + 1..] + [c] + b;
      SplitAppend(a[k + 1..], b, c);
    }
  }

  lemma {:induction false} IndexOfPrefix(a: string, b: string, c: char)
    requires IndexOf(a, c) < |a|
    ensures IndexOf(a + b, c) == IndexOf(a, c)
    decreases |a|
  {
    if a[0] != c {
      assert (a + b)[1..] == a[1..] + b;
      IndexOfPrefix(a[1..], b, c);
    }
  }

  /** Decimal digits of a natural number, most significant first. */
  function NatToString(n: nat): (r: string)
    ensures |r| >= 1 && IsDigits(r)
    decreases n
  {
    if n < 10 then [DigitChar(n)] else NatToString(n / 10) + [DigitChar(n % 10)]
  }

  function DigitChar(d: nat): (c: char)
    requires d < 10
    ensures IsDigit(c) && DigitValue(c) == d
  {
    ('0' as int + d) as char
  }

  function DigitValue(c: char): (d: nat)
    requires IsDigit(c)
    ensures d < 10
  {
    c as int - '0' as int
  }

  /** JavaScript's `Number.prototype.toString` on integers. */
  function IntToString(n: int): string {
    if n < 0 then "-" + NatToString(-n) else NatToString(n)
  }

  /** The value of a non-empty digit string. */
  function DigitsValue(s: string): (v: nat)
    requires IsDigits(s)
    decreases |s|
  {
    if |s| == 0 then 0 else DigitsValue(s[..|s| - 1]) * 10 + DigitValue(s[|s| - 1])
  }

  /** Reading back the decimal digits gives back the number. */
  lemma {:induction false} NatToStringRoundTrip(n: nat)
    ensures DigitsValue(NatToString(n)) == n
    decreases n
  {
    if n >= 10 {
      var s := NatToString(n);
      NatToStringRoundTrip(n / 10);
      assert s[..|s| - 1] == NatToString(n / 10);
    }
  }
}

=== FILE: tones.dfy ===
/** The badge colours the pages pick from (the Tailwind colour family of a
    badge's class string). */
module Tones {
  datatype Tone = Red | Orange | Yellow | Green | Blue | Gray
}

=== FILE: watchlist_forms.dfy ===
/** The watchlist entry forms: the BIN watchlist dialog
    (src/components/watchlist/BinWatchlistForm.tsx), with its file picker,
    upload and manual entry, and the field types the credential watchlist
    form offers (src/components/watchlist/WatchlistForm.tsx). */
module WatchlistForms {
  import opened Wrappers
  import Text
  import WatchlistMatch

  /** The picked file's MIME type and name. */
  datatype FileInfo = FileInfo(mimeType: string, name: string)

  /** The manual-entry fields. */
  datatype ManualItem = ManualItem(binNumber: string, scheme: string, bankName: string,
                                   country: string, severity: string)

  /** The dialog's state: the chosen file, the manual fields, and whether the
      parent holds the dialog open. */
  datatype Form = Form(selected: Option<FileInfo>, manual: ManualItem, open: bool)

  /** The manual fields of a fresh form: country `EG`, severity `medium`. */
  function DefaultItem(): (m: ManualItem)
    ensures m.binNumber == "" && m.bankName == "" && m.scheme == ""
    ensures m.country == "EG" && m.severity == "medium"
  {
    ManualItem("", "", "", "EG", "medium")
  }

  /** A file is taken when its type is `text/plain` or its name ends in
      `.txt`. */
  predicate Accepted(f: FileInfo) {
    f.mimeType == "text/plain" || Text.EndsWith(f.name, ".txt")
  }

  /** `handleFileChange`: the first picked file becomes the selection when it
      is accepted; a rejected file (which raises a toast) and an empty pick
      leave the selection as it was. The flag says whether a toast was
      raised. */
  function HandleFileChange(form: Form, picked: Option<FileInfo>): (r: (Form, bool))
    ensures r.0.manual == form.manual && r.0.open == form.open
    ensures picked.Some? && Accepted(picked.value) ==> r.0.selected == picked && !r.1
    ensures picked.None? || !Accepted(picked.value) ==> r.0.selected == form.selected
    ensures r.1 <==> picked.Some? && !Accepted(picked.value)
  {
    match picked
    case None => (form, false)
    case Some(f) => if Accepted(f) then (form.(selected := Some(f)), false) else (form, true)
  }

  /** A name ending in `.txt` is taken whatever the browser reports as its
      type, and a `.csv` file reported as `text/csv` is refused. */
  lemma FileAcceptance(form: Form, mimeType: string, stem: string)
    ensures HandleFileChange(form, Some(FileInfo(mimeType, stem + ".txt"))).0.selected == Some(FileInfo(mimeType, stem + ".txt"))
    ensures HandleFileChange(form, Some(FileInfo("text/csv", stem + ".csv"))).0.selected == form.selected
  {
    var txt := stem + ".txt";
    assert txt[|txt| - 4..] == ".txt";
    var csv := stem + ".csv";
    assert csv[|csv| - 4..] == ".csv";
  }

  /** What the form hands to a parent callback. */
  datatype Call = UploadCall(file: FileInfo) | AddCall(item: ManualItem)

  /** `handleFileUpload`, given whether the parent's upload succeeds: nothing
      without a selection; after a success the selection is cleared and the
      dialog closed; after a failure the form stays as it was. */
  function HandleFileUpload(form: Form, succeeds: bool): (r: (Form, Option<Call>))
    ensures form.selected.None? ==> r == (form, None)
    ensures form.selected.Some? ==> r.1 == Some(UploadCall(form.selected.value))
    ensures form.selected.Some? && succeeds ==> r.0 == form.(selected := None, open := false)
    ensures !succeeds ==> r.0 == form
  {
    match form.selected
    case None => (form, None)
    case Some(f) =>
      if succeeds then (form.(selected := None, open := false), Some(UploadCall(f)))
      else (form, Some(UploadCall(f)))
  }

  /** `handleManualSubmit`, given whether the parent's add succeeds: an empty
      BIN or bank name raises a toast and calls nothing; otherwise the fields
      are handed to the parent, and only a success resets them and closes
      the dialog. */
  function HandleManualSubmit(form: Form, succeeds: bool): (r: (Form, Option<Call>))
    ensures r.1.Some? <==> form.manual.binNumber != "" && form.manual.bankName != ""
    ensures r.1.Some? ==> r.1.value == AddCall(form.manual)
    ensures r.1.Some? && succeeds ==> r.0 == form.(manual := DefaultItem(), open := false)
    ensures r.1.None? || !succeeds ==> r.0 == form
  {
    if form.manual.binNumber == "" || form.manual.bankName == "" then (form, None)
    else if succeeds then (form.(manual := DefaultItem(), open := false), Some(AddCall(form.manual)))
    else (form, Some(AddCall(form.manual)))
  }

  /** After a successful add the form is fresh again, so submitting once more
      without typing is refused; after a failed add a retry hands the parent
      the same fields. */
  lemma ResubmitAfterAdd(form: Form, first: bool, second: bool)
    requires HandleManualSubmit(form, first).1.Some?
    ensures first ==> HandleManualSubmit(HandleManualSubmit(form, first).0, second).1.None?
    ensures !first ==> HandleManualSubmit(HandleManualSubmit(form, first).0, second).1 == Some(AddCall(form.manual))
  {
  }

  /** After a successful upload the upload button does nothing until a new
      file is picked. */
  lemma UploadOnce(form: Form, second: bool)
    requires form.selected.Some?
    ensures HandleFileUpload(HandleFileUpload(form, true).0, second).1.None?
  {
  }

  // ---- the credential watchlist form ----------------------------------------

  /** The field types the credential watchlist form offers. */
  const OfferedFields: set<string> := {"domain", "username", "ip", "machine_user", "computer_name"}

  /** Two of the offered field types are ones the matcher does not know, so
      items saved with them never raise an alert; and the matcher's `url`
      type is not offered. */
  lemma OfferedFieldsVersusMatcher()
    ensures forall ft :: ft in OfferedFields && !WatchlistMatch.KnownField(ft) <==> ft in {"machine_user", "computer_name"}
    ensures WatchlistMatch.KnownField("url") && "url" !in OfferedFields
  {
  }
}

=== FILE: watchlist_match.dfy ===
/** Credential watchlist matching (backend/app.py, `check_watchlist_matches`):
    for every active watchlist item, in table order, the credentials whose
    watched field contains the lower-cased keyword and that have no alert for
    that item yet are read (at most 50 of them), and one `new` alert is
    inserted per credential, together with its `credential_alert_details`
    row (`create_enhanced_credential_alert`). */
module WatchlistMatch {
  import opened Wrappers
  import opened Store
  import Text
  import Seqs
  import AlertDetails

  /** The LIMIT of the match query. */
  const MatchLimit: nat := 50

  /** The tables the matcher reads and writes, and the next alert id. */
  datatype Db = Db(creds: seq<Credential>, systems: seq<SystemInfo>,
                   alerts: seq<Row<CredAlert>>, details: seq<AlertDetails.Detail>, nextId: nat)

  /** The field types the matcher handles; any other is skipped. */
  predicate KnownField(ft: string) {
    ft == "domain" || ft == "username" || ft == "ip" || ft == "url"
  }

  /** The address of the credential's machine, through the LEFT JOIN on
      `system_info`; `None` when there is no such row or its address is NULL. */
  function IpOf(c: Credential, systems: seq<SystemInfo>): (r: Option<string>)
    ensures r.Some? ==> exists s :: s in systems && Some(s) == SystemOf(c, systems) && s.ipText == r
  {
    match SystemOf(c, systems)
    case None => None
    case Some(s) => s.ipText
  }

  /** `LOWER(field) LIKE '%kw%'`: the field itself when it matches. */
  function LowerHit(field: Option<string>, kw: string): (r: Option<string>)
    ensures r.Some? <==> field.Some? && Text.Contains(Text.ToLower(field.value), kw)
    ensures r.Some? ==> r == field
  {
    if field.Some? && Text.Contains(Text.ToLower(field.value), kw) then field else None
  }

  /** The `matched_value` the item's query returns for `c`, or `None` when
      `c` does not match. The keyword is lower-cased; the address is compared
      as text without lower-casing it. */
  function MatchedValue(item: WatchItem, c: Credential, systems: seq<SystemInfo>): (r: Option<string>)
    ensures !KnownField(item.fieldType) ==> r.None?
  {
    var kw := Text.ToLower(item.keyword);
    if item.fieldType == "domain" then LowerHit(c.domain, kw)
    else if item.fieldType == "username" then LowerHit(c.username, kw)
    else if item.fieldType == "ip" then
      var ip := IpOf(c, systems);
      if ip.Some? && Text.Contains(ip.value, kw) then ip else None
    else if item.fieldType == "url" then LowerHit(c.url, kw)
    else None
  }

  /** The alert table already holds a credential alert for this pair. */
  predicate Alerted(alerts: seq<Row<CredAlert>>, itemId: nat, credId: nat) {
    exists k :: 0 <= k < |alerts| && alerts[k].data.recordType == "credential" &&
      alerts[k].data.watchlistId == itemId && alerts[k].data.recordId == credId
  }

  /** `c` matches the item and is not yet alerted for it. */
  predicate Pending(item: WatchItem, c: Credential, systems: seq<SystemInfo>, alerts: seq<Row<CredAlert>>) {
    MatchedValue(item, c, systems).Some? && !Alerted(alerts, item.id, c.id)
  }

  function CredId(c: Credential): nat { c.id }

  /** The rows of the item's query before its LIMIT: the pending credentials
      of `cs`, in order. */
  function PendingIn(item: WatchItem, cs: seq<Credential>, systems: seq<SystemInfo>,
                     alerts: seq<Row<CredAlert>>): (r: seq<Credential>)
    ensures |r| <= |cs|
    ensures forall k :: 0 <= k < |r| ==> Pending(item, r[k], systems, alerts)
    ensures forall k :: 0 <= k < |cs| && Pending(item, cs[k], systems, alerts) ==> cs[k] in r
    decreases |cs|
  {
    if |cs| == 0 then []
    else
      var rest := PendingIn(item, cs[1..], systems, alerts);
      assert forall k :: 1 <= k < |cs| ==> cs[k] == cs[1..][k - 1];
      (if Pending(item, cs[0], systems, alerts) then [cs[0]] else []) + rest
  }

  /** The pending credentials are credentials of `cs`. */
  lemma {:induction false} PendingFrom(item: WatchItem, cs: seq<Credential>, systems: seq<SystemInfo>,
                                       alerts: seq<Row<CredAlert>>)
    ensures forall k :: 0 <= k < |PendingIn(item, cs, systems, alerts)| ==> PendingIn(item, cs, systems, alerts)[k] in cs
    decreases |cs|
  {
    if |cs| > 0 {
      var t := cs[1..];
      var rest := PendingIn(item, t, systems, alerts);
      PendingFrom(item, t, systems, alerts);
      var r := PendingIn(item, cs, systems, alerts);
      assert r == (if Pending(item, cs[0], systems, alerts) then [cs[0]] else []) + rest;
      forall k | 0 <= k < |r| ensures r[k] in cs {
        if r[k] in rest {
          var m :| 0 <= m < |t| && t[m] == r[k];
          assert cs[m + 1] == t[m];
        }
      }
    }
  }

  /** Filtering keeps unique ids unique. */
  lemma {:induction false} PendingUnique(item: WatchItem, cs: seq<Credential>, systems: seq<SystemInfo>,
                                         alerts: seq<Row<CredAlert>>)
    requires Seqs.UniqueKeys(cs, CredId)
    ensures Seqs.UniqueKeys(PendingIn(item, cs, systems, alerts), CredId)
    decreases |cs|
  {
    if |cs| > 0 {
      var t := cs[1..];
      var rest := PendingIn(item, t, systems, alerts);
      assert Seqs.UniqueKeys(t, CredId);
      PendingUnique(item, t, systems, alerts);
      var r := PendingIn(item, cs, systems, alerts);
      assert r == (if Pending(item, cs[0], systems, alerts) then [cs[0]] else []) + rest;
      if Pending(item, cs[0], systems, alerts) {
        PendingFrom(item, t, systems, alerts);
        forall k | 0 <= k < |rest| ensures rest[k].id != cs[0].id {
          var m :| 0 <= m < |t| && t[m] == rest[k];
          assert cs[m + 1] == rest[k];
        }
        forall i, j | 0 <= i < j < |r| ensures r[i].id != r[j].id {
          if i > 0 {
            assert r[i] == rest[i - 1] && r[j] == rest[j - 1];
          } else {
            assert r[j] == rest[j - 1];
          }
        }
      }
    }
  }

  function PendingFor(item: WatchItem, db: Db): seq<Credential> {
    PendingIn(item, db.creds, db.systems, db.alerts)
  }

  /** The alert inserted for credential `c` found by `item`. */
  function MakeAlert(id: nat, item: WatchItem, c: Credential, systems: seq<SystemInfo>): Row<CredAlert> {
    Row(id, New, None, CredAlert(item.id, item.fieldType, MatchedValue(item, c, systems).GetOr(""),
                                 "credential", c.id, item.severity))
  }

  /** The alerts one item inserts, numbered from `firstId`. */
  function NewAlerts(item: WatchItem, batch: seq<Credential>, systems: seq<SystemInfo>, firstId: nat)
    : (r: seq<Row<CredAlert>>)
    ensures |r| == |batch|
    ensures forall k :: 0 <= k < |r| ==> r[k] == MakeAlert(firstId + k, item, batch[k], systems)
  {
    seq(|batch|, k requires 0 <= k < |batch| => MakeAlert(firstId + k, item, batch[k], systems))
  }

  /** The details rows one item inserts, one per alert: the credential
      re-read with its machine through the LEFT JOIN on `system_info`. */
  function NewDetails(batch: seq<Credential>, systems: seq<SystemInfo>, firstId: nat)
    : (r: seq<AlertDetails.Detail>)
    ensures |r| == |batch|
    ensures forall k :: 0 <= k < |r| ==>
      r[k] == AlertDetails.BuildDetail(firstId + k, batch[k], SystemOf(batch[k], systems))
  {
    seq(|batch|, k requires 0 <= k < |batch| =>
      AlertDetails.BuildDetail(firstId + k, batch[k], SystemOf(batch[k], systems)))
  }

  /** One iteration of the loop over watchlist items. */
  function CheckItem(db: Db, item: WatchItem): (r: Db)
    ensures r.creds == db.creds && r.systems == db.systems
    ensures db.alerts <= r.alerts && r.nextId == db.nextId + (|r.alerts| - |db.alerts|)
    ensures |r.alerts| - |db.alerts| <= MatchLimit
    ensures !KnownField(item.fieldType) ==> r == db
    ensures KnownField(item.fieldType) ==>
      r.alerts == db.alerts + NewAlerts(item, Seqs.Take(PendingFor(item, db), MatchLimit), db.systems, db.nextId)
    ensures db.details <= r.details && |r.details| - |db.details| == |r.alerts| - |db.alerts|
    ensures forall k :: |db.alerts| <= k < |r.alerts| ==>
      var a := r.alerts[k];
      var d := r.details[|db.details| + (k - |db.alerts|)];
      d.alertId == a.id && d.credentialId == a.data.recordId && AlertDetails.FitsSchema(d)
    ensures forall k :: |db.alerts| <= k < |r.alerts| ==>
      var a := r.alerts[k];
      a.id == db.nextId + (k - |db.alerts|) && a.status == New && a.reviewedBy.None? &&
      a.data.watchlistId == item.id && a.data.matchedField == item.fieldType &&
      a.data.recordType == "credential" && a.data.severity == item.severity
  {
    if !KnownField(item.fieldType) then db
    else
      var batch := Seqs.Take(PendingFor(item, db), MatchLimit);
      db.(alerts := db.alerts + NewAlerts(item, batch, db.systems, db.nextId),
          details := db.details + NewDetails(batch, db.systems, db.nextId),
          nextId := db.nextId + |batch|)
  }

  /** The loop over `items`, in order. */
  function CheckItems(db: Db, items: seq<WatchItem>): (r: Db)
    ensures r.creds == db.creds && r.systems == db.systems
    ensures db.alerts <= r.alerts && r.nextId == db.nextId + (|r.alerts| - |db.alerts|)
    ensures db.details <= r.details && |r.details| - |db.details| == |r.alerts| - |db.alerts|
    decreases |items|
  {
    if |items| == 0 then db
    else CheckItem(CheckItems(db, items[..|items| - 1]), items[|items| - 1])
  }

  /** `check_watchlist_matches`: the loop over the active items. It leaves
      the credential and system tables alone, only appends alerts, and every
      alert it appends comes from an active item of a handled field type. */
  function CheckWatchlist(watchlist: seq<WatchItem>, db: Db): (r: Db)
    ensures r.creds == db.creds && r.systems == db.systems && db.alerts <= r.alerts
    ensures forall k :: |db.alerts| <= k < |r.alerts| ==> FromActive(r.alerts[k], watchlist)
  {
    var active := Seqs.Filter(watchlist, (w: WatchItem) => w.isActive);
    Seqs.FilterMembers(watchlist, (w: WatchItem) => w.isActive);
    ActiveSources(db, watchlist, active);
    CheckItems(db, active)
  }

  /** A run over items drawn from the active items of `watchlist` adds only
      alerts of active items. */
  lemma ActiveSources(db: Db, watchlist: seq<WatchItem>, active: seq<WatchItem>)
    requires forall w :: w in active ==> w in watchlist && w.isActive
    ensures forall k :: |db.alerts| <= k < |CheckItems(db, active).alerts| ==>
      FromActive(CheckItems(db, active).alerts[k], watchlist)
  {
    CheckItemsSources(db, active);
    var r := CheckItems(db, active);
    forall k | |db.alerts| <= k < |r.alerts| ensures FromActive(r.alerts[k], watchlist) {
      assert InsertedBy(r.alerts[k], active);
      var i :| 0 <= i < |active| && active[i].id == r.alerts[k].data.watchlistId &&
        KnownField(active[i].fieldType);
      assert active[i] in active;
    }
  }

  // ---- what one item inserts -----------------------------------------------

  /** The alert names a credential of the table that the item matches with
      the alert's value and that had no alert for the item before. */
  predicate Justified(db: Db, item: WatchItem, a: Row<CredAlert>) {
    exists j :: 0 <= j < |db.creds| && db.creds[j].id == a.data.recordId &&
      MatchedValue(item, db.creds[j], db.systems) == Some(a.data.matchedValue) &&
      !Alerted(db.alerts, item.id, db.creds[j].id)
  }

  /** Every alert an item inserts is justified by a pending credential. */
  lemma CheckItemJustified(db: Db, item: WatchItem)
    ensures var r := CheckItem(db, item);
      forall k :: |db.alerts| <= k < |r.alerts| ==> Justified(db, item, r.alerts[k])
  {
    var r := CheckItem(db, item);
    forall k | |db.alerts| <= k < |r.alerts| ensures Justified(db, item, r.alerts[k]) {
      var m := k - |db.alerts|;
      NewAlertIs(db, item, m);
      var c := Batch(db, item)[m];
      var j :| 0 <= j < |db.creds| && db.creds[j] == c;
    }
  }

  /** No two credential alerts share a (watchlist item, credential) pair. */
  predicate NoDuplicateAlerts(alerts: seq<Row<CredAlert>>) {
    forall i, j ::
      (0 <= i < j < |alerts| && alerts[i].data.recordType == "credential" &&
       alerts[j].data.recordType == "credential") ==>
      (alerts[i].data.watchlistId, alerts[i].data.recordId) != (alerts[j].data.watchlistId, alerts[j].data.recordId)
  }

  /** The credentials one item alerts on in its turn. */
  function Batch(db: Db, item: WatchItem): (r: seq<Credential>)
    ensures |r| <= MatchLimit
    ensures forall k :: 0 <= k < |r| ==> r[k] in db.creds && Pending(item, r[k], db.systems, db.alerts)
    ensures Seqs.UniqueKeys(db.creds, CredId) ==> Seqs.UniqueKeys(r, CredId)
  {
    var pending := PendingFor(item, db);
    PendingFrom(item, db.creds, db.systems, db.alerts);
    var r := Seqs.Take(pending, MatchLimit);
    assert forall k :: 0 <= k < |r| ==> r[k] == pending[k];
    assert Seqs.UniqueKeys(db.creds, CredId) ==> Seqs.UniqueKeys(r, CredId) by {
      if Seqs.UniqueKeys(db.creds, CredId) {
        PendingUnique(item, db.creds, db.systems, db.alerts);
      }
    }
    r
  }

  lemma NewAlertIs(db: Db, item: WatchItem, m: nat)
    requires KnownField(item.fieldType) && m < |Batch(db, item)|
    ensures var r := CheckItem(db, item);
      |db.alerts| + m < |r.alerts| &&
      r.alerts[|db.alerts| + m] == MakeAlert(db.nextId + m, item, Batch(db, item)[m], db.systems)
  {
  }

  /** A new alert's pair was not in the table before. */
  lemma NewPairFresh(db: Db, item: WatchItem, i: nat, m: nat)
    requires KnownField(item.fieldType) && m < |Batch(db, item)| && i < |db.alerts|
    requires db.alerts[i].data.recordType == "credential"
    ensures (db.alerts[i].data.watchlistId, db.alerts[i].data.recordId) != (item.id, Batch(db, item)[m].id)
  {
    var c := Batch(db, item)[m];
    assert !Alerted(db.alerts, item.id, c.id);
  }

  /** An item never alerts twice on one credential, given the credential
      table's unique ids. */
  lemma CheckItemNoDuplicates(db: Db, item: WatchItem)
    requires Seqs.UniqueKeys(db.creds, CredId)
    requires NoDuplicateAlerts(db.alerts)
    ensures NoDuplicateAlerts(CheckItem(db, item).alerts)
  {
    var r := CheckItem(db, item);
    if KnownField(item.fieldType) {
      var batch := Batch(db, item);
      var n := |db.alerts|;
      forall i, j | 0 <= i < j < |r.alerts| && r.alerts[i].data.recordType == "credential" &&
          r.alerts[j].data.recordType == "credential"
        ensures (r.alerts[i].data.watchlistId, r.alerts[i].data.recordId) !=
                (r.alerts[j].data.watchlistId, r.alerts[j].data.recordId)
      {
        if j < n {
          assert r.alerts[i] == db.alerts[i] && r.alerts[j] == db.alerts[j];
        } else if i < n {
          NewAlertIs(db, item, j - n);
          NewPairFresh(db, item, i, j - n);
          assert r.alerts[i] == db.alerts[i];
        } else {
          NewAlertIs(db, item, i - n);
          NewAlertIs(db, item, j - n);
          assert CredId(batch[i - n]) != CredId(batch[j - n]);
        }
      }
    }
  }

  /** The whole loop keeps the alert table free of duplicate pairs. */
  lemma {:induction false} CheckItemsNoDuplicates(db: Db, items: seq<WatchItem>)
    requires Seqs.UniqueKeys(db.creds, CredId)
    requires NoDuplicateAlerts(db.alerts)
    ensures NoDuplicateAlerts(CheckItems(db, items).alerts)
    decreases |items|
  {
    if |items| > 0 {
      CheckItemsNoDuplicates(db, items[..|items| - 1]);
      CheckItemNoDuplicates(CheckItems(db, items[..|items| - 1]), items[|items| - 1]);
    }
  }

  /** The alerts from index `from` on were inserted by items of `items` with a
      handled field type, as `new` alerts of that item's severity. */
  predicate FromItems(alerts: seq<Row<CredAlert>>, from: nat, items: seq<WatchItem>) {
    forall k :: from <= k < |alerts| ==> InsertedBy(alerts[k], items)
  }

  predicate InsertedBy(a: Row<CredAlert>, items: seq<WatchItem>) {
    exists i :: 0 <= i < |items| && items[i].id == a.data.watchlistId &&
      KnownField(items[i].fieldType) && a.data.severity == items[i].severity && a.status == New
  }

  /** Only the items of the loop insert alerts, and only those whose field
      type is handled. */
  lemma {:induction false} CheckItemsSources(db: Db, items: seq<WatchItem>)
    ensures FromItems(CheckItems(db, items).alerts, |db.alerts|, items)
    decreases |items|
  {
    if |items| > 0 {
      var init := items[..|items| - 1];
      var last := items[|items| - 1];
      CheckItemsSources(db, init);
      var mid := CheckItems(db, init);
      var r := CheckItem(mid, last);
      forall k | |db.alerts| <= k < |r.alerts| ensures InsertedBy(r.alerts[k], items) {
        if k < |mid.alerts| {
          assert r.alerts[k] == mid.alerts[k];
          assert InsertedBy(mid.alerts[k], init);
          var i :| 0 <= i < |init| && init[i].id == mid.alerts[k].data.watchlistId &&
            KnownField(init[i].fieldType) && mid.alerts[k].data.severity == init[i].severity &&
            mid.alerts[k].status == New;
          assert items[i] == init[i];
        } else {
          assert items[|items| - 1] == last;
        }
      }
    }
  }

  /** The alert comes from an active watchlist item with a handled field
      type. */
  predicate FromActive(a: Row<CredAlert>, watchlist: seq<WatchItem>) {
    exists w :: w in watchlist && w.isActive && KnownField(w.fieldType) && w.id == a.data.watchlistId
  }

  /** Inactive items never alert: every new alert of a run comes from an
      active item. */
  lemma CheckWatchlistActiveOnly(watchlist: seq<WatchItem>, db: Db)
    ensures forall k :: |db.alerts| <= k < |CheckWatchlist(watchlist, db).alerts| ==>
      FromActive(CheckWatchlist(watchlist, db).alerts[k], watchlist)
  {
    var active := Seqs.Filter(watchlist, (w: WatchItem) => w.isActive);
    CheckItemsSources(db, active);
    var r := CheckItems(db, active);
    forall k | |db.alerts| <= k < |r.alerts| ensures FromActive(r.alerts[k], watchlist) {
      assert InsertedBy(r.alerts[k], active);
      var i :| 0 <= i < |active| && active[i].id == r.alerts[k].data.watchlistId &&
        KnownField(active[i].fieldType) && r.alerts[k].data.severity == active[i].severity &&
        r.alerts[k].status == New;
      Seqs.FilterFrom(watchlist, (w: WatchItem) => w.isActive, active[i]);
    }
  }

  // ---- idempotence -------------------------------------------------------

  /** No credential is pending for the item. */
  predicate Saturated(item: WatchItem, db: Db) {
    forall k :: 0 <= k < |db.creds| ==> !Pending(item, db.creds[k], db.systems, db.alerts)
  }

  /** An item with nothing pending inserts nothing. */
  lemma SaturatedNoop(db: Db, item: WatchItem)
    requires Saturated(item, db)
    ensures CheckItem(db, item) == db
  {
    NoPending(item, db.creds, db.systems, db.alerts);
  }

  lemma {:induction false} NoPending(item: WatchItem, cs: seq<Credential>, systems: seq<SystemInfo>,
                                    alerts: seq<Row<CredAlert>>)
    requires forall k :: 0 <= k < |cs| ==> !Pending(item, cs[k], systems, alerts)
    ensures PendingIn(item, cs, systems, alerts) == []
    decreases |cs|
  {
    if |cs| > 0 {
      assert forall k :: 0 <= k < |cs| - 1 ==> cs[1..][k] == cs[k + 1];
      NoPending(item, cs[1..], systems, alerts);
    }
  }

  /** Alerts are never removed, so an alerted pair stays alerted. */
  lemma AlertedGrows(a: seq<Row<CredAlert>>, b: seq<Row<CredAlert>>, itemId: nat, credId: nat)
    requires a <= b && Alerted(a, itemId, credId)
    ensures Alerted(b, itemId, credId)
  {
    var k :| 0 <= k < |a| && a[k].data.recordType == "credential" &&
      a[k].data.watchlistId == itemId && a[k].data.recordId == credId;
    assert b[k] == a[k];
  }

  /** More alerts leave no more credentials pending. */
  lemma {:induction false} PendingShrinks(item: WatchItem, cs: seq<Credential>, systems: seq<SystemInfo>,
                                          a: seq<Row<CredAlert>>, b: seq<Row<CredAlert>>)
    requires a <= b
    ensures |PendingIn(item, cs, systems, b)| <= |PendingIn(item, cs, systems, a)|
    decreases |cs|
  {
    if |cs| > 0 {
      PendingShrinks(item, cs[1..], systems, a, b);
      if Pending(item, cs[0], systems, b) {
        if Alerted(a, item.id, cs[0].id) {
          AlertedGrows(a, b, item.id, cs[0].id);
        }
      }
    }
  }

  /** An item whose pending credentials fit in one batch is saturated after
      its turn. */
  lemma CheckItemSaturates(db: Db, item: WatchItem)
    requires |PendingFor(item, db)| <= MatchLimit
    ensures Saturated(item, CheckItem(db, item))
  {
    var r := CheckItem(db, item);
    forall k | 0 <= k < |db.creds| ensures !Pending(item, db.creds[k], r.systems, r.alerts) {
      CoveredAfterCheck(db, item, db.creds[k]);
    }
  }

  lemma CoveredAfterCheck(db: Db, item: WatchItem, c: Credential)
    requires |PendingFor(item, db)| <= MatchLimit && c in db.creds
    ensures !Pending(item, c, db.systems, CheckItem(db, item).alerts)
  {
    var r := CheckItem(db, item);
    if Pending(item, c, db.systems, db.alerts) {
      var pending := PendingFor(item, db);
      assert Batch(db, item) == pending;
      var m :| 0 <= m < |pending| && pending[m] == c;
      NewAlertIs(db, item, m);
      assert r.alerts[|db.alerts| + m].data.recordId == c.id;
      assert Alerted(r.alerts, item.id, c.id);
    } else if MatchedValue(item, c, db.systems).Some? {
      AlertedGrows(db.alerts, r.alerts, item.id, c.id);
    }
  }

  /** A saturated item stays saturated while alerts are added. */
  lemma SaturatedStays(item: WatchItem, db: Db, later: Db)
    requires later.creds == db.creds && later.systems == db.systems && db.alerts <= later.alerts
    requires Saturated(item, db)
    ensures Saturated(item, later)
  {
    forall k | 0 <= k < |db.creds| ensures !Pending(item, db.creds[k], later.systems, later.alerts) {
      if MatchedValue(item, db.creds[k], db.systems).Some? {
        AlertedGrows(db.alerts, later.alerts, item.id, db.creds[k].id);
      }
    }
  }

  /** After a run in which no item had more than one batch pending, every
      item of the run is saturated. */
  lemma {:induction false} CheckItemsSaturates(db: Db, items: seq<WatchItem>)
    requires forall i :: 0 <= i < |items| ==> |PendingFor(items[i], db)| <= MatchLimit
    ensures forall i :: 0 <= i < |items| ==> Saturated(items[i], CheckItems(db, items))
    decreases |items|
  {
    if |items| > 0 {
      var init := items[..|items| - 1];
      var last := items[|items| - 1];
      CheckItemsSaturates(db, init);
      var mid := CheckItems(db, init);
      var r := CheckItem(mid, last);
      PendingShrinks(last, db.creds, db.systems, db.alerts, mid.alerts);
      CheckItemSaturates(mid, last);
      forall i | 0 <= i < |items| ensures Saturated(items[i], r) {
        if i < |init| {
          assert items[i] == init[i];
          SaturatedStays(init[i], mid, r);
        }
      }
    }
  }

  /** A run over saturated items changes nothing. */
  lemma {:induction false} CheckItemsNoop(db: Db, items: seq<WatchItem>)
    requires forall i :: 0 <= i < |items| ==> Saturated(items[i], db)
    ensures CheckItems(db, items) == db
    decreases |items|
  {
    if |items| > 0 {
      CheckItemsNoop(db, items[..|items| - 1]);
      SaturatedNoop(db, items[|items| - 1]);
    }
  }

  /** Matching is idempotent when no item hits the LIMIT: a second run right
      after the first inserts nothing. */
  lemma CheckItemsIdempotent(db: Db, items: seq<WatchItem>)
    requires forall i :: 0 <= i < |items| ==> |PendingFor(items[i], db)| <= MatchLimit
    ensures CheckItems(CheckItems(db, items), items) == CheckItems(db, items)
  {
    CheckItemsSaturates(db, items);
    CheckItemsNoop(CheckItems(db, items), items);
  }
}

=== FILE: watchlist_stats.dfy ===
/** The watchlist statistics page (src/pages/WatchlistStats.tsx): the item
    and alert counts, the severity and field-type breakdowns, the most
    triggered items, and the three percentage tiles. */
module WatchlistStats {
  import opened Wrappers
  import opened Store
  import opened Tones
  import Seqs
  import Text
  import Risk

  /** How many of the most triggered items the page lists. */
  const TopCount: nat := 5

  datatype Overview = Overview(totalItems: nat, activeItems: nat, totalAlerts: nat, newAlerts: nat)

  predicate IsActive(w: WatchItem) {
    w.isActive
  }

  predicate IsInactive(w: WatchItem) {
    !w.isActive
  }

  predicate IsNew(a: Row<CredAlert>) {
    a.status.Text() == "new"
  }

  /** The four count tiles: `x?.length || 0` and `x?.filter(...).length || 0`
      over the watchlist and the alert list, either of which may be missing.
      The watchlist endpoint sends a plain array. The alert endpoint sends an
      envelope, on which `alerts?.filter` throws (`None`). */
  function OverviewOf(items: Option<seq<WatchItem>>, alerts: Option<Reply<Row<CredAlert>>>): (o: Option<Overview>)
    ensures o.None? <==> alerts.Some? && alerts.value.Envelope?
    ensures o.Some? ==> o.value.totalItems == |items.GetOr([])| && o.value.totalAlerts == |ArrayOf(alerts).value|
    ensures o.Some? ==> o.value.activeItems == |Seqs.Filter(items.GetOr([]), IsActive)|
    ensures o.Some? ==> o.value.newAlerts == |Seqs.Filter(ArrayOf(alerts).value, IsNew)|
    ensures o.Some? ==> o.value.activeItems <= o.value.totalItems && o.value.newAlerts <= o.value.totalAlerts
    ensures alerts.None? ==> o.Some? && o.value.totalAlerts == 0 && o.value.newAlerts == 0
  {
    var ws := items.GetOr([]);
    match ArrayOf(alerts)
    case None => None
    case Some(as_) => Some(Overview(|ws|, Seqs.CountWhere(ws, IsActive), |as_|, Seqs.CountWhere(as_, IsNew)))
  }

  /** The active tile and the inactive items together make up the watchlist:
      the items the active tile leaves out are exactly the inactive ones. */
  lemma ActiveSplitsWatchlist(items: seq<WatchItem>, alerts: Option<Reply<Row<CredAlert>>>)
    ensures var o := OverviewOf(Some(items), alerts);
      o.Some? ==> o.value.totalItems - o.value.activeItems == Seqs.CountWhere(items, IsInactive)
  {
    Seqs.FilterComplement(items, IsActive, IsInactive);
  }

  // ---- breakdowns ---------------------------------------------------------------

  /** The filter that keeps the items whose `f` is `k`. */
  function HasValue(f: WatchItem -> string, k: string): WatchItem -> bool {
    (w: WatchItem) => f(w) == k
  }

  /** `reduce((acc, item) => { acc[f(item)] = (acc[f(item)] || 0) + 1 }, {})`,
      as its `Object.entries`: one row per value of `f`, in order of first
      appearance. */
  function GroupCount(items: seq<WatchItem>, f: WatchItem -> string): (r: seq<(string, nat)>)
    ensures Seqs.DistinctKeys(r)
    ensures Seqs.SumCounts(r) == |items|
    ensures forall i :: 0 <= i < |r| ==> r[i].1 == |Seqs.Filter(items, HasValue(f, r[i].0))| && r[i].1 >= 1
    ensures forall j :: 0 <= j < |items| ==> f(items[j]) in Seqs.Keys(r)
  {
    var keys := Seqs.Map(items, f);
    var r := Seqs.CountBy(keys);
    forall i | 0 <= i < |r| ensures r[i].1 == |Seqs.Filter(items, HasValue(f, r[i].0))| {
      Seqs.MultisetOfMap(items, f, r[i].0, HasValue(f, r[i].0));
    }
    assert forall j :: 0 <= j < |items| ==> keys[j] == f(items[j]);
    r
  }

  function Severity(w: WatchItem): string {
    w.severity
  }

  function FieldType(w: WatchItem): string {
    w.fieldType
  }

  /** `severityStats`; empty when the watchlist is missing. */
  function SeverityStats(items: Option<seq<WatchItem>>): (r: seq<(string, nat)>)
    ensures Seqs.DistinctKeys(r) && Seqs.SumCounts(r) == |items.GetOr([])|
    ensures forall i :: 0 <= i < |r| ==> r[i].1 == |Seqs.Filter(items.GetOr([]), HasValue(Severity, r[i].0))|
    ensures forall j :: 0 <= j < |items.GetOr([])| ==> items.GetOr([])[j].severity in Seqs.Keys(r)
  {
    GroupCount(items.GetOr([]), Severity)
  }

  /** `fieldTypeStats`; empty when the watchlist is missing. */
  function FieldTypeStats(items: Option<seq<WatchItem>>): (r: seq<(string, nat)>)
    ensures Seqs.DistinctKeys(r) && Seqs.SumCounts(r) == |items.GetOr([])|
    ensures forall i :: 0 <= i < |r| ==> r[i].1 == |Seqs.Filter(items.GetOr([]), HasValue(FieldType, r[i].0))|
    ensures forall j :: 0 <= j < |items.GetOr([])| ==> items.GetOr([])[j].fieldType in Seqs.Keys(r)
  {
    GroupCount(items.GetOr([]), FieldType)
  }

  /** A breakdown bar's width, `(count / totalWatchlistItems) * 100` percent. */
  function Width(count: nat, total: nat): (w: real)
    requires total > 0
    ensures w >= 0.0
    ensures count <= total ==> w <= 100.0
    ensures count == total ==> w == 100.0
  {
    count as real / total as real * 100.0
  }

  /** The widths of a breakdown's bars added up, from the back. */
  function SumWidths(rows: seq<(string, nat)>, total: nat): real
    requires total > 0
    decreases |rows|
  {
    if |rows| == 0 then 0.0 else SumWidths(rows[..|rows| - 1], total) + Width(rows[|rows| - 1].1, total)
  }

  /** The bars' widths add up to the counts' share of the total. */
  lemma {:induction false} SumWidthsIsShare(rows: seq<(string, nat)>, total: nat)
    requires total > 0
    ensures SumWidths(rows, total) == Seqs.SumCounts(rows) as real / total as real * 100.0
    decreases |rows|
  {
    if |rows| > 0 {
      var init := rows[..|rows| - 1];
      SumWidthsIsShare(init, total);
      var a := Seqs.SumCounts(init) as real;
      var c := rows[|rows| - 1].1 as real;
      var t := total as real;
      assert Seqs.SumCounts(rows) as real == a + c;
      DivideSum(a, c, t);
    }
  }

  /** Dividing a sum by a non-zero real divides each summand. */
  lemma DivideSum(a: real, c: real, t: real)
    requires t != 0.0
    ensures (a + c) / t == a / t + c / t
  {
    var p, q := a / t, c / t;
    assert p * t == a && q * t == c;
    assert (p + q) * t == a + c;
  }

  /** On a non-empty watchlist the severity bars and the field-type bars
      each fill exactly the whole width. */
  lemma BarsFill(items: seq<WatchItem>)
    requires |items| > 0
    ensures SumWidths(SeverityStats(Some(items)), |items|) == 100.0
    ensures SumWidths(FieldTypeStats(Some(items)), |items|) == 100.0
  {
    var t := |items| as real;
    assert t / t * 100.0 == 100.0;
    var sev := SeverityStats(Some(items));
    SumWidthsIsShare(sev, |items|);
    var ft := FieldTypeStats(Some(items));
    SumWidthsIsShare(ft, |items|);
  }

  /** `fieldType.replace('_', ' ')`: a string pattern replaces only its first
      occurrence. */
  function FieldLabel(s: string): (r: string)
    ensures |r| == |s|
    ensures '_' in s ==> r[Text.IndexOf(s, '_')] == ' '
    ensures forall i :: 0 <= i < |s| && i != Text.IndexOf(s, '_') ==> r[i] == s[i]
  {
    var k := Text.IndexOf(s, '_');
    if k == |s| then s else s[..k] + " " + s[k + 1..]
  }

  /** A field type with two underscores keeps an underscore in its label;
      one with a single underscore loses it. */
  lemma FieldLabelFirstOnly(s: string, i: nat, j: nat)
    requires i < j < |s| && s[i] == '_' && s[j] == '_'
    ensures '_' in FieldLabel(s)
    ensures (forall k :: 0 <= k < |s| && s[k] == '_' ==> k == i) ==> '_' !in FieldLabel(s)
  {
    var k := Text.IndexOf(s, '_');
    assert FieldLabel(s)[j] == '_';
  }

  /** `getSeverityColor`: critical red, high orange, medium yellow, low green,
      anything else gray. */
  function SeverityColor(severity: string): (t: Tone)
    ensures t == Gray <==> severity !in {"critical", "high", "medium", "low"}
  {
    match severity
    case "critical" => Red
    case "high" => Orange
    case "medium" => Yellow
    case "low" => Green
    case _ => Gray
  }

  /** A severity named like a risk level gets that level's colour. */
  lemma SeverityColorMatchesRisk(l: Risk.Level)
    ensures SeverityColor(l.Key()) == l.Color()
  {
  }

  // ---- most triggered items -------------------------------------------------------

  /** The filter that keeps the alerts raised by watchlist item `id`. */
  function RaisedBy(id: nat): Row<CredAlert> -> bool {
    (a: Row<CredAlert>) => a.data.watchlistId == id
  }

  function WatchlistIdOf(a: Row<CredAlert>): nat {
    a.data.watchlistId
  }

  /** `watchlistAlertCounts[item.id] || 0`, the counts taken by a `reduce` over
      the alerts' `watchlist_id`: the number of alerts item `id` raised. */
  function AlertCount(alerts: seq<Row<CredAlert>>, id: nat): (n: nat)
    ensures n == |Seqs.Filter(alerts, RaisedBy(id))|
  {
    var keys := Seqs.Map(alerts, WatchlistIdOf);
    Seqs.CountOfCountBy(keys, id);
    Seqs.MultisetOfMap(alerts, WatchlistIdOf, id, RaisedBy(id));
    Seqs.CountOf(Seqs.CountBy(keys), id)
  }

  /** Each item paired with its `alertCount`. */
  function Ranked(items: seq<WatchItem>, alerts: seq<Row<CredAlert>>): (r: seq<(WatchItem, nat)>)
    ensures |r| == |items|
    ensures forall i :: 0 <= i < |r| ==> r[i].0 == items[i] && r[i].1 == AlertCount(alerts, items[i].id)
  {
    seq(|items|, i requires 0 <= i < |items| => (items[i], AlertCount(alerts, items[i].id)))
  }

  /** `topTriggeredItems`: the items sorted by falling alert count, first
      five; an empty list when the watchlist is missing, and every count 0
      when the alerts are. `alerts?.reduce` throws on an envelope (`None`). */
  function TopTriggered(items: Option<seq<WatchItem>>, alerts: Option<Reply<Row<CredAlert>>>)
    : (r: Option<seq<(WatchItem, nat)>>)
    ensures r.None? <==> alerts.Some? && alerts.value.Envelope?
    ensures r.Some? ==> |r.value| == if |items.GetOr([])| < TopCount then |items.GetOr([])| else TopCount
    ensures r.Some? ==> Seqs.SortedDesc(r.value, Seqs.CountKey)
    ensures r.Some? ==> forall i :: 0 <= i < |r.value| ==>
      r.value[i].0 in items.GetOr([]) && r.value[i].1 == AlertCount(ArrayOf(alerts).value, r.value[i].0.id)
    ensures r.Some? ==> multiset(r.value) <= multiset(Ranked(items.GetOr([]), ArrayOf(alerts).value))
  {
    match ArrayOf(alerts)
    case None => None
    case Some(as_) =>
      TopFromRanked(items.GetOr([]), as_);
      Some(Seqs.Take(Seqs.SortDesc(Ranked(items.GetOr([]), as_), Seqs.CountKey), TopCount))
  }

  /** The first entries of the sorted ranking are ranking rows, sorted, and
      as many as the list allows. */
  lemma TopFromRanked(items: seq<WatchItem>, alerts: seq<Row<CredAlert>>)
    ensures var r := Seqs.Take(Seqs.SortDesc(Ranked(items, alerts), Seqs.CountKey), TopCount);
      |r| == (if |items| < TopCount then |items| else TopCount) &&
      Seqs.SortedDesc(r, Seqs.CountKey) &&
      (forall i :: 0 <= i < |r| ==> r[i].0 in items && r[i].1 == AlertCount(alerts, r[i].0.id)) &&
      multiset(r) <= multiset(Ranked(items, alerts))
  {
    var ranked := Ranked(items, alerts);
    var sorted := Seqs.SortDesc(ranked, Seqs.CountKey);
    var r := Seqs.Take(sorted, TopCount);
    PrefixOfReordering(ranked, sorted, TopCount);
    forall i | 0 <= i < |r| ensures r[i].0 in items && r[i].1 == AlertCount(alerts, r[i].0.id) {
      InRanked(items, alerts, r[i]);
    }
  }

  /** A prefix of a reordering of `a` draws its elements from `a`. */
  lemma PrefixOfReordering<T>(a: seq<T>, b: seq<T>, n: nat)
    requires multiset(a) == multiset(b)
    ensures forall i :: 0 <= i < |Seqs.Take(b, n)| ==> Seqs.Take(b, n)[i] in a
    ensures multiset(Seqs.Take(b, n)) <= multiset(a)
  {
    var r := Seqs.Take(b, n);
    assert b == r + b[|r|..];
    forall i | 0 <= i < |r| ensures r[i] in a {
      assert r[i] in multiset(b);
    }
  }

  /** A ranking row pairs a watchlist item with its own alert count. */
  lemma InRanked(items: seq<WatchItem>, alerts: seq<Row<CredAlert>>, e: (WatchItem, nat))
    requires e in Ranked(items, alerts)
    ensures e.0 in items && e.1 == AlertCount(alerts, e.0.id)
  {
    var ranked := Ranked(items, alerts);
    var j :| 0 <= j < |ranked| && ranked[j] == e;
  }

  /** No item is left off the list while a listed item raised fewer alerts:
      an item with more alerts than some listed one is listed itself. */
  lemma TopIsMaximal(items: seq<WatchItem>, alerts: seq<Row<CredAlert>>, w: WatchItem, k: nat)
    requires w in items
    requires k < |TopTriggered(Some(items), Some(Items(alerts))).value|
    requires AlertCount(alerts, w.id) > TopTriggered(Some(items), Some(Items(alerts))).value[k].1
    ensures (w, AlertCount(alerts, w.id)) in TopTriggered(Some(items), Some(Items(alerts))).value
  {
    var j :| 0 <= j < |items| && items[j] == w;
    RankedAt(items, alerts, j);
    TopOfSortedMaximal(Ranked(items, alerts), j, k);
  }

  lemma RankedAt(items: seq<WatchItem>, alerts: seq<Row<CredAlert>>, j: nat)
    requires j < |items|
    ensures j < |Ranked(items, alerts)| && Ranked(items, alerts)[j] == (items[j], AlertCount(alerts, items[j].id))
  {
  }

  /** The first `TopCount` entries of the sorted ranking hold every entry
      that counts more than one of them. */
  lemma TopOfSortedMaximal<T>(ranked: seq<(T, nat)>, j: nat, k: nat)
    requires j < |ranked|
    requires k < |Seqs.Take(Seqs.SortDesc(ranked, Seqs.CountKey), TopCount)|
    requires ranked[j].1 > Seqs.Take(Seqs.SortDesc(ranked, Seqs.CountKey), TopCount)[k].1
    ensures ranked[j] in Seqs.Take(Seqs.SortDesc(ranked, Seqs.CountKey), TopCount)
  {
    var sorted := Seqs.SortDesc(ranked, Seqs.CountKey);
    var top := Seqs.Take(sorted, TopCount);
    var m := PositionIn(ranked, sorted, j);
    AboveListedIsListed(sorted, |top|, k, m);
    assert top[m] == ranked[j];
  }

  /** In a list sorted by falling count, an entry counting more than one of
      the first `n` entries is itself among the first `n`. */
  lemma AboveListedIsListed<T>(sorted: seq<(T, nat)>, n: nat, k: nat, m: nat)
    requires Seqs.SortedDesc(sorted, Seqs.CountKey)
    requires k < n <= |sorted| && m < |sorted|
    requires sorted[m].1 > sorted[k].1
    ensures m < n
  {
  }

  /** Where a reordering puts the element at position `j`. */
  lemma PositionIn<T>(a: seq<T>, b: seq<T>, j: nat) returns (m: nat)
    requires multiset(a) == multiset(b) && j < |a|
    ensures m < |b| && b[m] == a[j]
  {
    assert a[j] in multiset(b);
    m :| 0 <= m < |b| && b[m] == a[j];
  }

  // ---- percentage tiles ------------------------------------------------------------

  /** JavaScript `Math.round`: halves round up. */
  function Round(x: real): (n: int)
    ensures n as real - 0.5 <= x < n as real + 0.5
  {
    (x + 0.5).Floor
  }

  /** `den > 0 ? Math.round((num / den) * 100) : 0`. */
  function Percent(num: nat, den: nat): (p: int)
    ensures den == 0 ==> p == 0
    ensures den > 0 ==> p as real - 0.5 <= num as real / den as real * 100.0 < p as real + 0.5
    ensures den > 0 && num <= den ==> 0 <= p <= 100
    ensures den > 0 && num == den ==> p == 100
    ensures num == 0 ==> p == 0
  {
    if den > 0 then
      var x := num as real / den as real * 100.0;
      assert num <= den ==> x <= 100.0 && (num == den ==> x == 100.0) by {
        if num <= den {
          ShareAtMostOne(num, den);
        }
      }
      Round(x)
    else 0
  }

  /** A count no larger than a positive total is at most the whole of it,
      and all of it when equal. */
  lemma ShareAtMostOne(c: int, m: int)
    requires 0 <= c <= m && m >= 1
    ensures c as real / m as real <= 1.0
    ensures c == m ==> c as real / m as real == 1.0
  {
    var q := c as real / m as real;
    var d := (m - c) as real / m as real;
    assert d >= 0.0;
    assert q + d == m as real / m as real;
    assert m as real / m as real == 1.0;
  }

  datatype Rates = Rates(detection: int, coverage: int, response: int)

  /** Detection (new alerts per watchlist item), coverage (active items)
      and response (alerts no longer new), each 0 on an empty
      denominator; `None` where the counts throw on an envelope. */
  function RatesOf(items: Option<seq<WatchItem>>, alerts: Option<Reply<Row<CredAlert>>>): (r: Option<Rates>)
    ensures r.None? <==> alerts.Some? && alerts.value.Envelope?
    ensures r.Some? ==> 0 <= r.value.coverage <= 100 && 0 <= r.value.response <= 100 && r.value.detection >= 0
    ensures r.Some? && |items.GetOr([])| == 0 ==> r.value.detection == 0 && r.value.coverage == 0
    ensures r.Some? && |ArrayOf(alerts).value| == 0 ==> r.value.response == 0 && r.value.detection == 0
    ensures r.Some? ==>
      var ws := items.GetOr([]);
      var as_ := ArrayOf(alerts).value;
      var newCount := |Seqs.Filter(as_, IsNew)|;
      r.value.detection == Percent(newCount, |ws|) &&
      r.value.coverage == Percent(|Seqs.Filter(ws, IsActive)|, |ws|) &&
      r.value.response == Percent(|as_| - newCount, |as_|)
  {
    match OverviewOf(items, alerts)
    case None => None
    case Some(o) => Some(RatesFrom(o))
  }

  /** The three tiles from the overview's counts. */
  function RatesFrom(o: Overview): (r: Rates)
    requires o.activeItems <= o.totalItems && o.newAlerts <= o.totalAlerts
    ensures 0 <= r.coverage <= 100 && 0 <= r.response <= 100 && r.detection >= 0
    ensures o.totalItems == 0 ==> r.detection == 0 && r.coverage == 0
    ensures o.totalAlerts == 0 ==> r.response == 0 && r.detection == 0
    ensures r.detection == Percent(o.newAlerts, o.totalItems) && r.coverage == Percent(o.activeItems, o.totalItems)
    ensures r.response == Percent(o.totalAlerts - o.newAlerts, o.totalAlerts)
  {
    Rates(Percent(o.newAlerts, o.totalItems), Percent(o.activeItems, o.totalItems),
          Percent(o.totalAlerts - o.newAlerts, o.totalAlerts))
  }

  /** Detection compares new alerts with watchlist items, not with alerts,
      so it is not a share: one item with two new alerts reads 200%. */
  lemma DetectionCanExceedHundred(w: WatchItem, a: Row<CredAlert>, b: Row<CredAlert>)
    requires a.status == New && b.status == New
    ensures RatesOf(Some([w]), Some(Items([a, b]))).value.detection == 200
  {
    var o := OverviewOf(Some([w]), Some(Items([a, b]))).value;
    assert Seqs.Filter([a, b], IsNew) == [a, b] by {
      Seqs.FilterKeepsAll([a, b], IsNew);
    }
    assert o.newAlerts == 2;
  }

  /** The response tile and the share of new alerts, both rounded, add up to
      100 or, when the new share ends in exactly one half, to 101. */
  lemma ResponseAndNewShare(total: nat, newCount: nat)
    requires 0 < total && newCount <= total
    ensures var s := Percent(total - newCount, total) + Percent(newCount, total); s == 100 || s == 101
  {
    var t := total as real;
    var n := newCount as real;
    assert (t - n) / t == t / t - n / t;
    assert t / t == 1.0;
    assert (total - newCount) as real == t - n;
  }

  /** One new alert out of eight: 87.5% and 12.5% round to 88 and 13. */
  lemma ResponseAndNewShareReach101()
    ensures Percent(7, 8) + Percent(1, 8) == 101
  {
    assert 7.0 / 8.0 * 100.0 == 87.5;
    assert 1.0 / 8.0 * 100.0 == 12.5;
  }
}

=== FILE: world_map.dfy ===
/** The country list of the overview page (src/components/WorldMap.tsx): the
    name-to-code table, the code map built from the data, and the red
    intensity of each listed country. */
module WorldMap {
  import opened Wrappers
  import Text
  import Seqs
  import JsObject
  import WatchlistStats

  /** How many countries the list shows. */
  const ListedRows: nat := 10

  /** The twenty names `getCountryCode` knows, with their codes. */
  function MappedCode(name: string): (c: Option<string>)
    ensures c.Some? ==> |c.value| == 2 && 'A' <= c.value[0] <= 'Z' && 'A' <= c.value[1] <= 'Z'
  {
    match name
    case "United States" => Some("US")
    case "Germany" => Some("DE")
    case "Russia" => Some("RU")
    case "Brazil" => Some("BR")
    case "China" => Some("CN")
    case "India" => Some("IN")
    case "United Kingdom" => Some("GB")
    case "France" => Some("FR")
    case "Italy" => Some("IT")
    case "Spain" => Some("ES")
    case "Canada" => Some("CA")
    case "Australia" => Some("AU")
    case "Japan" => Some("JP")
    case "South Korea" => Some("KR")
    case "Mexico" => Some("MX")
    case "Netherlands" => Some("NL")
    case "Poland" => Some("PL")
    case "Turkey" => Some("TR")
    case "Ukraine" => Some("UA")
    case "Romania" => Some("RO")
    case _ => None
  }

  /** `getCountryCode`: the table's code for a known name, otherwise the
      name's first two characters upper-cased. */
  function CountryCode(name: string): (c: string)
    ensures |c| <= 2
    ensures MappedCode(name).Some? ==> c == MappedCode(name).value
    ensures MappedCode(name).None? ==> c == Text.ToUpper(Text.Prefix(name, 2))
  {
    match MappedCode(name)
    case Some(code) => code
    case None => Text.ToUpper(Text.Prefix(name, 2))
  }

  /** A few of the table's entries. */
  lemma KnownCodes()
    ensures CountryCode("United States") == "US" && CountryCode("Germany") == "DE"
    ensures CountryCode("United Kingdom") == "GB"
  {
  }

  /** An unlisted name is cut to its first two letters, so one that starts
      with "Us" collides with the United States. */
  lemma UnlistedNamesCollide(name: string)
    requires MappedCode(name).None?
    requires |name| >= 2 && name[0] == 'U' && (name[1] == 's' || name[1] == 'S')
    ensures CountryCode(name) == CountryCode("United States") == "US"
  {
    assert Text.Prefix(name, 2) == name[..2];
  }

  /** Upper-casing makes an unlisted name's code case-blind. */
  lemma UnlistedCodeIgnoresCase(a: string, b: string)
    requires MappedCode(a).None? && MappedCode(b).None?
    requires Text.ToUpper(a) == Text.ToUpper(b)
    ensures CountryCode(a) == CountryCode(b)
  {
    var pa := Text.Prefix(a, 2);
    var pb := Text.Prefix(b, 2);
    assert |a| == |b| by {
      assert |Text.ToUpper(a)| == |a| && |Text.ToUpper(b)| == |b|;
    }
    forall k | 0 <= k < |pa| ensures Text.UpperChar(pa[k]) == Text.UpperChar(pb[k]) {
      assert Text.ToUpper(a)[k] == Text.ToUpper(b)[k];
    }
  }

  /** A country row of the data. */
  datatype Row = Row(country: string, count: int)

  /** `countryMap`: the `reduce` that stores each row's count under its code,
      a later row overwriting an earlier one with the same code. */
  function CountryMap(data: seq<Row>): (m: JsObject.Entries)
    ensures JsObject.WellFormed(m)
    ensures |m| <= |data|
    decreases |data|
  {
    if |data| == 0 then []
    else
      var last := data[|data| - 1];
      var prev := CountryMap(data[..|data| - 1]);
      var m := JsObject.Set(prev, CountryCode(last.country), JsObject.Num(last.count));
      assert |Seqs.Keys(m)| <= |Seqs.Keys(prev)| + 1;
      m
  }

  /** The count of the last row whose country has code `code`, or `None`. */
  function LastCountFor(data: seq<Row>, code: string): (r: Option<int>)
    ensures r.Some? ==> exists i :: 0 <= i < |data| && CountryCode(data[i].country) == code && data[i].count == r.value
    ensures r.None? ==> forall i :: 0 <= i < |data| ==> CountryCode(data[i].country) != code
    decreases |data|
  {
    if |data| == 0 then None
    else if CountryCode(data[|data| - 1].country) == code then Some(data[|data| - 1].count)
    else
      var r := LastCountFor(data[..|data| - 1], code);
      assert forall i :: 0 <= i < |data| - 1 ==> data[..|data| - 1][i] == data[i];
      r
  }

  /** Looking a code up in the map gives the count of the last row with that
      code: earlier rows with the same code are overwritten. */
  lemma {:induction false} CountryMapLastWins(data: seq<Row>, code: string)
    ensures JsObject.Get(CountryMap(data), code) ==
      (var c := LastCountFor(data, code); if c.Some? then Some(JsObject.Num(c.value)) else None)
    decreases |data|
  {
    if |data| > 0 {
      CountryMapLastWins(data[..|data| - 1], code);
    }
  }

  /** `Math.max(...data.map(d => d.count), 1)`. */
  function MaxCount(data: seq<Row>): (m: int)
    ensures m >= 1
    ensures forall i :: 0 <= i < |data| ==> data[i].count <= m
    ensures m == 1 || exists i :: 0 <= i < |data| && data[i].count == m
  {
    var counts := Seqs.Map(data, (d: Row) => d.count);
    var m := Seqs.MaxOr(counts, 1);
    assert forall i :: 0 <= i < |data| ==> counts[i] == data[i].count;
    m
  }

  /** `getIntensity`: the count's share of the largest, capped at 1. */
  function Intensity(count: int, maxCount: int): (x: real)
    requires maxCount >= 1
    ensures x <= 1.0
    ensures count >= 0 ==> x >= 0.0
  {
    var share := count as real / maxCount as real;
    if share < 1.0 then share else 1.0
  }

  /** The background opacity of a country's row: the fixed red
      `rgb(239, 68, 68)` at `intensity * 0.3`, so the busiest country is
      drawn at 30% and a country with no credentials is transparent. */
  function RowAlpha(intensity: real): (a: real)
    requires 0.0 <= intensity <= 1.0
    ensures 0.0 <= a <= 0.3
    ensures intensity == 1.0 <==> a == 0.3
    ensures intensity == 0.0 <==> a == 0.0
  {
    intensity * 0.3
  }

  /** More credentials never give a paler row. */
  lemma RowAlphaMonotone(a: int, b: int, maxCount: int)
    requires maxCount >= 1 && 0 <= a <= b
    ensures RowAlpha(Intensity(a, maxCount)) <= RowAlpha(Intensity(b, maxCount))
  {
    var m := maxCount as real;
    assert a as real / m <= b as real / m;
  }

  /** The red channel of `getColor`: `Math.round(255 * intensity)`. The
      component defines `getColor` but draws its rows with `RowAlpha`
      instead, so this colour is never shown. */
  function Red(intensity: real): (r: int)
    requires 0.0 <= intensity <= 1.0
    ensures 0 <= r <= 255
  {
    WatchlistStats.Round(255.0 * intensity)
  }

  /** Because the scale is the largest count, the cap never bites for a row of
      the data: its intensity is its plain share, and the largest row is at
      full intensity. */
  lemma IntensityUncapped(data: seq<Row>, i: nat)
    requires i < |data| && data[i].count >= 0
    ensures Intensity(data[i].count, MaxCount(data)) == data[i].count as real / MaxCount(data) as real
    ensures data[i].count == MaxCount(data) ==> Intensity(data[i].count, MaxCount(data)) == 1.0
  {
    WatchlistStats.ShareAtMostOne(data[i].count, MaxCount(data));
  }

  /** `data.slice(0, 10)`: the listed countries, in the data's order. */
  function Listed(data: seq<Row>): (r: seq<Row>)
    ensures |r| <= ListedRows && r <= data
    ensures |data| >= ListedRows ==> |r| == ListedRows
  {
    Seqs.Take(data, ListedRows)
  }
}

=== FILE: wrappers.dfy ===
/** Optional values: the model's stand-in for Python's None and JavaScript's
    null/undefined. */
module Wrappers {

  datatype Option<+T> = None | Some(value: T) {

    /** The value, or `default` when absent. */
    function GetOr(default: T): T {
      match this
      case Some(v) => v
      case None => default
    }
  }

  /** JavaScript/Python truthiness of an optional string: absent and empty are
      both falsy. */
  predicate Truthy(s: Option<string>) {
    s.Some? && s.value != ""
  }

  /** `a || b` on optional strings: the first truthy operand, else `b`. */
  function OrElse(a: Option<string>, b: Option<string>): (r: Option<string>)
    ensures Truthy(a) ==> r == a
    ensures !Truthy(a) ==> r == b
  {
    if Truthy(a) then a else b
  }

  /** What a page's query holds once an API call has resolved: the parsed
      JSON body exactly as it came. The pages read it as an array, but the
      backend's list endpoints send a `{results, pagination}` object. */
  datatype Reply<T> = Items(items: seq<T>) | Envelope(results: seq<T>)

  /** The array a page reads from a query's data through `data || []`,
      `[...(data || [])]` or `data?.filter(...)`. It is empty before the
      query has loaded and the array itself once it has. It is `None` for an
      envelope: an object is not iterable and has no array methods, so the
      page throws a TypeError. */
  function ArrayOf<T>(data: Option<Reply<T>>): (r: Option<seq<T>>)
    ensures r.None? <==> data.Some? && data.value.Envelope?
    ensures data.None? ==> r == Some([])
    ensures data.Some? && data.value.Items? ==> r == Some(data.value.items)
  {
    match data
    case None => Some([])
    case Some(Items(s)) => Some(s)
    case Some(Envelope(_)) => None
  }

  /** `data?.length || 0`: an envelope has no `length`, so it reads as 0
      without throwing. */
  function LengthOrZero<T>(data: Option<Reply<T>>): (n: nat)
    ensures ArrayOf(data).Some? ==> n == |ArrayOf(data).value|
    ensures ArrayOf(data).None? ==> n == 0
  {
    match data
    case Some(Items(s)) => |s|
    case _ => 0
  }
}
